=== FILE: README.md ===
# java-data-structures in Dafny

This is a model of the teaching library's core:

- the AVL tree, the binary search tree and the four binary-tree traversals;
- tree sort, merge sort, bubble, selection, insertion, shell, counting and bucket sort;
- binary, ordered-linear and unordered-linear search;
- the array heap and the union-find forest;
- the singly linked list, both stacks and both queues;
- three recursion exercises: `isArraySorted`, the Tower of Hanoi and binary strings.

Every Java class becomes one Dafny module, in one file, with three exceptions. `AvlTreeNode` has four modules. `AvlTree` holds the operations. `AvlBalance` holds the balance proof. `AvlScenarios` holds the small insertion scenarios. `AvlFifteen` holds the runs of fifteen ascending and fifteen descending insertions. `BinaryTreeNode` has two modules. `BinaryTree` holds the tree and its recursive orders. `Traversals` holds the loop-driven traversals. `Heap` has two modules. `HeapOrder` holds heap order and the two repair walks on the array contents. `Heap` holds the class's operations.

- **Mutable objects and in-place arrays.** These become immutable values. An array or list is a `seq<int>`. A linked structure is a datatype. An operation takes the old state and returns the new one, alongside the Java return value.
- **Exceptions.** An exception the source throws becomes `Err(...)` of a `Result`. The cases are an index outside an array, a null dereference, a negative array size, `IllegalStateException` and `IllegalArgumentException`.
- **Nulls.** A `null` argument the source checks for becomes `Option.None`.
- **Loops.** Loops stay loops where the source's loop is the algorithm, with the invariants that carry the proof. Recursions stay recursions.

Each operation is paired with a reference definition, an inverse or an invariant. A lemma connects the two:

- sorts are proved to produce the sorted permutation;
- searches are proved to return the first or any hit, and -1 exactly on a miss;
- the traversals are proved equal to recursive pre-, in-, post- and level-order;
- stacks and queues are proved LIFO and FIFO round trips;
- heap operations are proved to keep heap order and the live multiset;
- `union` is proved to merge exactly two classes.

Java `int` values are modelled as unbounded integers, except where wrap-around changes the behaviour. Those places are `max + 1` in counting sort, the child indices `2 * index + 1` and `2 * index + 2` of the heap's `LeftChild`, `RightChild` and `percolateDown`, and `right - left` and `left + (right - left) / 2` in binary search, whose `/` truncates toward zero. Constants are the source's: default capacities of 16, a minimum stack capacity of 1, 10 buckets, and `Integer.MIN_VALUE` written into a dequeued slot.

## Model

| member | source | states |
|---|---|---|
| AvlTree.Leaf | src/main/java/tree/avl/AvlTreeNode.java:8-11 | A new node is a leaf of height 1 holding just its key, and is a valid AVL tree |
| AvlTree.BstInOrderIncreasing | src/main/java/tree/avl/AvlTreeNode.java:80-92 | A search tree's in-order reading is strictly increasing and lists exactly its keys |
| AvlTree.RotateRight | src/main/java/tree/avl/AvlTreeNode.java:61-68 | `singleRotateRight` throws exactly when the node or its left child is missing; otherwise it keeps the in-order sequence, the keys and search order, and leaves exact heights |
| AvlTree.RotateLeft | src/main/java/tree/avl/AvlTreeNode.java:52-59 | The mirror image: it throws exactly when the right child is missing, and keeps the order, the keys and exact heights |
| AvlTree.DoubleRotateWithLeft | src/main/java/tree/avl/AvlTreeNode.java:70-73 | The double rotation as written keeps the key set and search order whenever it does not throw |
| AvlTree.DoubleRotateWithRight | src/main/java/tree/avl/AvlTreeNode.java:75-78 | The same for the right-hand double rotation as written |
| AvlTree.Rebalance | src/main/java/tree/avl/AvlTreeNode.java:94-122 | The balance step of `insert`, with the four cases in the source's order, keeps the keys, search order and exact heights |
| AvlTree.Insert | src/main/java/tree/avl/AvlTreeNode.java:80-123 | `insert` returns a tree with search order, exact heights and exactly the old keys plus the new one whenever it does not throw |
| AvlTree.InsertAll | src/main/java/tree/avl/AvlTreeNode.java:80-123 | Inserting a sequence of keys keeps search order and heights, and the keys grow by the sequence's elements |
| AvlBalance.InsertDuplicateUnchanged | src/main/java/tree/avl/AvlTreeNode.java:89-92 | Inserting a key already present in an AVL tree returns the tree unchanged |
| AvlBalance.InsertCorrectedKeepsAvl | src/main/java/tree/avl/AvlTreeNode.java:100-120 | With the double rotations turned the intended way, `insert` never throws on an AVL tree and returns an AVL tree with the old keys plus the new one, at most one level taller |
| AvlBalance.InsertAllCorrectedKeepsAvl | src/main/java/tree/avl/AvlTreeNode.java:80-123 | With the intended rotations, any insertion sequence keeps the tree AVL and never throws |
| AvlBalance.InsertAboveAllAgrees | src/main/java/tree/avl/AvlTreeNode.java:107-120 | A key above every key in the tree never reaches a double-rotation case, so the source's `insert` equals the corrected one on it |
| AvlBalance.InsertBelowAllAgrees | src/main/java/tree/avl/AvlTreeNode.java:102-120 | The mirror image for a key below every key |
| AvlBalance.InsertAscendingStaysAvl | src/main/java/tree/avl/AvlTreeNode.java:107-110 | Strictly ascending insertions into an AVL tree only ever single-rotate; the source's tree stays AVL and never throws |
| AvlBalance.InsertDescendingStaysAvl | src/main/java/tree/avl/AvlTreeNode.java:102-105 | The same for strictly descending insertions |
| AvlScenarios.LeftLeftScenario | src/test/java/tree/avl/AvlTreeNodeTest.java:207-234 | Inserting three descending keys rotates right, leaving the middle key over the other two at height 2 |
| AvlScenarios.RightRightScenario | src/test/java/tree/avl/AvlTreeNodeTest.java:236-266 | Inserting three ascending keys rotates left, leaving the same tree |
| AvlScenarios.LeftRightThrows | src/main/java/tree/avl/AvlTreeNode.java:112-115 | Inserting c, a, b with a < b < c reaches `doubleRotateWithLeft`, which dereferences a missing child and throws `NullPointerException` |
| AvlScenarios.RightLeftThrows | src/main/java/tree/avl/AvlTreeNode.java:117-120 | Inserting a, c, b throws in `doubleRotateWithRight` the same way |
| AvlScenarios.LeftRightCorrected | src/main/java/tree/avl/AvlTreeNode.java:112-115 | With the intended rotation, c, a, b gives b over a and c |
| AvlScenarios.RightLeftCorrected | src/main/java/tree/avl/AvlTreeNode.java:117-120 | With the intended rotation, a, c, b gives b over a and c |
| AvlScenarios.LeftRightUnbalances | src/main/java/tree/avl/AvlTreeNode.java:70-73 | One level deeper, the source's Left-Right rotation does not throw: it returns a tree of height 6 that is not balanced, from an AVL tree of height 3 |
| AvlFifteen.AscendingRun | src/test/java/tree/avl/AvlTreeNodeTest.java:302-310 | Inserting any fifteen strictly increasing keys one by one into an empty tree with the source's `insert` gives the perfect tree of height 4 with `s[7]` at the root, `s[3]` and `s[11]` below it, then `s[1]`, `s[5]`, `s[9]`, `s[13]`, and the even-indexed keys as leaves in order |
| AvlFifteen.FifteenAscending | src/test/java/tree/avl/AvlTreeNodeTest.java:302-320 | After fifteen ascending insertions into an empty tree, which covers 1 to 15, the tree holds exactly those keys, is AVL and has height 4 |
| AvlFifteen.DescendingRun | src/test/java/tree/avl/AvlTreeNodeTest.java:322-330 | Inserting any fifteen strictly decreasing keys gives the perfect tree of height 4 with `s[7]` at the root, `s[11]` and `s[3]` below it, then `s[13]`, `s[9]`, `s[5]`, `s[1]`, and the even-indexed keys as leaves, from `s[14]` on the left to `s[0]` on the right |
| AvlFifteen.FifteenDescending | src/test/java/tree/avl/AvlTreeNodeTest.java:322-340 | After fifteen descending insertions into an empty tree, which covers 15 down to 1, the tree holds exactly those keys, is AVL and has height 4 |
| SearchTree.Find | src/main/java/tree/bst/BinarySearchTreeNode.java:36-45 | `find` returns a subtree rooted at `x` or null; on a search tree it finds `x` exactly when `x` is a key |
| SearchTree.FindNonRecur | src/main/java/tree/bst/BinarySearchTreeNode.java:47-58 | The loop version returns the same node as `find` |
| SearchTree.FindMin | src/main/java/tree/bst/BinarySearchTreeNode.java:60-68 | `findMin` is null for an empty tree; otherwise the leftmost node, holding the least key of a search tree |
| SearchTree.FindMax | src/main/java/tree/bst/BinarySearchTreeNode.java:70-78 | `findMax` is null for an empty tree; otherwise the rightmost node, holding the greatest key |
| SearchTree.Insert | src/main/java/tree/bst/BinarySearchTreeNode.java:80-90 | `insert` adds exactly the new key, keeps search order and the root, and adds at most one node |
| SearchTree.InsertPresentUnchanged | src/main/java/tree/bst/BinarySearchTreeNode.java:84-89 | Inserting a key already present returns the same tree |
| SearchTree.InsertNewAddsOne | src/main/java/tree/bst/BinarySearchTreeNode.java:80-90 | Inserting a new key adds exactly one node holding it |
| SearchTree.Delete | src/main/java/tree/bst/BinarySearchTreeNode.java:92-113 | `delete` keeps search order and removes exactly the key; an absent key leaves the tree as it was |
| SearchTree.SuccessorPromoted | src/main/java/tree/bst/BinarySearchTreeNode.java:107-110 | Deleting a node with two children leaves the node in place, holding the least key of its right subtree, which leaves that subtree |
| SearchTree.DeleteEveryKeyEmpties | src/main/java/tree/bst/BinarySearchTreeNode.java:92-113 | Deleting every key of a search tree, in any order, leaves the empty tree |
| BinaryTree.PreOrderIsPermutation | src/main/java/tree/BinaryTreeNode.java:41-59 | Pre-order lists every value of the tree once per occurrence |
| BinaryTree.InOrderIsPermutation | src/main/java/tree/BinaryTreeNode.java:61-78 | In-order lists every value once per occurrence |
| BinaryTree.PostOrderIsPermutation | src/main/java/tree/BinaryTreeNode.java:80-102 | Post-order lists every value once per occurrence |
| BinaryTree.LevelOrder | src/main/java/tree/BinaryTreeNode.java:104-122 | The row-by-row order lists every value once per occurrence |
| Traversals.PreOrderTraversal | src/main/java/tree/BinaryTreeNode.java:41-59 | The stack walk that pushes the right child before the left emits exactly the recursive pre-order |
| Traversals.InOrderTraversal | src/main/java/tree/BinaryTreeNode.java:61-78 | The left-spine stack walk emits exactly the recursive in-order |
| Traversals.PostRound | src/main/java/tree/BinaryTreeNode.java:87-100 | One round of the post-order loop keeps the `lastVisited` invariant and the emitted-plus-owed equation, and lowers the termination measure |
| Traversals.PostOrderTraversal | src/main/java/tree/BinaryTreeNode.java:80-102 | The `lastVisited` stack walk emits exactly the recursive post-order |
| Traversals.BfsIsLevelOrder | src/main/java/tree/BinaryTreeNode.java:109-120 | Running the queue loop on a row of trees emits the row-by-row order |
| Traversals.LevelOrderTraversal | src/main/java/tree/BinaryTreeNode.java:104-122 | The queue walk emits exactly the row-by-row level order |
| TreeSort.InsertWithDuplicates | src/main/java/sorting/TreeSort.java:54-69 | Insertion adds exactly one copy of the value to the tree's bag, and keeps search order over distinct values |
| TreeSort.InOrderWithDuplicatesSorted | src/main/java/sorting/TreeSort.java:74-85 | Reading an ordered counting tree emits its bag in nondecreasing order |
| TreeSort.BuildCountTree | src/main/java/sorting/TreeSort.java:21-25 | The insertion loop builds an ordered tree whose bag is the array's multiset |
| TreeSort.TreeSortInts | src/main/java/sorting/TreeSort.java:15-35 | `treeSort(int[])` leaves a null or short array alone, and otherwise sorts it keeping every duplicate |
| TreeSort.InsertEach | src/main/java/sorting/TreeSort.java:137-151 | Generic insertion keeps search order and gathers exactly the inserted elements as keys |
| TreeSort.TreeSortGeneric | src/main/java/sorting/TreeSort.java:101-120 | The generic `treeSort` leaves a null or short list alone, and otherwise replaces it by its distinct elements in strictly increasing order |
| MergeSort.MergeSpecPermutation | src/main/java/sorting/MergeSort.java:28-49 | The merge holds exactly the elements of both runs |
| MergeSort.MergeSpecSorted | src/main/java/sorting/MergeSort.java:32-38 | Merging two sorted runs gives a sorted run |
| MergeSort.MergeFronts | src/main/java/sorting/MergeSort.java:29-38 | The first loop writes the merge of the consumed parts of both runs into the front of `arr` and leaves every later slot as it was; it throws only when `arr` is shorter than both runs together |
| MergeSort.CopyRest | src/main/java/sorting/MergeSort.java:40-48 | The two copy loops finish the merge in the front of `arr` without touching the slots after it; they throw only when `arr` is shorter than both runs together |
| MergeSort.Merge | src/main/java/sorting/MergeSort.java:28-49 | `merge(arr, left, right)` throws `ArrayIndexOutOfBoundsException` exactly when `arr` is shorter than both runs together. Otherwise the first `|left| + |right|` slots of `arr` hold the reference merge, with both runs' elements and sorted when they are, and the slots after them keep their old values |
| MergeSort.Sort | src/main/java/sorting/MergeSort.java:4-26 | `sort` returns the sorted permutation of its input and leaves arrays shorter than two alone |
| BubbleSort.PassSwap | src/main/java/sorting/BubbleSort.java:8-14 | Swapping an out-of-order neighbour pair moves the largest value so far one step right and keeps the settled tail |
| BubbleSort.Pass | src/main/java/sorting/BubbleSort.java:6-15 | One pass carries the largest unsettled value to the end of the unsettled part; a pass without a swap changes nothing and saw only ordered pairs |
| BubbleSort.Sort | src/main/java/sorting/BubbleSort.java:4-21 | `bubbleSort` returns the sorted permutation, and a sorted input comes back unchanged after the early exit |
| SelectionSort.MinIndex | src/main/java/sorting/SelectionSort.java:8-13 | The inner loop finds the first position of the least remaining element |
| SelectionSort.Sort | src/main/java/sorting/SelectionSort.java:4-18 | `selectionSort` returns the sorted permutation |
| InsertionSort.SiftDown | src/main/java/sorting/ShellSort.java:9-15 | One insertion step at gap `h` keeps the multiset, extends gap order by one position and touches nothing later |
| InsertionSort.GapInsertionPass | src/main/java/sorting/ShellSort.java:8-16 | A gap pass leaves every pair at distance `h` in order, with the same elements |
| InsertionSort.Sort | src/main/java/sorting/InsertionSort.java:4-16 | Insertion sort with the bounds test first returns the sorted permutation |
| InsertionSort.ShiftAsWritten | src/main/java/sorting/InsertionSort.java:10-13 | The shift loop as written moves larger elements up and stops at a smaller-or-equal one or at position 0 |
| InsertionSort.SiftDownAsWritten | src/main/java/sorting/InsertionSort.java:8-14 | One step as written throws exactly when the key is smaller than the first element; otherwise it inserts the key in order |
| InsertionSort.SortAsWritten | src/main/java/sorting/InsertionSort.java:4-16 | `insertionSort` as written throws `ArrayIndexOutOfBoundsException` exactly when some element is smaller than the first one, and otherwise sorts |
| ShellSort.InitialGap | src/main/java/sorting/ShellSort.java:6 | The first loop picks the first gap of 1, 4, 13, 40, ... that is above `n / 9`, with the one before it at most `n / 9` |
| ShellSort.Sort | src/main/java/sorting/ShellSort.java:4-18 | `shellSort` returns the sorted permutation |
| CountingSort.MaxOf | src/main/java/sorting/CountingSort.java:7-12 | The first loop finds the maximum element |
| CountingSort.Tally | src/main/java/sorting/CountingSort.java:14-18 | The tally throws exactly when some element lies outside the counters; otherwise each counter holds the number of occurrences of its index |
| CountingSort.CountsDetermineMultiset | src/main/java/sorting/CountingSort.java:20-26 | Counters that agree with an array expand to a permutation of that array |
| CountingSort.ExpandSorted | src/main/java/sorting/CountingSort.java:20-26 | The expansion of any counters is sorted and stays within the counters' indices |
| CountingSort.Emit | src/main/java/sorting/CountingSort.java:20-26 | The emitting loops write each index as many times as its counter says, in increasing order |
| CountingSort.Sort | src/main/java/sorting/CountingSort.java:4-27 | `countingSort` leaves an empty array alone; it sorts, keeping every element, exactly when all elements are non-negative and below `Integer.MAX_VALUE`; a maximum of `Integer.MAX_VALUE` or below -1 throws `NegativeArraySizeException`, any other failure is an index error |
| BucketSort.Sort | src/main/java/sorting/BucketSort.java:4-21 | `sort` sorts, keeping every element, exactly when every element lies in 0..9; otherwise it throws an index error |
| UnorderedLinearSearch.Search | src/main/java/searching/UnorderedLinearSearch.java:6-13 | The scan returns the first index holding the target, and -1 exactly when the target does not occur |
| OrderedLinearSearch.Search | src/main/java/searching/OrderedLinearSearch.java:6-16 | The scan returns a hit with only smaller elements before it, or -1 after stopping at an element above the target; on a sorted array it is the first index, -1 exactly on a miss |
| BinarySearch.Mid | src/main/java/searching/BinarySearch.java:45 | `left + (right - left) / 2` on `int`s is the midpoint of a range no wider than `Integer.MAX_VALUE`; when `right - left` overflows it is negative, at least `2^30` and two past `right`, or `Integer.MAX_VALUE` for the one range `[Integer.MIN_VALUE, Integer.MAX_VALUE - 1]` |
| BinarySearch.SearchRange | src/main/java/searching/BinarySearch.java:40-54 | The range search returns -1 or an index of the array holding the target, inside the range unless `right - left` overflows, and never reads outside the array for a range inside it. A range wider than `Integer.MAX_VALUE` over an array of at most `2^30` entries throws |
| BinarySearch.SearchRangeStep | src/main/java/searching/BinarySearch.java:41-53 | On a range inside the array nothing wraps: an empty range gives -1, otherwise the search probes the midpoint and returns it or goes on in one half |
| BinarySearch.OverflowingRangeThrows | src/main/java/searching/BinarySearch.java:45-47 | The range `[Integer.MIN_VALUE + 10, Integer.MAX_VALUE]` over five entries probes a negative index and throws |
| BinarySearch.SearchRangeComplete | src/main/java/searching/BinarySearch.java:40-54 | On a sorted array, the range search returns -1 exactly when no index in the range holds the target |
| BinarySearch.SearchRecursive | src/main/java/searching/BinarySearch.java:56-61 | The two-argument search rejects null with `IllegalArgumentException`; otherwise it returns an index of the target, or -1, which on a sorted array means a miss |
| BinarySearch.Search | src/main/java/searching/BinarySearch.java:8-37 | The loop version returns -1 on null and otherwise returns what the recursive search returns |
| Heap.New | src/main/java/heap/Heap.java:10-15 | The constructor builds an empty heap over a zeroed array, and throws on a negative capacity |
| Heap.ParentOf | src/main/java/heap/Heap.java:17-22 | `parent` is -1 outside the live non-root indices; otherwise it is `array[(index - 1) / 2]`, a live entry above the child in heap order |
| Heap.LeftChildOf | src/main/java/heap/Heap.java:24-30 | `LeftChild` computes `2 * index + 1` in 32 bits. It throws exactly for indices from `-2^30` to -1 and from `2^30` up, whose left index is negative. For `0 <= index < 2^30` it is -1 past the live part and otherwise `array[2 * index + 1]`, a live entry below its parent. Lower indices wrap to `2 * index + 1 + 2^32` |
| Heap.RightChildOf | src/main/java/heap/Heap.java:32-38 | `RightChild` is the same with `2 * index + 2`. It throws exactly for indices from `-2^30 - 1` to -2 and from `2^30 - 1` to `Integer.MAX_VALUE - 1`. Index -1 and `Integer.MAX_VALUE` both read the root. For `0 <= index < 2^30 - 1` it is -1 past the live part and otherwise `array[2 * index + 2]`, a live entry below its parent. Lower indices wrap to `2 * index + 2 + 2^32` |
| Heap.GetMax | src/main/java/heap/Heap.java:40-49 | `getMax` is -1 on a min-heap or an empty heap; otherwise the greatest live entry |
| Heap.GetMin | src/main/java/heap/Heap.java:51-59 | `getMin` is -1 on a max-heap or an empty heap; otherwise the least live entry |
| Heap.SwapEntries | src/main/java/heap/Heap.java:88-95 | `swap` throws unless both indices are live, and otherwise exchanges exactly those two entries |
| HeapOrder.SiftUpRestores | src/main/java/heap/Heap.java:97-115 | Percolating up from the only exception to heap order restores it |
| HeapOrder.SiftDownRestores | src/main/java/heap/Heap.java:61-86 | Percolating down from the only node whose children may be out of order restores heap order below it |
| Heap.PercolateUp | src/main/java/heap/Heap.java:97-115 | `percolateUp` rearranges only live entries, ignores the root and non-live indices, and restores heap order from a single exception |
| Heap.PercolateDown | src/main/java/heap/Heap.java:61-86 | `percolateDown` throws exactly when a comparison reads a negative index after the 32-bit child computations. That is every `i` from `-2^30 - 1` to -1, every `i` from `2^30 - 1` on, where the right index wraps to `Integer.MIN_VALUE`, and a lower `i` whose wrapped left index is live. A lower `i` otherwise leaves the heap alone. A normal return rearranges only live entries, and restores heap order from the root's single exception |
| Heap.PercolateDownWrapped | src/main/java/heap/Heap.java:61-80 | From an index outside `[0, 2^30 - 1)` the walk throws unless both wrapped child indices lie past the live part, and then it changes nothing |
| Heap.DeleteMax | src/main/java/heap/Heap.java:117-130 | `deleteMax` is -1 and a no-op on a min-heap or an empty heap; otherwise it removes one copy of the greatest entry and keeps heap order |
| Heap.DeleteMin | src/main/java/heap/Heap.java:132-145 | `deleteMin` is -1 and a no-op on a max-heap or an empty heap; otherwise it removes one copy of the least entry and keeps heap order |
| Heap.DeleteMinTwiceNondecreasing | src/main/java/heap/Heap.java:132-145 | Two `deleteMin` calls in a row return nondecreasing values |
| Heap.ResizeHeap | src/main/java/heap/Heap.java:157-165 | `resizeHeap` doubles the capacity and keeps the live entries in place |
| Heap.Insert | src/main/java/heap/Heap.java:147-155 | `insert` doubles a full heap, adds the value to the live multiset, keeps heap order and returns the value; a capacity-0 heap stays at 0 and the store throws |
| Heap.BuildMinHeap | src/main/java/heap/Heap.java:175-186 | `buildMinHeap` ignores null or empty input; otherwise it adopts the input and percolates down to heap order over the same elements |
| Heap.HeapSort | src/main/java/heap/Heap.java:188-200 | `heapSort` keeps the live multiset, the tail and `count`; on a heap it leaves the live entries ordered from the bottom of the heap order up, ascending for a max-heap |
| DisjointSet.MakeSet | src/main/java/sets/disjoint/DisjointSet.java:7-13 | `makeSet(n)` gives `n` singleton sets, and throws for a negative `n` |
| DisjointSet.CompressKeeps | src/main/java/sets/disjoint/DisjointSet.java:19 | Path compression keeps acyclicity, every element's root, every root's size and the class invariant |
| DisjointSet.FindFrom | src/main/java/sets/disjoint/DisjointSet.java:15-22 | The recursive walk returns the root and points every non-root on the path straight at it, touching nothing else |
| DisjointSet.Find | src/main/java/sets/disjoint/DisjointSet.java:15-22 | `find` throws outside the array; otherwise it returns the root of `x`'s set and changes no element's root and no set's size |
| DisjointSet.AttachMembers | src/main/java/sets/disjoint/DisjointSet.java:30-36 | Hanging one root under another merges their two disjoint sets and leaves every other set alone |
| DisjointSet.Union | src/main/java/sets/disjoint/DisjointSet.java:24-38 | `union` throws for an index outside the array; otherwise the root of the strictly larger set, `rootY` on a tie, gains the other set and the summed size, and every other element keeps its root |
| DisjointSet.UnionJoins | src/main/java/sets/disjoint/DisjointSet.java:24-38 | After `union(x, y)` two elements share a set exactly when they did before or one was with `x` and the other with `y` |
| DisjointSet.UnionCountsRoots | src/main/java/sets/disjoint/DisjointSet.java:28-37 | `union` within one set changes no root; across two sets it leaves exactly one root fewer |
| SimplyLinkedList.New | src/main/java/linkedlist/simplylinked/SimplyLinkedList.java:7-10 | The constructor gives the empty list |
| SimplyLinkedList.InsertAtBeginning | src/main/java/linkedlist/simplylinked/SimplyLinkedList.java:16-25 | `insertAtBeginning` puts the value in front and increments the length |
| SimplyLinkedList.InsertData | src/main/java/linkedlist/simplylinked/SimplyLinkedList.java:27-44 | `insertData` throws exactly for a position outside `[0, length]`; otherwise the value ends at that index and the others keep their order |
| SimplyLinkedList.InsertAtEnd | src/main/java/linkedlist/simplylinked/SimplyLinkedList.java:46-58 | `insertAtEnd` appends the value |
| SimplyLinkedList.RemoveFromBeginning | src/main/java/linkedlist/simplylinked/SimplyLinkedList.java:60-68 | `removeFromBeginning` is null on an empty list; otherwise it returns the old head and leaves the tail |
| SimplyLinkedList.RemoveFromEnd | src/main/java/linkedlist/simplylinked/SimplyLinkedList.java:70-88 | `removeFromEnd` is null on an empty list; otherwise it returns the unlinked last node and leaves the others |
| SimplyLinkedList.Remove | src/main/java/linkedlist/simplylinked/SimplyLinkedList.java:90-105 | `remove` throws exactly for a position outside `[0, length)`; otherwise exactly the value at that position goes |
| SimplyLinkedList.InsertThenRemove | src/main/java/linkedlist/simplylinked/SimplyLinkedList.java:27-105 | Removing at the position just inserted at restores the list |
| SimplyLinkedList.InsertDataAtEnds | src/main/java/linkedlist/simplylinked/SimplyLinkedList.java:16-58 | Inserting at position 0 is `insertAtBeginning`, and at position `length` it is `insertAtEnd` |
| SimplyLinkedList.InsertAtEndThenRemoveFromEnd | src/main/java/linkedlist/simplylinked/SimplyLinkedList.java:46-88 | `removeFromEnd` right after `insertAtEnd` returns the new node and restores the list |
| LinkedListStack.New | src/main/java/stack/LinkedListStack.java:9-12 | The constructor gives a stack holding no values |
| LinkedListStack.IsEmpty | src/main/java/stack/LinkedListStack.java:31-33 | `isEmpty` holds exactly when the stack holds no values |
| LinkedListStack.Size | src/main/java/stack/LinkedListStack.java:35-37 | `size` is the number of values on the stack |
| LinkedListStack.Push | src/main/java/stack/LinkedListStack.java:14-19 | `push` puts the value on top |
| LinkedListStack.Pop | src/main/java/stack/LinkedListStack.java:21-29 | `pop` throws exactly on an empty stack; otherwise it returns the top and leaves the rest |
| LinkedListStack.Peek | src/main/java/stack/LinkedListStack.java:39-44 | `peek` throws exactly on an empty stack; otherwise it returns the top |
| LinkedListStack.PushThenPop | src/main/java/stack/LinkedListStack.java:14-29 | `pop` after `push(v)` returns `v` and restores the stack |
| LinkedListStack.PopThenPush | src/main/java/stack/LinkedListStack.java:14-29 | Pushing back what `pop` returned restores the stack |
| DynamicArrayStack.New | src/main/java/stack/DynamicArrayStack.java:12-22 | The constructor rejects a capacity below 1 with `IllegalArgumentException`, and otherwise gives an empty stack |
| DynamicArrayStack.NewDefault | src/main/java/stack/DynamicArrayStack.java:12-14 | The default constructor gives an empty stack of capacity 16 |
| DynamicArrayStack.Size | src/main/java/stack/DynamicArrayStack.java:24-26 | `size` is the number of values on the stack, at most the capacity |
| DynamicArrayStack.IsEmpty | src/main/java/stack/DynamicArrayStack.java:28-30 | `isEmpty` holds exactly when the stack holds no values |
| DynamicArrayStack.Resize | src/main/java/stack/DynamicArrayStack.java:39-45 | `resize` doubles the capacity and keeps the values |
| DynamicArrayStack.Shrink | src/main/java/stack/DynamicArrayStack.java:47-56 | `shrink` halves the capacity, never below 1, and keeps the values |
| DynamicArrayStack.Push | src/main/java/stack/DynamicArrayStack.java:32-37 | `push` puts the value on top, doubling the capacity exactly when the stack was full |
| DynamicArrayStack.Peek | src/main/java/stack/DynamicArrayStack.java:59-64 | `peek` throws exactly on an empty stack; otherwise it returns the top |
| DynamicArrayStack.Pop | src/main/java/stack/DynamicArrayStack.java:66-76 | `pop` throws exactly on an empty stack; otherwise it returns the top and halves the capacity exactly when under a quarter is left in use |
| DynamicArrayStack.PushThenPop | src/main/java/stack/DynamicArrayStack.java:32-76 | `pop` after `push(v)` returns `v` and the earlier values, across resizing |
| Queue.New | src/main/java/queue/Queue.java:13-18 | The constructor gives an empty queue of the given capacity, and throws on a negative one |
| Queue.NewDefault | src/main/java/queue/Queue.java:9-11 | The default constructor has capacity 16 |
| Queue.Enqueue | src/main/java/queue/Queue.java:20-27 | `enqueue` throws exactly on a full queue; otherwise the value joins the back, across wrap-around |
| Queue.Dequeue | src/main/java/queue/Queue.java:29-38 | `dequeue` throws exactly on an empty queue; otherwise it returns the oldest value and overwrites its slot with `Integer.MIN_VALUE` |
| Queue.Peek | src/main/java/queue/Queue.java:40-45 | `peek` throws exactly on an empty queue; otherwise it returns the oldest value |
| Queue.IsFull | src/main/java/queue/Queue.java:51-53 | `isFull` holds exactly when every slot holds a value |
| Queue.IsEmpty | src/main/java/queue/Queue.java:47-49 | `isEmpty` holds exactly when the queue holds no values |
| Queue.Size | src/main/java/queue/Queue.java:55-57 | `size` is the number of values in the queue |
| Queue.EnqueueThenDequeue | src/main/java/queue/Queue.java:20-38 | First in, first out across wrap-around |
| QueueLinkedList.New | src/main/java/queue/QueueLinkedList.java:9-13 | The constructor gives a queue holding no values |
| QueueLinkedList.IsEmpty | src/main/java/queue/QueueLinkedList.java:50-52 | `isEmpty` holds exactly when the queue holds no values |
| QueueLinkedList.Size | src/main/java/queue/QueueLinkedList.java:54-56 | `size` is the number of values in the queue |
| QueueLinkedList.Enqueue | src/main/java/queue/QueueLinkedList.java:15-24 | `enqueue` adds the value at the back and makes it the rear |
| QueueLinkedList.Dequeue | src/main/java/queue/QueueLinkedList.java:26-37 | `dequeue` throws exactly on an empty queue; otherwise it returns the oldest value and resets the rear when the queue empties |
| QueueLinkedList.First | src/main/java/queue/QueueLinkedList.java:39-44 | `first` throws exactly on an empty queue; otherwise it returns the oldest value |
| QueueLinkedList.Peek | src/main/java/queue/QueueLinkedList.java:39-48 | `peek` delegates to `first`: it throws `IllegalStateException` exactly on an empty queue; otherwise it returns the oldest value |
| QueueLinkedList.EnqueueThenDequeue | src/main/java/queue/QueueLinkedList.java:15-37 | First in, first out |
| QueueLinkedList.DrainThenEnqueue | src/main/java/queue/QueueLinkedList.java:32-34 | After the last value is dequeued, enqueuing again behaves as on a new queue: no stale rear survives |
| IsArraySorted.IsArraySorted | src/main/java/recursion/IsArraySorted.java:4-10 | `isArraySorted(a, index)` is true exactly when the first `index` elements are in order; a length-1 array is sorted; index 1 or a length-1 array gives true before anything is read; otherwise an index outside `[2, length]` reads outside the array and throws |
| IsArraySorted.OnlyPrefixRead | src/main/java/recursion/IsArraySorted.java:4-10 | Only the first `index` elements are read |
| TowerOfHanoi.Solve | src/main/java/recursion/TowerOfHanoi.java:13-21 | The solution has 2^n - 1 moves, with disk `n` moved in the middle from source to destination |
| TowerOfHanoi.SolveMovesTower | src/main/java/recursion/TowerOfHanoi.java:13-21 | From any position with the `n` smallest disks on top of the source, every move is legal and exactly those disks end on the destination |
| TowerOfHanoi.SolveSolves | src/test/java/TowerOfHanoiTest.java:104-153 | From all disks on the source, every move is legal and all disks end on the destination in order, with the other pegs empty |
| BinaryStrings.New | src/main/java/recursion/BinaryStrings.java:5-7 | The constructor makes `n` zeros, and throws for a negative `n` |
| BinaryStrings.Bin | src/main/java/recursion/BinaryStrings.java:9-18 | `bin(n)` prints 2^n arrays, the k-th holding the bits of `k` in its first `n` slots and the rest untouched, and leaves ones in the first `n` slots |
| BinaryStrings.BinDistinct | src/main/java/recursion/BinaryStrings.java:9-18 | The printed arrays are pairwise distinct |
| BinaryStrings.BinComplete | src/main/java/recursion/BinaryStrings.java:9-18 | Every array of 0s and 1s in the first `n` slots that agrees above them is printed, at the index its bits spell |

## Left out

- The JMH benchmark classes, `BogoSort` and the console `main` methods. They are harness and demonstration code. `BogoSort` relies on random shuffling.
- `Heap.destroyHeap` and `SimplyLinkedList.getHead`. The first nulls the heap. The second is a plain accessor of the head that the model exposes as a field.
- `TreeSort.inOrderTraversal` over `BinarySearchTreeNode`. Nothing in the class calls it. Its behaviour is the search tree's in-order reading, `BinaryTree.InOrder`.
- Null arrays for the sorts, for `isArraySorted` and for the linear searches. All of these would throw `NullPointerException` on first use. The model takes a `seq`. Where the source itself tests for null (tree sort, binary search, `buildMinHeap`), the model takes an `Option`.
- 32-bit overflow of capacities and counters: `capacity * 2` in `resizeHeap`, `capacity << 1` in `DynamicArrayStack.resize`, and list lengths. Values are unbounded integers. The overflows of `max + 1` in counting sort, of the heap's child indices and of binary search's midpoint are modelled.
- Heaps with at least `2^30` live entries. After its first step, a `percolateDown` walk in such a heap can reach node `2^30 - 1` or beyond. There the source's child index wraps to a negative one and the walk throws, but the model's `SiftDown` goes on with unbounded indices. `deleteMin`, `deleteMax`, `buildMinHeap` and `heapSort` walk the same way.
- `OutOfMemoryError`, and the partial updates a Java method makes before it throws. A thrown exception is modelled as the whole result.
- Each heap operation requires the class invariant. Each `DisjointSet` operation requires its invariant too: links are acyclic, and each root holds minus its set's size. `find` on a cyclic array would recurse without end, and a call before `makeSet` throws `NullPointerException`.
- The successor link of the node that `removeFromBeginning` returns stays as in the source: it is the old head with its tail. The node that `removeFromEnd` returns links to nothing.
- Rendering output: the `Move disk n from A to C` lines and `Arrays.toString`. Both become data.
- The `parent` argument of `AvlTreeNode.insert` is unused by the source and is not modelled.
- The generic `treeSort` is modelled at `Integer`, where `compareTo` is integer comparison.
- Post-order traversal compares nodes by identity (`lastVisited`). The model names each node by its path from the root, because two nodes with equal values are different nodes.
- TowerOfHanoi.Solve: requires `n >= 1`. For `n <= 0` the source never reaches its base case and recurses until the stack overflows.
- BinaryStrings.Bin: requires `n` to be at most the array's length. A larger `n` makes the source write outside the array and throw, which is not modelled.
- DisjointSet.MakeSet: does not keep the public `size` field that `makeSet` sets to `n`. After a successful call it always equals the length of the returned sequence, and no operation changes it.
- CountingSort.Sort: requires every element to be a 32-bit `int`, because the overflow of `max + 1` depends on it.

## Findings

| source | as written | input that shows it | evidently intended | confidence | as-written member | corrected member |
|---|---|---|---|---|---|---|
| src/main/java/tree/avl/AvlTreeNode.java:70-78 | `doubleRotateWithLeft` rotates the left child right and then the node left; `doubleRotateWithRight` does the mirror image. Both are reached from the Left-Right and Right-Left cases at lines 113-120 | inserting 30, 10, 20 into an empty tree throws `NullPointerException`; inserting 35 into the AVL tree 40(20(10, 30), 50) leaves an unbalanced tree of height 6 | rotate the left child left, then the node right (and the mirror image), which keeps the tree AVL | high (proved; not executed) | AvlScenarios.LeftRightThrows | AvlBalance.InsertCorrectedKeepsAvl |
| src/main/java/sorting/InsertionSort.java:10 | the loop test `arr[j - 1] > key && j >= 1` reads `arr[j - 1]` before checking `j >= 1` | `[2, 1]`: the key 1 shifts to position 0, the test then reads `arr[-1]` and throws `ArrayIndexOutOfBoundsException` | test `j >= 1` first, which sorts every array | high (proved; not executed) | InsertionSort.SortAsWritten | InsertionSort.Sort |

=== FILE: avl_balance.dfy ===
/** The balance half of `tree.avl.AvlTreeNode`: with the intended double
    rotations `insert` keeps a tree AVL, and on ascending or descending key
    sequences the source's rotations are never reached. */
module AvlBalance {
  import opened Common
  import opened AvlTree

  /** After an insertion made a subtree taller, the side the new key went to
      is exactly one taller than the other side. */
  ghost predicate GrewToward(t: Tree, x: int) {
    && t.Node? && x != t.key
    && (x < t.key ==> Height(t.left) == Height(t) - 1 && Height(t.right) == Height(t) - 2)
    && (x > t.key ==> Height(t.right) == Height(t) - 1 && Height(t.left) == Height(t) - 2)
  }

  /** Inserting an already present key into an AVL tree changes nothing,
      whichever double rotations are used. */
  lemma {:induction false} InsertDuplicateUnchanged(t: Tree, x: int, v: Variant)
    requires Avl(t) && x in Keys(t)
    ensures InsertBy(t, x, v) == Ok(t)
  {
    if x < t.key {
      assert Avl(t.left) && x in Keys(t.left);
      InsertDuplicateUnchanged(t.left, x, v);
      UnchangedChildUnchanged(t, x, v);
    } else if x > t.key {
      assert Avl(t.right) && x in Keys(t.right);
      InsertDuplicateUnchanged(t.right, x, v);
      UnchangedChildUnchanged(t, x, v);
    }
  }

  /** When the insertion leaves the child it descends into unchanged, a
      balanced node with exact height is returned as it was. */
  lemma UnchangedChildUnchanged(t: Tree, x: int, v: Variant)
    requires t.Node? && x != t.key && HeightsOk(t) && -1 <= Height(t.left) - Height(t.right) <= 1
    requires x < t.key ==> InsertBy(t.left, x, v) == Ok(t.left)
    requires x > t.key ==> InsertBy(t.right, x, v) == Ok(t.right)
    ensures InsertBy(t, x, v) == Ok(t)
  {
    var n := Node(t.left, t.key, t.right, 1 + Max(Height(t.left), Height(t.right)));
    assert n == t;
    assert InsertBy(t, x, v) == Rebalance(n, x, v);
  }

  /** The left-heavy half of the balance proof: the node `Node(l', k, r, _)`
      built after inserting `x` into `l` is brought back into AVL shape by
      the corrected rebalancing. */
  lemma RebalanceAfterLeftInsert(l: Tree, k: int, r: Tree, h: int, l': Tree, x: int)
    requires Avl(Node(l, k, r, h)) && x < k && x !in Keys(l)
    requires Avl(l') && Keys(l') == Keys(l) + {x}
    requires Height(l) <= Height(l') <= Height(l) + 1
    requires Height(l') == Height(l) + 1 && l.Node? ==> GrewToward(l', x)
    ensures var n := Node(l', k, r, 1 + Max(Height(l'), Height(r)));
      var res := Rebalance(n, x, Corrected);
      && res.Ok? && Avl(res.value) && Keys(res.value) == Keys(l) + {k, x} + Keys(r)
      && h <= Height(res.value) <= h + 1
      && (Height(res.value) == h + 1 ==> GrewToward(res.value, x))
  {
    HeightNonNegative(l);
    HeightNonNegative(r);
    HeightNonNegative(l');
    var n := Node(l', k, r, 1 + Max(Height(l'), Height(r)));
    assert Bst(n);
    if Height(l') - Height(r) > 1 {
      assert Height(l') == Height(r) + 2 && l.Node?;
      assert GrewToward(l', x);
      if x < l'.key {
        LeftLeftCase(l', k, r, x);
      } else {
        LeftRightCase(l', k, r, x);
      }
    } else {
      assert Rebalance(n, x, Corrected) == Ok(n);
    }
  }

  /** Left-Left: a single right rotation restores the height the node had
      before the insertion. */
  lemma LeftLeftCase(l': Tree, k: int, r: Tree, x: int)
    requires Avl(l') && Avl(r) && GrewToward(l', x) && x < l'.key
    requires Height(l') == Height(r) + 2 && Height(r) >= 0
    requires Bst(Node(l', k, r, Height(l') + 1))
    ensures var res := Rebalance(Node(l', k, r, Height(l') + 1), x, Corrected);
      res.Ok? && Avl(res.value) && Keys(res.value) == Keys(l') + {k} + Keys(r)
      && Height(res.value) == Height(r) + 2
  {
    var n := Node(l', k, r, Height(l') + 1);
    assert Rebalance(n, x, Corrected) == RotateRight(n);
  }

  /** Left-Right: rotating the left child left and then the node right
      restores the height the node had before the insertion. */
  lemma LeftRightCase(l': Tree, k: int, r: Tree, x: int)
    requires Avl(l') && Avl(r) && GrewToward(l', x) && x > l'.key
    requires Height(l') == Height(r) + 2 && Height(r) >= 0
    requires Bst(Node(l', k, r, Height(l') + 1))
    ensures var res := Rebalance(Node(l', k, r, Height(l') + 1), x, Corrected);
      res.Ok? && Avl(res.value) && Keys(res.value) == Keys(l') + {k} + Keys(r)
      && Height(res.value) == Height(r) + 2
  {
    var n := Node(l', k, r, Height(l') + 1);
    assert Rebalance(n, x, Corrected) == RotateLeftRight(n);
    LeftRightShape(l', k, r, n.height);
  }

  /** The shape half of the Left-Right case: heights and balance, with
      search order left to the rotations' own contracts. */
  lemma LeftRightShape(l': Tree, k: int, r: Tree, h: int)
    requires l'.Node? && HeightsOk(l') && Balanced(l') && HeightsOk(r) && Balanced(r)
    requires Height(l'.right) == Height(l') - 1 && Height(l'.left) == Height(l') - 2
    requires Height(l') == Height(r) + 2 && Height(r) >= 0
    ensures var res := RotateLeftRight(Node(l', k, r, h));
      res.Ok? && HeightsOk(res.value) && Balanced(res.value) && Height(res.value) == Height(r) + 2
  {
    var a, c0 := l'.left, l'.right;
    var b, m, c := c0.left, c0.key, c0.right;
    HeightNonNegative(b);
    HeightNonNegative(c);
    var z1 := Node(a, l'.key, b, 1 + Max(Height(a), Height(b)));
    var y1 := Node(z1, m, c, 1 + Max(Height(z1), Height(c)));
    var z2 := Node(c, k, r, 1 + Max(Height(c), Height(r)));
    assert RotateLeft(l') == Ok(y1);
    assert RotateRight(Node(y1, k, r, h)) == Ok(Node(z1, m, z2, 1 + Max(Height(z1), Height(z2))));
    assert Height(z1) == Height(r) + 1 == Height(z2);
  }

  /** The mirror image of `RebalanceAfterLeftInsert`. */
  lemma RebalanceAfterRightInsert(l: Tree, k: int, r: Tree, h: int, r': Tree, x: int)
    requires Avl(Node(l, k, r, h)) && x > k && x !in Keys(r)
    requires Avl(r') && Keys(r') == Keys(r) + {x}
    requires Height(r) <= Height(r') <= Height(r) + 1
    requires Height(r') == Height(r) + 1 && r.Node? ==> GrewToward(r', x)
    ensures var n := Node(l, k, r', 1 + Max(Height(l), Height(r')));
      var res := Rebalance(n, x, Corrected);
      && res.Ok? && Avl(res.value) && Keys(res.value) == Keys(l) + {k, x} + Keys(r)
      && h <= Height(res.value) <= h + 1
      && (Height(res.value) == h + 1 ==> GrewToward(res.value, x))
  {
    HeightNonNegative(l);
    HeightNonNegative(r);
    HeightNonNegative(r');
    var n := Node(l, k, r', 1 + Max(Height(l), Height(r')));
    assert Bst(n);
    if Height(l) - Height(r') < -1 {
      assert Height(r') == Height(l) + 2 && r.Node?;
      assert GrewToward(r', x);
      if x > r'.key {
        RightRightCase(l, k, r', x);
      } else {
        RightLeftCase(l, k, r', x);
      }
    } else {
      assert Rebalance(n, x, Corrected) == Ok(n);
    }
  }

  /** Right-Right: the mirror image of `LeftLeftCase`. */
  lemma RightRightCase(l: Tree, k: int, r': Tree, x: int)
    requires Avl(l) && Avl(r') && GrewToward(r', x) && x > r'.key
    requires Height(r') == Height(l) + 2 && Height(l) >= 0
    requires Bst(Node(l, k, r', Height(r') + 1))
    ensures var res := Rebalance(Node(l, k, r', Height(r') + 1), x, Corrected);
      res.Ok? && Avl(res.value) && Keys(res.value) == Keys(l) + {k} + Keys(r')
      && Height(res.value) == Height(l) + 2
  {
    var n := Node(l, k, r', Height(r') + 1);
    assert Rebalance(n, x, Corrected) == RotateLeft(n);
  }

  /** Right-Left: the mirror image of `LeftRightCase`. */
  lemma RightLeftCase(l: Tree, k: int, r': Tree, x: int)
    requires Avl(l) && Avl(r') && GrewToward(r', x) && x < r'.key
    requires Height(r') == Height(l) + 2 && Height(l) >= 0
    requires Bst(Node(l, k, r', Height(r') + 1))
    ensures var res := Rebalance(Node(l, k, r', Height(r') + 1), x, Corrected);
      res.Ok? && Avl(res.value) && Keys(res.value) == Keys(l) + {k} + Keys(r')
      && Height(res.value) == Height(l) + 2
  {
    var n := Node(l, k, r', Height(r') + 1);
    assert Rebalance(n, x, Corrected) == RotateRightLeft(n);
    RightLeftShape(l, k, r', n.height);
  }

  /** The shape half of the Right-Left case. */
  lemma RightLeftShape(l: Tree, k: int, r': Tree, h: int)
    requires r'.Node? && HeightsOk(l) && Balanced(l) && HeightsOk(r') && Balanced(r')
    requires Height(r'.left) == Height(r') - 1 && Height(r'.right) == Height(r') - 2
    requires Height(r') == Height(l) + 2 && Height(l) >= 0
    ensures var res := RotateRightLeft(Node(l, k, r', h));
      res.Ok? && HeightsOk(res.value) && Balanced(res.value) && Height(res.value) == Height(l) + 2
  {
    var a, c0 := r'.right, r'.left;
    var b, m, c := c0.right, c0.key, c0.left;
    HeightNonNegative(b);
    HeightNonNegative(c);
    var z1 := Node(b, r'.key, a, 1 + Max(Height(b), Height(a)));
    var y1 := Node(c, m, z1, 1 + Max(Height(c), Height(z1)));
    var z2 := Node(l, k, c, 1 + Max(Height(l), Height(c)));
    assert RotateRight(r') == Ok(y1);
    assert RotateLeft(Node(l, k, y1, h)) == Ok(Node(z2, m, z1, 1 + Max(Height(z2), Height(z1))));
    assert Height(z1) == Height(l) + 1 == Height(z2);
  }

  /** With the intended double rotations, `insert` never throws on an AVL
      tree and gives back an AVL tree holding the old keys plus `x`, at most
      one level taller. */
  lemma {:induction false} InsertCorrectedKeepsAvl(t: Tree, x: int)
    requires Avl(t)
    ensures InsertCorrected(t, x).Ok?
    ensures var t' := InsertCorrected(t, x).value;
      && Avl(t') && Keys(t') == Keys(t) + {x}
      && Height(t) <= Height(t') <= Height(t) + 1
      && (Height(t') == Height(t) + 1 && t.Node? ==> GrewToward(t', x))
  {
    match t
    case Nil =>
    case Node(l, k, r, h) =>
      if x in Keys(t) {
        InsertDuplicateUnchanged(t, x, Corrected);
      } else if x < k {
        InsertCorrectedKeepsAvl(l, x);
        var l' := InsertCorrected(l, x).value;
        RebalanceAfterLeftInsert(l, k, r, h, l', x);
        assert InsertCorrected(t, x) == Rebalance(Node(l', k, r, 1 + Max(Height(l'), Height(r))), x, Corrected);
      } else {
        InsertCorrectedKeepsAvl(r, x);
        var r' := InsertCorrected(r, x).value;
        RebalanceAfterRightInsert(l, k, r, h, r', x);
        assert InsertCorrected(t, x) == Rebalance(Node(l, k, r', 1 + Max(Height(l), Height(r'))), x, Corrected);
      }
  }

  /** The two variants of the rebalancing step differ only in the
      double-rotation cases. A node that is not left-heavy by two and whose
      right subtree holds no key above `x` never reaches one. */
  lemma RebalanceAgreesFromRight(n: Tree, x: int)
    requires n.Node? && Height(n.left) - Height(n.right) <= 1
    requires forall kk :: kk in Keys(n.right) ==> kk <= x
    ensures Rebalance(n, x, AsWritten) == Rebalance(n, x, Corrected)
  {
    if n.right.Node? {
      assert n.right.key in Keys(n.right);
    }
  }

  /** The mirror image of `RebalanceAgreesFromRight`. */
  lemma RebalanceAgreesFromLeft(n: Tree, x: int)
    requires n.Node? && Height(n.left) - Height(n.right) >= -1
    requires forall kk :: kk in Keys(n.left) ==> x <= kk
    ensures Rebalance(n, x, AsWritten) == Rebalance(n, x, Corrected)
  {
    if n.left.Node? {
      assert n.left.key in Keys(n.left);
    }
  }

  /** A key above every key in the tree never reaches a double-rotation
      case, so the source's `insert` and the corrected one agree on it. */
  lemma {:induction false} InsertAboveAllAgrees(t: Tree, x: int)
    requires Avl(t)
    requires forall kk :: kk in Keys(t) ==> kk < x
    ensures Insert(t, x) == InsertCorrected(t, x)
  {
    if t.Node? {
      assert t.key in Keys(t) && Avl(t.right);
      InsertAboveAllAgrees(t.right, x);
      InsertCorrectedKeepsAvl(t.right, x);
      var r' := InsertCorrected(t.right, x).value;
      DescendRight(t, x, AsWritten, r');
      DescendRight(t, x, Corrected, r');
      RebalanceAgreesFromRight(Node(t.left, t.key, r', 1 + Max(Height(t.left), Height(r'))), x);
    }
  }

  /** A key below every key in the tree: the mirror image. Together the two
      cover every ascending and every descending insertion sequence. */
  lemma {:induction false} InsertBelowAllAgrees(t: Tree, x: int)
    requires Avl(t)
    requires forall kk :: kk in Keys(t) ==> x < kk
    ensures Insert(t, x) == InsertCorrected(t, x)
  {
    if t.Node? {
      assert t.key in Keys(t) && Avl(t.left);
      InsertBelowAllAgrees(t.left, x);
      InsertCorrectedKeepsAvl(t.left, x);
      var l' := InsertCorrected(t.left, x).value;
      DescendLeft(t, x, AsWritten, l');
      DescendLeft(t, x, Corrected, l');
      RebalanceAgreesFromLeft(Node(l', t.key, t.right, 1 + Max(Height(l'), Height(t.right))), x);
    }
  }

  /** One step of `insert` into the left subtree: the node rebuilt over the
      new left child, rebalanced. */
  lemma DescendLeft(t: Tree, x: int, v: Variant, l': Tree)
    requires t.Node? && x < t.key && InsertBy(t.left, x, v) == Ok(l')
    ensures InsertBy(t, x, v) == Rebalance(Node(l', t.key, t.right, 1 + Max(Height(l'), Height(t.right))), x, v)
  {
  }

  /** One step of `insert` into the right subtree. */
  lemma DescendRight(t: Tree, x: int, v: Variant, r': Tree)
    requires t.Node? && x > t.key && InsertBy(t.right, x, v) == Ok(r')
    ensures InsertBy(t, x, v) == Rebalance(Node(t.left, t.key, r', 1 + Max(Height(t.left), Height(r'))), x, v)
  {
  }

  /** Inserting any sequence into an AVL tree with the corrected rotations
      keeps it AVL and never throws. */
  lemma {:induction false} InsertAllCorrectedKeepsAvl(t: Tree, s: seq<int>)
    requires Avl(t)
    ensures InsertAll(t, s, Corrected).Ok? && Avl(InsertAll(t, s, Corrected).value)
    decreases |s|
  {
    if |s| > 0 {
      InsertCorrectedKeepsAvl(t, s[0]);
      InsertAllCorrectedKeepsAvl(InsertCorrected(t, s[0]).value, s[1..]);
    }
  }

  /** Keys inserted in strictly ascending order, each above every key
      already present: the source's `insert` behaves like the corrected one,
      so it never throws and the tree stays balanced. */
  lemma {:induction false} InsertAscendingStaysAvl(t: Tree, s: seq<int>)
    requires Avl(t) && StrictlyIncreasing(s)
    requires forall k, i :: k in Keys(t) && 0 <= i < |s| ==> k < s[i]
    ensures InsertAll(t, s, AsWritten) == InsertAll(t, s, Corrected)
    ensures InsertAll(t, s, AsWritten).Ok? && Avl(InsertAll(t, s, AsWritten).value)
    decreases |s|
  {
    if |s| > 0 {
      if |s| > 1 {
        assert s[0] < s[1];
      }
      InsertAboveAllAgrees(t, s[0]);
      InsertCorrectedKeepsAvl(t, s[0]);
      var t' := InsertCorrected(t, s[0]).value;
      forall k, i | k in Keys(t') && 0 <= i < |s[1..]| ensures k < s[1..][i] {
        assert s[1..][i] == s[i + 1];
      }
      InsertAscendingStaysAvl(t', s[1..]);
    } else {
      InsertAllCorrectedKeepsAvl(t, s);
    }
  }

  /** The descending mirror of `InsertAscendingStaysAvl`. */
  lemma {:induction false} InsertDescendingStaysAvl(t: Tree, s: seq<int>)
    requires Avl(t)
    requires forall i, j :: 0 <= i < j < |s| ==> s[i] > s[j]
    requires forall k, i :: k in Keys(t) && 0 <= i < |s| ==> s[i] < k
    ensures InsertAll(t, s, AsWritten) == InsertAll(t, s, Corrected)
    ensures InsertAll(t, s, AsWritten).Ok? && Avl(InsertAll(t, s, AsWritten).value)
    decreases |s|
  {
    if |s| > 0 {
      InsertBelowAllAgrees(t, s[0]);
      InsertCorrectedKeepsAvl(t, s[0]);
      var t' := InsertCorrected(t, s[0]).value;
      forall k, i | k in Keys(t') && 0 <= i < |s[1..]| ensures s[1..][i] < k {
        assert s[1..][i] == s[i + 1];
      }
      InsertDescendingStaysAvl(t', s[1..]);
    } else {
      InsertAllCorrectedKeepsAvl(t, s);
    }
  }
}

=== FILE: avl_fifteen.dfy ===
/** Fifteen insertions in a row into an empty `tree.avl.AvlTreeNode` tree,
    in ascending and in descending key order. Every step is a single
    rotation at most, so the source's `insert` never reaches its double
    rotations and ends with the perfect tree of height 4. Stated for any
    fifteen keys in order, which covers the keys 1 to 15. */
module AvlFifteen {
  import opened Common
  import opened AvlTree
  import opened AvlBalance

  predicate StrictlyDecreasing(s: seq<int>) {
    forall i, j :: 0 <= i < j < |s| ==> s[i] > s[j]
  }

  /** One insertion of a run: inserting `s[i..]` into `t` is inserting
      `s[i + 1..]` into the tree that `s[i]` alone gives. */
  lemma InsertAllStep(t: Tree, s: seq<int>, i: nat, v: Variant, t': Tree)
    requires i < |s| && InsertBy(t, s[i], v) == Ok(t')
    ensures InsertAll(t, s[i..], v) == InsertAll(t', s[i + 1..], v)
  {
    assert s[i..][0] == s[i] && s[i..][1..] == s[i + 1..];
  }

  /** Keys inserted in increasing order: the result holds all fifteen keys,
      is AVL, and has height 4, the least height fifteen keys allow. */
  lemma FifteenAscending(s: seq<int>)
    requires |s| == 15 && StrictlyIncreasing(s)
    ensures InsertAll(Nil, s, AsWritten).Ok?
    ensures var t := InsertAll(Nil, s, AsWritten).value;
      Avl(t) && Height(t) == 4 && Keys(t) == set x | x in s
  {
    AscendingRun(s);
    InsertAscendingStaysAvl(Nil, s);
  }

  /** The fifteen steps of `FifteenAscending` in a row. */
  lemma AscendingRun(s: seq<int>)
    requires |s| == 15 && StrictlyIncreasing(s)
    ensures InsertAll(Nil, s, AsWritten) == Ok(Node(Node(Node(Leaf(s[0]), s[1], Leaf(s[2]), 2), s[3], Node(Leaf(s[4]), s[5], Leaf(s[6]), 2), 3), s[7], Node(Node(Leaf(s[8]), s[9], Leaf(s[10]), 2), s[11], Node(Leaf(s[12]), s[13], Leaf(s[14]), 2), 3), 4))
  {
    AscendingStep1(s);
    AscendingStep2(s);
    AscendingStep3(s);
    AscendingStep4(s);
    AscendingStep5(s);
    AscendingStep6(s);
    AscendingStep7(s);
    AscendingStep8(s);
    AscendingStep9(s);
    AscendingStep10(s);
    AscendingStep11(s);
    AscendingStep12(s);
    AscendingStep13(s);
    AscendingStep14(s);
    AscendingStep15(s);
    assert s[0..] == s && s[15..] == [];
  }

  /** Step 1: `s[0]` becomes the root of the empty tree. */
  lemma AscendingStep1(s: seq<int>)
    requires |s| == 15 && StrictlyIncreasing(s)
    ensures InsertBy(Nil, s[0], AsWritten) == Ok(Leaf(s[0]))
    ensures InsertAll(Nil, s[0..], AsWritten) == InsertAll(Leaf(s[0]), s[1..], AsWritten)
  {
    assert InsertBy(Nil, s[0], AsWritten) == Ok(Leaf(s[0]));
    InsertAllStep(Nil, s, 0, AsWritten, Leaf(s[0]));
  }

  /** Step 2: `s[1]` goes to the bottom of the right spine and no rotation is needed. */
  lemma AscendingStep2(s: seq<int>)
    requires |s| == 15 && StrictlyIncreasing(s)
    ensures InsertBy(Leaf(s[0]), s[1], AsWritten) == Ok(Node(Nil, s[0], Leaf(s[1]), 2))
    ensures InsertAll(Leaf(s[0]), s[1..], AsWritten) == InsertAll(Node(Nil, s[0], Leaf(s[1]), 2), s[2..], AsWritten)
  {
    assert InsertBy(Nil, s[1], AsWritten) == Ok(Leaf(s[1]));
    DescendRight(Leaf(s[0]), s[1], AsWritten, Leaf(s[1]));
    assert Rebalance(Node(Nil, s[0], Leaf(s[1]), 2), s[1], AsWritten) == Ok(Node(Nil, s[0], Leaf(s[1]), 2));
    InsertAllStep(Leaf(s[0]), s, 1, AsWritten, Node(Nil, s[0], Leaf(s[1]), 2));
  }

  /** Step 3: `s[2]` goes to the bottom of the right spine and the node holding `s[0]` is rotated left. */
  lemma AscendingStep3(s: seq<int>)
    requires |s| == 15 && StrictlyIncreasing(s)
    ensures InsertBy(Node(Nil, s[0], Leaf(s[1]), 2), s[2], AsWritten) == Ok(Node(Leaf(s[0]), s[1], Leaf(s[2]), 2))
    ensures InsertAll(Node(Nil, s[0], Leaf(s[1]), 2), s[2..], AsWritten) == InsertAll(Node(Leaf(s[0]), s[1], Leaf(s[2]), 2), s[3..], AsWritten)
  {
    assert InsertBy(Nil, s[2], AsWritten) == Ok(Leaf(s[2]));
    DescendRight(Leaf(s[1]), s[2], AsWritten, Leaf(s[2]));
    assert Rebalance(Node(Nil, s[1], Leaf(s[2]), 2), s[2], AsWritten) == Ok(Node(Nil, s[1], Leaf(s[2]), 2));
    DescendRight(Node(Nil, s[0], Leaf(s[1]), 2), s[2], AsWritten, Node(Nil, s[1], Leaf(s[2]), 2));
    assert RotateLeft(Node(Nil, s[0], Node(Nil, s[1], Leaf(s[2]), 2), 3)) == Ok(Node(Leaf(s[0]), s[1], Leaf(s[2]), 2));
    assert Rebalance(Node(Nil, s[0], Node(Nil, s[1], Leaf(s[2]), 2), 3), s[2], AsWritten) == Ok(Node(Leaf(s[0]), s[1], Leaf(s[2]), 2));
    InsertAllStep(Node(Nil, s[0], Leaf(s[1]), 2), s, 2, AsWritten, Node(Leaf(s[0]), s[1], Leaf(s[2]), 2));
  }

  /** Step 4: `s[3]` goes to the bottom of the right spine and no rotation is needed. */
  lemma AscendingStep4(s: seq<int>)
    requires |s| == 15 && StrictlyIncreasing(s)
    ensures InsertBy(Node(Leaf(s[0]), s[1], Leaf(s[2]), 2), s[3], AsWritten) == Ok(Node(Leaf(s[0]), s[1], Node(Nil, s[2], Leaf(s[3]), 2), 3))
    ensures InsertAll(Node(Leaf(s[0]), s[1], Leaf(s[2]), 2), s[3..], AsWritten) == InsertAll(Node(Leaf(s[0]), s[1], Node(Nil, s[2], Leaf(s[3]), 2), 3), s[4..], AsWritten)
  {
    assert InsertBy(Nil, s[3], AsWritten) == Ok(Leaf(s[3]));
    DescendRight(Leaf(s[2]), s[3], AsWritten, Leaf(s[3]));
    assert Rebalance(Node(Nil, s[2], Leaf(s[3]), 2), s[3], AsWritten) == Ok(Node(Nil, s[2], Leaf(s[3]), 2));
    DescendRight(Node(Leaf(s[0]), s[1], Leaf(s[2]), 2), s[3], AsWritten, Node(Nil, s[2], Leaf(s[3]), 2));
    assert Rebalance(Node(Leaf(s[0]), s[1], Node(Nil, s[2], Leaf(s[3]), 2), 3), s[3], AsWritten) == Ok(Node(Leaf(s[0]), s[1], Node(Nil, s[2], Leaf(s[3]), 2), 3));
    InsertAllStep(Node(Leaf(s[0]), s[1], Leaf(s[2]), 2), s, 3, AsWritten, Node(Leaf(s[0]), s[1], Node(Nil, s[2], Leaf(s[3]), 2), 3));
  }

  /** Step 5: `s[4]` goes to the bottom of the right spine and the node holding `s[2]` is rotated left. */
  lemma AscendingStep5(s: seq<int>)
    requires |s| == 15 && StrictlyIncreasing(s)
    ensures InsertBy(Node(Leaf(s[0]), s[1], Node(Nil, s[2], Leaf(s[3]), 2), 3), s[4], AsWritten) == Ok(Node(Leaf(s[0]), s[1], Node(Leaf(s[2]), s[3], Leaf(s[4]), 2), 3))
    ensures InsertAll(Node(Leaf(s[0]), s[1], Node(Nil, s[2], Leaf(s[3]), 2), 3), s[4..], AsWritten) == InsertAll(Node(Leaf(s[0]), s[1], Node(Leaf(s[2]), s[3], Leaf(s[4]), 2), 3), s[5..], AsWritten)
  {
    assert InsertBy(Nil, s[4], AsWritten) == Ok(Leaf(s[4]));
    DescendRight(Leaf(s[3]), s[4], AsWritten, Leaf(s[4]));
    assert Rebalance(Node(Nil, s[3], Leaf(s[4]), 2), s[4], AsWritten) == Ok(Node(Nil, s[3], Leaf(s[4]), 2));
    DescendRight(Node(Nil, s[2], Leaf(s[3]), 2), s[4], AsWritten, Node(Nil, s[3], Leaf(s[4]), 2));
    assert RotateLeft(Node(Nil, s[2], Node(Nil, s[3], Leaf(s[4]), 2), 3)) == Ok(Node(Leaf(s[2]), s[3], Leaf(s[4]), 2));
    assert Rebalance(Node(Nil, s[2], Node(Nil, s[3], Leaf(s[4]), 2), 3), s[4], AsWritten) == Ok(Node(Leaf(s[2]), s[3], Leaf(s[4]), 2));
    DescendRight(Node(Leaf(s[0]), s[1], Node(Nil, s[2], Leaf(s[3]), 2), 3), s[4], AsWritten, Node(Leaf(s[2]), s[3], Leaf(s[4]), 2));
    assert Rebalance(Node(Leaf(s[0]), s[1], Node(Leaf(s[2]), s[3], Leaf(s[4]), 2), 3), s[4], AsWritten) == Ok(Node(Leaf(s[0]), s[1], Node(Leaf(s[2]), s[3], Leaf(s[4]), 2), 3));
    InsertAllStep(Node(Leaf(s[0]), s[1], Node(Nil, s[2], Leaf(s[3]), 2), 3), s, 4, AsWritten, Node(Leaf(s[0]), s[1], Node(Leaf(s[2]), s[3], Leaf(s[4]), 2), 3));
  }

  /** Step 6: `s[5]` goes to the bottom of the right spine and the node holding `s[1]` is rotated left. */
  lemma AscendingStep6(s: seq<int>)
    requires |s| == 15 && StrictlyIncreasing(s)
    ensures InsertBy(Node(Leaf(s[0]), s[1], Node(Leaf(s[2]), s[3], Leaf(s[4]), 2), 3), s[5], AsWritten) == Ok(Node(Node(Leaf(s[0]), s[1], Leaf(s[2]), 2), s[3], Node(Nil, s[4], Leaf(s[5]), 2), 3))
    ensures InsertAll(Node(Leaf(s[0]), s[1], Node(Leaf(s[2]), s[3], Leaf(s[4]), 2), 3), s[5..], AsWritten) == InsertAll(Node(Node(Leaf(s[0]), s[1], Leaf(s[2]), 2), s[3], Node(Nil, s[4], Leaf(s[5]), 2), 3), s[6..], AsWritten)
  {
    assert InsertBy(Nil, s[5], AsWritten) == Ok(Leaf(s[5]));
    DescendRight(Leaf(s[4]), s[5], AsWritten, Leaf(s[5]));
    assert Rebalance(Node(Nil, s[4], Leaf(s[5]), 2), s[5], AsWritten) == Ok(Node(Nil, s[4], Leaf(s[5]), 2));
    DescendRight(Node(Leaf(s[2]), s[3], Leaf(s[4]), 2), s[5], AsWritten, Node(Nil, s[4], Leaf(s[5]), 2));
    assert Rebalance(Node(Leaf(s[2]), s[3], Node(Nil, s[4], Leaf(s[5]), 2), 3), s[5], AsWritten) == Ok(Node(Leaf(s[2]), s[3], Node(Nil, s[4], Leaf(s[5]), 2), 3));
    DescendRight(Node(Leaf(s[0]), s[1], Node(Leaf(s[2]), s[3], Leaf(s[4]), 2), 3), s[5], AsWritten, Node(Leaf(s[2]), s[3], Node(Nil, s[4], Leaf(s[5]), 2), 3));
    assert RotateLeft(Node(Leaf(s[0]), s[1], Node(Leaf(s[2]), s[3], Node(Nil, s[4], Leaf(s[5]), 2), 3), 4)) == Ok(Node(Node(Leaf(s[0]), s[1], Leaf(s[2]), 2), s[3], Node(Nil, s[4], Leaf(s[5]), 2), 3));
    assert Rebalance(Node(Leaf(s[0]), s[1], Node(Leaf(s[2]), s[3], Node(Nil, s[4], Leaf(s[5]), 2), 3), 4), s[5], AsWritten) == Ok(Node(Node(Leaf(s[0]), s[1], Leaf(s[2]), 2), s[3], Node(Nil, s[4], Leaf(s[5]), 2), 3));
    InsertAllStep(Node(Leaf(s[0]), s[1], Node(Leaf(s[2]), s[3], Leaf(s[4]), 2), 3), s, 5, AsWritten, Node(Node(Leaf(s[0]), s[1], Leaf(s[2]), 2), s[3], Node(Nil, s[4], Leaf(s[5]), 2), 3));
  }

  /** Step 7: `s[6]` goes to the bottom of the right spine and the node holding `s[4]` is rotated left. */
  lemma AscendingStep7(s: seq<int>)
    requires |s| == 15 && StrictlyIncreasing(s)
    ensures InsertBy(Node(Node(Leaf(s[0]), s[1], Leaf(s[2]), 2), s[3], Node(Nil, s[4], Leaf(s[5]), 2), 3), s[6], AsWritten) == Ok(Node(Node(Leaf(s[0]), s[1], Leaf(s[2]), 2), s[3], Node(Leaf(s[4]), s[5], Leaf(s[6]), 2), 3))
    ensures InsertAll(Node(Node(Leaf(s[0]), s[1], Leaf(s[2]), 2), s[3], Node(Nil, s[4], Leaf(s[5]), 2), 3), s[6..], AsWritten) == InsertAll(Node(Node(Leaf(s[0]), s[1], Leaf(s[2]), 2), s[3], Node(Leaf(s[4]), s[5], Leaf(s[6]), 2), 3), s[7..], AsWritten)
  {
    assert InsertBy(Nil, s[6], AsWritten) == Ok(Leaf(s[6]));
    DescendRight(Leaf(s[5]), s[6], AsWritten, Leaf(s[6]));
    assert Rebalance(Node(Nil, s[5], Leaf(s[6]), 2), s[6], AsWritten) == Ok(Node(Nil, s[5], Leaf(s[6]), 2));
    DescendRight(Node(Nil, s[4], Leaf(s[5]), 2), s[6], AsWritten, Node(Nil, s[5], Leaf(s[6]), 2));
    assert RotateLeft(Node(Nil, s[4], Node(Nil, s[5], Leaf(s[6]), 2), 3)) == Ok(Node(Leaf(s[4]), s[5], Leaf(s[6]), 2));
    assert Rebalance(Node(Nil, s[4], Node(Nil, s[5], Leaf(s[6]), 2), 3), s[6], AsWritten) == Ok(Node(Leaf(s[4]), s[5], Leaf(s[6]), 2));
    DescendRight(Node(Node(Leaf(s[0]), s[1], Leaf(s[2]), 2), s[3], Node(Nil, s[4], Leaf(s[5]), 2), 3), s[6], AsWritten, Node(Leaf(s[4]), s[5], Leaf(s[6]), 2));
    assert Rebalance(Node(Node(Leaf(s[0]), s[1], Leaf(s[2]), 2), s[3], Node(Leaf(s[4]), s[5], Leaf(s[6]), 2), 3), s[6], AsWritten) == Ok(Node(Node(Leaf(s[0]), s[1], Leaf(s[2]), 2), s[3], Node(Leaf(s[4]), s[5], Leaf(s[6]), 2), 3));
    InsertAllStep(Node(Node(Leaf(s[0]), s[1], Leaf(s[2]), 2), s[3], Node(Nil, s[4], Leaf(s[5]), 2), 3), s, 6, AsWritten, Node(Node(Leaf(s[0]), s[1], Leaf(s[2]), 2), s[3], Node(Leaf(s[4]), s[5], Leaf(s[6]), 2), 3));
  }

  /** Step 8: `s[7]` goes to the bottom of the right spine and no rotation is needed. */
  lemma AscendingStep8(s: seq<int>)
    requires |s| == 15 && StrictlyIncreasing(s)
    ensures InsertBy(Node(Node(Leaf(s[0]), s[1], Leaf(s[2]), 2), s[3], Node(Leaf(s[4]), s[5], Leaf(s[6]), 2), 3), s[7], AsWritten) == Ok(Node(Node(Leaf(s[0]), s[1], Leaf(s[2]), 2), s[3], Node(Leaf(s[4]), s[5], Node(Nil, s[6], Leaf(s[7]), 2), 3), 4))
    ensures InsertAll(Node(Node(Leaf(s[0]), s[1], Leaf(s[2]), 2), s[3], Node(Leaf(s[4]), s[5], Leaf(s[6]), 2), 3), s[7..], AsWritten) == InsertAll(Node(Node(Leaf(s[0]), s[1], Leaf(s[2]), 2), s[3], Node(Leaf(s[4]), s[5], Node(Nil, s[6], Leaf(s[7]), 2), 3), 4), s[8..], AsWritten)
  {
    assert InsertBy(Nil, s[7], AsWritten) == Ok(Leaf(s[7]));
    DescendRight(Leaf(s[6]), s[7], AsWritten, Leaf(s[7]));
    assert Rebalance(Node(Nil, s[6], Leaf(s[7]), 2), s[7], AsWritten) == Ok(Node(Nil, s[6], Leaf(s[7]), 2));
    DescendRight(Node(Leaf(s[4]), s[5], Leaf(s[6]), 2), s[7], AsWritten, Node(Nil, s[6], Leaf(s[7]), 2));
    assert Rebalance(Node(Leaf(s[4]), s[5], Node(Nil, s[6], Leaf(s[7]), 2), 3), s[7], AsWritten) == Ok(Node(Leaf(s[4]), s[5], Node(Nil, s[6], Leaf(s[7]), 2), 3));
    DescendRight(Node(Node(Leaf(s[0]), s[1], Leaf(s[2]), 2), s[3], Node(Leaf(s[4]), s[5], Leaf(s[6]), 2), 3), s[7], AsWritten, Node(Leaf(s[4]), s[5], Node(Nil, s[6], Leaf(s[7]), 2), 3));
    assert Rebalance(Node(Node(Leaf(s[0]), s[1], Leaf(s[2]), 2), s[3], Node(Leaf(s[4]), s[5], Node(Nil, s[6], Leaf(s[7]), 2), 3), 4), s[7], AsWritten) == Ok(Node(Node(Leaf(s[0]), s[1], Leaf(s[2]), 2), s[3], Node(Leaf(s[4]), s[5], Node(Nil, s[6], Leaf(s[7]), 2), 3), 4));
    InsertAllStep(Node(Node(Leaf(s[0]), s[1], Leaf(s[2]), 2), s[3], Node(Leaf(s[4]), s[5], Leaf(s[6]), 2), 3), s, 7, AsWritten, Node(Node(Leaf(s[0]), s[1], Leaf(s[2]), 2), s[3], Node(Leaf(s[4]), s[5], Node(Nil, s[6], Leaf(s[7]), 2), 3), 4));
  }

  /** Step 9: `s[8]` goes to the bottom of the right spine and the node holding `s[6]` is rotated left. */
  lemma AscendingStep9(s: seq<int>)
    requires |s| == 15 && StrictlyIncreasing(s)
    ensures InsertBy(Node(Node(Leaf(s[0]), s[1], Leaf(s[2]), 2), s[3], Node(Leaf(s[4]), s[5], Node(Nil, s[6], Leaf(s[7]), 2), 3), 4), s[8], AsWritten) == Ok(Node(Node(Leaf(s[0]), s[1], Leaf(s[2]), 2), s[3], Node(Leaf(s[4]), s[5], Node(Leaf(s[6]), s[7], Leaf(s[8]), 2), 3), 4))
    ensures InsertAll(Node(Node(Leaf(s[0]), s[1], Leaf(s[2]), 2), s[3], Node(Leaf(s[4]), s[5], Node(Nil, s[6], Leaf(s[7]), 2), 3), 4), s[8..], AsWritten) == InsertAll(Node(Node(Leaf(s[0]), s[1], Leaf(s[2]), 2), s[3], Node(Leaf(s[4]), s[5], Node(Leaf(s[6]), s[7], Leaf(s[8]), 2), 3), 4), s[9..], AsWritten)
  {
    assert InsertBy(Nil, s[8], AsWritten) == Ok(Leaf(s[8]));
    DescendRight(Leaf(s[7]), s[8], AsWritten, Leaf(s[8]));
    assert Rebalance(Node(Nil, s[7], Leaf(s[8]), 2), s[8], AsWritten) == Ok(Node(Nil, s[7], Leaf(s[8]), 2));
    DescendRight(Node(Nil, s[6], Leaf(s[7]), 2), s[8], AsWritten, Node(Nil, s[7], Leaf(s[8]), 2));
    assert RotateLeft(Node(Nil, s[6], Node(Nil, s[7], Leaf(s[8]), 2), 3)) == Ok(Node(Leaf(s[6]), s[7], Leaf(s[8]), 2));
    assert Rebalance(Node(Nil, s[6], Node(Nil, s[7], Leaf(s[8]), 2), 3), s[8], AsWritten) == Ok(Node(Leaf(s[6]), s[7], Leaf(s[8]), 2));
    DescendRight(Node(Leaf(s[4]), s[5], Node(Nil, s[6], Leaf(s[7]), 2), 3), s[8], AsWritten, Node(Leaf(s[6]), s[7], Leaf(s[8]), 2));
    assert Rebalance(Node(Leaf(s[4]), s[5], Node(Leaf(s[6]), s[7], Leaf(s[8]), 2), 3), s[8], AsWritten) == Ok(Node(Leaf(s[4]), s[5], Node(Leaf(s[6]), s[7], Leaf(s[8]), 2), 3));
    DescendRight(Node(Node(Leaf(s[0]), s[1], Leaf(s[2]), 2), s[3], Node(Leaf(s[4]), s[5], Node(Nil, s[6], Leaf(s[7]), 2), 3), 4), s[8], AsWritten, Node(Leaf(s[4]), s[5], Node(Leaf(s[6]), s[7], Leaf(s[8]), 2), 3));
    assert Rebalance(Node(Node(Leaf(s[0]), s[1], Leaf(s[2]), 2), s[3], Node(Leaf(s[4]), s[5], Node(Leaf(s[6]), s[7], Leaf(s[8]), 2), 3), 4), s[8], AsWritten) == Ok(Node(Node(Leaf(s[0]), s[1], Leaf(s[2]), 2), s[3], Node(Leaf(s[4]), s[5], Node(Leaf(s[6]), s[7], Leaf(s[8]), 2), 3), 4));
    InsertAllStep(Node(Node(Leaf(s[0]), s[1], Leaf(s[2]), 2), s[3], Node(Leaf(s[4]), s[5], Node(Nil, s[6], Leaf(s[7]), 2), 3), 4), s, 8, AsWritten, Node(Node(Leaf(s[0]), s[1], Leaf(s[2]), 2), s[3], Node(Leaf(s[4]), s[5], Node(Leaf(s[6]), s[7], Leaf(s[8]), 2), 3), 4));
  }

  /** Step 10: `s[9]` goes to the bottom of the right spine and the node holding `s[5]` is rotated left. */
  lemma AscendingStep10(s: seq<int>)
    requires |s| == 15 && StrictlyIncreasing(s)
    ensures InsertBy(Node(Node(Leaf(s[0]), s[1], Leaf(s[2]), 2), s[3], Node(Leaf(s[4]), s[5], Node(Leaf(s[6]), s[7], Leaf(s[8]), 2), 3), 4), s[9], AsWritten) == Ok(Node(Node(Leaf(s[0]), s[1], Leaf(s[2]), 2), s[3], Node(Node(Leaf(s[4]), s[5], Leaf(s[6]), 2), s[7], Node(Nil, s[8], Leaf(s[9]), 2), 3), 4))
    ensures InsertAll(Node(Node(Leaf(s[0]), s[1], Leaf(s[2]), 2), s[3], Node(Leaf(s[4]), s[5], Node(Leaf(s[6]), s[7], Leaf(s[8]), 2), 3), 4), s[9..], AsWritten) == InsertAll(Node(Node(Leaf(s[0]), s[1], Leaf(s[2]), 2), s[3], Node(Node(Leaf(s[4]), s[5], Leaf(s[6]), 2), s[7], Node(Nil, s[8], Leaf(s[9]), 2), 3), 4), s[10..], AsWritten)
  {
    assert InsertBy(Nil, s[9], AsWritten) == Ok(Leaf(s[9]));
    DescendRight(Leaf(s[8]), s[9], AsWritten, Leaf(s[9]));
    assert Rebalance(Node(Nil, s[8], Leaf(s[9]), 2), s[9], AsWritten) == Ok(Node(Nil, s[8], Leaf(s[9]), 2));
    DescendRight(Node(Leaf(s[6]), s[7], Leaf(s[8]), 2), s[9], AsWritten, Node(Nil, s[8], Leaf(s[9]), 2));
    assert Rebalance(Node(Leaf(s[6]), s[7], Node(Nil, s[8], Leaf(s[9]), 2), 3), s[9], AsWritten) == Ok(Node(Leaf(s[6]), s[7], Node(Nil, s[8], Leaf(s[9]), 2), 3));
    DescendRight(Node(Leaf(s[4]), s[5], Node(Leaf(s[6]), s[7], Leaf(s[8]), 2), 3), s[9], AsWritten, Node(Leaf(s[6]), s[7], Node(Nil, s[8], Leaf(s[9]), 2), 3));
    assert RotateLeft(Node(Leaf(s[4]), s[5], Node(Leaf(s[6]), s[7], Node(Nil, s[8], Leaf(s[9]), 2), 3), 4)) == Ok(Node(Node(Leaf(s[4]), s[5], Leaf(s[6]), 2), s[7], Node(Nil, s[8], Leaf(s[9]), 2), 3));
    assert Rebalance(Node(Leaf(s[4]), s[5], Node(Leaf(s[6]), s[7], Node(Nil, s[8], Leaf(s[9]), 2), 3), 4), s[9], AsWritten) == Ok(Node(Node(Leaf(s[4]), s[5], Leaf(s[6]), 2), s[7], Node(Nil, s[8], Leaf(s[9]), 2), 3));
    DescendRight(Node(Node(Leaf(s[0]), s[1], Leaf(s[2]), 2), s[3], Node(Leaf(s[4]), s[5], Node(Leaf(s[6]), s[7], Leaf(s[8]), 2), 3), 4), s[9], AsWritten, Node(Node(Leaf(s[4]), s[5], Leaf(s[6]), 2), s[7], Node(Nil, s[8], Leaf(s[9]), 2), 3));
    assert Rebalance(Node(Node(Leaf(s[0]), s[1], Leaf(s[2]), 2), s[3], Node(Node(Leaf(s[4]), s[5], Leaf(s[6]), 2), s[7], Node(Nil, s[8], Leaf(s[9]), 2), 3), 4), s[9], AsWritten) == Ok(Node(Node(Leaf(s[0]), s[1], Leaf(s[2]), 2), s[3], Node(Node(Leaf(s[4]), s[5], Leaf(s[6]), 2), s[7], Node(Nil, s[8], Leaf(s[9]), 2), 3), 4));
    InsertAllStep(Node(Node(Leaf(s[0]), s[1], Leaf(s[2]), 2), s[3], Node(Leaf(s[4]), s[5], Node(Leaf(s[6]), s[7], Leaf(s[8]), 2), 3), 4), s, 9, AsWritten, Node(Node(Leaf(s[0]), s[1], Leaf(s[2]), 2), s[3], Node(Node(Leaf(s[4]), s[5], Leaf(s[6]), 2), s[7], Node(Nil, s[8], Leaf(s[9]), 2), 3), 4));
  }

  /** Step 11: `s[10]` goes to the bottom of the right spine and the node holding `s[8]` is rotated left. */
  lemma AscendingStep11(s: seq<int>)
    requires |s| == 15 && StrictlyIncreasing(s)
    ensures InsertBy(Node(Node(Leaf(s[0]), s[1], Leaf(s[2]), 2), s[3], Node(Node(Leaf(s[4]), s[5], Leaf(s[6]), 2), s[7], Node(Nil, s[8], Leaf(s[9]), 2), 3), 4), s[10], AsWritten) == Ok(Node(Node(Leaf(s[0]), s[1], Leaf(s[2]), 2), s[3], Node(Node(Leaf(s[4]), s[5], Leaf(s[6]), 2), s[7], Node(Leaf(s[8]), s[9], Leaf(s[10]), 2), 3), 4))
    ensures InsertAll(Node(Node(Leaf(s[0]), s[1], Leaf(s[2]), 2), s[3], Node(Node(Leaf(s[4]), s[5], Leaf(s[6]), 2), s[7], Node(Nil, s[8], Leaf(s[9]), 2), 3), 4), s[10..], AsWritten) == InsertAll(Node(Node(Leaf(s[0]), s[1], Leaf(s[2]), 2), s[3], Node(Node(Leaf(s[4]), s[5], Leaf(s[6]), 2), s[7], Node(Leaf(s[8]), s[9], Leaf(s[10]), 2), 3), 4), s[11..], AsWritten)
  {
    assert InsertBy(Nil, s[10], AsWritten) == Ok(Leaf(s[10]));
    DescendRight(Leaf(s[9]), s[10], AsWritten, Leaf(s[10]));
    assert Rebalance(Node(Nil, s[9], Leaf(s[10]), 2), s[10], AsWritten) == Ok(Node(Nil, s[9], Leaf(s[10]), 2));
    DescendRight(Node(Nil, s[8], Leaf(s[9]), 2), s[10], AsWritten, Node(Nil, s[9], Leaf(s[10]), 2));
    assert RotateLeft(Node(Nil, s[8], Node(Nil, s[9], Leaf(s[10]), 2), 3)) == Ok(Node(Leaf(s[8]), s[9], Leaf(s[10]), 2));
    assert Rebalance(Node(Nil, s[8], Node(Nil, s[9], Leaf(s[10]), 2), 3), s[10], AsWritten) == Ok(Node(Leaf(s[8]), s[9], Leaf(s[10]), 2));
    DescendRight(Node(Node(Leaf(s[4]), s[5], Leaf(s[6]), 2), s[7], Node(Nil, s[8], Leaf(s[9]), 2), 3), s[10], AsWritten, Node(Leaf(s[8]), s[9], Leaf(s[10]), 2));
    assert Rebalance(Node(Node(Leaf(s[4]), s[5], Leaf(s[6]), 2), s[7], Node(Leaf(s[8]), s[9], Leaf(s[10]), 2), 3), s[10], AsWritten) == Ok(Node(Node(Leaf(s[4]), s[5], Leaf(s[6]), 2), s[7], Node(Leaf(s[8]), s[9], Leaf(s[10]), 2), 3));
    DescendRight(Node(Node(Leaf(s[0]), s[1], Leaf(s[2]), 2), s[3], Node(Node(Leaf(s[4]), s[5], Leaf(s[6]), 2), s[7], Node(Nil, s[8], Leaf(s[9]), 2), 3), 4), s[10], AsWritten, Node(Node(Leaf(s[4]), s[5], Leaf(s[6]), 2), s[7], Node(Leaf(s[8]), s[9], Leaf(s[10]), 2), 3));
    assert Rebalance(Node(Node(Leaf(s[0]), s[1], Leaf(s[2]), 2), s[3], Node(Node(Leaf(s[4]), s[5], Leaf(s[6]), 2), s[7], Node(Leaf(s[8]), s[9], Leaf(s[10]), 2), 3), 4), s[10], AsWritten) == Ok(Node(Node(Leaf(s[0]), s[1], Leaf(s[2]), 2), s[3], Node(Node(Leaf(s[4]), s[5], Leaf(s[6]), 2), s[7], Node(Leaf(s[8]), s[9], Leaf(s[10]), 2), 3), 4));
    InsertAllStep(Node(Node(Leaf(s[0]), s[1], Leaf(s[2]), 2), s[3], Node(Node(Leaf(s[4]), s[5], Leaf(s[6]), 2), s[7], Node(Nil, s[8], Leaf(s[9]), 2), 3), 4), s, 10, AsWritten, Node(Node(Leaf(s[0]), s[1], Leaf(s[2]), 2), s[3], Node(Node(Leaf(s[4]), s[5], Leaf(s[6]), 2), s[7], Node(Leaf(s[8]), s[9], Leaf(s[10]), 2), 3), 4));
  }

  /** Step 12: `s[11]` goes to the bottom of the right spine and the node holding `s[3]` is rotated left. */
  lemma AscendingStep12(s: seq<int>)
    requires |s| == 15 && StrictlyIncreasing(s)
    ensures InsertBy(Node(Node(Leaf(s[0]), s[1], Leaf(s[2]), 2), s[3], Node(Node(Leaf(s[4]), s[5], Leaf(s[6]), 2), s[7], Node(Leaf(s[8]), s[9], Leaf(s[10]), 2), 3), 4), s[11], AsWritten) == Ok(Node(Node(Node(Leaf(s[0]), s[1], Leaf(s[2]), 2), s[3], Node(Leaf(s[4]), s[5], Leaf(s[6]), 2), 3), s[7], Node(Leaf(s[8]), s[9], Node(Nil, s[10], Leaf(s[11]), 2), 3), 4))
    ensures InsertAll(Node(Node(Leaf(s[0]), s[1], Leaf(s[2]), 2), s[3], Node(Node(Leaf(s[4]), s[5], Leaf(s[6]), 2), s[7], Node(Leaf(s[8]), s[9], Leaf(s[10]), 2), 3), 4), s[11..], AsWritten) == InsertAll(Node(Node(Node(Leaf(s[0]), s[1], Leaf(s[2]), 2), s[3], Node(Leaf(s[4]), s[5], Leaf(s[6]), 2), 3), s[7], Node(Leaf(s[8]), s[9], Node(Nil, s[10], Leaf(s[11]), 2), 3), 4), s[12..], AsWritten)
  {
    assert InsertBy(Nil, s[11], AsWritten) == Ok(Leaf(s[11]));
    DescendRight(Leaf(s[10]), s[11], AsWritten, Leaf(s[11]));
    assert Rebalance(Node(Nil, s[10], Leaf(s[11]), 2), s[11], AsWritten) == Ok(Node(Nil, s[10], Leaf(s[11]), 2));
    DescendRight(Node(Leaf(s[8]), s[9], Leaf(s[10]), 2), s[11], AsWritten, Node(Nil, s[10], Leaf(s[11]), 2));
    assert Rebalance(Node(Leaf(s[8]), s[9], Node(Nil, s[10], Leaf(s[11]), 2), 3), s[11], AsWritten) == Ok(Node(Leaf(s[8]), s[9], Node(Nil, s[10], Leaf(s[11]), 2), 3));
    DescendRight(Node(Node(Leaf(s[4]), s[5], Leaf(s[6]), 2), s[7], Node(Leaf(s[8]), s[9], Leaf(s[10]), 2), 3), s[11], AsWritten, Node(Leaf(s[8]), s[9], Node(Nil, s[10], Leaf(s[11]), 2), 3));
    assert Rebalance(Node(Node(Leaf(s[4]), s[5], Leaf(s[6]), 2), s[7], Node(Leaf(s[8]), s[9], Node(Nil, s[10], Leaf(s[11]), 2), 3), 4), s[11], AsWritten) == Ok(Node(Node(Leaf(s[4]), s[5], Leaf(s[6]), 2), s[7], Node(Leaf(s[8]), s[9], Node(Nil, s[10], Leaf(s[11]), 2), 3), 4));
    DescendRight(Node(Node(Leaf(s[0]), s[1], Leaf(s[2]), 2), s[3], Node(Node(Leaf(s[4]), s[5], Leaf(s[6]), 2), s[7], Node(Leaf(s[8]), s[9], Leaf(s[10]), 2), 3), 4), s[11], AsWritten, Node(Node(Leaf(s[4]), s[5], Leaf(s[6]), 2), s[7], Node(Leaf(s[8]), s[9], Node(Nil, s[10], Leaf(s[11]), 2), 3), 4));
    assert RotateLeft(Node(Node(Leaf(s[0]), s[1], Leaf(s[2]), 2), s[3], Node(Node(Leaf(s[4]), s[5], Leaf(s[6]), 2), s[7], Node(Leaf(s[8]), s[9], Node(Nil, s[10], Leaf(s[11]), 2), 3), 4), 5)) == Ok(Node(Node(Node(Leaf(s[0]), s[1], Leaf(s[2]), 2), s[3], Node(Leaf(s[4]), s[5], Leaf(s[6]), 2), 3), s[7], Node(Leaf(s[8]), s[9], Node(Nil, s[10], Leaf(s[11]), 2), 3), 4));
    assert Rebalance(Node(Node(Leaf(s[0]), s[1], Leaf(s[2]), 2), s[3], Node(Node(Leaf(s[4]), s[5], Leaf(s[6]), 2), s[7], Node(Leaf(s[8]), s[9], Node(Nil, s[10], Leaf(s[11]), 2), 3), 4), 5), s[11], AsWritten) == Ok(Node(Node(Node(Leaf(s[0]), s[1], Leaf(s[2]), 2), s[3], Node(Leaf(s[4]), s[5], Leaf(s[6]), 2), 3), s[7], Node(Leaf(s[8]), s[9], Node(Nil, s[10], Leaf(s[11]), 2), 3), 4));
    InsertAllStep(Node(Node(Leaf(s[0]), s[1], Leaf(s[2]), 2), s[3], Node(Node(Leaf(s[4]), s[5], Leaf(s[6]), 2), s[7], Node(Leaf(s[8]), s[9], Leaf(s[10]), 2), 3), 4), s, 11, AsWritten, Node(Node(Node(Leaf(s[0]), s[1], Leaf(s[2]), 2), s[3], Node(Leaf(s[4]), s[5], Leaf(s[6]), 2), 3), s[7], Node(Leaf(s[8]), s[9], Node(Nil, s[10], Leaf(s[11]), 2), 3), 4));
  }

  /** Step 13: `s[12]` goes to the bottom of the right spine and the node holding `s[10]` is rotated left. */
  lemma AscendingStep13(s: seq<int>)
    requires |s| == 15 && StrictlyIncreasing(s)
    ensures InsertBy(Node(Node(Node(Leaf(s[0]), s[1], Leaf(s[2]), 2), s[3], Node(Leaf(s[4]), s[5], Leaf(s[6]), 2), 3), s[7], Node(Leaf(s[8]), s[9], Node(Nil, s[10], Leaf(s[11]), 2), 3), 4), s[12], AsWritten) == Ok(Node(Node(Node(Leaf(s[0]), s[1], Leaf(s[2]), 2), s[3], Node(Leaf(s[4]), s[5], Leaf(s[6]), 2), 3), s[7], Node(Leaf(s[8]), s[9], Node(Leaf(s[10]), s[11], Leaf(s[12]), 2), 3), 4))
    ensures InsertAll(Node(Node(Node(Leaf(s[0]), s[1], Leaf(s[2]), 2), s[3], Node(Leaf(s[4]), s[5], Leaf(s[6]), 2), 3), s[7], Node(Leaf(s[8]), s[9], Node(Nil, s[10], Leaf(s[11]), 2), 3), 4), s[12..], AsWritten) == InsertAll(Node(Node(Node(Leaf(s[0]), s[1], Leaf(s[2]), 2), s[3], Node(Leaf(s[4]), s[5], Leaf(s[6]), 2), 3), s[7], Node(Leaf(s[8]), s[9], Node(Leaf(s[10]), s[11], Leaf(s[12]), 2), 3), 4), s[13..], AsWritten)
  {
    assert InsertBy(Nil, s[12], AsWritten) == Ok(Leaf(s[12]));
    DescendRight(Leaf(s[11]), s[12], AsWritten, Leaf(s[12]));
    assert Rebalance(Node(Nil, s[11], Leaf(s[12]), 2), s[12], AsWritten) == Ok(Node(Nil, s[11], Leaf(s[12]), 2));
    DescendRight(Node(Nil, s[10], Leaf(s[11]), 2), s[12], AsWritten, Node(Nil, s[11], Leaf(s[12]), 2));
    assert RotateLeft(Node(Nil, s[10], Node(Nil, s[11], Leaf(s[12]), 2), 3)) == Ok(Node(Leaf(s[10]), s[11], Leaf(s[12]), 2));
    assert Rebalance(Node(Nil, s[10], Node(Nil, s[11], Leaf(s[12]), 2), 3), s[12], AsWritten) == Ok(Node(Leaf(s[10]), s[11], Leaf(s[12]), 2));
    DescendRight(Node(Leaf(s[8]), s[9], Node(Nil, s[10], Leaf(s[11]), 2), 3), s[12], AsWritten, Node(Leaf(s[10]), s[11], Leaf(s[12]), 2));
    assert Rebalance(Node(Leaf(s[8]), s[9], Node(Leaf(s[10]), s[11], Leaf(s[12]), 2), 3), s[12], AsWritten) == Ok(Node(Leaf(s[8]), s[9], Node(Leaf(s[10]), s[11], Leaf(s[12]), 2), 3));
    DescendRight(Node(Node(Node(Leaf(s[0]), s[1], Leaf(s[2]), 2), s[3], Node(Leaf(s[4]), s[5], Leaf(s[6]), 2), 3), s[7], Node(Leaf(s[8]), s[9], Node(Nil, s[10], Leaf(s[11]), 2), 3), 4), s[12], AsWritten, Node(Leaf(s[8]), s[9], Node(Leaf(s[10]), s[11], Leaf(s[12]), 2), 3));
    assert Rebalance(Node(Node(Node(Leaf(s[0]), s[1], Leaf(s[2]), 2), s[3], Node(Leaf(s[4]), s[5], Leaf(s[6]), 2), 3), s[7], Node(Leaf(s[8]), s[9], Node(Leaf(s[10]), s[11], Leaf(s[12]), 2), 3), 4), s[12], AsWritten) == Ok(Node(Node(Node(Leaf(s[0]), s[1], Leaf(s[2]), 2), s[3], Node(Leaf(s[4]), s[5], Leaf(s[6]), 2), 3), s[7], Node(Leaf(s[8]), s[9], Node(Leaf(s[10]), s[11], Leaf(s[12]), 2), 3), 4));
    InsertAllStep(Node(Node(Node(Leaf(s[0]), s[1], Leaf(s[2]), 2), s[3], Node(Leaf(s[4]), s[5], Leaf(s[6]), 2), 3), s[7], Node(Leaf(s[8]), s[9], Node(Nil, s[10], Leaf(s[11]), 2), 3), 4), s, 12, AsWritten, Node(Node(Node(Leaf(s[0]), s[1], Leaf(s[2]), 2), s[3], Node(Leaf(s[4]), s[5], Leaf(s[6]), 2), 3), s[7], Node(Leaf(s[8]), s[9], Node(Leaf(s[10]), s[11], Leaf(s[12]), 2), 3), 4));
  }

  /** Step 14: `s[13]` goes to the bottom of the right spine and the node holding `s[9]` is rotated left. */
  lemma AscendingStep14(s: seq<int>)
    requires |s| == 15 && StrictlyIncreasing(s)
    ensures InsertBy(Node(Node(Node(Leaf(s[0]), s[1], Leaf(s[2]), 2), s[3], Node(Leaf(s[4]), s[5], Leaf(s[6]), 2), 3), s[7], Node(Leaf(s[8]), s[9], Node(Leaf(s[10]), s[11], Leaf(s[12]), 2), 3), 4), s[13], AsWritten) == Ok(Node(Node(Node(Leaf(s[0]), s[1], Leaf(s[2]), 2), s[3], Node(Leaf(s[4]), s[5], Leaf(s[6]), 2), 3), s[7], Node(Node(Leaf(s[8]), s[9], Leaf(s[10]), 2), s[11], Node(Nil, s[12], Leaf(s[13]), 2), 3), 4))
    ensures InsertAll(Node(Node(Node(Leaf(s[0]), s[1], Leaf(s[2]), 2), s[3], Node(Leaf(s[4]), s[5], Leaf(s[6]), 2), 3), s[7], Node(Leaf(s[8]), s[9], Node(Leaf(s[10]), s[11], Leaf(s[12]), 2), 3), 4), s[13..], AsWritten) == InsertAll(Node(Node(Node(Leaf(s[0]), s[1], Leaf(s[2]), 2), s[3], Node(Leaf(s[4]), s[5], Leaf(s[6]), 2), 3), s[7], Node(Node(Leaf(s[8]), s[9], Leaf(s[10]), 2), s[11], Node(Nil, s[12], Leaf(s[13]), 2), 3), 4), s[14..], AsWritten)
  {
    assert InsertBy(Nil, s[13], AsWritten) == Ok(Leaf(s[13]));
    DescendRight(Leaf(s[12]), s[13], AsWritten, Leaf(s[13]));
    assert Rebalance(Node(Nil, s[12], Leaf(s[13]), 2), s[13], AsWritten) == Ok(Node(Nil, s[12], Leaf(s[13]), 2));
    DescendRight(Node(Leaf(s[10]), s[11], Leaf(s[12]), 2), s[13], AsWritten, Node(Nil, s[12], Leaf(s[13]), 2));
    assert Rebalance(Node(Leaf(s[10]), s[11], Node(Nil, s[12], Leaf(s[13]), 2), 3), s[13], AsWritten) == Ok(Node(Leaf(s[10]), s[11], Node(Nil, s[12], Leaf(s[13]), 2), 3));
    DescendRight(Node(Leaf(s[8]), s[9], Node(Leaf(s[10]), s[11], Leaf(s[12]), 2), 3), s[13], AsWritten, Node(Leaf(s[10]), s[11], Node(Nil, s[12], Leaf(s[13]), 2), 3));
    assert RotateLeft(Node(Leaf(s[8]), s[9], Node(Leaf(s[10]), s[11], Node(Nil, s[12], Leaf(s[13]), 2), 3), 4)) == Ok(Node(Node(Leaf(s[8]), s[9], Leaf(s[10]), 2), s[11], Node(Nil, s[12], Leaf(s[13]), 2), 3));
    assert Rebalance(Node(Leaf(s[8]), s[9], Node(Leaf(s[10]), s[11], Node(Nil, s[12], Leaf(s[13]), 2), 3), 4), s[13], AsWritten) == Ok(Node(Node(Leaf(s[8]), s[9], Leaf(s[10]), 2), s[11], Node(Nil, s[12], Leaf(s[13]), 2), 3));
    DescendRight(Node(Node(Node(Leaf(s[0]), s[1], Leaf(s[2]), 2), s[3], Node(Leaf(s[4]), s[5], Leaf(s[6]), 2), 3), s[7], Node(Leaf(s[8]), s[9], Node(Leaf(s[10]), s[11], Leaf(s[12]), 2), 3), 4), s[13], AsWritten, Node(Node(Leaf(s[8]), s[9], Leaf(s[10]), 2), s[11], Node(Nil, s[12], Leaf(s[13]), 2), 3));
    assert Rebalance(Node(Node(Node(Leaf(s[0]), s[1], Leaf(s[2]), 2), s[3], Node(Leaf(s[4]), s[5], Leaf(s[6]), 2), 3), s[7], Node(Node(Leaf(s[8]), s[9], Leaf(s[10]), 2), s[11], Node(Nil, s[12], Leaf(s[13]), 2), 3), 4), s[13], AsWritten) == Ok(Node(Node(Node(Leaf(s[0]), s[1], Leaf(s[2]), 2), s[3], Node(Leaf(s[4]), s[5], Leaf(s[6]), 2), 3), s[7], Node(Node(Leaf(s[8]), s[9], Leaf(s[10]), 2), s[11], Node(Nil, s[12], Leaf(s[13]), 2), 3), 4));
    InsertAllStep(Node(Node(Node(Leaf(s[0]), s[1], Leaf(s[2]), 2), s[3], Node(Leaf(s[4]), s[5], Leaf(s[6]), 2), 3), s[7], Node(Leaf(s[8]), s[9], Node(Leaf(s[10]), s[11], Leaf(s[12]), 2), 3), 4), s, 13, AsWritten, Node(Node(Node(Leaf(s[0]), s[1], Leaf(s[2]), 2), s[3], Node(Leaf(s[4]), s[5], Leaf(s[6]), 2), 3), s[7], Node(Node(Leaf(s[8]), s[9], Leaf(s[10]), 2), s[11], Node(Nil, s[12], Leaf(s[13]), 2), 3), 4));
  }

  /** Step 15: `s[14]` goes to the bottom of the right spine and the node holding `s[12]` is rotated left. */
  lemma AscendingStep15(s: seq<int>)
    requires |s| == 15 && StrictlyIncreasing(s)
    ensures InsertBy(Node(Node(Node(Leaf(s[0]), s[1], Leaf(s[2]), 2), s[3], Node(Leaf(s[4]), s[5], Leaf(s[6]), 2), 3), s[7], Node(Node(Leaf(s[8]), s[9], Leaf(s[10]), 2), s[11], Node(Nil, s[12], Leaf(s[13]), 2), 3), 4), s[14], AsWritten) == Ok(Node(Node(Node(Leaf(s[0]), s[1], Leaf(s[2]), 2), s[3], Node(Leaf(s[4]), s[5], Leaf(s[6]), 2), 3), s[7], Node(Node(Leaf(s[8]), s[9], Leaf(s[10]), 2), s[11], Node(Leaf(s[12]), s[13], Leaf(s[14]), 2), 3), 4))
    ensures InsertAll(Node(Node(Node(Leaf(s[0]), s[1], Leaf(s[2]), 2), s[3], Node(Leaf(s[4]), s[5], Leaf(s[6]), 2), 3), s[7], Node(Node(Leaf(s[8]), s[9], Leaf(s[10]), 2), s[11], Node(Nil, s[12], Leaf(s[13]), 2), 3), 4), s[14..], AsWritten) == InsertAll(Node(Node(Node(Leaf(s[0]), s[1], Leaf(s[2]), 2), s[3], Node(Leaf(s[4]), s[5], Leaf(s[6]), 2), 3), s[7], Node(Node(Leaf(s[8]), s[9], Leaf(s[10]), 2), s[11], Node(Leaf(s[12]), s[13], Leaf(s[14]), 2), 3), 4), s[15..], AsWritten)
  {
    assert InsertBy(Nil, s[14], AsWritten) == Ok(Leaf(s[14]));
    DescendRight(Leaf(s[13]), s[14], AsWritten, Leaf(s[14]));
    assert Rebalance(Node(Nil, s[13], Leaf(s[14]), 2), s[14], AsWritten) == Ok(Node(Nil, s[13], Leaf(s[14]), 2));
    DescendRight(Node(Nil, s[12], Leaf(s[13]), 2), s[14], AsWritten, Node(Nil, s[13], Leaf(s[14]), 2));
    assert RotateLeft(Node(Nil, s[12], Node(Nil, s[13], Leaf(s[14]), 2), 3)) == Ok(Node(Leaf(s[12]), s[13], Leaf(s[14]), 2));
    assert Rebalance(Node(Nil, s[12], Node(Nil, s[13], Leaf(s[14]), 2), 3), s[14], AsWritten) == Ok(Node(Leaf(s[12]), s[13], Leaf(s[14]), 2));
    DescendRight(Node(Node(Leaf(s[8]), s[9], Leaf(s[10]), 2), s[11], Node(Nil, s[12], Leaf(s[13]), 2), 3), s[14], AsWritten, Node(Leaf(s[12]), s[13], Leaf(s[14]), 2));
    assert Rebalance(Node(Node(Leaf(s[8]), s[9], Leaf(s[10]), 2), s[11], Node(Leaf(s[12]), s[13], Leaf(s[14]), 2), 3), s[14], AsWritten) == Ok(Node(Node(Leaf(s[8]), s[9], Leaf(s[10]), 2), s[11], Node(Leaf(s[12]), s[13], Leaf(s[14]), 2), 3));
    DescendRight(Node(Node(Node(Leaf(s[0]), s[1], Leaf(s[2]), 2), s[3], Node(Leaf(s[4]), s[5], Leaf(s[6]), 2), 3), s[7], Node(Node(Leaf(s[8]), s[9], Leaf(s[10]), 2), s[11], Node(Nil, s[12], Leaf(s[13]), 2), 3), 4), s[14], AsWritten, Node(Node(Leaf(s[8]), s[9], Leaf(s[10]), 2), s[11], Node(Leaf(s[12]), s[13], Leaf(s[14]), 2), 3));
    assert Rebalance(Node(Node(Node(Leaf(s[0]), s[1], Leaf(s[2]), 2), s[3], Node(Leaf(s[4]), s[5], Leaf(s[6]), 2), 3), s[7], Node(Node(Leaf(s[8]), s[9], Leaf(s[10]), 2), s[11], Node(Leaf(s[12]), s[13], Leaf(s[14]), 2), 3), 4), s[14], AsWritten) == Ok(Node(Node(Node(Leaf(s[0]), s[1], Leaf(s[2]), 2), s[3], Node(Leaf(s[4]), s[5], Leaf(s[6]), 2), 3), s[7], Node(Node(Leaf(s[8]), s[9], Leaf(s[10]), 2), s[11], Node(Leaf(s[12]), s[13], Leaf(s[14]), 2), 3), 4));
    InsertAllStep(Node(Node(Node(Leaf(s[0]), s[1], Leaf(s[2]), 2), s[3], Node(Leaf(s[4]), s[5], Leaf(s[6]), 2), 3), s[7], Node(Node(Leaf(s[8]), s[9], Leaf(s[10]), 2), s[11], Node(Nil, s[12], Leaf(s[13]), 2), 3), 4), s, 14, AsWritten, Node(Node(Node(Leaf(s[0]), s[1], Leaf(s[2]), 2), s[3], Node(Leaf(s[4]), s[5], Leaf(s[6]), 2), 3), s[7], Node(Node(Leaf(s[8]), s[9], Leaf(s[10]), 2), s[11], Node(Leaf(s[12]), s[13], Leaf(s[14]), 2), 3), 4));
  }

  /** Keys inserted in decreasing order: the mirror image of
      `FifteenAscending`. */
  lemma FifteenDescending(s: seq<int>)
    requires |s| == 15 && StrictlyDecreasing(s)
    ensures InsertAll(Nil, s, AsWritten).Ok?
    ensures var t := InsertAll(Nil, s, AsWritten).value;
      Avl(t) && Height(t) == 4 && Keys(t) == set x | x in s
  {
    DescendingRun(s);
    InsertDescendingStaysAvl(Nil, s);
  }

  /** The fifteen steps of `FifteenDescending` in a row. */
  lemma DescendingRun(s: seq<int>)
    requires |s| == 15 && StrictlyDecreasing(s)
    ensures InsertAll(Nil, s, AsWritten) == Ok(Node(Node(Node(Leaf(s[14]), s[13], Leaf(s[12]), 2), s[11], Node(Leaf(s[10]), s[9], Leaf(s[8]), 2), 3), s[7], Node(Node(Leaf(s[6]), s[5], Leaf(s[4]), 2), s[3], Node(Leaf(s[2]), s[1], Leaf(s[0]), 2), 3), 4))
  {
    DescendingStep1(s);
    DescendingStep2(s);
    DescendingStep3(s);
    DescendingStep4(s);
    DescendingStep5(s);
    DescendingStep6(s);
    DescendingStep7(s);
    DescendingStep8(s);
    DescendingStep9(s);
    DescendingStep10(s);
    DescendingStep11(s);
    DescendingStep12(s);
    DescendingStep13(s);
    DescendingStep14(s);
    DescendingStep15(s);
    assert s[0..] == s && s[15..] == [];
  }

  /** Step 1: `s[0]` becomes the root of the empty tree. */
  lemma DescendingStep1(s: seq<int>)
    requires |s| == 15 && StrictlyDecreasing(s)
    ensures InsertBy(Nil, s[0], AsWritten) == Ok(Leaf(s[0]))
    ensures InsertAll(Nil, s[0..], AsWritten) == InsertAll(Leaf(s[0]), s[1..], AsWritten)
  {
    assert InsertBy(Nil, s[0], AsWritten) == Ok(Leaf(s[0]));
    InsertAllStep(Nil, s, 0, AsWritten, Leaf(s[0]));
  }

  /** Step 2: `s[1]` goes to the bottom of the left spine and no rotation is needed. */
  lemma DescendingStep2(s: seq<int>)
    requires |s| == 15 && StrictlyDecreasing(s)
    ensures InsertBy(Leaf(s[0]), s[1], AsWritten) == Ok(Node(Leaf(s[1]), s[0], Nil, 2))
    ensures InsertAll(Leaf(s[0]), s[1..], AsWritten) == InsertAll(Node(Leaf(s[1]), s[0], Nil, 2), s[2..], AsWritten)
  {
    assert InsertBy(Nil, s[1], AsWritten) == Ok(Leaf(s[1]));
    DescendLeft(Leaf(s[0]), s[1], AsWritten, Leaf(s[1]));
    assert Rebalance(Node(Leaf(s[1]), s[0], Nil, 2), s[1], AsWritten) == Ok(Node(Leaf(s[1]), s[0], Nil, 2));
    InsertAllStep(Leaf(s[0]), s, 1, AsWritten, Node(Leaf(s[1]), s[0], Nil, 2));
  }

  /** Step 3: `s[2]` goes to the bottom of the left spine and the node holding `s[0]` is rotated right. */
  lemma DescendingStep3(s: seq<int>)
    requires |s| == 15 && StrictlyDecreasing(s)
    ensures InsertBy(Node(Leaf(s[1]), s[0], Nil, 2), s[2], AsWritten) == Ok(Node(Leaf(s[2]), s[1], Leaf(s[0]), 2))
    ensures InsertAll(Node(Leaf(s[1]), s[0], Nil, 2), s[2..], AsWritten) == InsertAll(Node(Leaf(s[2]), s[1], Leaf(s[0]), 2), s[3..], AsWritten)
  {
    assert InsertBy(Nil, s[2], AsWritten) == Ok(Leaf(s[2]));
    DescendLeft(Leaf(s[1]), s[2], AsWritten, Leaf(s[2]));
    assert Rebalance(Node(Leaf(s[2]), s[1], Nil, 2), s[2], AsWritten) == Ok(Node(Leaf(s[2]), s[1], Nil, 2));
    DescendLeft(Node(Leaf(s[1]), s[0], Nil, 2), s[2], AsWritten, Node(Leaf(s[2]), s[1], Nil, 2));
    assert RotateRight(Node(Node(Leaf(s[2]), s[1], Nil, 2), s[0], Nil, 3)) == Ok(Node(Leaf(s[2]), s[1], Leaf(s[0]), 2));
    assert Rebalance(Node(Node(Leaf(s[2]), s[1], Nil, 2), s[0], Nil, 3), s[2], AsWritten) == Ok(Node(Leaf(s[2]), s[1], Leaf(s[0]), 2));
    InsertAllStep(Node(Leaf(s[1]), s[0], Nil, 2), s, 2, AsWritten, Node(Leaf(s[2]), s[1], Leaf(s[0]), 2));
  }

  /** Step 4: `s[3]` goes to the bottom of the left spine and no rotation is needed. */
  lemma DescendingStep4(s: seq<int>)
    requires |s| == 15 && StrictlyDecreasing(s)
    ensures InsertBy(Node(Leaf(s[2]), s[1], Leaf(s[0]), 2), s[3], AsWritten) == Ok(Node(Node(Leaf(s[3]), s[2], Nil, 2), s[1], Leaf(s[0]), 3))
    ensures InsertAll(Node(Leaf(s[2]), s[1], Leaf(s[0]), 2), s[3..], AsWritten) == InsertAll(Node(Node(Leaf(s[3]), s[2], Nil, 2), s[1], Leaf(s[0]), 3), s[4..], AsWritten)
  {
    assert InsertBy(Nil, s[3], AsWritten) == Ok(Leaf(s[3]));
    DescendLeft(Leaf(s[2]), s[3], AsWritten, Leaf(s[3]));
    assert Rebalance(Node(Leaf(s[3]), s[2], Nil, 2), s[3], AsWritten) == Ok(Node(Leaf(s[3]), s[2], Nil, 2));
    DescendLeft(Node(Leaf(s[2]), s[1], Leaf(s[0]), 2), s[3], AsWritten, Node(Leaf(s[3]), s[2], Nil, 2));
    assert Rebalance(Node(Node(Leaf(s[3]), s[2], Nil, 2), s[1], Leaf(s[0]), 3), s[3], AsWritten) == Ok(Node(Node(Leaf(s[3]), s[2], Nil, 2), s[1], Leaf(s[0]), 3));
    InsertAllStep(Node(Leaf(s[2]), s[1], Leaf(s[0]), 2), s, 3, AsWritten, Node(Node(Leaf(s[3]), s[2], Nil, 2), s[1], Leaf(s[0]), 3));
  }

  /** Step 5: `s[4]` goes to the bottom of the left spine and the node holding `s[2]` is rotated right. */
  lemma DescendingStep5(s: seq<int>)
    requires |s| == 15 && StrictlyDecreasing(s)
    ensures InsertBy(Node(Node(Leaf(s[3]), s[2], Nil, 2), s[1], Leaf(s[0]), 3), s[4], AsWritten) == Ok(Node(Node(Leaf(s[4]), s[3], Leaf(s[2]), 2), s[1], Leaf(s[0]), 3))
    ensures InsertAll(Node(Node(Leaf(s[3]), s[2], Nil, 2), s[1], Leaf(s[0]), 3), s[4..], AsWritten) == InsertAll(Node(Node(Leaf(s[4]), s[3], Leaf(s[2]), 2), s[1], Leaf(s[0]), 3), s[5..], AsWritten)
  {
    assert InsertBy(Nil, s[4], AsWritten) == Ok(Leaf(s[4]));
    DescendLeft(Leaf(s[3]), s[4], AsWritten, Leaf(s[4]));
    assert Rebalance(Node(Leaf(s[4]), s[3], Nil, 2), s[4], AsWritten) == Ok(Node(Leaf(s[4]), s[3], Nil, 2));
    DescendLeft(Node(Leaf(s[3]), s[2], Nil, 2), s[4], AsWritten, Node(Leaf(s[4]), s[3], Nil, 2));
    assert RotateRight(Node(Node(Leaf(s[4]), s[3], Nil, 2), s[2], Nil, 3)) == Ok(Node(Leaf(s[4]), s[3], Leaf(s[2]), 2));
    assert Rebalance(Node(Node(Leaf(s[4]), s[3], Nil, 2), s[2], Nil, 3), s[4], AsWritten) == Ok(Node(Leaf(s[4]), s[3], Leaf(s[2]), 2));
    DescendLeft(Node(Node(Leaf(s[3]), s[2], Nil, 2), s[1], Leaf(s[0]), 3), s[4], AsWritten, Node(Leaf(s[4]), s[3], Leaf(s[2]), 2));
    assert Rebalance(Node(Node(Leaf(s[4]), s[3], Leaf(s[2]), 2), s[1], Leaf(s[0]), 3), s[4], AsWritten) == Ok(Node(Node(Leaf(s[4]), s[3], Leaf(s[2]), 2), s[1], Leaf(s[0]), 3));
    InsertAllStep(Node(Node(Leaf(s[3]), s[2], Nil, 2), s[1], Leaf(s[0]), 3), s, 4, AsWritten, Node(Node(Leaf(s[4]), s[3], Leaf(s[2]), 2), s[1], Leaf(s[0]), 3));
  }

  /** Step 6: `s[5]` goes to the bottom of the left spine and the node holding `s[1]` is rotated right. */
  lemma DescendingStep6(s: seq<int>)
    requires |s| == 15 && StrictlyDecreasing(s)
    ensures InsertBy(Node(Node(Leaf(s[4]), s[3], Leaf(s[2]), 2), s[1], Leaf(s[0]), 3), s[5], AsWritten) == Ok(Node(Node(Leaf(s[5]), s[4], Nil, 2), s[3], Node(Leaf(s[2]), s[1], Leaf(s[0]), 2), 3))
    ensures InsertAll(Node(Node(Leaf(s[4]), s[3], Leaf(s[2]), 2), s[1], Leaf(s[0]), 3), s[5..], AsWritten) == InsertAll(Node(Node(Leaf(s[5]), s[4], Nil, 2), s[3], Node(Leaf(s[2]), s[1], Leaf(s[0]), 2), 3), s[6..], AsWritten)
  {
    assert InsertBy(Nil, s[5], AsWritten) == Ok(Leaf(s[5]));
    DescendLeft(Leaf(s[4]), s[5], AsWritten, Leaf(s[5]));
    assert Rebalance(Node(Leaf(s[5]), s[4], Nil, 2), s[5], AsWritten) == Ok(Node(Leaf(s[5]), s[4], Nil, 2));
    DescendLeft(Node(Leaf(s[4]), s[3], Leaf(s[2]), 2), s[5], AsWritten, Node(Leaf(s[5]), s[4], Nil, 2));
    assert Rebalance(Node(Node(Leaf(s[5]), s[4], Nil, 2), s[3], Leaf(s[2]), 3), s[5], AsWritten) == Ok(Node(Node(Leaf(s[5]), s[4], Nil, 2), s[3], Leaf(s[2]), 3));
    DescendLeft(Node(Node(Leaf(s[4]), s[3], Leaf(s[2]), 2), s[1], Leaf(s[0]), 3), s[5], AsWritten, Node(Node(Leaf(s[5]), s[4], Nil, 2), s[3], Leaf(s[2]), 3));
    assert RotateRight(Node(Node(Node(Leaf(s[5]), s[4], Nil, 2), s[3], Leaf(s[2]), 3), s[1], Leaf(s[0]), 4)) == Ok(Node(Node(Leaf(s[5]), s[4], Nil, 2), s[3], Node(Leaf(s[2]), s[1], Leaf(s[0]), 2), 3));
    assert Rebalance(Node(Node(Node(Leaf(s[5]), s[4], Nil, 2), s[3], Leaf(s[2]), 3), s[1], Leaf(s[0]), 4), s[5], AsWritten) == Ok(Node(Node(Leaf(s[5]), s[4], Nil, 2), s[3], Node(Leaf(s[2]), s[1], Leaf(s[0]), 2), 3));
    InsertAllStep(Node(Node(Leaf(s[4]), s[3], Leaf(s[2]), 2), s[1], Leaf(s[0]), 3), s, 5, AsWritten, Node(Node(Leaf(s[5]), s[4], Nil, 2), s[3], Node(Leaf(s[2]), s[1], Leaf(s[0]), 2), 3));
  }

  /** Step 7: `s[6]` goes to the bottom of the left spine and the node holding `s[4]` is rotated right. */
  lemma DescendingStep7(s: seq<int>)
    requires |s| == 15 && StrictlyDecreasing(s)
    ensures InsertBy(Node(Node(Leaf(s[5]), s[4], Nil, 2), s[3], Node(Leaf(s[2]), s[1], Leaf(s[0]), 2), 3), s[6], AsWritten) == Ok(Node(Node(Leaf(s[6]), s[5], Leaf(s[4]), 2), s[3], Node(Leaf(s[2]), s[1], Leaf(s[0]), 2), 3))
    ensures InsertAll(Node(Node(Leaf(s[5]), s[4], Nil, 2), s[3], Node(Leaf(s[2]), s[1], Leaf(s[0]), 2), 3), s[6..], AsWritten) == InsertAll(Node(Node(Leaf(s[6]), s[5], Leaf(s[4]), 2), s[3], Node(Leaf(s[2]), s[1], Leaf(s[0]), 2), 3), s[7..], AsWritten)
  {
    assert InsertBy(Nil, s[6], AsWritten) == Ok(Leaf(s[6]));
    DescendLeft(Leaf(s[5]), s[6], AsWritten, Leaf(s[6]));
    assert Rebalance(Node(Leaf(s[6]), s[5], Nil, 2), s[6], AsWritten) == Ok(Node(Leaf(s[6]), s[5], Nil, 2));
    DescendLeft(Node(Leaf(s[5]), s[4], Nil, 2), s[6], AsWritten, Node(Leaf(s[6]), s[5], Nil, 2));
    assert RotateRight(Node(Node(Leaf(s[6]), s[5], Nil, 2), s[4], Nil, 3)) == Ok(Node(Leaf(s[6]), s[5], Leaf(s[4]), 2));
    assert Rebalance(Node(Node(Leaf(s[6]), s[5], Nil, 2), s[4], Nil, 3), s[6], AsWritten) == Ok(Node(Leaf(s[6]), s[5], Leaf(s[4]), 2));
    DescendLeft(Node(Node(Leaf(s[5]), s[4], Nil, 2), s[3], Node(Leaf(s[2]), s[1], Leaf(s[0]), 2), 3), s[6], AsWritten, Node(Leaf(s[6]), s[5], Leaf(s[4]), 2));
    assert Rebalance(Node(Node(Leaf(s[6]), s[5], Leaf(s[4]), 2), s[3], Node(Leaf(s[2]), s[1], Leaf(s[0]), 2), 3), s[6], AsWritten) == Ok(Node(Node(Leaf(s[6]), s[5], Leaf(s[4]), 2), s[3], Node(Leaf(s[2]), s[1], Leaf(s[0]), 2), 3));
    InsertAllStep(Node(Node(Leaf(s[5]), s[4], Nil, 2), s[3], Node(Leaf(s[2]), s[1], Leaf(s[0]), 2), 3), s, 6, AsWritten, Node(Node(Leaf(s[6]), s[5], Leaf(s[4]), 2), s[3], Node(Leaf(s[2]), s[1], Leaf(s[0]), 2), 3));
  }

  /** Step 8: `s[7]` goes to the bottom of the left spine and no rotation is needed. */
  lemma DescendingStep8(s: seq<int>)
    requires |s| == 15 && StrictlyDecreasing(s)
    ensures InsertBy(Node(Node(Leaf(s[6]), s[5], Leaf(s[4]), 2), s[3], Node(Leaf(s[2]), s[1], Leaf(s[0]), 2), 3), s[7], AsWritten) == Ok(Node(Node(Node(Leaf(s[7]), s[6], Nil, 2), s[5], Leaf(s[4]), 3), s[3], Node(Leaf(s[2]), s[1], Leaf(s[0]), 2), 4))
    ensures InsertAll(Node(Node(Leaf(s[6]), s[5], Leaf(s[4]), 2), s[3], Node(Leaf(s[2]), s[1], Leaf(s[0]), 2), 3), s[7..], AsWritten) == InsertAll(Node(Node(Node(Leaf(s[7]), s[6], Nil, 2), s[5], Leaf(s[4]), 3), s[3], Node(Leaf(s[2]), s[1], Leaf(s[0]), 2), 4), s[8..], AsWritten)
  {
    assert InsertBy(Nil, s[7], AsWritten) == Ok(Leaf(s[7]));
    DescendLeft(Leaf(s[6]), s[7], AsWritten, Leaf(s[7]));
    assert Rebalance(Node(Leaf(s[7]), s[6], Nil, 2), s[7], AsWritten) == Ok(Node(Leaf(s[7]), s[6], Nil, 2));
    DescendLeft(Node(Leaf(s[6]), s[5], Leaf(s[4]), 2), s[7], AsWritten, Node(Leaf(s[7]), s[6], Nil, 2));
    assert Rebalance(Node(Node(Leaf(s[7]), s[6], Nil, 2), s[5], Leaf(s[4]), 3), s[7], AsWritten) == Ok(Node(Node(Leaf(s[7]), s[6], Nil, 2), s[5], Leaf(s[4]), 3));
    DescendLeft(Node(Node(Leaf(s[6]), s[5], Leaf(s[4]), 2), s[3], Node(Leaf(s[2]), s[1], Leaf(s[0]), 2), 3), s[7], AsWritten, Node(Node(Leaf(s[7]), s[6], Nil, 2), s[5], Leaf(s[4]), 3));
    assert Rebalance(Node(Node(Node(Leaf(s[7]), s[6], Nil, 2), s[5], Leaf(s[4]), 3), s[3], Node(Leaf(s[2]), s[1], Leaf(s[0]), 2), 4), s[7], AsWritten) == Ok(Node(Node(Node(Leaf(s[7]), s[6], Nil, 2), s[5], Leaf(s[4]), 3), s[3], Node(Leaf(s[2]), s[1], Leaf(s[0]), 2), 4));
    InsertAllStep(Node(Node(Leaf(s[6]), s[5], Leaf(s[4]), 2), s[3], Node(Leaf(s[2]), s[1], Leaf(s[0]), 2), 3), s, 7, AsWritten, Node(Node(Node(Leaf(s[7]), s[6], Nil, 2), s[5], Leaf(s[4]), 3), s[3], Node(Leaf(s[2]), s[1], Leaf(s[0]), 2), 4));
  }

  /** Step 9: `s[8]` goes to the bottom of the left spine and the node holding `s[6]` is rotated right. */
  lemma DescendingStep9(s: seq<int>)
    requires |s| == 15 && StrictlyDecreasing(s)
    ensures InsertBy(Node(Node(Node(Leaf(s[7]), s[6], Nil, 2), s[5], Leaf(s[4]), 3), s[3], Node(Leaf(s[2]), s[1], Leaf(s[0]), 2), 4), s[8], AsWritten) == Ok(Node(Node(Node(Leaf(s[8]), s[7], Leaf(s[6]), 2), s[5], Leaf(s[4]), 3), s[3], Node(Leaf(s[2]), s[1], Leaf(s[0]), 2), 4))
    ensures InsertAll(Node(Node(Node(Leaf(s[7]), s[6], Nil, 2), s[5], Leaf(s[4]), 3), s[3], Node(Leaf(s[2]), s[1], Leaf(s[0]), 2), 4), s[8..], AsWritten) == InsertAll(Node(Node(Node(Leaf(s[8]), s[7], Leaf(s[6]), 2), s[5], Leaf(s[4]), 3), s[3], Node(Leaf(s[2]), s[1], Leaf(s[0]), 2), 4), s[9..], AsWritten)
  {
    assert InsertBy(Nil, s[8], AsWritten) == Ok(Leaf(s[8]));
    DescendLeft(Leaf(s[7]), s[8], AsWritten, Leaf(s[8]));
    assert Rebalance(Node(Leaf(s[8]), s[7], Nil, 2), s[8], AsWritten) == Ok(Node(Leaf(s[8]), s[7], Nil, 2));
    DescendLeft(Node(Leaf(s[7]), s[6], Nil, 2), s[8], AsWritten, Node(Leaf(s[8]), s[7], Nil, 2));
    assert RotateRight(Node(Node(Leaf(s[8]), s[7], Nil, 2), s[6], Nil, 3)) == Ok(Node(Leaf(s[8]), s[7], Leaf(s[6]), 2));
    assert Rebalance(Node(Node(Leaf(s[8]), s[7], Nil, 2), s[6], Nil, 3), s[8], AsWritten) == Ok(Node(Leaf(s[8]), s[7], Leaf(s[6]), 2));
    DescendLeft(Node(Node(Leaf(s[7]), s[6], Nil, 2), s[5], Leaf(s[4]), 3), s[8], AsWritten, Node(Leaf(s[8]), s[7], Leaf(s[6]), 2));
    assert Rebalance(Node(Node(Leaf(s[8]), s[7], Leaf(s[6]), 2), s[5], Leaf(s[4]), 3), s[8], AsWritten) == Ok(Node(Node(Leaf(s[8]), s[7], Leaf(s[6]), 2), s[5], Leaf(s[4]), 3));
    DescendLeft(Node(Node(Node(Leaf(s[7]), s[6], Nil, 2), s[5], Leaf(s[4]), 3), s[3], Node(Leaf(s[2]), s[1], Leaf(s[0]), 2), 4), s[8], AsWritten, Node(Node(Leaf(s[8]), s[7], Leaf(s[6]), 2), s[5], Leaf(s[4]), 3));
    assert Rebalance(Node(Node(Node(Leaf(s[8]), s[7], Leaf(s[6]), 2), s[5], Leaf(s[4]), 3), s[3], Node(Leaf(s[2]), s[1], Leaf(s[0]), 2), 4), s[8], AsWritten) == Ok(Node(Node(Node(Leaf(s[8]), s[7], Leaf(s[6]), 2), s[5], Leaf(s[4]), 3), s[3], Node(Leaf(s[2]), s[1], Leaf(s[0]), 2), 4));
    InsertAllStep(Node(Node(Node(Leaf(s[7]), s[6], Nil, 2), s[5], Leaf(s[4]), 3), s[3], Node(Leaf(s[2]), s[1], Leaf(s[0]), 2), 4), s, 8, AsWritten, Node(Node(Node(Leaf(s[8]), s[7], Leaf(s[6]), 2), s[5], Leaf(s[4]), 3), s[3], Node(Leaf(s[2]), s[1], Leaf(s[0]), 2), 4));
  }

  /** Step 10: `s[9]` goes to the bottom of the left spine and the node holding `s[5]` is rotated right. */
  lemma DescendingStep10(s: seq<int>)
    requires |s| == 15 && StrictlyDecreasing(s)
    ensures InsertBy(Node(Node(Node(Leaf(s[8]), s[7], Leaf(s[6]), 2), s[5], Leaf(s[4]), 3), s[3], Node(Leaf(s[2]), s[1], Leaf(s[0]), 2), 4), s[9], AsWritten) == Ok(Node(Node(Node(Leaf(s[9]), s[8], Nil, 2), s[7], Node(Leaf(s[6]), s[5], Leaf(s[4]), 2), 3), s[3], Node(Leaf(s[2]), s[1], Leaf(s[0]), 2), 4))
    ensures InsertAll(Node(Node(Node(Leaf(s[8]), s[7], Leaf(s[6]), 2), s[5], Leaf(s[4]), 3), s[3], Node(Leaf(s[2]), s[1], Leaf(s[0]), 2), 4), s[9..], AsWritten) == InsertAll(Node(Node(Node(Leaf(s[9]), s[8], Nil, 2), s[7], Node(Leaf(s[6]), s[5], Leaf(s[4]), 2), 3), s[3], Node(Leaf(s[2]), s[1], Leaf(s[0]), 2), 4), s[10..], AsWritten)
  {
    assert InsertBy(Nil, s[9], AsWritten) == Ok(Leaf(s[9]));
    DescendLeft(Leaf(s[8]), s[9], AsWritten, Leaf(s[9]));
    assert Rebalance(Node(Leaf(s[9]), s[8], Nil, 2), s[9], AsWritten) == Ok(Node(Leaf(s[9]), s[8], Nil, 2));
    DescendLeft(Node(Leaf(s[8]), s[7], Leaf(s[6]), 2), s[9], AsWritten, Node(Leaf(s[9]), s[8], Nil, 2));
    assert Rebalance(Node(Node(Leaf(s[9]), s[8], Nil, 2), s[7], Leaf(s[6]), 3), s[9], AsWritten) == Ok(Node(Node(Leaf(s[9]), s[8], Nil, 2), s[7], Leaf(s[6]), 3));
    DescendLeft(Node(Node(Leaf(s[8]), s[7], Leaf(s[6]), 2), s[5], Leaf(s[4]), 3), s[9], AsWritten, Node(Node(Leaf(s[9]), s[8], Nil, 2), s[7], Leaf(s[6]), 3));
    assert RotateRight(Node(Node(Node(Leaf(s[9]), s[8], Nil, 2), s[7], Leaf(s[6]), 3), s[5], Leaf(s[4]), 4)) == Ok(Node(Node(Leaf(s[9]), s[8], Nil, 2), s[7], Node(Leaf(s[6]), s[5], Leaf(s[4]), 2), 3));
    assert Rebalance(Node(Node(Node(Leaf(s[9]), s[8], Nil, 2), s[7], Leaf(s[6]), 3), s[5], Leaf(s[4]), 4), s[9], AsWritten) == Ok(Node(Node(Leaf(s[9]), s[8], Nil, 2), s[7], Node(Leaf(s[6]), s[5], Leaf(s[4]), 2), 3));
    DescendLeft(Node(Node(Node(Leaf(s[8]), s[7], Leaf(s[6]), 2), s[5], Leaf(s[4]), 3), s[3], Node(Leaf(s[2]), s[1], Leaf(s[0]), 2), 4), s[9], AsWritten, Node(Node(Leaf(s[9]), s[8], Nil, 2), s[7], Node(Leaf(s[6]), s[5], Leaf(s[4]), 2), 3));
    assert Rebalance(Node(Node(Node(Leaf(s[9]), s[8], Nil, 2), s[7], Node(Leaf(s[6]), s[5], Leaf(s[4]), 2), 3), s[3], Node(Leaf(s[2]), s[1], Leaf(s[0]), 2), 4), s[9], AsWritten) == Ok(Node(Node(Node(Leaf(s[9]), s[8], Nil, 2), s[7], Node(Leaf(s[6]), s[5], Leaf(s[4]), 2), 3), s[3], Node(Leaf(s[2]), s[1], Leaf(s[0]), 2), 4));
    InsertAllStep(Node(Node(Node(Leaf(s[8]), s[7], Leaf(s[6]), 2), s[5], Leaf(s[4]), 3), s[3], Node(Leaf(s[2]), s[1], Leaf(s[0]), 2), 4), s, 9, AsWritten, Node(Node(Node(Leaf(s[9]), s[8], Nil, 2), s[7], Node(Leaf(s[6]), s[5], Leaf(s[4]), 2), 3), s[3], Node(Leaf(s[2]), s[1], Leaf(s[0]), 2), 4));
  }

  /** Step 11: `s[10]` goes to the bottom of the left spine and the node holding `s[8]` is rotated right. */
  lemma DescendingStep11(s: seq<int>)
    requires |s| == 15 && StrictlyDecreasing(s)
    ensures InsertBy(Node(Node(Node(Leaf(s[9]), s[8], Nil, 2), s[7], Node(Leaf(s[6]), s[5], Leaf(s[4]), 2), 3), s[3], Node(Leaf(s[2]), s[1], Leaf(s[0]), 2), 4), s[10], AsWritten) == Ok(Node(Node(Node(Leaf(s[10]), s[9], Leaf(s[8]), 2), s[7], Node(Leaf(s[6]), s[5], Leaf(s[4]), 2), 3), s[3], Node(Leaf(s[2]), s[1], Leaf(s[0]), 2), 4))
    ensures InsertAll(Node(Node(Node(Leaf(s[9]), s[8], Nil, 2), s[7], Node(Leaf(s[6]), s[5], Leaf(s[4]), 2), 3), s[3], Node(Leaf(s[2]), s[1], Leaf(s[0]), 2), 4), s[10..], AsWritten) == InsertAll(Node(Node(Node(Leaf(s[10]), s[9], Leaf(s[8]), 2), s[7], Node(Leaf(s[6]), s[5], Leaf(s[4]), 2), 3), s[3], Node(Leaf(s[2]), s[1], Leaf(s[0]), 2), 4), s[11..], AsWritten)
  {
    assert InsertBy(Nil, s[10], AsWritten) == Ok(Leaf(s[10]));
    DescendLeft(Leaf(s[9]), s[10], AsWritten, Leaf(s[10]));
    assert Rebalance(Node(Leaf(s[10]), s[9], Nil, 2), s[10], AsWritten) == Ok(Node(Leaf(s[10]), s[9], Nil, 2));
    DescendLeft(Node(Leaf(s[9]), s[8], Nil, 2), s[10], AsWritten, Node(Leaf(s[10]), s[9], Nil, 2));
    assert RotateRight(Node(Node(Leaf(s[10]), s[9], Nil, 2), s[8], Nil, 3)) == Ok(Node(Leaf(s[10]), s[9], Leaf(s[8]), 2));
    assert Rebalance(Node(Node(Leaf(s[10]), s[9], Nil, 2), s[8], Nil, 3), s[10], AsWritten) == Ok(Node(Leaf(s[10]), s[9], Leaf(s[8]), 2));
    DescendLeft(Node(Node(Leaf(s[9]), s[8], Nil, 2), s[7], Node(Leaf(s[6]), s[5], Leaf(s[4]), 2), 3), s[10], AsWritten, Node(Leaf(s[10]), s[9], Leaf(s[8]), 2));
    assert Rebalance(Node(Node(Leaf(s[10]), s[9], Leaf(s[8]), 2), s[7], Node(Leaf(s[6]), s[5], Leaf(s[4]), 2), 3), s[10], AsWritten) == Ok(Node(Node(Leaf(s[10]), s[9], Leaf(s[8]), 2), s[7], Node(Leaf(s[6]), s[5], Leaf(s[4]), 2), 3));
    DescendLeft(Node(Node(Node(Leaf(s[9]), s[8], Nil, 2), s[7], Node(Leaf(s[6]), s[5], Leaf(s[4]), 2), 3), s[3], Node(Leaf(s[2]), s[1], Leaf(s[0]), 2), 4), s[10], AsWritten, Node(Node(Leaf(s[10]), s[9], Leaf(s[8]), 2), s[7], Node(Leaf(s[6]), s[5], Leaf(s[4]), 2), 3));
    assert Rebalance(Node(Node(Node(Leaf(s[10]), s[9], Leaf(s[8]), 2), s[7], Node(Leaf(s[6]), s[5], Leaf(s[4]), 2), 3), s[3], Node(Leaf(s[2]), s[1], Leaf(s[0]), 2), 4), s[10], AsWritten) == Ok(Node(Node(Node(Leaf(s[10]), s[9], Leaf(s[8]), 2), s[7], Node(Leaf(s[6]), s[5], Leaf(s[4]), 2), 3), s[3], Node(Leaf(s[2]), s[1], Leaf(s[0]), 2), 4));
    InsertAllStep(Node(Node(Node(Leaf(s[9]), s[8], Nil, 2), s[7], Node(Leaf(s[6]), s[5], Leaf(s[4]), 2), 3), s[3], Node(Leaf(s[2]), s[1], Leaf(s[0]), 2), 4), s, 10, AsWritten, Node(Node(Node(Leaf(s[10]), s[9], Leaf(s[8]), 2), s[7], Node(Leaf(s[6]), s[5], Leaf(s[4]), 2), 3), s[3], Node(Leaf(s[2]), s[1], Leaf(s[0]), 2), 4));
  }

  /** Step 12: `s[11]` goes to the bottom of the left spine and the node holding `s[3]` is rotated right. */
  lemma DescendingStep12(s: seq<int>)
    requires |s| == 15 && StrictlyDecreasing(s)
    ensures InsertBy(Node(Node(Node(Leaf(s[10]), s[9], Leaf(s[8]), 2), s[7], Node(Leaf(s[6]), s[5], Leaf(s[4]), 2), 3), s[3], Node(Leaf(s[2]), s[1], Leaf(s[0]), 2), 4), s[11], AsWritten) == Ok(Node(Node(Node(Leaf(s[11]), s[10], Nil, 2), s[9], Leaf(s[8]), 3), s[7], Node(Node(Leaf(s[6]), s[5], Leaf(s[4]), 2), s[3], Node(Leaf(s[2]), s[1], Leaf(s[0]), 2), 3), 4))
    ensures InsertAll(Node(Node(Node(Leaf(s[10]), s[9], Leaf(s[8]), 2), s[7], Node(Leaf(s[6]), s[5], Leaf(s[4]), 2), 3), s[3], Node(Leaf(s[2]), s[1], Leaf(s[0]), 2), 4), s[11..], AsWritten) == InsertAll(Node(Node(Node(Leaf(s[11]), s[10], Nil, 2), s[9], Leaf(s[8]), 3), s[7], Node(Node(Leaf(s[6]), s[5], Leaf(s[4]), 2), s[3], Node(Leaf(s[2]), s[1], Leaf(s[0]), 2), 3), 4), s[12..], AsWritten)
  {
    assert InsertBy(Nil, s[11], AsWritten) == Ok(Leaf(s[11]));
    DescendLeft(Leaf(s[10]), s[11], AsWritten, Leaf(s[11]));
    assert Rebalance(Node(Leaf(s[11]), s[10], Nil, 2), s[11], AsWritten) == Ok(Node(Leaf(s[11]), s[10], Nil, 2));
    DescendLeft(Node(Leaf(s[10]), s[9], Leaf(s[8]), 2), s[11], AsWritten, Node(Leaf(s[11]), s[10], Nil, 2));
    assert Rebalance(Node(Node(Leaf(s[11]), s[10], Nil, 2), s[9], Leaf(s[8]), 3), s[11], AsWritten) == Ok(Node(Node(Leaf(s[11]), s[10], Nil, 2), s[9], Leaf(s[8]), 3));
    DescendLeft(Node(Node(Leaf(s[10]), s[9], Leaf(s[8]), 2), s[7], Node(Leaf(s[6]), s[5], Leaf(s[4]), 2), 3), s[11], AsWritten, Node(Node(Leaf(s[11]), s[10], Nil, 2), s[9], Leaf(s[8]), 3));
    assert Rebalance(Node(Node(Node(Leaf(s[11]), s[10], Nil, 2), s[9], Leaf(s[8]), 3), s[7], Node(Leaf(s[6]), s[5], Leaf(s[4]), 2), 4), s[11], AsWritten) == Ok(Node(Node(Node(Leaf(s[11]), s[10], Nil, 2), s[9], Leaf(s[8]), 3), s[7], Node(Leaf(s[6]), s[5], Leaf(s[4]), 2), 4));
    DescendLeft(Node(Node(Node(Leaf(s[10]), s[9], Leaf(s[8]), 2), s[7], Node(Leaf(s[6]), s[5], Leaf(s[4]), 2), 3), s[3], Node(Leaf(s[2]), s[1], Leaf(s[0]), 2), 4), s[11], AsWritten, Node(Node(Node(Leaf(s[11]), s[10], Nil, 2), s[9], Leaf(s[8]), 3), s[7], Node(Leaf(s[6]), s[5], Leaf(s[4]), 2), 4));
    assert RotateRight(Node(Node(Node(Node(Leaf(s[11]), s[10], Nil, 2), s[9], Leaf(s[8]), 3), s[7], Node(Leaf(s[6]), s[5], Leaf(s[4]), 2), 4), s[3], Node(Leaf(s[2]), s[1], Leaf(s[0]), 2), 5)) == Ok(Node(Node(Node(Leaf(s[11]), s[10], Nil, 2), s[9], Leaf(s[8]), 3), s[7], Node(Node(Leaf(s[6]), s[5], Leaf(s[4]), 2), s[3], Node(Leaf(s[2]), s[1], Leaf(s[0]), 2), 3), 4));
    assert Rebalance(Node(Node(Node(Node(Leaf(s[11]), s[10], Nil, 2), s[9], Leaf(s[8]), 3), s[7], Node(Leaf(s[6]), s[5], Leaf(s[4]), 2), 4), s[3], Node(Leaf(s[2]), s[1], Leaf(s[0]), 2), 5), s[11], AsWritten) == Ok(Node(Node(Node(Leaf(s[11]), s[10], Nil, 2), s[9], Leaf(s[8]), 3), s[7], Node(Node(Leaf(s[6]), s[5], Leaf(s[4]), 2), s[3], Node(Leaf(s[2]), s[1], Leaf(s[0]), 2), 3), 4));
    InsertAllStep(Node(Node(Node(Leaf(s[10]), s[9], Leaf(s[8]), 2), s[7], Node(Leaf(s[6]), s[5], Leaf(s[4]), 2), 3), s[3], Node(Leaf(s[2]), s[1], Leaf(s[0]), 2), 4), s, 11, AsWritten, Node(Node(Node(Leaf(s[11]), s[10], Nil, 2), s[9], Leaf(s[8]), 3), s[7], Node(Node(Leaf(s[6]), s[5], Leaf(s[4]), 2), s[3], Node(Leaf(s[2]), s[1], Leaf(s[0]), 2), 3), 4));
  }

  /** Step 13: `s[12]` goes to the bottom of the left spine and the node holding `s[10]` is rotated right. */
  lemma DescendingStep13(s: seq<int>)
    requires |s| == 15 && StrictlyDecreasing(s)
    ensures InsertBy(Node(Node(Node(Leaf(s[11]), s[10], Nil, 2), s[9], Leaf(s[8]), 3), s[7], Node(Node(Leaf(s[6]), s[5], Leaf(s[4]), 2), s[3], Node(Leaf(s[2]), s[1], Leaf(s[0]), 2), 3), 4), s[12], AsWritten) == Ok(Node(Node(Node(Leaf(s[12]), s[11], Leaf(s[10]), 2), s[9], Leaf(s[8]), 3), s[7], Node(Node(Leaf(s[6]), s[5], Leaf(s[4]), 2), s[3], Node(Leaf(s[2]), s[1], Leaf(s[0]), 2), 3), 4))
    ensures InsertAll(Node(Node(Node(Leaf(s[11]), s[10], Nil, 2), s[9], Leaf(s[8]), 3), s[7], Node(Node(Leaf(s[6]), s[5], Leaf(s[4]), 2), s[3], Node(Leaf(s[2]), s[1], Leaf(s[0]), 2), 3), 4), s[12..], AsWritten) == InsertAll(Node(Node(Node(Leaf(s[12]), s[11], Leaf(s[10]), 2), s[9], Leaf(s[8]), 3), s[7], Node(Node(Leaf(s[6]), s[5], Leaf(s[4]), 2), s[3], Node(Leaf(s[2]), s[1], Leaf(s[0]), 2), 3), 4), s[13..], AsWritten)
  {
    assert InsertBy(Nil, s[12], AsWritten) == Ok(Leaf(s[12]));
    DescendLeft(Leaf(s[11]), s[12], AsWritten, Leaf(s[12]));
    assert Rebalance(Node(Leaf(s[12]), s[11], Nil, 2), s[12], AsWritten) == Ok(Node(Leaf(s[12]), s[11], Nil, 2));
    DescendLeft(Node(Leaf(s[11]), s[10], Nil, 2), s[12], AsWritten, Node(Leaf(s[12]), s[11], Nil, 2));
    assert RotateRight(Node(Node(Leaf(s[12]), s[11], Nil, 2), s[10], Nil, 3)) == Ok(Node(Leaf(s[12]), s[11], Leaf(s[10]), 2));
    assert Rebalance(Node(Node(Leaf(s[12]), s[11], Nil, 2), s[10], Nil, 3), s[12], AsWritten) == Ok(Node(Leaf(s[12]), s[11], Leaf(s[10]), 2));
    DescendLeft(Node(Node(Leaf(s[11]), s[10], Nil, 2), s[9], Leaf(s[8]), 3), s[12], AsWritten, Node(Leaf(s[12]), s[11], Leaf(s[10]), 2));
    assert Rebalance(Node(Node(Leaf(s[12]), s[11], Leaf(s[10]), 2), s[9], Leaf(s[8]), 3), s[12], AsWritten) == Ok(Node(Node(Leaf(s[12]), s[11], Leaf(s[10]), 2), s[9], Leaf(s[8]), 3));
    DescendLeft(Node(Node(Node(Leaf(s[11]), s[10], Nil, 2), s[9], Leaf(s[8]), 3), s[7], Node(Node(Leaf(s[6]), s[5], Leaf(s[4]), 2), s[3], Node(Leaf(s[2]), s[1], Leaf(s[0]), 2), 3), 4), s[12], AsWritten, Node(Node(Leaf(s[12]), s[11], Leaf(s[10]), 2), s[9], Leaf(s[8]), 3));
    assert Rebalance(Node(Node(Node(Leaf(s[12]), s[11], Leaf(s[10]), 2), s[9], Leaf(s[8]), 3), s[7], Node(Node(Leaf(s[6]), s[5], Leaf(s[4]), 2), s[3], Node(Leaf(s[2]), s[1], Leaf(s[0]), 2), 3), 4), s[12], AsWritten) == Ok(Node(Node(Node(Leaf(s[12]), s[11], Leaf(s[10]), 2), s[9], Leaf(s[8]), 3), s[7], Node(Node(Leaf(s[6]), s[5], Leaf(s[4]), 2), s[3], Node(Leaf(s[2]), s[1], Leaf(s[0]), 2), 3), 4));
    InsertAllStep(Node(Node(Node(Leaf(s[11]), s[10], Nil, 2), s[9], Leaf(s[8]), 3), s[7], Node(Node(Leaf(s[6]), s[5], Leaf(s[4]), 2), s[3], Node(Leaf(s[2]), s[1], Leaf(s[0]), 2), 3), 4), s, 12, AsWritten, Node(Node(Node(Leaf(s[12]), s[11], Leaf(s[10]), 2), s[9], Leaf(s[8]), 3), s[7], Node(Node(Leaf(s[6]), s[5], Leaf(s[4]), 2), s[3], Node(Leaf(s[2]), s[1], Leaf(s[0]), 2), 3), 4));
  }

  /** Step 14: `s[13]` goes to the bottom of the left spine and the node holding `s[9]` is rotated right. */
  lemma DescendingStep14(s: seq<int>)
    requires |s| == 15 && StrictlyDecreasing(s)
    ensures InsertBy(Node(Node(Node(Leaf(s[12]), s[11], Leaf(s[10]), 2), s[9], Leaf(s[8]), 3), s[7], Node(Node(Leaf(s[6]), s[5], Leaf(s[4]), 2), s[3], Node(Leaf(s[2]), s[1], Leaf(s[0]), 2), 3), 4), s[13], AsWritten) == Ok(Node(Node(Node(Leaf(s[13]), s[12], Nil, 2), s[11], Node(Leaf(s[10]), s[9], Leaf(s[8]), 2), 3), s[7], Node(Node(Leaf(s[6]), s[5], Leaf(s[4]), 2), s[3], Node(Leaf(s[2]), s[1], Leaf(s[0]), 2), 3), 4))
    ensures InsertAll(Node(Node(Node(Leaf(s[12]), s[11], Leaf(s[10]), 2), s[9], Leaf(s[8]), 3), s[7], Node(Node(Leaf(s[6]), s[5], Leaf(s[4]), 2), s[3], Node(Leaf(s[2]), s[1], Leaf(s[0]), 2), 3), 4), s[13..], AsWritten) == InsertAll(Node(Node(Node(Leaf(s[13]), s[12], Nil, 2), s[11], Node(Leaf(s[10]), s[9], Leaf(s[8]), 2), 3), s[7], Node(Node(Leaf(s[6]), s[5], Leaf(s[4]), 2), s[3], Node(Leaf(s[2]), s[1], Leaf(s[0]), 2), 3), 4), s[14..], AsWritten)
  {
    assert InsertBy(Nil, s[13], AsWritten) == Ok(Leaf(s[13]));
    DescendLeft(Leaf(s[12]), s[13], AsWritten, Leaf(s[13]));
    assert Rebalance(Node(Leaf(s[13]), s[12], Nil, 2), s[13], AsWritten) == Ok(Node(Leaf(s[13]), s[12], Nil, 2));
    DescendLeft(Node(Leaf(s[12]), s[11], Leaf(s[10]), 2), s[13], AsWritten, Node(Leaf(s[13]), s[12], Nil, 2));
    assert Rebalance(Node(Node(Leaf(s[13]), s[12], Nil, 2), s[11], Leaf(s[10]), 3), s[13], AsWritten) == Ok(Node(Node(Leaf(s[13]), s[12], Nil, 2), s[11], Leaf(s[10]), 3));
    DescendLeft(Node(Node(Leaf(s[12]), s[11], Leaf(s[10]), 2), s[9], Leaf(s[8]), 3), s[13], AsWritten, Node(Node(Leaf(s[13]), s[12], Nil, 2), s[11], Leaf(s[10]), 3));
    assert RotateRight(Node(Node(Node(Leaf(s[13]), s[12], Nil, 2), s[11], Leaf(s[10]), 3), s[9], Leaf(s[8]), 4)) == Ok(Node(Node(Leaf(s[13]), s[12], Nil, 2), s[11], Node(Leaf(s[10]), s[9], Leaf(s[8]), 2), 3));
    assert Rebalance(Node(Node(Node(Leaf(s[13]), s[12], Nil, 2), s[11], Leaf(s[10]), 3), s[9], Leaf(s[8]), 4), s[13], AsWritten) == Ok(Node(Node(Leaf(s[13]), s[12], Nil, 2), s[11], Node(Leaf(s[10]), s[9], Leaf(s[8]), 2), 3));
    DescendLeft(Node(Node(Node(Leaf(s[12]), s[11], Leaf(s[10]), 2), s[9], Leaf(s[8]), 3), s[7], Node(Node(Leaf(s[6]), s[5], Leaf(s[4]), 2), s[3], Node(Leaf(s[2]), s[1], Leaf(s[0]), 2), 3), 4), s[13], AsWritten, Node(Node(Leaf(s[13]), s[12], Nil, 2), s[11], Node(Leaf(s[10]), s[9], Leaf(s[8]), 2), 3));
    assert Rebalance(Node(Node(Node(Leaf(s[13]), s[12], Nil, 2), s[11], Node(Leaf(s[10]), s[9], Leaf(s[8]), 2), 3), s[7], Node(Node(Leaf(s[6]), s[5], Leaf(s[4]), 2), s[3], Node(Leaf(s[2]), s[1], Leaf(s[0]), 2), 3), 4), s[13], AsWritten) == Ok(Node(Node(Node(Leaf(s[13]), s[12], Nil, 2), s[11], Node(Leaf(s[10]), s[9], Leaf(s[8]), 2), 3), s[7], Node(Node(Leaf(s[6]), s[5], Leaf(s[4]), 2), s[3], Node(Leaf(s[2]), s[1], Leaf(s[0]), 2), 3), 4));
    InsertAllStep(Node(Node(Node(Leaf(s[12]), s[11], Leaf(s[10]), 2), s[9], Leaf(s[8]), 3), s[7], Node(Node(Leaf(s[6]), s[5], Leaf(s[4]), 2), s[3], Node(Leaf(s[2]), s[1], Leaf(s[0]), 2), 3), 4), s, 13, AsWritten, Node(Node(Node(Leaf(s[13]), s[12], Nil, 2), s[11], Node(Leaf(s[10]), s[9], Leaf(s[8]), 2), 3), s[7], Node(Node(Leaf(s[6]), s[5], Leaf(s[4]), 2), s[3], Node(Leaf(s[2]), s[1], Leaf(s[0]), 2), 3), 4));
  }

  /** Step 15: `s[14]` goes to the bottom of the left spine and the node holding `s[12]` is rotated right. */
  lemma DescendingStep15(s: seq<int>)
    requires |s| == 15 && StrictlyDecreasing(s)
    ensures InsertBy(Node(Node(Node(Leaf(s[13]), s[12], Nil, 2), s[11], Node(Leaf(s[10]), s[9], Leaf(s[8]), 2), 3), s[7], Node(Node(Leaf(s[6]), s[5], Leaf(s[4]), 2), s[3], Node(Leaf(s[2]), s[1], Leaf(s[0]), 2), 3), 4), s[14], AsWritten) == Ok(Node(Node(Node(Leaf(s[14]), s[13], Leaf(s[12]), 2), s[11], Node(Leaf(s[10]), s[9], Leaf(s[8]), 2), 3), s[7], Node(Node(Leaf(s[6]), s[5], Leaf(s[4]), 2), s[3], Node(Leaf(s[2]), s[1], Leaf(s[0]), 2), 3), 4))
    ensures InsertAll(Node(Node(Node(Leaf(s[13]), s[12], Nil, 2), s[11], Node(Leaf(s[10]), s[9], Leaf(s[8]), 2), 3), s[7], Node(Node(Leaf(s[6]), s[5], Leaf(s[4]), 2), s[3], Node(Leaf(s[2]), s[1], Leaf(s[0]), 2), 3), 4), s[14..], AsWritten) == InsertAll(Node(Node(Node(Leaf(s[14]), s[13], Leaf(s[12]), 2), s[11], Node(Leaf(s[10]), s[9], Leaf(s[8]), 2), 3), s[7], Node(Node(Leaf(s[6]), s[5], Leaf(s[4]), 2), s[3], Node(Leaf(s[2]), s[1], Leaf(s[0]), 2), 3), 4), s[15..], AsWritten)
  {
    assert InsertBy(Nil, s[14], AsWritten) == Ok(Leaf(s[14]));
    DescendLeft(Leaf(s[13]), s[14], AsWritten, Leaf(s[14]));
    assert Rebalance(Node(Leaf(s[14]), s[13], Nil, 2), s[14], AsWritten) == Ok(Node(Leaf(s[14]), s[13], Nil, 2));
    DescendLeft(Node(Leaf(s[13]), s[12], Nil, 2), s[14], AsWritten, Node(Leaf(s[14]), s[13], Nil, 2));
    assert RotateRight(Node(Node(Leaf(s[14]), s[13], Nil, 2), s[12], Nil, 3)) == Ok(Node(Leaf(s[14]), s[13], Leaf(s[12]), 2));
    assert Rebalance(Node(Node(Leaf(s[14]), s[13], Nil, 2), s[12], Nil, 3), s[14], AsWritten) == Ok(Node(Leaf(s[14]), s[13], Leaf(s[12]), 2));
    DescendLeft(Node(Node(Leaf(s[13]), s[12], Nil, 2), s[11], Node(Leaf(s[10]), s[9], Leaf(s[8]), 2), 3), s[14], AsWritten, Node(Leaf(s[14]), s[13], Leaf(s[12]), 2));
    assert Rebalance(Node(Node(Leaf(s[14]), s[13], Leaf(s[12]), 2), s[11], Node(Leaf(s[10]), s[9], Leaf(s[8]), 2), 3), s[14], AsWritten) == Ok(Node(Node(Leaf(s[14]), s[13], Leaf(s[12]), 2), s[11], Node(Leaf(s[10]), s[9], Leaf(s[8]), 2), 3));
    DescendLeft(Node(Node(Node(Leaf(s[13]), s[12], Nil, 2), s[11], Node(Leaf(s[10]), s[9], Leaf(s[8]), 2), 3), s[7], Node(Node(Leaf(s[6]), s[5], Leaf(s[4]), 2), s[3], Node(Leaf(s[2]), s[1], Leaf(s[0]), 2), 3), 4), s[14], AsWritten, Node(Node(Leaf(s[14]), s[13], Leaf(s[12]), 2), s[11], Node(Leaf(s[10]), s[9], Leaf(s[8]), 2), 3));
    assert Rebalance(Node(Node(Node(Leaf(s[14]), s[13], Leaf(s[12]), 2), s[11], Node(Leaf(s[10]), s[9], Leaf(s[8]), 2), 3), s[7], Node(Node(Leaf(s[6]), s[5], Leaf(s[4]), 2), s[3], Node(Leaf(s[2]), s[1], Leaf(s[0]), 2), 3), 4), s[14], AsWritten) == Ok(Node(Node(Node(Leaf(s[14]), s[13], Leaf(s[12]), 2), s[11], Node(Leaf(s[10]), s[9], Leaf(s[8]), 2), 3), s[7], Node(Node(Leaf(s[6]), s[5], Leaf(s[4]), 2), s[3], Node(Leaf(s[2]), s[1], Leaf(s[0]), 2), 3), 4));
    InsertAllStep(Node(Node(Node(Leaf(s[13]), s[12], Nil, 2), s[11], Node(Leaf(s[10]), s[9], Leaf(s[8]), 2), 3), s[7], Node(Node(Leaf(s[6]), s[5], Leaf(s[4]), 2), s[3], Node(Leaf(s[2]), s[1], Leaf(s[0]), 2), 3), 4), s, 14, AsWritten, Node(Node(Node(Leaf(s[14]), s[13], Leaf(s[12]), 2), s[11], Node(Leaf(s[10]), s[9], Leaf(s[8]), 2), 3), s[7], Node(Node(Leaf(s[6]), s[5], Leaf(s[4]), 2), s[3], Node(Leaf(s[2]), s[1], Leaf(s[0]), 2), 3), 4));
  }

}

=== FILE: avl_scenarios.dfy ===
/** Small insertion scenarios for `tree.avl.AvlTreeNode`: the four
    rotation cases on three keys, and the deeper Left-Right case that leaves
    the source's tree unbalanced. Stated for any keys a < b < c rather than
    for literals, which covers the source's 10, 20, 30 examples and every
    other choice of three keys. */
module AvlScenarios {
  import opened Common
  import opened AvlTree
  import opened AvlBalance

  /** One insertion step below a leaf, and one above it. */
  lemma {:induction false} InsertNextToLeaf(k: int, x: int, v: Variant)
    ensures x < k ==> InsertBy(Leaf(k), x, v) == Ok(Node(Leaf(x), k, Nil, 2))
    ensures k < x ==> InsertBy(Leaf(k), x, v) == Ok(Node(Nil, k, Leaf(x), 2))
  {
    assert InsertBy(Nil, x, v) == Ok(Leaf(x));
  }

  /** Three insertions in a row, each step given. */
  lemma InsertThree(t0: Tree, x: int, y: int, z: int, v: Variant, t1: Tree, t2: Tree, res: Result<Tree>)
    requires InsertBy(t0, x, v) == Ok(t1) && InsertBy(t1, y, v) == Ok(t2) && InsertBy(t2, z, v) == res
    ensures InsertAll(t0, [x, y, z], v) == res
  {
    assert [x, y, z][1..] == [y, z] && [y, z][1..] == [z] && [z][1..] == [];
    assert InsertAll(t2, [z], v) == (if res.Err? then Err(res.error) else InsertAll(res.value, [], v));
    assert InsertAll(t1, [y, z], v) == InsertAll(t2, [z], v);
  }

  /** Left-Left: inserting c, b, a (descending) makes a single right
      rotation, leaving b over a and c with height 2. */
  lemma LeftLeftScenario(a: int, b: int, c: int, v: Variant)
    requires a < b < c
    ensures InsertAll(Nil, [c, b, a], v) == Ok(Node(Leaf(a), b, Leaf(c), 2))
  {
    assert InsertBy(Nil, c, v) == Ok(Leaf(c));
    InsertNextToLeaf(c, b, v);
    InsertNextToLeaf(b, a, v);
    var n := Node(Node(Leaf(a), b, Nil, 2), c, Nil, 3);
    assert RotateRight(n) == Ok(Node(Leaf(a), b, Leaf(c), 2));
    InsertThree(Nil, c, b, a, v, Leaf(c), Node(Leaf(b), c, Nil, 2), Ok(Node(Leaf(a), b, Leaf(c), 2)));
  }

  /** Right-Right: inserting a, b, c (ascending) makes a single left
      rotation, leaving the same tree. */
  lemma RightRightScenario(a: int, b: int, c: int, v: Variant)
    requires a < b < c
    ensures InsertAll(Nil, [a, b, c], v) == Ok(Node(Leaf(a), b, Leaf(c), 2))
  {
    assert InsertBy(Nil, a, v) == Ok(Leaf(a));
    InsertNextToLeaf(a, b, v);
    InsertNextToLeaf(b, c, v);
    var n := Node(Nil, a, Node(Nil, b, Leaf(c), 2), 3);
    assert RotateLeft(n) == Ok(Node(Leaf(a), b, Leaf(c), 2));
    InsertThree(Nil, a, b, c, v, Leaf(a), Node(Nil, a, Leaf(b), 2), Ok(Node(Leaf(a), b, Leaf(c), 2)));
  }

  /** The source's Left-Right case: after c and a, inserting b reaches
      `doubleRotateWithLeft`, which right-rotates the left child a although
      a has no left child, so `insert` throws. */
  lemma LeftRightThrows(a: int, b: int, c: int)
    requires a < b < c
    ensures InsertAll(Nil, [c, a, b], AsWritten) == Err(NullPointer)
  {
    assert InsertBy(Nil, c, AsWritten) == Ok(Leaf(c));
    InsertNextToLeaf(c, a, AsWritten);
    InsertNextToLeaf(a, b, AsWritten);
    var n := Node(Node(Nil, a, Leaf(b), 2), c, Nil, 3);
    assert RotateRight(n.left) == Err(NullPointer);
    InsertThree(Nil, c, a, b, AsWritten, Leaf(c), Node(Leaf(a), c, Nil, 2), Err(NullPointer));
  }

  /** The source's Right-Left case (a, c, b) throws the same way. */
  lemma RightLeftThrows(a: int, b: int, c: int)
    requires a < b < c
    ensures InsertAll(Nil, [a, c, b], AsWritten) == Err(NullPointer)
  {
    assert InsertBy(Nil, a, AsWritten) == Ok(Leaf(a));
    InsertNextToLeaf(a, c, AsWritten);
    InsertNextToLeaf(c, b, AsWritten);
    var n := Node(Nil, a, Node(Leaf(b), c, Nil, 2), 3);
    assert RotateLeft(n.right) == Err(NullPointer);
    InsertThree(Nil, a, c, b, AsWritten, Leaf(a), Node(Nil, a, Leaf(c), 2), Err(NullPointer));
  }

  /** With the intended rotations the Left-Right sequence gives b over a
      and c. */
  lemma LeftRightCorrected(a: int, b: int, c: int)
    requires a < b < c
    ensures InsertAll(Nil, [c, a, b], Corrected) == Ok(Node(Leaf(a), b, Leaf(c), 2))
  {
    assert InsertBy(Nil, c, Corrected) == Ok(Leaf(c));
    InsertNextToLeaf(c, a, Corrected);
    InsertNextToLeaf(a, b, Corrected);
    var n := Node(Node(Nil, a, Leaf(b), 2), c, Nil, 3);
    assert RotateLeft(n.left) == Ok(Node(Leaf(a), b, Nil, 2));
    assert RotateRight(Node(Node(Leaf(a), b, Nil, 2), c, Nil, 3)) == Ok(Node(Leaf(a), b, Leaf(c), 2));
    InsertThree(Nil, c, a, b, Corrected, Leaf(c), Node(Leaf(a), c, Nil, 2), Ok(Node(Leaf(a), b, Leaf(c), 2)));
  }

  /** With the intended rotations the Right-Left sequence gives the same
      tree. */
  lemma RightLeftCorrected(a: int, b: int, c: int)
    requires a < b < c
    ensures InsertAll(Nil, [a, c, b], Corrected) == Ok(Node(Leaf(a), b, Leaf(c), 2))
  {
    assert InsertBy(Nil, a, Corrected) == Ok(Leaf(a));
    InsertNextToLeaf(a, c, Corrected);
    InsertNextToLeaf(c, b, Corrected);
    var n := Node(Nil, a, Node(Leaf(b), c, Nil, 2), 3);
    assert RotateRight(n.right) == Ok(Node(Nil, b, Leaf(c), 2));
    assert RotateLeft(Node(Nil, a, Node(Nil, b, Leaf(c), 2), 3)) == Ok(Node(Leaf(a), b, Leaf(c), 2));
    InsertThree(Nil, a, c, b, Corrected, Leaf(a), Node(Nil, a, Leaf(c), 2), Ok(Node(Leaf(a), b, Leaf(c), 2)));
  }

  /** When the Left-Right case arises deeper in a tree the source's rotations
      do not throw but leave the tree unbalanced: from the AVL tree
      p(m(a, q), e) with a < m < q < x < p < e, inserting x yields a tree of
      height 6 that is no longer balanced. */
  lemma {:induction false} LeftRightUnbalances(a: int, m: int, q: int, x: int, p: int, e: int)
    requires a < m < q < x < p < e
    ensures var t := Node(Node(Leaf(a), m, Leaf(q), 2), p, Leaf(e), 3);
      && Avl(t)
      && Insert(t, x).Ok?
      && !Balanced(Insert(t, x).value)
      && Height(Insert(t, x).value) == 6
  {
    var inner := Node(Leaf(a), m, Leaf(q), 2);
    var t := Node(inner, p, Leaf(e), 3);
    assert Avl(inner) by {
      assert Keys(inner) == {a, m, q};
    }
    assert Avl(t) by {
      assert Keys(inner) == {a, m, q};
      assert Keys(Leaf(e)) == {e};
    }
    InsertNextToLeaf(q, x, AsWritten);
    var nq := Node(Nil, q, Leaf(x), 2);
    var nm := Node(Leaf(a), m, nq, 3);
    DescendRight(inner, x, AsWritten, nq);
    assert Rebalance(nm, x, AsWritten) == Ok(nm);
    var n := Node(nm, p, Leaf(e), 4);
    DescendLeft(t, x, AsWritten, nm);
    assert Rebalance(n, x, AsWritten) == DoubleRotateWithLeft(n);
    var l := Node(Nil, a, Node(Nil, m, nq, 3), 4);
    assert RotateRight(nm) == Ok(l);
    var res := Node(Node(l, p, Nil, 5), e, Nil, 6);
    assert RotateLeft(Node(l, p, Leaf(e), 4)) == Ok(res);
    assert Insert(t, x) == Ok(res);
    assert !Balanced(res) by {
      assert Height(res.left) - Height(res.right) == 5;
    }
  }
}

=== FILE: avl_tree.dfy ===
/** The height-balanced search tree of `tree.avl.AvlTreeNode`.

    Nodes are immutable values here: the Java code rewires `left`/`right` in
    place and returns the new subtree root, which a value model expresses by
    returning the rebuilt subtree. Every dereference the Java code makes of a
    possibly-absent child is checked, and a null dereference becomes
    `Err(NullPointer)`. The unused `parent` argument of `insert` is dropped. */
module AvlTree {
  import opened Common

  /** A node caches its own height; `Nil` is the absent subtree. */
  datatype Tree = Nil | Node(left: Tree, key: int, right: Tree, height: int)

  /** `heigh`: the cached height, 0 for an absent subtree. */
  function Height(t: Tree): int {
    if t.Nil? then 0 else t.height
  }

  /** The node the constructor creates: a leaf of height 1. */
  function Leaf(x: int): (r: Tree)
    ensures r.Node? && r.left.Nil? && r.right.Nil?
    ensures Keys(r) == {x} && Height(r) == 1 && Avl(r)
  {
    Node(Nil, x, Nil, 1)
  }

  function Keys(t: Tree): set<int> {
    match t
    case Nil => {}
    case Node(l, k, r, _) => Keys(l) + {k} + Keys(r)
  }

  function InOrder(t: Tree): seq<int> {
    match t
    case Nil => []
    case Node(l, k, r, _) => InOrder(l) + [k] + InOrder(r)
  }

  /** Strict search-tree order: smaller keys left, larger keys right. */
  predicate Bst(t: Tree) {
    match t
    case Nil => true
    case Node(l, k, r, _) =>
      && Bst(l) && Bst(r)
      && (forall a :: a in Keys(l) ==> a < k)
      && (forall b :: b in Keys(r) ==> k < b)
  }

  /** Every cached height is one more than the taller child's. */
  predicate HeightsOk(t: Tree) {
    match t
    case Nil => true
    case Node(l, k, r, h) => HeightsOk(l) && HeightsOk(r) && h == 1 + Max(Height(l), Height(r))
  }

  /** Children's heights differ by at most one, everywhere. */
  predicate Balanced(t: Tree) {
    match t
    case Nil => true
    case Node(l, k, r, _) => Balanced(l) && Balanced(r) && -1 <= Height(l) - Height(r) <= 1
  }

  predicate Avl(t: Tree) {
    Bst(t) && HeightsOk(t) && Balanced(t)
  }

  lemma {:induction false} HeightNonNegative(t: Tree)
    requires HeightsOk(t)
    ensures Height(t) >= 0
    ensures t.Node? ==> Height(t) >= 1
  {
    if t.Node? {
      HeightNonNegative(t.left);
      HeightNonNegative(t.right);
    }
  }

  /** A search tree lists its keys in strictly increasing order. */
  lemma {:induction false} BstInOrderIncreasing(t: Tree)
    requires Bst(t)
    ensures StrictlyIncreasing(InOrder(t))
    ensures forall v :: v in InOrder(t) <==> v in Keys(t)
  {
    if t.Node? {
      BstInOrderIncreasing(t.left);
      BstInOrderIncreasing(t.right);
      var a, b := InOrder(t.left), InOrder(t.right);
      assert InOrder(t) == a + [t.key] + b;
      forall i, j | 0 <= i < j < |InOrder(t)| ensures InOrder(t)[i] < InOrder(t)[j] {
        var s := InOrder(t);
        if j < |a| {
          assert s[i] == a[i] && s[j] == a[j];
        } else if i > |a| {
          assert s[i] == b[i - |a| - 1] && s[j] == b[j - |a| - 1];
        } else if i == |a| {
          assert s[j] == b[j - |a| - 1] && s[j] in Keys(t.right);
        } else if j == |a| {
          assert s[i] == a[i] && s[i] in Keys(t.left);
        } else {
          assert s[i] == a[i] && s[i] in Keys(t.left);
          assert s[j] == b[j - |a| - 1] && s[j] in Keys(t.right);
        }
      }
    }
  }

  // ---------------------------------------------------------------- rotations

  /** Turning `(a p b) q c` into `a p (b q c)` keeps search order; cached
      heights play no part. */
  lemma RotationKeepsBst(a: Tree, p: int, b: Tree, q: int, c: Tree, h1: int, h2: int, h3: int, h4: int)
    ensures Bst(Node(Node(a, p, b, h1), q, c, h2)) ==> Bst(Node(a, p, Node(b, q, c, h3), h4))
    ensures Bst(Node(a, p, Node(b, q, c, h3), h4)) ==> Bst(Node(Node(a, p, b, h1), q, c, h2))
  {
    var low, high := Node(a, p, b, h1), Node(b, q, c, h3);
    if Bst(Node(low, q, c, h2)) {
      assert Bst(low) && p in Keys(low);
      assert Bst(high);
    }
    if Bst(Node(a, p, high, h4)) {
      assert Bst(high) && q in Keys(high);
      assert Bst(low);
    }
  }

  /** `singleRotateRight(z)`: the left child `y` becomes the root. `z.getLeft()`
      and `y.getRight()` throw on a missing node. `z` gets its new height
      before `y`, so both heights are fresh. */
  function RotateRight(z: Tree): (r: Result<Tree>)
    ensures r.Err? <==> z.Nil? || z.left.Nil?
    ensures r.Ok? ==> r.value.Node? && InOrder(r.value) == InOrder(z) && Keys(r.value) == Keys(z)
    ensures r.Ok? && Bst(z) ==> Bst(r.value)
    ensures r.Ok? && HeightsOk(z.left) && HeightsOk(z.right) ==> HeightsOk(r.value)
  {
    if z.Nil? || z.left.Nil? then Err(NullPointer)
    else
      var y := z.left;
      var z' := Node(y.right, z.key, z.right, 1 + Max(Height(y.right), Height(z.right)));
      RotationKeepsBst(y.left, y.key, y.right, z.key, z.right, y.height, z.height, z'.height, 1 + Max(Height(y.left), Height(z')));
      Ok(Node(y.left, y.key, z', 1 + Max(Height(y.left), Height(z'))))
  }

  /** `singleRotateLeft(z)`: the mirror image of `RotateRight`. */
  function RotateLeft(z: Tree): (r: Result<Tree>)
    ensures r.Err? <==> z.Nil? || z.right.Nil?
    ensures r.Ok? ==> r.value.Node? && InOrder(r.value) == InOrder(z) && Keys(r.value) == Keys(z)
    ensures r.Ok? && Bst(z) ==> Bst(r.value)
    ensures r.Ok? && HeightsOk(z.left) && HeightsOk(z.right) ==> HeightsOk(r.value)
  {
    if z.Nil? || z.right.Nil? then Err(NullPointer)
    else
      var y := z.right;
      var z' := Node(z.left, z.key, y.left, 1 + Max(Height(z.left), Height(y.left)));
      RotationKeepsBst(z.left, z.key, y.left, y.key, y.right, z'.height, 1 + Max(Height(z'), Height(y.right)), y.height, z.height);
      Ok(Node(z', y.key, y.right, 1 + Max(Height(z'), Height(y.right))))
  }

  /** `doubleRotateWithLeft` as written: it rotates the LEFT child to the
      RIGHT and then the node to the LEFT (the textbook Left-Right case turns
      the left child left, then the node right). */
  function DoubleRotateWithLeft(z: Tree): (r: Result<Tree>)
    requires z.Node?
    ensures r.Ok? ==> Keys(r.value) == Keys(z)
    ensures r.Ok? && Bst(z) ==> Bst(r.value)
    ensures r.Ok? && HeightsOk(z.left) && HeightsOk(z.right) ==> HeightsOk(r.value)
  {
    var l :- RotateRight(z.left);
    RotateLeft(Node(l, z.key, z.right, z.height))
  }

  /** `doubleRotateWithRight` as written: the RIGHT child is rotated LEFT,
      then the node RIGHT. */
  function DoubleRotateWithRight(z: Tree): (r: Result<Tree>)
    requires z.Node?
    ensures r.Ok? ==> Keys(r.value) == Keys(z)
    ensures r.Ok? && Bst(z) ==> Bst(r.value)
    ensures r.Ok? && HeightsOk(z.left) && HeightsOk(z.right) ==> HeightsOk(r.value)
  {
    var rr :- RotateLeft(z.right);
    RotateRight(Node(z.left, z.key, rr, z.height))
  }

  /** The intended Left-Right rotation: left child left, then node right. */
  function RotateLeftRight(z: Tree): (r: Result<Tree>)
    requires z.Node?
    ensures r.Ok? ==> Keys(r.value) == Keys(z)
    ensures r.Ok? && Bst(z) ==> Bst(r.value)
    ensures r.Ok? && HeightsOk(z.left) && HeightsOk(z.right) ==> HeightsOk(r.value)
  {
    var l :- RotateLeft(z.left);
    RotateRight(Node(l, z.key, z.right, z.height))
  }

  /** The intended Right-Left rotation: right child right, then node left. */
  function RotateRightLeft(z: Tree): (r: Result<Tree>)
    requires z.Node?
    ensures r.Ok? ==> Keys(r.value) == Keys(z)
    ensures r.Ok? && Bst(z) ==> Bst(r.value)
    ensures r.Ok? && HeightsOk(z.left) && HeightsOk(z.right) ==> HeightsOk(r.value)
  {
    var rr :- RotateRight(z.right);
    RotateLeft(Node(z.left, z.key, rr, z.height))
  }

  // ---------------------------------------------------------------- insertion

  /** Which double rotations `insert` uses: the ones in the source, or the
      intended ones. Everything else is shared. */
  datatype Variant = AsWritten | Corrected

  /** The rebalancing tail of `insert`, applied to the node whose child has
      just been replaced and whose height has been recomputed. The four cases
      are tried in the source's order; reading `getData()` of a missing child
      throws. */
  function Rebalance(n: Tree, x: int, v: Variant): (r: Result<Tree>)
    requires n.Node?
    ensures r.Ok? ==> Keys(r.value) == Keys(n)
    ensures r.Ok? && Bst(n) ==> Bst(r.value)
    ensures r.Ok? && HeightsOk(n) ==> HeightsOk(r.value)
  {
    var balance := Height(n.left) - Height(n.right);
    if balance > 1 && n.left.Nil? then Err(NullPointer)
    else if balance > 1 && x < n.left.key then RotateRight(n)
    else if balance < -1 && n.right.Nil? then Err(NullPointer)
    else if balance < -1 && x > n.right.key then RotateLeft(n)
    else if balance > 1 && x > n.left.key then
      (if v == AsWritten then DoubleRotateWithLeft(n) else RotateLeftRight(n))
    else if balance < -1 && x < n.right.key then
      (if v == AsWritten then DoubleRotateWithRight(n) else RotateRightLeft(n))
    else Ok(n)
  }

  /** `insert(root, parent, data)`: descend, attach a leaf, then on the way
      back recompute each ancestor's height and rebalance it. An equal key
      returns the node untouched. Whatever tree comes back keeps the search
      order, exact heights and the key set plus `x`. */
  function InsertBy(t: Tree, x: int, v: Variant): (r: Result<Tree>)
    ensures r.Ok? && Bst(t) ==> Bst(r.value) && Keys(r.value) == Keys(t) + {x}
    ensures r.Ok? && Bst(t) && HeightsOk(t) ==> HeightsOk(r.value)
    decreases t
  {
    match t
    case Nil => Ok(Leaf(x))
    case Node(l, k, rt, _) =>
      if x < k then
        var l' :- InsertBy(l, x, v);
        var n := Node(l', k, rt, 1 + Max(Height(l'), Height(rt)));
        Rebalance(n, x, v)
      else if x > k then
        var r' :- InsertBy(rt, x, v);
        var n := Node(l, k, r', 1 + Max(Height(l), Height(r')));
        Rebalance(n, x, v)
      else
        Ok(t)
  }

  /** The source's `insert`. */
  function Insert(t: Tree, x: int): (r: Result<Tree>)
    ensures r.Ok? && Bst(t) ==> Bst(r.value) && Keys(r.value) == Keys(t) + {x}
    ensures r.Ok? && Bst(t) && HeightsOk(t) ==> HeightsOk(r.value)
  {
    InsertBy(t, x, AsWritten)
  }

  /** `insert` with the double rotations turned the intended way. */
  function InsertCorrected(t: Tree, x: int): (r: Result<Tree>)
    ensures r.Ok? && Bst(t) ==> Bst(r.value) && Keys(r.value) == Keys(t) + {x}
    ensures r.Ok? && Bst(t) && HeightsOk(t) ==> HeightsOk(r.value)
  {
    InsertBy(t, x, Corrected)
  }

  /** Inserting the keys of `s` one after another; the first exception stops. */
  function InsertAll(t: Tree, s: seq<int>, v: Variant): (r: Result<Tree>)
    ensures r.Ok? && Bst(t) ==> Bst(r.value) && Keys(r.value) == Keys(t) + set x | x in s
    ensures r.Ok? && Bst(t) && HeightsOk(t) ==> HeightsOk(r.value)
    decreases |s|
  {
    if |s| == 0 then Ok(t)
    else
      var t' :- InsertBy(t, s[0], v);
      var r := InsertAll(t', s[1..], v);
      assert (set x | x in s) == {s[0]} + set x | x in s[1..];
      r
  }
}

=== FILE: binary_search.dfy ===
/** `searching.BinarySearch`: iterative and recursive halving search. */
module BinarySearch {
  import opened Common

  /** Java's `left + (right - left) / 2` on `int`: the difference and the
      sum wrap to 32 bits and `/` truncates toward zero. Without overflow
      this is the midpoint of the range; when `right - left` overflows, the
      probe is negative or lies at least two past `right`, except for one
      range whose probe is `Integer.MAX_VALUE`, one past any array. */
  function Mid(left: int, right: int): (m: int)
    requires IsInt(left) && IsInt(right)
    ensures IsInt(m)
    ensures left <= right && right - left <= IntMax ==> m == left + (right - left) / 2 && left <= m <= right
    ensures right - left > IntMax ==>
      || m < 0
      || (0x4000_0000 <= m && right + 2 <= m)
      || (left == IntMin && right == IntMax - 1 && m == IntMax)
  {
    var d := WrapInt(right - left);
    var half := if d >= 0 then d / 2 else -((-d) / 2);
    MidWraps(left, right, d, half);
    WrapInt(left + half)
  }

  /** The case analysis behind `Mid`'s contract. */
  lemma MidWraps(left: int, right: int, d: int, half: int)
    requires IsInt(left) && IsInt(right)
    requires d == WrapInt(right - left)
    requires half == if d >= 0 then d / 2 else -((-d) / 2)
    ensures left <= right && right - left <= IntMax ==>
      WrapInt(left + half) == left + (right - left) / 2 && left <= WrapInt(left + half) <= right
    ensures right - left > IntMax ==>
      || WrapInt(left + half) < 0
      || (0x4000_0000 <= WrapInt(left + half) && right + 2 <= WrapInt(left + half))
      || (left == IntMin && right == IntMax - 1 && WrapInt(left + half) == IntMax)
  {
    if right - left > IntMax {
      WrapOnce(right - left);
      assert d == right - left - 0x1_0000_0000 < 0;
      assert -0x4000_0000 <= half <= 0;
      if left + half < IntMin {
        WrapOnce(left + half);
      }
    } else if left <= right {
      assert d == right - left;
    }
  }

  /** The four-argument `searchRecursive` on the closed index range
      `[left, right]`: a null array or an empty range gives -1; otherwise
      probe `Mid(left, right)` and recurse into the half that can hold the
      target. Probing outside the array throws. `left` and `right` are
      `int`s and a Java array has at most `Integer.MAX_VALUE` entries, so
      `mid + 1` and `mid - 1` never wrap once `mid` is inside the array.
      A probe past `right` after an overflow sends the next call to a
      range with a larger `right`, so the recursion still ends. */
  function SearchRange(input: Option<seq<int>>, target: int, left: int, right: int): (r: Result<int>)
    requires IsInt(left) && IsInt(right)
    requires input.Some? ==> |input.value| <= IntMax
    ensures r.Err? ==> r.error == IndexOutOfBounds
    ensures input.Some? && 0 <= left && right < |input.value| ==> r.Ok?
    ensures r.Ok? && r.value != -1 ==>
      input.Some? && 0 <= r.value < |input.value| && input.value[r.value] == target
    ensures r.Ok? && r.value != -1 && right - left <= IntMax ==> left <= r.value <= right
    ensures input.Some? && |input.value| <= 0x4000_0000 && left <= right && right - left > IntMax ==>
      r == Err(IndexOutOfBounds)
    decreases if right - left > IntMax then 1 else 0, if right - left > IntMax then IntMax - right else right - left
  {
    if input.None? || left > right then Ok(-1)
    else
      var mid := Mid(left, right);
      if !(0 <= mid < |input.value|) then Err(IndexOutOfBounds)
      else if input.value[mid] == target then Ok(mid)
      else if input.value[mid] < target then SearchRange(input, target, mid + 1, right)
      else SearchRange(input, target, left, mid - 1)
  }

  /** One step of the range search on a range inside the array, where
      nothing wraps. */
  lemma SearchRangeStep(s: seq<int>, target: int, left: int, right: int)
    requires IsInt(left) && IsInt(right) && 0 <= left && right < |s| <= IntMax
    ensures left > right ==> SearchRange(Some(s), target, left, right) == Ok(-1)
    ensures left <= right ==> var mid := left + (right - left) / 2;
      SearchRange(Some(s), target, left, right)
      == if s[mid] == target then Ok(mid)
         else if s[mid] < target then SearchRange(Some(s), target, mid + 1, right)
         else SearchRange(Some(s), target, left, mid - 1)
  {
    if left <= right {
      assert Mid(left, right) == left + (right - left) / 2;
    }
  }

  /** A range of five entries whose width overflows `int`: the probe is
      negative and the search throws. */
  lemma OverflowingRangeThrows()
    ensures SearchRange(Some([0, 1, 2, 3, 4]), 4, IntMin + 10, IntMax) == Err(IndexOutOfBounds)
  {
  }

  /** On a sorted array and a range inside it, -1 means the target does not
      occur in the range. */
  lemma {:induction false} SearchRangeComplete(s: seq<int>, target: int, left: int, right: int)
    requires IsInt(left) && IsInt(right) && 0 <= left && right < |s| <= IntMax
    ensures Sorted(s) ==> (SearchRange(Some(s), target, left, right) == Ok(-1) <==>
      forall k :: left <= k <= right ==> s[k] != target)
    decreases right - left
  {
    SearchRangeStep(s, target, left, right);
    if Sorted(s) && left <= right {
      var mid := left + (right - left) / 2;
      if s[mid] != target {
        MissOutsideHalf(s, target, left, mid, right);
        if s[mid] < target {
          SearchRangeComplete(s, target, mid + 1, right);
        } else {
          SearchRangeComplete(s, target, left, mid - 1);
        }
      }
    }
  }

  /** In a sorted array, a probe that misses rules out its own side of the
      range. */
  lemma MissOutsideHalf(s: seq<int>, target: int, left: int, mid: int, right: int)
    requires Sorted(s) && 0 <= left <= mid <= right < |s| && s[mid] != target
    ensures s[mid] < target ==> ((forall k :: left <= k <= right ==> s[k] != target)
      <==> (forall k :: mid + 1 <= k <= right ==> s[k] != target))
    ensures s[mid] > target ==> ((forall k :: left <= k <= right ==> s[k] != target)
      <==> (forall k :: left <= k <= mid - 1 ==> s[k] != target))
  {
  }

  /** The two-argument `searchRecursive`: a null array throws
      `IllegalArgumentException`; otherwise search the whole array. */
  function SearchRecursive(input: Option<seq<int>>, target: int): (r: Result<int>)
    requires input.Some? ==> |input.value| <= IntMax
    ensures r.Err? <==> input.None?
    ensures r.Err? ==> r.error == IllegalArgument
    ensures r.Ok? ==> -1 <= r.value < |input.value|
    ensures r.Ok? && r.value != -1 ==> input.value[r.value] == target
    ensures r.Ok? && Sorted(input.value) ==> (r.value == -1 <==> target !in input.value)
  {
    if input.None? then Err(IllegalArgument)
    else
      SearchRangeComplete(input.value, target, 0, |input.value| - 1);
      SearchRange(input, target, 0, |input.value| - 1)
  }

  /** `search`: the loop version. A null or empty array gives -1; otherwise
      it probes the same indices as the recursive search and returns the
      same result. */
  method Search(input: Option<seq<int>>, target: int) returns (r: int)
    requires input.Some? ==> |input.value| <= IntMax
    ensures input.None? ==> r == -1
    ensures input.Some? ==> SearchRecursive(input, target) == Ok(r)
    ensures input.Some? ==> -1 <= r < |input.value|
    ensures input.Some? && r != -1 ==> input.value[r] == target
    ensures input.Some? && Sorted(input.value) ==> (r == -1 <==> target !in input.value)
  {
    if input.None? {
      return -1;
    }
    var a := input.value;
    if |a| == 0 {
      return -1;
    }
    var left, right := 0, |a| - 1;
    while left <= right
      invariant 0 <= left <= right + 1 <= |a|
      invariant SearchRange(input, target, left, right) == SearchRange(input, target, 0, |a| - 1)
      decreases right - left
    {
      var mid := left + (right - left) / 2;
      SearchRangeStep(a, target, left, right);
      if a[mid] == target {
        return mid;
      } else if a[mid] < target {
        left := mid + 1;
      } else {
        right := mid - 1;
      }
    }
    return -1;
  }
}

=== FILE: binary_strings.dfy ===
/** `recursion.BinaryStrings`: every string of `n` bits, written into the
    first `n` slots of an array. Each printed array becomes an element of a
    returned sequence, and the array the method leaves behind is returned
    alongside. */
module BinaryStrings {
  import opened Common

  /** Bit `i` of `k`, least significant first. */
  function Bit(k: nat, i: nat): int {
    if i == 0 then k % 2 else Bit(k / 2, i - 1)
  }

  /** The number whose bits, least significant first, are `b`. */
  function Value(b: seq<int>): nat
    requires forall i :: 0 <= i < |b| ==> b[i] == 0 || b[i] == 1
  {
    if |b| == 0 then 0 else b[0] + 2 * Value(b[1..])
  }

  /** The constructor `BinaryStrings(n)`: `n` zeros (a negative size
      throws). */
  function New(n: int): (r: Result<seq<int>>)
    ensures r.Err? <==> n < 0
    ensures r.Err? ==> r.error == NegativeArraySize
    ensures r.Ok? ==> |r.value| == n && forall i :: 0 <= i < n ==> r.value[i] == 0
  {
    if n < 0 then Err(NegativeArraySize) else Ok(Repeat(0, n))
  }

  /** `bin(n)` on `array`: for `n <= 0` the array is printed once;
      otherwise slot `n - 1` is set to 0 and the slots below it run through
      all their values, then likewise with slot `n - 1` set to 1. A call
      with `n` beyond the array's length writes outside it, so `n` must
      fit. The result is the printed arrays in order and the final array. */
  function Bin(arr: seq<int>, n: int): (r: (seq<seq<int>>, seq<int>))
    requires n <= |arr|
    ensures n <= 0 ==> r == ([arr], arr)
    ensures n > 0 ==> |r.0| == Pow2(n)
    ensures |r.1| == |arr|
    ensures forall i :: 0 <= i < n ==> r.1[i] == 1
    ensures forall i :: n <= i < |arr| && 0 <= i ==> r.1[i] == arr[i]
    ensures forall k :: 0 <= k < |r.0| ==> |r.0[k]| == |arr|
    ensures forall k, i :: 0 <= k < |r.0| && n <= i < |arr| && 0 <= i ==> r.0[k][i] == arr[i]
    ensures forall k, i :: 0 <= k < |r.0| && 0 <= i < n ==> r.0[k][i] == Bit(k, i)
    decreases n
  {
    if n <= 0 then ([arr], arr)
    else
      var (zeros, a0) := Bin(arr[n - 1 := 0], n - 1);
      var (ones, a1) := Bin(a0[n - 1 := 1], n - 1);
      assert forall k :: 0 <= k < |zeros| ==> zeros[k][n - 1] == arr[n - 1 := 0][n - 1];
      assert forall k :: 0 <= k < |ones| ==> ones[k][n - 1] == a0[n - 1 := 1][n - 1];
      HalvesBits(zeros, ones, n);
      (zeros + ones, a1)
  }

  /** The bits of `k` in the lower and upper half of `[0, 2^n)`: the
      bits below `n - 1` repeat, and bit `n - 1` is 0, then 1. */
  lemma HalvesBits(zeros: seq<seq<int>>, ones: seq<seq<int>>, n: int)
    requires n >= 1 && |zeros| == |ones| == Pow2(n - 1)
    requires forall k :: 0 <= k < |zeros| ==> |zeros[k]| >= n && zeros[k][n - 1] == 0
    requires forall k :: 0 <= k < |ones| ==> |ones[k]| >= n && ones[k][n - 1] == 1
    requires forall k, i :: 0 <= k < |zeros| && 0 <= i < n - 1 ==> zeros[k][i] == Bit(k, i)
    requires forall k, i :: 0 <= k < |ones| && 0 <= i < n - 1 ==> ones[k][i] == Bit(k, i)
    ensures forall k, i :: 0 <= k < |zeros + ones| && 0 <= i < n ==> (zeros + ones)[k][i] == Bit(k, i)
  {
    var all := zeros + ones;
    forall k, i | 0 <= k < |all| && 0 <= i < n ensures all[k][i] == Bit(k, i) {
      if k < |zeros| {
        if i == n - 1 {
          BitHigh(k, n - 1);
        }
      } else {
        var j := k - |zeros|;
        assert all[k] == ones[j];
        if i == n - 1 {
          BitHigh(j, n - 1);
        } else {
          BitBelow(j, n - 1, i);
        }
      }
    }
  }

  /** Below `2^m`, bit `m` is 0; adding `2^m` makes it 1. */
  lemma {:induction false} BitHigh(k: nat, m: nat)
    requires k < Pow2(m)
    ensures Bit(k, m) == 0 && Bit(k + Pow2(m), m) == 1
  {
    if m > 0 {
      assert (k + Pow2(m)) / 2 == k / 2 + Pow2(m - 1);
      BitHigh(k / 2, m - 1);
    }
  }

  /** Adding `2^m` leaves the bits below `m` alone. */
  lemma {:induction false} BitBelow(k: nat, m: nat, i: nat)
    requires i < m
    ensures Bit(k + Pow2(m), i) == Bit(k, i)
  {
    if i > 0 {
      assert (k + Pow2(m)) / 2 == k / 2 + Pow2(m - 1);
      BitBelow(k / 2, m - 1, i - 1);
    }
  }

  /** Numbers below `2^n` with the same low `n` bits are equal. */
  lemma {:induction false} BitsDetermine(k: nat, l: nat, n: nat)
    requires k < Pow2(n) && l < Pow2(n)
    requires forall i :: 0 <= i < n ==> Bit(k, i) == Bit(l, i)
    ensures k == l
  {
    if n > 0 {
      assert Bit(k, 0) == Bit(l, 0);
      forall i | 0 <= i < n - 1 ensures Bit(k / 2, i) == Bit(l / 2, i) {
        assert Bit(k, i + 1) == Bit(l, i + 1);
      }
      BitsDetermine(k / 2, l / 2, n - 1);
    }
  }

  /** Reading bits back: bit `i` of `Value(b)` is `b[i]`, and the value is
      below `2^|b|`. */
  lemma {:induction false} ValueBits(b: seq<int>)
    requires forall i :: 0 <= i < |b| ==> b[i] == 0 || b[i] == 1
    ensures Value(b) < Pow2(|b|)
    ensures forall i :: 0 <= i < |b| ==> Bit(Value(b), i) == b[i]
  {
    if |b| > 0 {
      ValueBits(b[1..]);
      var v := Value(b[1..]);
      LowBit(b[0], v);
      assert Value(b) == b[0] + 2 * v;
      forall i | 0 <= i < |b| ensures Bit(Value(b), i) == b[i] {
        if i > 0 {
          assert b[1..][i - 1] == b[i];
          assert Bit(Value(b), i) == Bit(v, i - 1);
        }
      }
    }
  }

  /** A bit `d` below twice `v`: the last bit is `d` and halving gives
      back `v`. */
  lemma LowBit(d: int, v: nat)
    requires d == 0 || d == 1
    ensures (d + 2 * v) % 2 == d && (d + 2 * v) / 2 == v
  {
  }

  /** The printed arrays are pairwise distinct. */
  lemma BinDistinct(arr: seq<int>, n: int, k: int, l: int)
    requires 0 < n <= |arr|
    requires 0 <= k < l < |Bin(arr, n).0|
    ensures Bin(arr, n).0[k] != Bin(arr, n).0[l]
  {
    var out := Bin(arr, n).0;
    if out[k] == out[l] {
      forall i | 0 <= i < n ensures Bit(k, i) == Bit(l, i) {
        assert out[k][i] == out[l][i];
      }
      BitsDetermine(k, l, n);
    }
  }

  /** Every array `w` that holds 0s and 1s in its first `n` slots and agrees
      with `array` above them is printed, at the index its bits spell. */
  lemma BinComplete(arr: seq<int>, n: int, w: seq<int>)
    requires 0 < n <= |arr| && |w| == |arr|
    requires forall i :: 0 <= i < n ==> w[i] == 0 || w[i] == 1
    requires forall i :: n <= i < |arr| ==> w[i] == arr[i]
    ensures Value(w[..n]) < |Bin(arr, n).0| && Bin(arr, n).0[Value(w[..n])] == w
  {
    var out := Bin(arr, n).0;
    var b := w[..n];
    ValueBits(b);
    var k := Value(b);
    forall i | 0 <= i < |w| ensures out[k][i] == w[i] {
      if i < n {
        assert b[i] == w[i];
      }
    }
  }
}

=== FILE: binary_tree.dfy ===
/** The plain binary tree of `tree.BinaryTreeNode` and its four traversal
    orders. This is the first of the class's two modules; the second,
    `Traversals`, holds the source's loops.

    The recursive definitions are the reference orders; the stack- and
    queue-driven loops of the source are each proved equal to one of them. The same node shape (`left`, an int, `right`) is also the
    node of `tree.bst.BinarySearchTreeNode` and of the generic tree sort, so
    those modules reuse this datatype. */
module BinaryTree {
  import opened Common

  /** `Nil` is the null reference. */
  datatype Tree = Nil | Node(left: Tree, val: int, right: Tree)

  function Size(t: Tree): nat {
    match t
    case Nil => 0
    case Node(l, _, r) => Size(l) + 1 + Size(r)
  }

  /** The values held, with multiplicity. */
  function Values(t: Tree): multiset<int> {
    match t
    case Nil => multiset{}
    case Node(l, v, r) => Values(l) + multiset{v} + Values(r)
  }

  /** The values held, as a set. */
  function Keys(t: Tree): set<int> {
    match t
    case Nil => {}
    case Node(l, v, r) => Keys(l) + {v} + Keys(r)
  }

  lemma {:induction false} SizeIsValueCount(t: Tree)
    ensures |Values(t)| == Size(t)
    ensures forall v :: v in Values(t) <==> v in Keys(t)
  {
    if t.Node? {
      SizeIsValueCount(t.left);
      SizeIsValueCount(t.right);
    }
  }

  // ------------------------------------------------------ reference orders

  /** Node, then left subtree, then right subtree. */
  function PreOrder(t: Tree): seq<int> {
    match t
    case Nil => []
    case Node(l, v, rt) => [v] + PreOrder(l) + PreOrder(rt)
  }

  /** Left subtree, node, right subtree. */
  function InOrder(t: Tree): seq<int> {
    match t
    case Nil => []
    case Node(l, v, rt) => InOrder(l) + [v] + InOrder(rt)
  }

  /** Left subtree, right subtree, node. */
  function PostOrder(t: Tree): seq<int> {
    match t
    case Nil => []
    case Node(l, v, rt) => PostOrder(l) + PostOrder(rt) + [v]
  }

  /** Each depth-first order lists every value of the tree once per
      occurrence: it is a permutation of the tree's values. */
  lemma {:induction false} PreOrderIsPermutation(t: Tree)
    ensures multiset(PreOrder(t)) == Values(t) && |PreOrder(t)| == Size(t)
  {
    if t.Node? {
      PreOrderIsPermutation(t.left);
      PreOrderIsPermutation(t.right);
    }
  }

  lemma {:induction false} InOrderIsPermutation(t: Tree)
    ensures multiset(InOrder(t)) == Values(t) && |InOrder(t)| == Size(t)
  {
    if t.Node? {
      InOrderIsPermutation(t.left);
      InOrderIsPermutation(t.right);
    }
  }

  lemma {:induction false} PostOrderIsPermutation(t: Tree)
    ensures multiset(PostOrder(t)) == Values(t) && |PostOrder(t)| == Size(t)
  {
    if t.Node? {
      PostOrderIsPermutation(t.left);
      PostOrderIsPermutation(t.right);
    }
  }

  // ------------------------------------------------------------ level order

  /** The values at the roots of a row of trees, left to right. */
  function Roots(f: seq<Tree>): (r: seq<int>)
    ensures |r| <= |f|
  {
    if |f| == 0 then []
    else if f[0].Nil? then Roots(f[1..])
    else [f[0].val] + Roots(f[1..])
  }

  /** The next row: the children of each tree in the row, left to right,
      absent children omitted. */
  function Children(f: seq<Tree>): seq<Tree> {
    if |f| == 0 then []
    else Kids(f[0]) + Children(f[1..])
  }

  /** The children of one node, absent ones omitted. */
  function Kids(t: Tree): seq<Tree> {
    if t.Nil? then [] else Present(t.left) + Present(t.right)
  }

  /** A one-tree row, or an empty row for the null reference. */
  function Present(t: Tree): seq<Tree> {
    if t.Nil? then [] else [t]
  }

  function ForestSize(f: seq<Tree>): nat {
    if |f| == 0 then 0 else Size(f[0]) + ForestSize(f[1..])
  }

  function ForestValues(f: seq<Tree>): multiset<int> {
    if |f| == 0 then multiset{} else Values(f[0]) + ForestValues(f[1..])
  }

  lemma {:induction false} ForestSizeAppend(a: seq<Tree>, b: seq<Tree>)
    ensures ForestSize(a + b) == ForestSize(a) + ForestSize(b)
    ensures ForestValues(a + b) == ForestValues(a) + ForestValues(b)
  {
    if |a| > 0 {
      assert (a + b)[1..] == a[1..] + b;
      ForestSizeAppend(a[1..], b);
    } else {
      assert a + b == b;
    }
  }

  /** The children of one node hold everything below it. */
  lemma KidsShrink(t: Tree)
    requires t.Node?
    ensures ForestSize(Kids(t)) + 1 == Size(t)
    ensures ForestValues(Kids(t)) + multiset{t.val} == Values(t)
  {
    ForestSizeAppend(Present(t.left), Present(t.right));
    PresentHolds(t.left);
    PresentHolds(t.right);
  }

  lemma PresentHolds(t: Tree)
    ensures ForestSize(Present(t)) == Size(t) && ForestValues(Present(t)) == Values(t)
  {
    if t.Node? {
      assert Present(t)[1..] == [];
    }
  }

  /** The next row holds everything below the current row: one node per
      non-empty tree fewer, and exactly the values outside the roots. */
  lemma {:induction false} ChildrenShrink(f: seq<Tree>)
    ensures ForestSize(Children(f)) + |Roots(f)| == ForestSize(f)
    ensures ForestValues(Children(f)) + multiset(Roots(f)) == ForestValues(f)
  {
    if |f| > 0 {
      ChildrenShrink(f[1..]);
      ForestSizeAppend(Kids(f[0]), Children(f[1..]));
      assert Children(f) == Kids(f[0]) + Children(f[1..]);
      if f[0].Node? {
        KidsShrink(f[0]);
        assert Roots(f) == [f[0].val] + Roots(f[1..]);
        assert multiset(Roots(f)) == multiset{f[0].val} + multiset(Roots(f[1..]));
      } else {
        assert Kids(f[0]) == [];
        assert Roots(f) == Roots(f[1..]);
      }
    }
  }

  /** Level order of a row of trees: the row's roots, then the level order
      of the next row. Depth by depth, left to right within a depth. */
  function LevelOrderRows(f: seq<Tree>): (r: seq<int>)
    ensures multiset(r) == ForestValues(f)
    decreases ForestSize(f), |f|
  {
    var roots := Roots(f);
    ChildrenShrink(f);
    if |roots| == 0 then
      NoRootsEmptyForest(f);
      []
    else
      roots + LevelOrderRows(Children(f))
  }

  /** A row without any node holds no values. */
  lemma {:induction false} NoRootsEmptyForest(f: seq<Tree>)
    requires |Roots(f)| == 0
    ensures ForestSize(f) == 0 && ForestValues(f) == multiset{} && Children(f) == []
  {
    if |f| > 0 {
      NoRootsEmptyForest(f[1..]);
    }
  }

  /** `levelOrderTraversal`'s reference: the rows of the tree from the root
      down. It lists every value of the tree once per occurrence. */
  function LevelOrder(t: Tree): (r: seq<int>)
    ensures multiset(r) == Values(t) && |r| == Size(t)
  {
    assert [t][1..] == [];
    assert ForestValues([t]) == Values(t);
    SizeIsValueCount(t);
    var r := LevelOrderRows([t]);
    assert |multiset(r)| == |r|;
    r
  }
}

=== FILE: bubble_sort.dfy ===
/** `sorting.BubbleSort`: passes of neighbour swaps, each shorter than the
    last, stopping early after a pass without a swap. The array's contents
    go in and the contents it is left with come out. */
module BubbleSort {
  import opened Common

  /** The positions from `m` on hold their final values: they are in order,
      and nothing before `m` is larger than anything from `m` on. */
  predicate Settled(a: seq<int>, m: int) {
    forall i, j :: 0 <= i < j < |a| && m <= j ==> a[i] <= a[j]
  }

  /** Swapping an out-of-order pair before `m` keeps the settled part and
      moves the larger of the two, the largest so far, one place right. */
  lemma SwapStep(b: seq<int>, i: int, m: int)
    requires 0 <= i && i + 1 < m <= |b| && Settled(b, m)
    requires b[i] > b[i + 1] && forall k :: 0 <= k <= i ==> b[k] <= b[i]
    ensures var c := b[i := b[i + 1]][i + 1 := b[i]];
      Settled(c, m) && forall k :: 0 <= k <= i + 1 ==> c[k] <= c[i + 1]
  {
    var c := b[i := b[i + 1]][i + 1 := b[i]];
    forall x, y | 0 <= x < y < |c| && m <= y ensures c[x] <= c[y] {
      assert c[y] == b[y];
      if x == i {
        assert c[x] == b[i + 1];
      } else if x == i + 1 {
        assert c[x] == b[i];
      } else {
        assert c[x] == b[x];
      }
    }
  }

  /** The state of a pass after comparing the pairs before `i`: the
      largest of `b[0..i]` is at `i`, the settled part is kept, and without
      a swap so far nothing has moved and every compared pair was in
      order. */
  predicate PassState(a: seq<int>, b: seq<int>, last: int, i: int, swapped: bool) {
    && 0 <= i <= last < |a| && |b| == |a| && multiset(b) == multiset(a)
    && (forall k :: 0 <= k <= i ==> b[k] <= b[i])
    && Settled(b, last + 1)
    && (!swapped ==> b == a && forall k :: 0 < k <= i ==> a[k - 1] <= a[k])
  }

  /** Swapping an out-of-order pair `(i, i + 1)` advances the pass. */
  lemma PassSwap(a: seq<int>, b: seq<int>, last: int, i: int, swapped: bool)
    requires PassState(a, b, last, i, swapped) && i < last && b[i] > b[i + 1]
    ensures PassState(a, b[i := b[i + 1]][i + 1 := b[i]], last, i + 1, true)
  {
    var c := b[i := b[i + 1]][i + 1 := b[i]];
    SwapKeepsMultiset(b, i, i + 1);
    SwapStep(b, i, last + 1);
    assert multiset(c) == multiset(a) && |c| == |a|;
  }

  /** Leaving an ordered pair `(i, i + 1)` alone advances the pass. */
  lemma PassKeep(a: seq<int>, b: seq<int>, last: int, i: int, swapped: bool)
    requires PassState(a, b, last, i, swapped) && i < last && b[i] <= b[i + 1]
    ensures PassState(a, b, last, i + 1, swapped)
  {
    forall k | 0 <= k <= i + 1 ensures b[k] <= b[i + 1] {
      if k <= i {
        assert b[k] <= b[i];
      }
    }
  }

  /** One pass of the inner loop over the pairs `(i, i + 1)` with
      `i < last`: it carries the largest of `a[0..last]` to `last`. Without
      a swap the array is unchanged and the pairs it compared were all in
      order. */
  method Pass(a: seq<int>, last: int) returns (b: seq<int>, swapped: bool)
    requires 0 <= last < |a| && Settled(a, last + 1)
    ensures |b| == |a| && multiset(b) == multiset(a)
    ensures Settled(b, last)
    ensures !swapped ==> b == a && forall k :: 0 < k <= last ==> a[k - 1] <= a[k]
  {
    b, swapped := a, false;
    var i := 0;
    while i < last
      invariant PassState(a, b, last, i, swapped)
    {
      if b[i] > b[i + 1] {
        PassSwap(a, b, last, i, swapped);
        b := b[i := b[i + 1]][i + 1 := b[i]];
        swapped := true;
      } else {
        PassKeep(a, b, last, i, swapped);
      }
      i := i + 1;
    }
    PassDone(a, b, last, swapped);
  }

  /** At the end of the pass the largest of `b[0..last]` is at `last`, so
      the settled part grows by one. */
  lemma PassDone(a: seq<int>, b: seq<int>, last: int, swapped: bool)
    requires PassState(a, b, last, last, swapped)
    ensures Settled(b, last)
  {
  }

  /** `bubbleSort`: the array ends sorted, holding the same elements; an
      array that is already sorted comes back unchanged after one pass. */
  method Sort(input: seq<int>) returns (r: seq<int>)
    ensures Sorted(r) && multiset(r) == multiset(input)
    ensures Sorted(input) ==> r == input
  {
    r := input;
    var pass := 0;
    while pass < |r| - 1
      invariant 0 <= pass && |r| == |input| && multiset(r) == multiset(input)
      invariant Settled(r, |r| - pass)
    {
      var swapped;
      r, swapped := Pass(r, |r| - 1 - pass);
      if !swapped {
        assert AdjacentSorted(r);
        AdjacentSortedIsSorted(r);
        break;
      }
      pass := pass + 1;
    }
    assert Sorted(r);
    if Sorted(input) {
      SortedPermutationUnique(r, input);
    }
  }
}

=== FILE: bucket_sort.dfy ===
/** `sorting.BucketSort`: ten counters, one per digit value, tallied and
    written back in increasing order. */
module BucketSort {
  import opened Common
  import CountingSort

  const Buckets: nat := 10

  /** `sort`: the array is sorted, keeping its elements, exactly when every
      element lies in `0 .. 9`; any other element indexes the counters out
      of bounds. */
  method Sort(a: seq<int>) returns (r: Result<seq<int>>)
    ensures r.Ok? <==> forall k :: 0 <= k < |a| ==> 0 <= a[k] < Buckets
    ensures r.Err? ==> r.error == IndexOutOfBounds
    ensures r.Ok? ==> Sorted(r.value) && multiset(r.value) == multiset(a)
  {
    var buckets :- CountingSort.Tally(a, Buckets);
    var out := CountingSort.Emit(buckets);
    CountingSort.ExpandSorted(buckets, Buckets);
    CountingSort.CountsDetermineMultiset(a, buckets, Buckets);
    return Ok(out);
  }
}

=== FILE: common.dfy ===
/** Shared vocabulary: the Java exceptions the models raise, a result type
    for operations that can throw, and the ordering predicates every sort
    and search speaks about. */
module Common {

  /** The unchecked Java exceptions the modelled code can raise. */
  datatype Error =
    | NullPointer            // NullPointerException
    | IndexOutOfBounds       // ArrayIndexOutOfBoundsException / IndexOutOfBoundsException
    | IllegalState           // IllegalStateException
    | IllegalArgument        // IllegalArgumentException
    | NegativeArraySize      // NegativeArraySizeException

  /** Either the value a call returns normally, or the exception it throws. */
  datatype Result<+T> = Ok(value: T) | Err(error: Error) {
    predicate IsFailure() { Err? }

    function PropagateFailure<U>(): Result<U>
      requires Err?
    {
      Err(error)
    }

    function Extract(): T
      requires Ok?
    {
      value
    }
  }

  /** A Java reference that may be null. */
  datatype Option<+T> = None | Some(value: T)

  /** Nondecreasing order. */
  predicate Sorted(s: seq<int>) {
    forall i, j :: 0 <= i < j < |s| ==> s[i] <= s[j]
  }

  /** Strictly increasing order (no duplicates). */
  predicate StrictlyIncreasing(s: seq<int>) {
    forall i, j :: 0 <= i < j < |s| ==> s[i] < s[j]
  }

  /** Every pair of neighbours is in order. */
  predicate AdjacentSorted(s: seq<int>) {
    forall i :: 0 < i < |s| ==> s[i - 1] <= s[i]
  }

  /** Two sorted sequences with the same elements are equal: every correct
      sort of an input produces the same output. */
  lemma {:induction false} SortedPermutationUnique(a: seq<int>, b: seq<int>)
    requires Sorted(a) && Sorted(b) && multiset(a) == multiset(b)
    ensures a == b
  {
    if |a| > 0 {
      assert |a| == |multiset(a)| == |multiset(b)| == |b|;
      HeadIsLeast(a, b);
      HeadIsLeast(b, a);
      assert a == [a[0]] + a[1..] && b == [b[0]] + b[1..];
      assert multiset(a) == multiset{a[0]} + multiset(a[1..]);
      assert multiset(b) == multiset{a[0]} + multiset(b[1..]);
      assert multiset(a[1..]) == multiset(b[1..]) by {
        forall x ensures multiset(a[1..])[x] == multiset(b[1..])[x] {
          assert multiset(a)[x] == multiset{a[0]}[x] + multiset(a[1..])[x];
          assert multiset(b)[x] == multiset{a[0]}[x] + multiset(b[1..])[x];
        }
      }
      SortedPermutationUnique(a[1..], b[1..]);
    }
  }

  /** The head of a sorted non-empty sequence is at most anything the other
      sequence holds. */
  lemma HeadIsLeast(a: seq<int>, b: seq<int>)
    requires Sorted(a) && |a| > 0 && |b| > 0 && multiset(a) == multiset(b)
    ensures a[0] <= b[0]
  {
    assert b[0] in multiset(a);
    var q :| 0 <= q < |a| && a[q] == b[0];
  }

  const IntMin: int := -0x8000_0000
  const IntMax: int := 0x7fff_ffff

  /** A value of Java's 32-bit `int`. */
  predicate IsInt(x: int) {
    IntMin <= x <= IntMax
  }

  /** Java `int` arithmetic: the mathematical result wrapped into 32 bits. */
  function WrapInt(x: int): (r: int)
    ensures IsInt(r) && (r - x) % 0x1_0000_0000 == 0
    ensures IsInt(x) ==> r == x
  {
    (x - IntMin) % 0x1_0000_0000 + IntMin
  }

  /** A result at most one 32-bit turn outside the `int` range wraps by
      exactly one turn. */
  lemma WrapOnce(x: int)
    ensures IntMax < x <= IntMax + 0x1_0000_0000 ==> WrapInt(x) == x - 0x1_0000_0000
    ensures IntMin - 0x1_0000_0000 <= x < IntMin ==> WrapInt(x) == x + 0x1_0000_0000
  {
  }

  function Max(a: int, b: int): int {
    if a < b then b else a
  }

  /** Neighbour order is enough for global order. */
  lemma {:induction false} AdjacentSortedIsSorted(s: seq<int>)
    requires AdjacentSorted(s)
    ensures Sorted(s)
  {
    if |s| > 1 {
      var t := s[..|s| - 1];
      assert AdjacentSorted(t) by {
        forall i | 0 < i < |t| ensures t[i - 1] <= t[i] {
          assert t[i - 1] == s[i - 1] && t[i] == s[i];
        }
      }
      AdjacentSortedIsSorted(t);
      forall i, j | 0 <= i < j < |s| ensures s[i] <= s[j] {
        if j < |s| - 1 {
          assert s[i] == t[i] && s[j] == t[j];
        } else if i < |s| - 2 {
          assert s[i] == t[i] && s[|s| - 2] == t[|s| - 2];
        }
      }
    }
  }

  /** Exchanging two entries keeps the multiset of a sequence. */
  lemma SwapKeepsMultiset(s: seq<int>, i: int, j: int)
    requires 0 <= i < |s| && 0 <= j < |s|
    ensures multiset(s[i := s[j]][j := s[i]]) == multiset(s)
  {
  }

  /** Regrouping a concatenation of five pieces. */
  lemma ConcatRegroup<T>(r: seq<T>, a: seq<T>, m: seq<T>, b: seq<T>, c: seq<T>)
    ensures r + a + (m + b + c) == r + (a + m + b) + c
  {
  }

  /** Moving the boundary of the emitted part one piece to the right. */
  lemma ConcatShift<T>(r: seq<T>, v: seq<T>, a: seq<T>, b: seq<T>, c: seq<T>)
    ensures (r + v) + (a + (b + c)) == r + ((v + a + b) + c)
  {
  }

  lemma ConcatAssoc<T>(a: seq<T>, b: seq<T>, c: seq<T>)
    ensures (a + b) + c == a + (b + c)
  {
  }

  /** The head and tail of a concatenation with a non-empty front. */
  lemma HeadTailConcat<T>(a: seq<T>, b: seq<T>)
    requires |a| > 0
    ensures (a + b)[0] == a[0] && (a + b)[1..] == a[1..] + b
  {
  }

  /** The prefix one longer holds one more element. */
  lemma PrefixBag<T>(a: seq<T>, i: int)
    requires 0 <= i < |a|
    ensures multiset(a[..i + 1]) == multiset(a[..i]) + multiset{a[i]}
  {
    assert a[..i + 1] == a[..i] + [a[i]];
  }

  /** `n` copies of `v`. */
  function Repeat(v: int, n: nat): (r: seq<int>)
    ensures |r| == n
    ensures forall k :: 0 <= k < n ==> r[k] == v
  {
    seq(n, _ => v)
  }

  /** `n` copies of `v` form the multiset holding `v` exactly `n` times. */
  lemma {:induction false} RepeatBag(v: int, n: nat)
    ensures multiset(Repeat(v, n)) == multiset{}[v := n]
  {
    if n > 0 {
      RepeatBag(v, n - 1);
      assert Repeat(v, n) == Repeat(v, n - 1) + [v];
    }
  }

  function Pow2(n: nat): (r: nat)
    ensures r >= 1
  {
    if n == 0 then 1 else 2 * Pow2(n - 1)
  }
}

=== FILE: counting_sort.dfy ===
/** `sorting.CountingSort`: tally each value in an array of counters sized
    by the maximum, then write the values back in increasing order.

    Java `int` elements are assumed (`IsInt`); the size `max + 1` is
    computed in 32-bit arithmetic. A negative size throws
    `NegativeArraySizeException`, and a negative element indexes the
    counters out of bounds. */
module CountingSort {
  import opened Common

  /** The largest element. */
  function SeqMax(s: seq<int>): (r: int)
    requires |s| > 0
    ensures r in s && forall k :: 0 <= k < |s| ==> s[k] <= r
  {
    if |s| == 1 then s[0]
    else
      var m := SeqMax(s[..|s| - 1]);
      assert forall k :: 0 <= k < |s| - 1 ==> s[..|s| - 1][k] == s[k];
      if s[|s| - 1] > m then s[|s| - 1] else m
  }

  /** The first loop: a running maximum from `arr[0]`. */
  method MaxOf(arr: seq<int>) returns (max: int)
    requires |arr| > 0
    ensures max == SeqMax(arr)
  {
    max := arr[0];
    var i := 1;
    while i < |arr|
      invariant 1 <= i <= |arr| && max == SeqMax(arr[..i])
    {
      assert arr[..i + 1][..i] == arr[..i];
      if arr[i] > max {
        max := arr[i];
      }
      i := i + 1;
    }
    assert arr[..i] == arr;
  }

  /** The values `0 .. n - 1` in increasing order, value `v` repeated
      `count[v]` times: what the emitting loops write. */
  function Expand(count: seq<nat>, n: nat): seq<int>
    requires n <= |count|
  {
    if n == 0 then [] else Expand(count, n - 1) + Repeat(n - 1, count[n - 1])
  }

  /** The expansion stays within `0 .. n - 1` and is sorted. */
  lemma {:induction false} ExpandSorted(count: seq<nat>, n: nat)
    requires n <= |count|
    ensures forall k :: 0 <= k < |Expand(count, n)| ==> 0 <= Expand(count, n)[k] < n
    ensures Sorted(Expand(count, n))
  {
    if n > 0 {
      ExpandSorted(count, n - 1);
      var a, b := Expand(count, n - 1), Repeat(n - 1, count[n - 1]);
      var s := Expand(count, n);
      assert s == a + b;
      assert forall k :: 0 <= k < |a| ==> s[k] == a[k];
      assert forall k :: |a| <= k < |s| ==> s[k] == b[k - |a|] == n - 1;
    }
  }

  /** The multiset the expansion is built from, block by block. */
  function Blocks(count: seq<nat>, n: nat): multiset<int>
    requires n <= |count|
  {
    if n == 0 then multiset{} else Blocks(count, n - 1) + multiset(Repeat(n - 1, count[n - 1]))
  }

  lemma ExpandLastBlock(count: seq<nat>, n: nat)
    requires 0 < n <= |count|
    ensures multiset(Expand(count, n)) == multiset(Expand(count, n - 1)) + multiset(Repeat(n - 1, count[n - 1]))
  {
    var a, b := Expand(count, n - 1), Repeat(n - 1, count[n - 1]);
    assert Expand(count, n) == a + b;
  }

  lemma {:induction false} ExpandBlocks(count: seq<nat>, n: nat)
    requires n <= |count|
    ensures multiset(Expand(count, n)) == Blocks(count, n)
  {
    if n > 0 {
      ExpandBlocks(count, n - 1);
      ExpandLastBlock(count, n);
    }
  }

  lemma {:induction false} BlocksCount(count: seq<nat>, n: nat, v: int)
    requires n <= |count|
    ensures Blocks(count, n)[v] == if 0 <= v < n then count[v] else 0
  {
    if n > 0 {
      BlocksCount(count, n - 1, v);
      RepeatBag(n - 1, count[n - 1]);
      BlockAt(Blocks(count, n - 1), multiset(Repeat(n - 1, count[n - 1])), n - 1, count[n - 1], v);
    }
  }

  lemma BlockAt(b: multiset<int>, block: multiset<int>, w: int, c: nat, v: int)
    requires block == multiset{}[w := c]
    ensures (b + block)[v] == b[v] + if v == w then c else 0
  {
  }

  /** The expansion holds each value as often as its counter says. */
  lemma ExpandCounts(count: seq<nat>, n: nat, v: int)
    requires n <= |count|
    ensures multiset(Expand(count, n))[v] == if 0 <= v < n then count[v] else 0
  {
    ExpandBlocks(count, n);
    BlocksCount(count, n, v);
  }

  /** Counters that agree with an array whose values all lie below `n`
      expand to a rearrangement of that array. */
  lemma CountsDetermineMultiset(arr: seq<int>, count: seq<nat>, n: nat)
    requires n <= |count|
    requires forall k :: 0 <= k < |arr| ==> 0 <= arr[k] < n
    requires forall v :: 0 <= v < n ==> count[v] == multiset(arr)[v]
    ensures multiset(Expand(count, n)) == multiset(arr)
  {
    forall v ensures multiset(Expand(count, n))[v] == multiset(arr)[v] {
      ExpandCounts(count, n, v);
      if !(0 <= v < n) {
        assert v !in arr;
      }
    }
  }

  /** The tallying loop (`count[num]++` for each element) on `size`
      counters: an element outside `0 .. size - 1` throws
      `ArrayIndexOutOfBoundsException`; otherwise counter `v` ends equal to
      the number of occurrences of `v`. */
  method Tally(arr: seq<int>, size: nat) returns (r: Result<seq<nat>>)
    ensures r.Err? <==> exists k :: 0 <= k < |arr| && !(0 <= arr[k] < size)
    ensures r.Err? ==> r.error == IndexOutOfBounds
    ensures r.Ok? ==> |r.value| == size && forall v :: 0 <= v < size ==> r.value[v] == multiset(arr)[v]
  {
    var count: seq<nat> := seq(size, _ => 0);
    var k := 0;
    while k < |arr|
      invariant 0 <= k <= |arr| && |count| == size
      invariant forall q :: 0 <= q < k ==> 0 <= arr[q] < size
      invariant forall v :: 0 <= v < size ==> count[v] == multiset(arr[..k])[v]
    {
      var num := arr[k];
      if !(0 <= num < |count|) {
        return Err(IndexOutOfBounds);
      }
      PrefixBag(arr, k);
      count := count[num := count[num] + 1];
      k := k + 1;
    }
    assert arr[..k] == arr;
    return Ok(count);
  }

  /** The emitting loops: for each counter in turn, write its index while
      decrementing it to zero. */
  method Emit(count: seq<nat>) returns (out: seq<int>)
    ensures out == Expand(count, |count|)
  {
    out := [];
    var c := count;
    var i := 0;
    while i < |c|
      invariant 0 <= i <= |c| == |count|
      invariant out == Expand(count, i) && c[i..] == count[i..]
    {
      assert c[i] == count[i];
      while c[i] > 0
        invariant |c| == |count| && c[i] <= count[i] && c[i + 1..] == count[i + 1..]
        invariant out == Expand(count, i) + Repeat(i, count[i] - c[i])
      {
        out := out + [i];
        c := c[i := c[i] - 1];
      }
      i := i + 1;
    }
  }

  /** `countingSort`: an empty array is left alone. Otherwise the array is
      sorted, keeping its elements, exactly when every element is
      non-negative and the maximum is below `Integer.MAX_VALUE`. A maximum of
      `Integer.MAX_VALUE` (where `max + 1` wraps) or below -1 throws
      `NegativeArraySizeException`; any other failure is a negative element
      indexing the counters. */
  method Sort(arr: seq<int>) returns (r: Result<seq<int>>)
    requires forall k :: 0 <= k < |arr| ==> IsInt(arr[k])
    ensures |arr| == 0 ==> r == Ok(arr)
    ensures r.Ok? <==> forall k :: 0 <= k < |arr| ==> 0 <= arr[k] < IntMax
    ensures r.Err? ==> r.error == if SeqMax(arr) == IntMax || SeqMax(arr) < -1
                                  then NegativeArraySize else IndexOutOfBounds
    ensures r.Ok? ==> Sorted(r.value) && multiset(r.value) == multiset(arr)
  {
    if |arr| == 0 {
      return Ok(arr);
    }
    var max := MaxOf(arr);
    var size := WrapInt(max + 1);
    if size < 0 {
      return Err(NegativeArraySize);
    }
    assert size == max + 1;
    var count :- Tally(arr, size);
    var out := Emit(count);
    ExpandSorted(count, size);
    CountsDetermineMultiset(arr, count, size);
    return Ok(out);
  }
}

=== FILE: disjoint_set.dfy ===
/** `sets.disjoint.DisjointSet`: union-find over `0 .. n - 1` in one array
    `s`. A negative entry marks a root and is minus the size of its set; a
    non-negative entry is the index of the parent. `find` compresses the
    path it walks, and `union` links the smaller tree under the larger.

    The array is the state: each operation takes the entries and returns
    the entries it leaves behind. */
module DisjointSet {
  import opened Common

  // ------------------------------------------------------------ the forest

  /** `d` ranks the entries so that every parent link goes strictly down:
      the link is in bounds and the parent's rank is below the child's. */
  predicate Ranked(s: seq<int>, d: seq<nat>) {
    |d| == |s| && forall x :: 0 <= x < |s| && s[x] >= 0 ==> s[x] < |s| && d[s[x]] < d[x]
  }

  /** Following parent links always ends at a root. */
  ghost predicate Acyclic(s: seq<int>) {
    exists d :: Ranked(s, d)
  }

  /** A ranking of an acyclic array, which bounds every walk to a root. */
  ghost function Rank(s: seq<int>): (d: seq<nat>)
    requires Acyclic(s)
    ensures Ranked(s, d)
  {
    var d :| Ranked(s, d); d
  }

  /** The root reached from `x` by following parent links. */
  function Root(s: seq<int>, x: int): (r: int)
    requires Acyclic(s) && 0 <= x < |s|
    ensures 0 <= r < |s| && s[r] < 0
    ensures s[x] < 0 ==> r == x
    decreases Rank(s)[x]
  {
    if s[x] < 0 then x else Root(s, s[x])
  }

  /** The walk from `x` to its root, both ends included. */
  function Path(s: seq<int>, x: int): (p: seq<int>)
    requires Acyclic(s) && 0 <= x < |s|
    ensures forall z :: z in p ==> 0 <= z < |s|
    decreases Rank(s)[x]
  {
    if s[x] < 0 then [x] else [x] + Path(s, s[x])
  }

  /** The elements whose root is `r`: the set `r` stands for. */
  ghost function Members(s: seq<int>, r: int): set<int>
    requires Acyclic(s)
  {
    set z | 0 <= z < |s| && Root(s, z) == r
  }

  /** The roots, one per set. */
  function Roots(s: seq<int>): set<int> {
    set r | 0 <= r < |s| && s[r] < 0
  }

  /** The class invariant: links are acyclic and each root holds minus the
      size of its set. */
  ghost predicate Valid(s: seq<int>) {
    Acyclic(s) && forall r {:trigger Members(s, r)} :: 0 <= r < |s| && s[r] < 0 ==> s[r] == -|Members(s, r)|
  }

  /** `x` and `y` are in the same set. */
  ghost predicate Same(s: seq<int>, x: int, y: int)
    requires Acyclic(s) && 0 <= x < |s| && 0 <= y < |s|
  {
    Root(s, x) == Root(s, y)
  }

  /** Under any ranking, the root of a non-root lies strictly below it. */
  lemma {:induction false} RootRankBelow(s: seq<int>, d: seq<nat>, z: int)
    requires Acyclic(s) && Ranked(s, d) && 0 <= z < |s| && s[z] >= 0
    ensures d[Root(s, z)] < d[z]
    decreases d[z]
  {
    if s[s[z]] >= 0 {
      RootRankBelow(s, d, s[z]);
    }
  }

  // -------------------------------------------------------------- makeSet

  /** `makeSet(n)`: `n` singletons, every entry -1. A negative `n` makes the
      allocation throw. */
  function MakeSet(n: int): (r: Result<seq<int>>)
    ensures r.Err? <==> n < 0
    ensures r.Err? ==> r.error == NegativeArraySize
    ensures r.Ok? ==> |r.value| == n && Valid(r.value) && forall x :: x in Roots(r.value) <==> 0 <= x < n
    ensures r.Ok? ==> forall x :: 0 <= x < n ==> Members(r.value, x) == {x}
  {
    if n < 0 then Err(NegativeArraySize)
    else
      var s := seq(n, _ => -1);
      assert Ranked(s, seq(n, _ => 0));
      SingletonMembers(s);
      Ok(s)
  }

  lemma SingletonMembers(s: seq<int>)
    requires Acyclic(s) && forall x :: 0 <= x < |s| ==> s[x] == -1
    ensures Valid(s)
    ensures forall x :: 0 <= x < |s| ==> Members(s, x) == {x}
  {
    forall x | 0 <= x < |s| ensures Members(s, x) == {x} {
      assert x in Members(s, x);
    }
  }

  // ----------------------------------------------------------------- find

  /** `t` is `s` after path compression: every entry is as before or, for a
      non-root, now points straight at its root. */
  ghost predicate Compressed(s: seq<int>, t: seq<int>)
    requires Acyclic(s)
  {
    |t| == |s| && forall z :: 0 <= z < |s| ==> t[z] == s[z] || (s[z] >= 0 && t[z] == Root(s, z))
  }

  lemma {:induction false} CompressedRoot(s: seq<int>, t: seq<int>, z: int)
    requires Acyclic(s) && Acyclic(t) && Compressed(s, t) && 0 <= z < |s|
    ensures Root(t, z) == Root(s, z)
    decreases Rank(s)[z]
  {
    if t[z] >= 0 {
      if t[z] == s[z] {
        CompressedRoot(s, t, s[z]);
      } else {
        var q := Root(s, z);
        assert t[q] == s[q];
      }
    }
  }

  /** Path compression keeps the forest acyclic, every element's root, every
      root's entry, and so the class invariant. */
  lemma CompressKeeps(s: seq<int>, t: seq<int>)
    requires Acyclic(s) && Compressed(s, t)
    ensures Acyclic(t) && Roots(t) == Roots(s)
    ensures forall z :: 0 <= z < |s| ==> Root(t, z) == Root(s, z)
    ensures forall r :: 0 <= r < |s| && s[r] < 0 ==> t[r] == s[r]
    ensures Valid(s) ==> Valid(t)
  {
    var d := Rank(s);
    forall z | 0 <= z < |t| && t[z] >= 0 ensures t[z] < |t| && d[t[z]] < d[z] {
      if t[z] != s[z] {
        RootRankBelow(s, d, z);
      }
    }
    assert Ranked(t, d);
    forall z | 0 <= z < |s| ensures Root(t, z) == Root(s, z) {
      CompressedRoot(s, t, z);
    }
    forall r | 0 <= r < |s| ensures Members(t, r) == Members(s, r) {
    }
  }

  /** The recursive walk of `find` from a valid index: it returns the root
      and leaves every non-root on the path pointing at it, and touches
      nothing off the path. */
  function FindFrom(s: seq<int>, x: int): (r: (int, seq<int>))
    requires Acyclic(s) && 0 <= x < |s|
    ensures r.0 == Root(s, x) && Compressed(s, r.1)
    ensures forall z :: z in Path(s, x) && s[z] >= 0 ==> r.1[z] == r.0
    ensures forall z :: 0 <= z < |s| && z !in Path(s, x) ==> r.1[z] == s[z]
    decreases Rank(s)[x]
  {
    if s[x] < 0 then (x, s)
    else
      var (root, s1) := FindFrom(s, s[x]);
      (root, s1[x := root])
  }

  /** `find(x)`: an index outside the array throws. Otherwise the root of
      `x`'s set, with the path compressed: `x` then points straight at the
      root (or is it), and no element's root, and no root's size, changes. */
  function Find(s: seq<int>, x: int): (r: Result<(int, seq<int>)>)
    requires Valid(s)
    ensures r.Err? <==> !(0 <= x < |s|)
    ensures r.Err? ==> r.error == IndexOutOfBounds
    ensures r.Ok? ==> && r.value.0 == Root(s, x) && |r.value.1| == |s| && Valid(r.value.1)
                      && (r.value.1[x] == r.value.0 || r.value.0 == x)
                      && Roots(r.value.1) == Roots(s)
                      && (forall z :: 0 <= z < |s| ==> Root(r.value.1, z) == Root(s, z))
                      && (forall z :: 0 <= z < |s| && s[z] < 0 ==> r.value.1[z] == s[z])
  {
    if x < 0 || x >= |s| then Err(IndexOutOfBounds)
    else
      var (root, t) := FindFrom(s, x);
      assert x in Path(s, x);
      CompressKeeps(s, t);
      Ok((root, t))
  }

  // ---------------------------------------------------------------- union

  /** Hang root `c` under root `p`: `p` takes on `c`'s size. */
  function Attach(s: seq<int>, p: int, c: int): (t: seq<int>)
    requires 0 <= p < |s| && 0 <= c < |s|
    ensures |t| == |s| && (p != c ==> t[p] == s[p] + s[c])
  {
    s[p := s[p] + s[c]][c := p]
  }

  /** The ranking after attaching: `c`'s tree is lifted above `p`. */
  ghost function Lifted(s: seq<int>, p: int, c: int): (d: seq<nat>)
    requires Acyclic(s) && 0 <= p < |s|
  {
    var d := Rank(s);
    seq(|s|, z requires 0 <= z < |s| => if Root(s, z) == c then d[z] + d[p] + 1 else d[z])
  }

  lemma AttachAcyclic(s: seq<int>, p: int, c: int)
    requires Acyclic(s) && 0 <= p < |s| && 0 <= c < |s| && p != c && s[p] < 0 && s[c] < 0
    ensures Ranked(Attach(s, p, c), Lifted(s, p, c))
  {
    var t, d, e := Attach(s, p, c), Rank(s), Lifted(s, p, c);
    forall z | 0 <= z < |t| && t[z] >= 0 ensures t[z] < |t| && e[t[z]] < e[z] {
      if z != c {
        assert t[z] == s[z] && Root(s, z) == Root(s, s[z]);
      }
    }
  }

  lemma {:induction false} AttachRoot(s: seq<int>, p: int, c: int, z: int)
    requires Acyclic(s) && 0 <= p < |s| && 0 <= c < |s| && p != c && s[p] < 0 && s[c] < 0
    requires Acyclic(Attach(s, p, c)) && 0 <= z < |s|
    ensures Root(Attach(s, p, c), z) == if Root(s, z) == c then p else Root(s, z)
    decreases Rank(s)[z]
  {
    var t := Attach(s, p, c);
    if z != c && z != p && s[z] >= 0 {
      AttachRoot(s, p, c, s[z]);
    }
  }

  /** Attaching root `c` under root `p` merges the two sets into `p`'s and
      leaves every other set, and its root's entry, as it was. */
  lemma AttachKeeps(s: seq<int>, p: int, c: int)
    requires Valid(s) && 0 <= p < |s| && 0 <= c < |s| && p != c && s[p] < 0 && s[c] < 0
    ensures Valid(Attach(s, p, c))
    ensures Roots(Attach(s, p, c)) == Roots(s) - {c}
    ensures forall z :: 0 <= z < |s| ==> Root(Attach(s, p, c), z) == if Root(s, z) == c then p else Root(s, z)
    ensures Attach(s, p, c)[p] == -(|Members(s, p)| + |Members(s, c)|)
  {
    AttachValid(s, p, c);
    AttachMembers(s, p, c);
    AttachRoots(s, p, c);
  }

  lemma AttachRoots(s: seq<int>, p: int, c: int)
    requires 0 <= p < |s| && 0 <= c < |s| && p != c && s[p] < 0 && s[c] < 0
    ensures Roots(Attach(s, p, c)) == Roots(s) - {c}
  {
    var t := Attach(s, p, c);
    assert forall r :: 0 <= r < |s| && r != p && r != c ==> t[r] == s[r];
  }

  lemma AttachValid(s: seq<int>, p: int, c: int)
    requires Valid(s) && 0 <= p < |s| && 0 <= c < |s| && p != c && s[p] < 0 && s[c] < 0
    ensures Valid(Attach(s, p, c))
  {
    var t := Attach(s, p, c);
    AttachMembers(s, p, c);
    forall r | 0 <= r < |s| && t[r] < 0 ensures t[r] == -|Members(t, r)| {
      if r == p {
        assert |Members(t, p)| == |Members(s, p)| + |Members(s, c)|;
      } else {
        assert t[r] == s[r] && Members(t, r) == Members(s, r);
      }
    }
  }

  /** Attaching merges `c`'s set into `p`'s and leaves the other sets. */
  lemma AttachMembers(s: seq<int>, p: int, c: int)
    requires Acyclic(s) && 0 <= p < |s| && 0 <= c < |s| && p != c && s[p] < 0 && s[c] < 0
    ensures Acyclic(Attach(s, p, c))
    ensures forall z :: 0 <= z < |s| ==> Root(Attach(s, p, c), z) == if Root(s, z) == c then p else Root(s, z)
    ensures Members(Attach(s, p, c), p) == Members(s, p) + Members(s, c)
    ensures Members(s, p) !! Members(s, c)
    ensures forall r :: r != p && r != c ==> Members(Attach(s, p, c), r) == Members(s, r)
  {
    var t := Attach(s, p, c);
    AttachAcyclic(s, p, c);
    forall z | 0 <= z < |s| ensures Root(t, z) == if Root(s, z) == c then p else Root(s, z) {
      AttachRoot(s, p, c, z);
    }
  }

  /** Two arrays with the same root for every element have the same sets. */
  lemma SameRootsSameMembers(s: seq<int>, t: seq<int>)
    requires Acyclic(s) && Acyclic(t) && |t| == |s|
    requires forall z :: 0 <= z < |s| ==> Root(t, z) == Root(s, z)
    ensures forall r :: Members(t, r) == Members(s, r)
  {
  }

  /** The root that `union(x, y)` keeps: the common root if there is one,
      else the root of the strictly larger set, `y`'s on a tie. */
  ghost function Winner(s: seq<int>, x: int, y: int): int
    requires Acyclic(s) && 0 <= x < |s| && 0 <= y < |s|
  {
    var rx, ry := Root(s, x), Root(s, y);
    if rx != ry && |Members(s, rx)| > |Members(s, ry)| then rx else ry
  }

  /** The root of `z` once the sets of `x` and `y` are merged. */
  ghost function Merged(s: seq<int>, x: int, y: int, z: int): int
    requires Acyclic(s) && 0 <= x < |s| && 0 <= y < |s| && 0 <= z < |s|
  {
    if Root(s, z) == Root(s, x) || Root(s, z) == Root(s, y) then Winner(s, x, y) else Root(s, z)
  }

  /** `union(x, y)`: find both roots (an index outside the array throws);
      if they differ, the root whose set is strictly larger becomes the
      parent, `rootY` on a tie, and takes on the sum of both sizes. Every
      element of the two sets ends under that root; every other element
      keeps its root. */
  function Union(s: seq<int>, x: int, y: int): (r: Result<seq<int>>)
    requires Valid(s)
    ensures r.Err? <==> !(0 <= x < |s| && 0 <= y < |s|)
    ensures r.Err? ==> r.error == IndexOutOfBounds
    ensures r.Ok? ==> |r.value| == |s| && Valid(r.value)
    ensures r.Ok? ==> forall z :: 0 <= z < |s| ==> Root(r.value, z) == Merged(s, x, y, z)
    ensures r.Ok? && Root(s, x) == Root(s, y) ==> Roots(r.value) == Roots(s)
    ensures r.Ok? && Root(s, x) != Root(s, y) ==>
      && Roots(r.value) == Roots(s) - {if Winner(s, x, y) == Root(s, x) then Root(s, y) else Root(s, x)}
      && r.value[Winner(s, x, y)] == -(|Members(s, Root(s, x))| + |Members(s, Root(s, y))|)
  {
    var fx :- Find(s, x);
    var (rootX, s1) := fx;
    var fy :- Find(s1, y);
    var (rootY, s2) := fy;
    if rootX == rootY then
      Ok(s2)
    else
      var (p, c) := if s2[rootX] < s2[rootY] then (rootX, rootY) else (rootY, rootX);
      Link(s, s2, x, y, p, c);
      Ok(Attach(s2, p, c))
  }

  /** The linking step of `union`, on the array `s2` that the two finds
      left: hanging the loser under the winner merges the two sets of `s`. */
  lemma Link(s: seq<int>, s2: seq<int>, x: int, y: int, p: int, c: int)
    requires Valid(s) && Valid(s2) && |s2| == |s| && 0 <= x < |s| && 0 <= y < |s|
    requires forall z :: 0 <= z < |s| ==> Root(s2, z) == Root(s, z)
    requires forall z :: 0 <= z < |s| && s[z] < 0 ==> s2[z] == s[z]
    requires Roots(s2) == Roots(s) && Root(s, x) != Root(s, y)
    requires (p, c) == if s2[Root(s, x)] < s2[Root(s, y)] then (Root(s, x), Root(s, y)) else (Root(s, y), Root(s, x))
    ensures Valid(Attach(s2, p, c))
    ensures forall z :: 0 <= z < |s| ==> Root(Attach(s2, p, c), z) == Merged(s, x, y, z)
    ensures p == Winner(s, x, y)
    ensures Roots(Attach(s2, p, c)) == Roots(s) - {c}
    ensures Attach(s2, p, c)[p] == -(|Members(s, Root(s, x))| + |Members(s, Root(s, y))|)
  {
    LinkSizes(s, s2, x, y, p, c);
    AttachValid(s2, p, c);
    AttachRoots(s2, p, c);
    LinkRoots(s, s2, x, y, p, c);
  }

  /** The two roots' entries are minus their set sizes, so the comparison
      picks `Winner` and the sum is minus the merged size. */
  lemma LinkSizes(s: seq<int>, s2: seq<int>, x: int, y: int, p: int, c: int)
    requires Valid(s) && |s2| == |s| && 0 <= x < |s| && 0 <= y < |s|
    requires forall z :: 0 <= z < |s| && s[z] < 0 ==> s2[z] == s[z]
    requires Root(s, x) != Root(s, y)
    requires (p, c) == if s2[Root(s, x)] < s2[Root(s, y)] then (Root(s, x), Root(s, y)) else (Root(s, y), Root(s, x))
    ensures p == Winner(s, x, y) && s2[p] + s2[c] == -(|Members(s, Root(s, x))| + |Members(s, Root(s, y))|)
  {
    var rx, ry := Root(s, x), Root(s, y);
    assert s2[rx] == s[rx] == -|Members(s, rx)|;
    assert s2[ry] == s[ry] == -|Members(s, ry)|;
  }

  lemma LinkRoots(s: seq<int>, s2: seq<int>, x: int, y: int, p: int, c: int)
    requires Acyclic(s) && Acyclic(s2) && |s2| == |s| && 0 <= x < |s| && 0 <= y < |s|
    requires forall z :: 0 <= z < |s| ==> Root(s2, z) == Root(s, z)
    requires p == Winner(s, x, y) && {p, c} == {Root(s, x), Root(s, y)} && p != c
    ensures Acyclic(Attach(s2, p, c))
    ensures forall z :: 0 <= z < |s| ==> Root(Attach(s2, p, c), z) == Merged(s, x, y, z)
  {
    assert p in {Root(s, x), Root(s, y)} && c in {Root(s, x), Root(s, y)};
    AttachMembers(s2, p, c);
  }

  /** After `union(x, y)`, two elements are in the same set exactly when
      they were before, or one was with `x` and the other with `y`; in
      particular `x` and `y` now are. */
  lemma UnionJoins(s: seq<int>, x: int, y: int, a: int, b: int)
    requires Valid(s) && 0 <= x < |s| && 0 <= y < |s| && 0 <= a < |s| && 0 <= b < |s|
    ensures Union(s, x, y).Ok? && Same(Union(s, x, y).value, x, y)
    ensures Same(Union(s, x, y).value, a, b) <==>
      Same(s, a, b) || (Same(s, a, x) && Same(s, b, y)) || (Same(s, a, y) && Same(s, b, x))
  {
  }

  /** `union` of two elements already in one set keeps every set; of two in
      different sets, it leaves exactly one root fewer. */
  lemma UnionCountsRoots(s: seq<int>, x: int, y: int)
    requires Valid(s) && 0 <= x < |s| && 0 <= y < |s|
    ensures Same(s, x, y) ==> forall z :: 0 <= z < |s| ==> Root(Union(s, x, y).value, z) == Root(s, z)
    ensures |Roots(Union(s, x, y).value)| == |Roots(s)| - (if Same(s, x, y) then 0 else 1)
  {
    var u := Union(s, x, y).value;
    if !Same(s, x, y) {
      var rx, ry := Root(s, x), Root(s, y);
      var c := if Winner(s, x, y) == rx then ry else rx;
      assert c in Roots(s);
      assert Roots(u) == Roots(s) - {c};
    }
  }
}

=== FILE: dynamic_array_stack.dfy ===
/** `stack.DynamicArrayStack`: a stack in an array that doubles when a push
    finds it full and halves (never below one slot) when a pop leaves it
    less than a quarter full. Each method takes the stack and returns the
    stack it leaves behind, with its Java return value alongside. */
module DynamicArrayStack {
  import opened Common

  const DefaultCapacity: int := 16
  const MinCapacity: int := 1

  datatype Stack = Stack(capacity: int, arr: seq<int>, topIndex: int) {
    /** The fields agree: at least one slot, the array as long as the
        capacity, the top inside it, and every slot above the top zero. */
    predicate Valid() {
      && MinCapacity <= capacity == |arr|
      && -1 <= topIndex < capacity
      && forall k :: topIndex < k < |arr| ==> arr[k] == 0
    }

    /** The stored values, bottom first. */
    function Contents(): seq<int>
      requires Valid()
    {
      arr[..topIndex + 1]
    }
  }

  /** `DynamicArrayStack(capacity)`: a capacity below one is rejected with
      `IllegalArgumentException`; otherwise an empty stack over a zeroed
      array. */
  function New(capacity: int): (r: Result<Stack>)
    ensures r.Err? <==> capacity < MinCapacity
    ensures r.Err? ==> r.error == IllegalArgument
    ensures r.Ok? ==> r.value.Valid() && r.value.Contents() == [] && r.value.capacity == capacity
  {
    if capacity < MinCapacity then Err(IllegalArgument)
    else Ok(Stack(capacity, seq(capacity, _ => 0), -1))
  }

  /** `DynamicArrayStack()`: the default capacity of 16. */
  function NewDefault(): (s: Stack)
    ensures s.Valid() && s.Contents() == [] && s.capacity == DefaultCapacity
  {
    New(DefaultCapacity).value
  }

  /** `size()`: the number of values stored. */
  function Size(s: Stack): (n: int)
    requires s.Valid()
    ensures n == |s.Contents()| && 0 <= n <= s.capacity
  {
    s.topIndex + 1
  }

  /** `isEmpty()`: exactly when no value is stored. */
  function IsEmpty(s: Stack): (b: bool)
    requires s.Valid()
    ensures b <==> s.Contents() == []
  {
    s.topIndex < 0
  }

  /** The array after moving to a new capacity that still holds every
      value: the values at the same indices, zeros after them. */
  function Moved(s: Stack, newCapacity: int): (r: Stack)
    requires s.Valid() && MinCapacity <= newCapacity && Size(s) <= newCapacity
    ensures r.Valid() && r.capacity == newCapacity && r.Contents() == s.Contents()
  {
    var n := Size(s);
    Stack(newCapacity, s.arr[..n] + seq(newCapacity - n, _ => 0), s.topIndex)
  }

  /** `resize()`: twice the capacity, the same values. */
  function Resize(s: Stack): (r: Stack)
    requires s.Valid()
    ensures r.Valid() && r.capacity == 2 * s.capacity && r.Contents() == s.Contents()
  {
    Moved(s, s.capacity * 2)
  }

  /** `shrink()`: half the capacity, but at least one slot, the same
      values; its only caller makes sure they fit. */
  function Shrink(s: Stack): (r: Stack)
    requires s.Valid() && Size(s) <= Max(s.capacity / 2, MinCapacity)
    ensures r.Valid() && r.capacity == Max(s.capacity / 2, MinCapacity)
    ensures r.Contents() == s.Contents()
  {
    var newCapacity := if s.capacity / 2 < MinCapacity then MinCapacity else s.capacity / 2;
    Moved(s, newCapacity)
  }

  /** `push(value)`: a full stack first doubles; the value goes on top. */
  function Push(s: Stack, value: int): (r: Stack)
    requires s.Valid()
    ensures r.Valid() && r.Contents() == s.Contents() + [value]
    ensures r.capacity == if Size(s) == s.capacity then 2 * s.capacity else s.capacity
  {
    var g := if Size(s) == s.capacity then Resize(s) else s;
    var t := g.topIndex + 1;
    assert g.arr[t := value][..t + 1] == g.Contents() + [value];
    g.(arr := g.arr[t := value], topIndex := t)
  }

  /** `peek()`: an empty stack throws; otherwise the top value. */
  function Peek(s: Stack): (r: Result<int>)
    requires s.Valid()
    ensures r.Err? <==> s.Contents() == []
    ensures r.Err? ==> r.error == IllegalState
    ensures r.Ok? ==> r.value == s.Contents()[|s.Contents()| - 1]
  {
    if IsEmpty(s) then Err(IllegalState) else Ok(s.arr[s.topIndex])
  }

  /** `pop()`: an empty stack throws. Otherwise the top value is returned
      and its slot zeroed; when fewer than a quarter of the slots are then
      in use, the capacity halves, never below one. */
  function Pop(s: Stack): (r: Result<(int, Stack)>)
    requires s.Valid()
    ensures r.Err? <==> s.Contents() == []
    ensures r.Err? ==> r.error == IllegalState
    ensures r.Ok? ==> && r.value.1.Valid()
                      && s.Contents() == r.value.1.Contents() + [r.value.0]
                      && r.value.1.capacity ==
                           if Size(s) - 1 < s.capacity / 4 then Max(s.capacity / 2, MinCapacity) else s.capacity
  {
    if IsEmpty(s) then Err(IllegalState)
    else
      var value := s.arr[s.topIndex];
      var cleared := s.(arr := s.arr[s.topIndex := 0], topIndex := s.topIndex - 1);
      assert cleared.Contents() == s.Contents()[..Size(s) - 1];
      if Size(cleared) < cleared.capacity / 4 then Ok((value, Shrink(cleared)))
      else Ok((value, cleared))
  }

  /** Last in, first out across resizes: `pop` right after `push(v)`
      returns `v` and leaves the values that were there before. */
  lemma PushThenPop(s: Stack, v: int)
    requires s.Valid()
    ensures Pop(Push(s, v)).Ok?
    ensures Pop(Push(s, v)).value.0 == v
    ensures Pop(Push(s, v)).value.1.Contents() == s.Contents()
  {
    var r := Pop(Push(s, v)).value;
    assert r.1.Contents() + [r.0] == s.Contents() + [v];
    assert (r.1.Contents() + [r.0])[..|r.1.Contents()|] == r.1.Contents();
  }
}

=== FILE: heap.dfy ===
/** `heap.Heap`: a binary min- or max-heap stored in an array that doubles
    when full. This is the second of the class's two modules; the first,
    `HeapOrder`, holds heap order and the repair walks.

    The object's fields become a datatype value; each mutating method takes
    the heap and returns the updated one (with the method's Java return
    value alongside where it has one). `isMaxHeap` is always the negation of
    `isMinHeap`, so only the latter is kept. */
module Heap {
  import opened Common
  import opened HeapOrder

  datatype Heap = Heap(arr: seq<int>, count: int, capacity: int, isMin: bool) {
    /** The fields agree: `count` live entries in an array of length
        `capacity`. */
    predicate Valid() {
      0 <= count <= capacity && capacity == |arr|
    }

    /** The live entries `array[0 .. count)`. */
    function Live(): seq<int>
      requires Valid()
    {
      arr[..count]
    }

    predicate Ordered()
      requires Valid()
    {
      HeapOrdered(isMin, arr, count)
    }
  }

  /** The constructor: an empty heap over a zeroed array of the given
      capacity; a negative capacity throws `NegativeArraySizeException`. */
  function New(capacity: int, isMin: bool): (r: Result<Heap>)
    ensures r.Err? <==> capacity < 0
    ensures r.Err? ==> r.error == NegativeArraySize
    ensures r.Ok? ==> && r.value.Valid() && r.value.count == 0 && r.value.capacity == capacity
                      && r.value.isMin == isMin && r.value.Ordered()
                      && forall k :: 0 <= k < capacity ==> r.value.arr[k] == 0
  {
    if capacity < 0 then Err(NegativeArraySize)
    else Ok(Heap(seq(capacity, _ => 0), 0, capacity, isMin))
  }

  // ---------------------------------------------------------- inspection

  /** `parent(index)`: -1 for the root and for indices outside the live
      part; otherwise the parent's entry, which in a heap is above the
      entry at `index`. */
  function ParentOf(h: Heap, index: int): (r: int)
    requires h.Valid()
    ensures index <= 0 || index >= h.count ==> r == -1
    ensures 0 < index < h.count ==> r == h.arr[(index - 1) / 2] && r in h.Live()
    ensures 0 < index < h.count && h.Ordered() ==> Above(h.isMin, r, h.arr[index])
  {
    if index <= 0 || index >= h.count then -1
    else
      assert h.Live()[Parent(index)] == h.arr[Parent(index)];
      h.arr[Parent(index)]
  }

  /** `LeftChild(index)`: Java computes `2 * index + 1` in 32 bits; -1 when
      that index is past the live part, and a negative one reads before the
      array and throws. For `0 <= index < 2^30` nothing wraps and a live left
      child is below the entry at `index`. From `2^30` on the index wraps to
      a negative one and throws; below `-2^30` it wraps to a positive one,
      so `LeftChild(Integer.MIN_VALUE)` reads `array[1]`. */
  function LeftChildOf(h: Heap, index: int): (r: Result<int>)
    requires h.Valid() && IsInt(index)
    ensures r.Err? <==> -0x4000_0000 <= index < 0 || 0x4000_0000 <= index
    ensures r.Err? ==> r.error == IndexOutOfBounds
    ensures r.Ok? ==> r.value == -1 || r.value in h.Live()
    ensures 0 <= index < 0x4000_0000 && 2 * index + 1 >= h.count ==> r == Ok(-1)
    ensures 0 <= index < 0x4000_0000 && 2 * index + 1 < h.count ==> r == Ok(h.arr[2 * index + 1])
    ensures 0 <= index < 0x4000_0000 && 2 * index + 1 < h.count ==>
      r.Ok? && r.value in h.Live() && (h.Ordered() ==> Above(h.isMin, h.arr[index], r.value))
    ensures index < -0x4000_0000 ==>
      var wrapped := 2 * index + 1 + 0x1_0000_0000;
      r == if wrapped >= h.count then Ok(-1) else Ok(h.arr[wrapped])
  {
    WrapOnce(2 * index + 1);
    var leftIndex := WrapInt(2 * index + 1);
    if leftIndex >= h.count then Ok(-1)
    else if leftIndex < 0 then Err(IndexOutOfBounds)
    else
      assert h.Live()[leftIndex] == h.arr[leftIndex];
      assert 0 <= index ==> Parent(leftIndex) == index;
      Ok(h.arr[leftIndex])
  }

  /** `RightChild(index)`: as `LeftChild` with `2 * index + 2`. Index -1
      reads the root, and so does `Integer.MAX_VALUE`, whose right index
      wraps to 0. The indices from -2 down to `-2^30 - 1`, and from
      `2^30 - 1` up to `Integer.MAX_VALUE - 1`, give a negative index and
      throw; lower ones wrap to a positive index. */
  function RightChildOf(h: Heap, index: int): (r: Result<int>)
    requires h.Valid() && IsInt(index)
    ensures r.Err? <==> -0x4000_0001 <= index <= -2 || 0x3fff_ffff <= index < IntMax
    ensures r.Err? ==> r.error == IndexOutOfBounds
    ensures r.Ok? ==> r.value == -1 || r.value in h.Live()
    ensures index == -1 || index == IntMax ==> r == if h.count > 0 then Ok(h.arr[0]) else Ok(-1)
    ensures 0 <= index < 0x3fff_ffff && 2 * index + 2 >= h.count ==> r == Ok(-1)
    ensures 0 <= index < 0x3fff_ffff && 2 * index + 2 < h.count ==> r == Ok(h.arr[2 * index + 2])
    ensures 0 <= index < 0x3fff_ffff && 2 * index + 2 < h.count ==>
      r.Ok? && r.value in h.Live() && (h.Ordered() ==> Above(h.isMin, h.arr[index], r.value))
    ensures index < -0x4000_0001 ==>
      var wrapped := 2 * index + 2 + 0x1_0000_0000;
      r == if wrapped >= h.count then Ok(-1) else Ok(h.arr[wrapped])
  {
    WrapOnce(2 * index + 2);
    var rightIndex := WrapInt(2 * index + 2);
    if rightIndex >= h.count then Ok(-1)
    else if rightIndex < 0 then Err(IndexOutOfBounds)
    else
      assert h.Live()[rightIndex] == h.arr[rightIndex];
      assert 0 <= index < 0x3fff_ffff ==> Parent(rightIndex) == index;
      Ok(h.arr[rightIndex])
  }

  /** The root of a non-empty heap is above every live entry. */
  lemma RootIsExtreme(h: Heap)
    requires h.Valid() && h.count > 0
    ensures h.Ordered() ==> forall x :: x in multiset(h.Live()) ==> Above(h.isMin, h.arr[0], x)
  {
    forall x | h.Ordered() && x in multiset(h.Live()) ensures Above(h.isMin, h.arr[0], x) {
      var k :| 0 <= k < h.count && h.Live()[k] == x;
      RootAboveAll(h.isMin, h.arr, h.count, k);
    }
  }

  /** `getMax`: -1 on a min-heap or an empty heap; otherwise the root, the
      greatest live entry of a max-heap. */
  function GetMax(h: Heap): (r: int)
    requires h.Valid()
    ensures h.isMin || h.count == 0 ==> r == -1
    ensures !h.isMin && h.count > 0 ==> r in h.Live()
    ensures !h.isMin && h.count > 0 && h.Ordered() ==> forall x :: x in multiset(h.Live()) ==> x <= r
  {
    if h.isMin then -1
    else if h.count == 0 then -1
    else
      assert h.Live()[0] == h.arr[0];
      RootIsExtreme(h);
      h.arr[0]
  }

  /** `getMin`: -1 on a max-heap or an empty heap; otherwise the root, the
      least live entry of a min-heap. */
  function GetMin(h: Heap): (r: int)
    requires h.Valid()
    ensures !h.isMin || h.count == 0 ==> r == -1
    ensures h.isMin && h.count > 0 ==> r in h.Live()
    ensures h.isMin && h.count > 0 && h.Ordered() ==> forall x :: x in multiset(h.Live()) ==> r <= x
  {
    if !h.isMin then -1
    else if h.count == 0 then -1
    else
      assert h.Live()[0] == h.arr[0];
      RootIsExtreme(h);
      h.arr[0]
  }

  // ------------------------------------------------------- element moves

  /** `swap(i, j)`: both indices must be live, else
      `IndexOutOfBoundsException`; the two entries are exchanged and nothing
      else changes. */
  function SwapEntries(h: Heap, i: int, j: int): (r: Result<Heap>)
    requires h.Valid()
    ensures r.Err? <==> !(0 <= i < h.count && 0 <= j < h.count)
    ensures r.Err? ==> r.error == IndexOutOfBounds
    ensures r.Ok? ==> && r.value.Valid() && r.value.count == h.count && r.value.isMin == h.isMin
                      && r.value.capacity == h.capacity
                      && r.value.arr[i] == h.arr[j] && r.value.arr[j] == h.arr[i]
                      && forall k :: 0 <= k < |h.arr| && k != i && k != j ==> r.value.arr[k] == h.arr[k]
  {
    if i < 0 || i >= h.count || j < 0 || j >= h.count then Err(IndexOutOfBounds)
    else Ok(h.(arr := Swap(h.arr, i, j)))
  }

  /** Rearranging the live part and leaving the rest alone keeps the live
      multiset. */
  lemma LiveMultiset(a: seq<int>, b: seq<int>, n: int)
    requires 0 <= n <= |a| == |b| && multiset(a) == multiset(b) && a[n..] == b[n..]
    ensures multiset(a[..n]) == multiset(b[..n])
  {
    assert a == a[..n] + a[n..] && b == b[..n] + b[n..];
    assert multiset(a) == multiset(a[..n]) + multiset(a[n..]);
    assert multiset(b) == multiset(b[..n]) + multiset(b[n..]);
    assert multiset(a[..n]) == multiset(a) - multiset(a[n..]);
    assert multiset(b[..n]) == multiset(b) - multiset(b[n..]);
  }

  /** `percolateUp(i)`: from a live index that is the only exception to
      heap order, the walk restores it, rearranging only the live entries.
      Indices that are not live, and the root, leave the heap as it is. */
  function PercolateUp(h: Heap, i: int): (r: Heap)
    requires h.Valid()
    ensures r.Valid() && r.count == h.count && r.capacity == h.capacity && r.isMin == h.isMin
    ensures multiset(r.Live()) == multiset(h.Live())
    ensures i <= 0 || i >= h.count ==> r == h
    ensures UpInv(h.isMin, h.arr, h.count, i) ==> r.Ordered()
  {
    var a := SiftUp(h.isMin, h.arr, h.count, i);
    LiveMultiset(a, h.arr, h.count);
    SiftUpRestores(h.isMin, h.arr, h.count, i);
    h.(arr := a)
  }

  /** `percolateDown(i)`: the child indices `2 * i + 1` and `2 * i + 2`
      are computed in 32 bits, and any comparison that reads a negative
      index throws. For `0 <= i < 2^30 - 1` nothing wraps: when `i` is the
      only node whose children may be out of order, the walk restores heap
      order, rearranging only the live entries. A negative `i` down to
      `-2^30 - 1`, or an `i` from `2^30 - 1` on, reads a negative index and
      throws: at `2^30 - 1` the left index is `Integer.MAX_VALUE`, never
      live, but the right one wraps to `Integer.MIN_VALUE`. Below `-2^30 - 1`
      both child indices wrap to positive ones: if the left one is live the
      comparison reads `array[i]` and throws, and otherwise nothing is read
      and the heap is left alone. */
  function PercolateDown(h: Heap, i: int): (r: Result<Heap>)
    requires h.Valid() && IsInt(i)
    ensures r.Err? <==> || -0x4000_0001 <= i < 0 || 0x3fff_ffff <= i
                        || (i < -0x4000_0001 && 2 * i + 1 + 0x1_0000_0000 < h.count)
    ensures r.Err? ==> r.error == IndexOutOfBounds
    ensures i < 0 && r.Ok? ==> r.value == h
    ensures r.Ok? ==> && r.value.Valid() && r.value.count == h.count && r.value.capacity == h.capacity
                      && r.value.isMin == h.isMin
                      && multiset(r.value.Live()) == multiset(h.Live())
                      && (DownInv(h.isMin, h.arr, h.count, 0, i) ==> r.value.Ordered())
  {
    if 0 <= i < 0x3fff_ffff then
      var a := SiftDown(h.isMin, h.arr, h.count, i);
      LiveMultiset(a, h.arr, h.count);
      SiftDownRestores(h.isMin, h.arr, h.count, 0, i);
      Ok(h.(arr := a))
    else
      PercolateDownWrapped(h, i)
  }

  /** `percolateDown(i)` from an index whose children's 32-bit indices are
      not both `2 * i + 1` and `2 * i + 2` in range: it throws unless both
      wrap to indices past the live part, and then it changes nothing. */
  function PercolateDownWrapped(h: Heap, i: int): (r: Result<Heap>)
    requires h.Valid() && IsInt(i) && !(0 <= i < 0x3fff_ffff)
    ensures r.Err? <==> || -0x4000_0001 <= i < 0 || 0x3fff_ffff <= i
                        || (i < -0x4000_0001 && 2 * i + 1 + 0x1_0000_0000 < h.count)
    ensures r.Err? ==> r.error == IndexOutOfBounds
    ensures r.Ok? ==> r.value == h
  {
    WrapOnce(2 * i + 1);
    WrapOnce(2 * i + 2);
    var left, right := WrapInt(2 * i + 1), WrapInt(2 * i + 2);
    if left < h.count || right < h.count then Err(IndexOutOfBounds) else Ok(h)
  }

  // -------------------------------------------------------------- removal

  /** The common part of `deleteMin` and `deleteMax` on a non-empty heap:
      take the root, move the last live entry to the root, shrink the live
      part and percolate down from the root. The root taken is above every
      live entry of a heap, exactly one copy of it leaves, and heap order is
      kept. */
  function DeleteRoot(h: Heap): (r: (int, Heap))
    requires h.Valid() && h.count > 0
    ensures r.1.Valid() && r.1.count == h.count - 1 && r.1.capacity == h.capacity && r.1.isMin == h.isMin
    ensures r.0 == h.arr[0] && r.0 in h.Live()
    ensures multiset(r.1.Live()) == multiset(h.Live()) - multiset{r.0}
    ensures h.Ordered() ==> r.1.Ordered() && forall x :: x in multiset(h.Live()) ==> Above(h.isMin, r.0, x)
  {
    var n := h.count - 1;
    RemoveRoot(h.isMin, h.arr, n);
    RootIsExtreme(h);
    (h.arr[0], h.(arr := SiftDown(h.isMin, h.arr[0 := h.arr[n]], n, 0), count := n))
  }

  /** Removing the root of `a[..n + 1]` the way `deleteMin` and `deleteMax`
      do leaves the other live entries, in heap order if they were. */
  lemma RemoveRoot(isMin: bool, a: seq<int>, n: int)
    requires 0 <= n < |a|
    ensures var t := SiftDown(isMin, a[0 := a[n]], n, 0);
      && multiset(t[..n]) == multiset(a[..n + 1]) - multiset{a[0]}
      && (HeapOrdered(isMin, a, n + 1) ==> HeapOrdered(isMin, t, n))
  {
    var moved := a[0 := a[n]];
    LiveMultiset(SiftDown(isMin, moved, n, 0), moved, n);
    RootToLastMultiset(a, n);
    RootToLastKeepsDownInv(isMin, a, n);
    SiftDownRestores(isMin, moved, n, 0, 0);
  }

  /** Moving the last live entry to the root removes one copy of the root
      from the live multiset. */
  lemma RootToLastMultiset(a: seq<int>, n: int)
    requires 0 <= n < |a|
    ensures multiset(a[0 := a[n]][..n]) == multiset(a[..n + 1]) - multiset{a[0]}
  {
    var m := a[0 := a[n]];
    if n > 0 {
      assert m[..n] == [a[n]] + a[1..n];
      assert a[..n + 1] == [a[0]] + a[1..n] + [a[n]];
    } else {
      assert a[..n + 1] == [a[0]];
    }
  }

  /** Moving the last live entry of a heap to the root leaves the root as
      the only node whose children may be out of order. */
  lemma RootToLastKeepsDownInv(isMin: bool, a: seq<int>, n: int)
    requires 0 <= n < |a|
    ensures HeapOrdered(isMin, a, n + 1) ==> DownInv(isMin, a[0 := a[n]], n, 0, 0)
  {
    var m := a[0 := a[n]];
    if HeapOrdered(isMin, a, n + 1) {
      forall k | 0 < k < n && Parent(k) != 0 ensures Above(isMin, m[Parent(k)], m[k]) {
        assert m[k] == a[k] && m[Parent(k)] == a[Parent(k)];
      }
    }
  }

  /** `deleteMax`: -1 and no change on a min-heap or an empty heap;
      otherwise the greatest entry of a max-heap is removed and returned. */
  function DeleteMax(h: Heap): (r: (int, Heap))
    requires h.Valid()
    ensures h.isMin || h.count == 0 ==> r == (-1, h)
    ensures !h.isMin && h.count > 0 ==>
      && r.1.Valid() && r.1.count == h.count - 1 && r.1.isMin == h.isMin && r.1.capacity == h.capacity
      && r.0 in h.Live() && multiset(r.1.Live()) == multiset(h.Live()) - multiset{r.0}
      && (h.Ordered() ==> r.1.Ordered() && forall x :: x in multiset(h.Live()) ==> x <= r.0)
  {
    if h.isMin then (-1, h)
    else if h.count == 0 then (-1, h)
    else DeleteRoot(h)
  }

  /** `deleteMin`: -1 and no change on a max-heap or an empty heap;
      otherwise the least entry of a min-heap is removed and returned. */
  function DeleteMin(h: Heap): (r: (int, Heap))
    requires h.Valid()
    ensures !h.isMin || h.count == 0 ==> r == (-1, h)
    ensures h.isMin && h.count > 0 ==>
      && r.1.Valid() && r.1.count == h.count - 1 && r.1.isMin == h.isMin && r.1.capacity == h.capacity
      && r.0 in h.Live() && multiset(r.1.Live()) == multiset(h.Live()) - multiset{r.0}
      && (h.Ordered() ==> r.1.Ordered() && forall x :: x in multiset(h.Live()) ==> r.0 <= x)
  {
    if !h.isMin then (-1, h)
    else if h.count == 0 then (-1, h)
    else DeleteRoot(h)
  }

  /** Two `deleteMin` calls in a row on a min-heap with at least two
      entries return nondecreasing values. */
  lemma DeleteMinTwiceNondecreasing(h: Heap)
    requires h.Valid() && h.Ordered() && h.isMin && h.count >= 2
    ensures DeleteMin(h).0 <= DeleteMin(DeleteMin(h).1).0
  {
    var (first, h1) := DeleteMin(h);
    var (second, _) := DeleteMin(h1);
    assert second in multiset(h1.Live());
  }

  // ------------------------------------------------------------ insertion

  /** `resizeHeap`: an array of twice the capacity holding the live entries
      at the same indices and zeros after them. */
  function ResizeHeap(h: Heap): (r: Heap)
    requires h.Valid()
    ensures r.Valid() && r.capacity == 2 * h.capacity && r.count == h.count && r.isMin == h.isMin
    ensures r.Live() == h.Live()
    ensures forall k :: h.count <= k < r.capacity ==> r.arr[k] == 0
  {
    var newCapacity := h.capacity * 2;
    h.(arr := h.arr[..h.count] + seq(newCapacity - h.count, _ => 0), capacity := newCapacity)
  }

  /** Storing a value just past the live part of a heap leaves the new entry
      as the only exception to heap order. */
  lemma AppendKeepsUpInv(isMin: bool, a: seq<int>, stored: seq<int>, n: int)
    requires 0 <= n < |stored| && n <= |a| && stored[..n] == a[..n]
    ensures HeapOrdered(isMin, a, n) ==> UpInv(isMin, stored, n + 1, n)
  {
    if HeapOrdered(isMin, a, n) {
      forall k | 0 < k < n ensures stored[k] == a[k] && stored[Parent(k)] == a[Parent(k)] {
        assert stored[..n][k] == stored[k] && a[..n][k] == a[k];
        assert stored[..n][Parent(k)] == stored[Parent(k)] && a[..n][Parent(k)] == a[Parent(k)];
      }
    }
  }

  /** Storing `value` at index `n` of an array that agrees with `a` on
      `[0, n)` and percolating it up adds it to the live entries, keeping
      heap order. */
  lemma Append(isMin: bool, a: seq<int>, g: seq<int>, n: int, value: int)
    requires 0 <= n < |g| && n <= |a| && g[..n] == a[..n]
    ensures multiset(SiftUp(isMin, g[n := value], n + 1, n)[..n + 1]) == multiset(a[..n]) + multiset{value}
    ensures HeapOrdered(isMin, a, n) ==> HeapOrdered(isMin, SiftUp(isMin, g[n := value], n + 1, n), n + 1)
  {
    AppendBag(isMin, a, g, n, value);
    var stored := g[n := value];
    assert stored[..n] == a[..n];
    AppendKeepsUpInv(isMin, a, stored, n);
    SiftUpRestores(isMin, stored, n + 1, n);
  }

  /** The multiset half of `Append`. */
  lemma AppendBag(isMin: bool, a: seq<int>, g: seq<int>, n: int, value: int)
    requires 0 <= n < |g| && n <= |a| && g[..n] == a[..n]
    ensures multiset(SiftUp(isMin, g[n := value], n + 1, n)[..n + 1]) == multiset(a[..n]) + multiset{value}
  {
    var stored := g[n := value];
    assert stored[..n + 1] == g[..n] + [value];
    LiveMultiset(SiftUp(isMin, stored, n + 1, n), stored, n + 1);
  }

  /** `insert(value)`: a full heap first doubles its capacity; the value is
      stored after the live entries and percolated up, and returned. A heap
      of capacity 0 stays at capacity 0, so the store throws. Otherwise the
      live multiset gains the value and heap order is kept. */
  function Insert(h: Heap, value: int): (r: Result<(int, Heap)>)
    requires h.Valid()
    ensures r.Err? <==> h.capacity == 0
    ensures r.Err? ==> r.error == IndexOutOfBounds
    ensures r.Ok? ==> && r.value.0 == value
                      && r.value.1.Valid() && r.value.1.count == h.count + 1 && r.value.1.isMin == h.isMin
                      && r.value.1.capacity == (if h.count == h.capacity then 2 * h.capacity else h.capacity)
                      && multiset(r.value.1.Live()) == multiset(h.Live()) + multiset{value}
                      && (h.Ordered() ==> r.value.1.Ordered())
  {
    var g := if h.count == h.capacity then ResizeHeap(h) else h;
    var n := h.count;
    if n >= |g.arr| then Err(IndexOutOfBounds)
    else
      Append(h.isMin, h.arr, g.arr, n, value);
      var t := SiftUp(h.isMin, g.arr[n := value], n + 1, n);
      assert Heap(t, n + 1, g.capacity, h.isMin).Live() == t[..n + 1] && h.Live() == h.arr[..n];
      Ok((value, Heap(t, n + 1, g.capacity, h.isMin)))
  }

  // ---------------------------------------------------- build and sort

  /** `buildMinHeap(inputArray)`: a null or empty input changes nothing.
      Otherwise the heap adopts the input, with count and capacity its
      length, and percolates down from the last parent back to the root,
      which puts it in heap order (by the heap's own min or max flag). */
  method BuildMinHeap(h: Heap, inputArray: Option<seq<int>>) returns (r: Heap)
    ensures inputArray.None? || |inputArray.value| == 0 ==> r == h
    ensures inputArray.Some? && |inputArray.value| > 0 ==>
      && r.Valid() && r.count == r.capacity == |inputArray.value| && r.isMin == h.isMin
      && multiset(r.arr) == multiset(inputArray.value) && r.Ordered()
  {
    if inputArray.None? || |inputArray.value| == 0 {
      return h;
    }
    var a := inputArray.value;
    var n := |a|;
    var i := n / 2 - 1;
    assert forall k :: 0 < k < n ==> Parent(k) < n / 2;
    while i >= 0
      invariant -1 <= i < n / 2 && |a| == n && multiset(a) == multiset(inputArray.value)
      invariant HeapFrom(h.isMin, a, n, i + 1)
    {
      assert DownInv(h.isMin, a, n, i, i);
      SiftDownRestores(h.isMin, a, n, i, i);
      a := SiftDown(h.isMin, a, n, i);
      i := i - 1;
    }
    assert a[..n] == a;
    r := Heap(a, n, n, h.isMin);
  }

  /** After swapping the root to `i` and rearranging `[0, i)`, each entry of
      `[0, i)` came from somewhere in `[0, i]` of the array before. */
  lemma CameFrom(a: seq<int>, s: seq<int>, t: seq<int>, i: int, k: int) returns (q: int)
    requires 0 < i < |a| && s == Swap(a, 0, i) && |t| == |s| && 0 <= k < i
    requires multiset(t[..i]) == multiset(s[..i])
    ensures 0 <= q <= i && t[k] == a[q]
  {
    assert t[..i][k] == t[k];
    assert t[k] in multiset(s[..i]);
    var p :| 0 <= p < i && s[..i][p] == t[k];
    q := if p == 0 then i else p;
  }

  /** One round of `heapSort`: with a heap on `a[..i + 1]` whose entries are
      all below the sorted tail `a[i + 1..n]`, swapping the root to `i` and
      percolating down on `a[..i]` extends the tail by one. */
  lemma SortStep(isMin: bool, a: seq<int>, n: int, i: int)
    requires 0 < i < n <= |a| && HeapOrdered(isMin, a, i + 1)
    requires forall j1, j2 :: i < j1 < j2 < n ==> Above(isMin, a[j2], a[j1])
    requires forall k, j :: 0 <= k <= i < j < n ==> Above(isMin, a[j], a[k])
    ensures var t := SiftDown(isMin, Swap(a, 0, i), i, 0);
      && HeapOrdered(isMin, t, i)
      && (forall j1, j2 :: i - 1 < j1 < j2 < n ==> Above(isMin, t[j2], t[j1]))
      && (forall k, j :: 0 <= k <= i - 1 < j < n ==> Above(isMin, t[j], t[k]))
  {
    var s := Swap(a, 0, i);
    var t := SiftDown(isMin, s, i, 0);
    forall k | 0 <= k <= i ensures Above(isMin, a[0], a[k]) {
      RootAboveAll(isMin, a, i + 1, k);
    }
    assert DownInv(isMin, s, i, 0, 0) by {
      forall k | 0 < k < i && Parent(k) != 0 ensures Above(isMin, s[Parent(k)], s[k]) {
        assert s[k] == a[k] && s[Parent(k)] == a[Parent(k)];
      }
    }
    SiftDownRestores(isMin, s, i, 0, 0);
    LiveMultiset(t, s, i);
    forall k, j | 0 <= k <= i - 1 < j < n ensures Above(isMin, t[j], t[k]) {
      var q := CameFrom(a, s, t, i, k);
      if j == i {
        assert t[j] == a[0];
      } else {
        assert t[j] == a[j];
      }
    }
    forall j1, j2 | i - 1 < j1 < j2 < n ensures Above(isMin, t[j2], t[j1]) {
      assert t[j2] == a[j2];
      if j1 == i {
        assert t[j1] == a[0];
      } else {
        assert t[j1] == a[j1];
      }
    }
  }

  /** One round of `heapSort` rearranges `a[..n]` and leaves the rest. */
  lemma SortRoundKeeps(isMin: bool, a: seq<int>, n: int, i: int)
    requires 0 < i < n <= |a|
    ensures var t := SiftDown(isMin, Swap(a, 0, i), i, 0);
      |t| == |a| && multiset(t[..n]) == multiset(a[..n]) && t[n..] == a[n..]
  {
    var s := Swap(a, 0, i);
    var t := SiftDown(isMin, s, i, 0);
    assert t[n..] == a[n..];
    LiveMultiset(t, a, n);
  }

  /** `heapSort`: repeatedly swap the root to the end of the live part and
      percolate down on what remains, then restore `count`. On a heap, the
      live entries end in order from the bottom of the heap order up:
      ascending for a max-heap, descending for a min-heap. The live multiset
      and everything past it are kept. */
  method HeapSort(h: Heap) returns (r: Heap)
    requires h.Valid()
    ensures r.Valid() && r.count == h.count && r.capacity == h.capacity && r.isMin == h.isMin
    ensures multiset(r.Live()) == multiset(h.Live())
    ensures r.arr[h.count..] == h.arr[h.count..]
    ensures h.Ordered() ==> forall j1, j2 :: 0 <= j1 < j2 < h.count ==> Above(h.isMin, r.arr[j2], r.arr[j1])
    ensures h.Ordered() && !h.isMin ==> Sorted(r.Live())
  {
    if h.count == 0 {
      return h;
    }
    var n := h.count;
    var a := h.arr;
    var i := n - 1;
    while i > 0
      invariant 0 <= i < n && |a| == |h.arr|
      invariant multiset(a[..n]) == multiset(h.arr[..n]) && a[n..] == h.arr[n..]
      invariant h.Ordered() ==> HeapOrdered(h.isMin, a, i + 1)
      invariant h.Ordered() ==> forall j1, j2 :: i < j1 < j2 < n ==> Above(h.isMin, a[j2], a[j1])
      invariant h.Ordered() ==> forall k, j :: 0 <= k <= i < j < n ==> Above(h.isMin, a[j], a[k])
    {
      if h.Ordered() {
        SortStep(h.isMin, a, n, i);
      }
      SortRoundKeeps(h.isMin, a, n, i);
      a := SiftDown(h.isMin, Swap(a, 0, i), i, 0);
      i := i - 1;
    }
    r := h.(arr := a);
    if h.Ordered() && !h.isMin {
      forall j1, j2 | 0 <= j1 < j2 < |r.Live()| ensures r.Live()[j1] <= r.Live()[j2] {
        assert r.Live()[j1] == a[j1] && r.Live()[j2] == a[j2];
        assert Above(h.isMin, a[j2], a[j1]);
      }
    }
  }
}

=== FILE: heap_order.dfy ===
/** The array algorithms behind `heap.Heap`: heap order on the live prefix
    of an array, and the two repair walks `percolateUp` and
    `percolateDown`, as pure functions on the array contents. This is the
    first of the class's two modules; the second, `Heap`, holds the class's
    operations.

    One flag chooses the order: in a min-heap a parent is at most its
    children, in a max-heap at least. The parent of index `k > 0` is
    `(k - 1) / 2`; the children of `i` are `2i + 1` and `2i + 2`. */
module HeapOrder {

  /** `x` may sit above `y` in the heap. */
  predicate Above(isMin: bool, x: int, y: int) {
    if isMin then x <= y else x >= y
  }

  /** `x` must move above `y`: the strict comparison the walks use. */
  predicate Better(isMin: bool, x: int, y: int) {
    if isMin then x < y else x > y
  }

  function Parent(k: int): int {
    (k - 1) / 2
  }

  /** Exchange two entries. */
  function Swap(a: seq<int>, i: int, j: int): (r: seq<int>)
    requires 0 <= i < |a| && 0 <= j < |a|
    ensures |r| == |a| && multiset(r) == multiset(a)
    ensures r[i] == a[j] && r[j] == a[i]
    ensures forall k :: 0 <= k < |a| && k != i && k != j ==> r[k] == a[k]
  {
    var r := a[i := a[j]][j := a[i]];
    assert multiset(r) == multiset(a);
    r
  }

  /** Heap order on the nodes of `a[..n]` whose parent is at index `b` or
      later: the subtrees rooted at `b, b + 1, ...` are heaps. */
  predicate HeapFrom(isMin: bool, a: seq<int>, n: int, b: int) {
    0 <= n <= |a| && forall k :: 0 < k < n && b <= Parent(k) ==> Above(isMin, a[Parent(k)], a[k])
  }

  /** Heap order on the live prefix `a[..n]`. */
  predicate HeapOrdered(isMin: bool, a: seq<int>, n: int) {
    HeapFrom(isMin, a, n, 0)
  }

  /** The root of a heap is above every live entry: the least of a
      min-heap, the greatest of a max-heap. */
  lemma {:induction false} RootAboveAll(isMin: bool, a: seq<int>, n: int, k: int)
    requires HeapOrdered(isMin, a, n) && 0 <= k < n
    ensures Above(isMin, a[0], a[k])
    decreases k
  {
    if k > 0 {
      RootAboveAll(isMin, a, n, Parent(k));
    }
  }

  // ------------------------------------------------------------ percolateUp

  /** Inside `percolateUp` at `i`: heap order holds for every node but `i`
      itself, and `i`'s parent is above `i`'s children. */
  predicate UpInv(isMin: bool, a: seq<int>, n: int, i: int) {
    && 0 <= i < n <= |a|
    && (forall k :: 0 < k < n && k != i ==> Above(isMin, a[Parent(k)], a[k]))
    && (i > 0 ==> forall c :: 0 < c < n && Parent(c) == i ==> Above(isMin, a[Parent(i)], a[c]))
  }

  /** `percolateUp(i)`: while `i` is a live non-root index whose entry must
      move above its parent's, swap the two and continue from the parent. */
  function SiftUp(isMin: bool, a: seq<int>, n: int, i: int): (r: seq<int>)
    requires 0 <= n <= |a|
    ensures |r| == |a| && multiset(r) == multiset(a)
    ensures forall k :: n <= k < |a| ==> r[k] == a[k]
    decreases i
  {
    if i <= 0 || i >= n then a
    else if Better(isMin, a[i], a[Parent(i)]) then SiftUp(isMin, Swap(a, i, Parent(i)), n, Parent(i))
    else a
  }

  /** One swap of `percolateUp` moves the exception from `i` to its
      parent. */
  lemma UpStep(isMin: bool, a: seq<int>, n: int, i: int)
    requires UpInv(isMin, a, n, i) && i > 0 && Better(isMin, a[i], a[Parent(i)])
    ensures UpInv(isMin, Swap(a, i, Parent(i)), n, Parent(i))
  {
    var p := Parent(i);
    var s := Swap(a, i, p);
    forall k | 0 < k < n && k != p ensures Above(isMin, s[Parent(k)], s[k]) {
      if k == i {
      } else if Parent(k) == p {
        assert s[k] == a[k];
      } else if Parent(k) == i {
        assert s[k] == a[k];
      } else {
        assert Parent(k) != i && Parent(k) != p && s[k] == a[k];
      }
    }
    if p > 0 {
      forall c | 0 < c < n && Parent(c) == p ensures Above(isMin, s[Parent(p)], s[c]) {
        assert s[Parent(p)] == a[Parent(p)];
        if c != i {
          assert s[c] == a[c];
        }
      }
    }
  }

  /** `percolateUp` from an index that is the only exception to heap order
      restores it. */
  lemma {:induction false} SiftUpRestores(isMin: bool, a: seq<int>, n: int, i: int)
    requires 0 <= n <= |a|
    ensures UpInv(isMin, a, n, i) ==> HeapOrdered(isMin, SiftUp(isMin, a, n, i), n)
    decreases i
  {
    if UpInv(isMin, a, n, i) && i > 0 && Better(isMin, a[i], a[Parent(i)]) {
      UpStep(isMin, a, n, i);
      SiftUpRestores(isMin, Swap(a, i, Parent(i)), n, Parent(i));
    }
  }

  // ---------------------------------------------------------- percolateDown

  /** Inside `percolateDown` at `i`, for the subtrees from `b` on: heap
      order holds for every node whose parent is from `b` on, except the
      children of `i`, and `i`'s parent (when it counts) is above `i`'s
      children. */
  predicate DownInv(isMin: bool, a: seq<int>, n: int, b: int, i: int) {
    && 0 <= b <= i && 0 <= n <= |a|
    && (forall k :: 0 < k < n && b <= Parent(k) && Parent(k) != i ==> Above(isMin, a[Parent(k)], a[k]))
    && (i > 0 && b <= Parent(i) ==>
          forall c :: 0 < c < n && Parent(c) == i ==> Above(isMin, a[Parent(i)], a[c]))
  }

  /** The index `percolateDown` picks: `i`, unless a live child must move
      above it; the right child wins when it must move above the left. */
  function Pick(isMin: bool, a: seq<int>, n: int, i: int): (m: int)
    requires 0 <= i && n <= |a|
    ensures m == i || m == 2 * i + 1 || m == 2 * i + 2
    ensures m != i ==> m < n && Better(isMin, a[m], a[i])
    ensures forall c :: 0 < c < n && Parent(c) == i ==> (m == i || c == m || Above(isMin, a[m], a[c]))
    ensures m == i ==> forall c :: 0 < c < n && Parent(c) == i ==> Above(isMin, a[i], a[c])
  {
    var l, r := 2 * i + 1, 2 * i + 2;
    var m := if l < n && Better(isMin, a[l], a[i]) then l else i;
    if r < n && Better(isMin, a[r], a[m]) then r else m
  }

  /** `percolateDown(i)`: swap `i` with the child it picks, if any, and
      continue from that child. */
  function SiftDown(isMin: bool, a: seq<int>, n: int, i: int): (r: seq<int>)
    requires 0 <= i && 0 <= n <= |a|
    ensures |r| == |a| && multiset(r) == multiset(a)
    ensures forall k :: n <= k < |a| ==> r[k] == a[k]
    decreases n - i
  {
    var m := Pick(isMin, a, n, i);
    if m != i then SiftDown(isMin, Swap(a, i, m), n, m) else a
  }

  /** One swap of `percolateDown` moves the exception from `i` to the
      child it picked. */
  lemma DownStep(isMin: bool, a: seq<int>, n: int, b: int, i: int)
    requires DownInv(isMin, a, n, b, i) && Pick(isMin, a, n, i) != i
    ensures DownInv(isMin, Swap(a, i, Pick(isMin, a, n, i)), n, b, Pick(isMin, a, n, i))
  {
    var m := Pick(isMin, a, n, i);
    var s := Swap(a, i, m);
    forall k | 0 < k < n && b <= Parent(k) && Parent(k) != m ensures Above(isMin, s[Parent(k)], s[k]) {
      if Parent(k) == i {
        if k != m {
          assert s[k] == a[k];
        }
      } else if k == i {
        assert s[Parent(i)] == a[Parent(i)];
      } else {
        assert s[k] == a[k] && s[Parent(k)] == a[Parent(k)];
      }
    }
    forall c | 0 < c < n && Parent(c) == m ensures Above(isMin, s[Parent(m)], s[c]) {
      assert s[c] == a[c];
    }
  }

  /** `percolateDown` from the one node whose children may be out of order
      restores heap order on all subtrees from `b` on. */
  lemma {:induction false} SiftDownRestores(isMin: bool, a: seq<int>, n: int, b: int, i: int)
    requires 0 <= i && 0 <= n <= |a|
    ensures DownInv(isMin, a, n, b, i) ==> HeapFrom(isMin, SiftDown(isMin, a, n, i), n, b)
    decreases n - i
  {
    var m := Pick(isMin, a, n, i);
    if DownInv(isMin, a, n, b, i) && m != i {
      DownStep(isMin, a, n, b, i);
      SiftDownRestores(isMin, Swap(a, i, m), n, b, m);
    }
  }
}

=== FILE: insertion_sort.dfy ===
/** `sorting.InsertionSort`, and the gap-`h` insertion pass it shares with
    shell sort.

    The source's inner loop tests `arr[j - 1] > key` before `j >= 1`, so
    once the key has been shifted past every earlier element the test reads
    `arr[-1]` and throws. `SortAsWritten` models that loop; `Sort` is the
    loop with the two tests in the intended order, which is the gap pass at
    gap 1. */
module InsertionSort {
  import opened Common

  /** Every element of `a[..n]` at distance `h` from an earlier one is at
      least as large: the pairs `(k - h, k)` with `k < n` are in order. */
  predicate GapSorted(a: seq<int>, h: nat, n: int) {
    n <= |a| && forall k :: h <= k < n ==> a[k - h] <= a[k]
  }

  /** The shift step: moving the element at `j - h` up into the gap at `j`
      and opening the gap at `j - h` keeps the contents once the key is put
      back. */
  lemma ShiftKeepsMultiset(b: seq<int>, j: int, h: int, v: int)
    requires 0 <= j - h < j < |b|
    ensures multiset(b[j := b[j - h]][j - h := v]) == multiset(b[j := v])
  {
    var c := b[j := v];
    assert b[j := b[j - h]][j - h := v] == c[j - h := c[j]][j := c[j - h]];
    SwapKeepsMultiset(c, j - h, j);
  }

  /** The state inside the shift loop of a gap pass inserting `v`, taken
      from `a[i]`: the gap is at `j`, the multiset is `a`'s once `v` is put
      back at `j`, every pair at distance `h` up to `i` not ending at the gap
      is in order, the elements shifted up are larger than `v`, and nothing
      after `i` has moved. */
  predicate Hole(a: seq<int>, b: seq<int>, h: nat, i: nat, j: int, v: int) {
    && 1 <= h <= i < |a| && 0 <= j <= i && |b| == |a|
    && multiset(b[j := v]) == multiset(a)
    && (forall k :: h <= k <= i && k != j ==> b[k - h] <= b[k])
    && (j >= h && j + h <= i ==> b[j - h] <= b[j + h])
    && (j + h <= i ==> v < b[j + h])
    && b[i + 1..] == a[i + 1..]
  }

  lemma HoleStart(a: seq<int>, h: nat, i: nat)
    requires 1 <= h <= i < |a| && GapSorted(a, h, i)
    ensures Hole(a, a, h, i, i, a[i])
  {
    assert a[i := a[i]] == a;
  }

  /** Shifting `b[j - h]` up into the gap moves the gap down by `h`. */
  lemma HoleShift(a: seq<int>, b: seq<int>, h: nat, i: nat, j: int, v: int)
    requires Hole(a, b, h, i, j, v) && j >= h && b[j - h] > v
    ensures Hole(a, b[j := b[j - h]], h, i, j - h, v)
  {
    ShiftKeepsMultiset(b, j, h, v);
    var c := b[j := b[j - h]];
    assert c[i + 1..] == b[i + 1..];
    forall k | h <= k <= i && k != j - h ensures c[k - h] <= c[k] {
      if k == j {
      } else if k == j + h {
        assert c[k - h] == b[j - h] && c[k] == b[j + h];
      } else {
        assert c[k - h] == b[k - h] && c[k] == b[k];
      }
    }
    if j - h >= h && j <= i {
      assert c[j - 2 * h] == b[j - 2 * h];
      assert b[(j - h) - h] <= b[j - h];
    }
  }

  /** Putting `v` into the gap once the chain below holds nothing larger
      completes the pass up to `i`. */
  lemma HolePlace(a: seq<int>, b: seq<int>, h: nat, i: nat, j: int, v: int)
    requires Hole(a, b, h, i, j, v) && !(j >= h && b[j - h] > v)
    ensures var c := b[j := v];
      |c| == |a| && multiset(c) == multiset(a) && GapSorted(c, h, i + 1) && c[i + 1..] == a[i + 1..]
  {
    var c := b[j := v];
    assert c[i + 1..] == b[i + 1..];
    forall k | h <= k < i + 1 ensures c[k - h] <= c[k] {
      if k == j {
      } else if k - h == j {
      } else {
        assert c[k - h] == b[k - h] && c[k] == b[k];
      }
    }
  }

  /** One step of the gap pass: insert `a[i]` into the chain
      `i - h, i - 2h, ...` by shifting larger elements up by `h`. Positions
      after `i` are untouched. */
  method SiftDown(a: seq<int>, h: nat, i: nat) returns (b: seq<int>)
    requires 1 <= h <= i < |a| && GapSorted(a, h, i)
    ensures |b| == |a| && multiset(b) == multiset(a)
    ensures GapSorted(b, h, i + 1)
    ensures b[i + 1..] == a[i + 1..]
  {
    var v := a[i];
    var j := i;
    b := a;
    HoleStart(a, h, i);
    while j >= h && b[j - h] > v
      invariant Hole(a, b, h, i, j, v)
      decreases j
    {
      HoleShift(a, b, h, i, j, v);
      b := b[j := b[j - h]];
      j := j - h;
    }
    HolePlace(a, b, h, i, j, v);
    b := b[j := v];
  }

  /** The gap pass (`for (i = h; i < n; i++)` with the inner shift loop):
      afterwards every pair at distance `h` is in order, and the array holds
      the same elements. */
  method GapInsertionPass(a: seq<int>, h: nat) returns (b: seq<int>)
    requires h >= 1
    ensures |b| == |a| && multiset(b) == multiset(a)
    ensures GapSorted(b, h, |b|)
  {
    b := a;
    var i := h;
    while i < |b|
      invariant h <= i && |b| == |a| && multiset(b) == multiset(a)
      invariant GapSorted(b, h, if i < |b| then i else |b|)
    {
      b := SiftDown(b, h, i);
      i := i + 1;
    }
  }

  /** Insertion sort with the bounds test first: the array ends sorted,
      holding the same elements. */
  method Sort(arr: seq<int>) returns (r: seq<int>)
    ensures Sorted(r) && multiset(r) == multiset(arr)
    ensures |arr| < 2 ==> r == arr
  {
    r := GapInsertionPass(arr, 1);
    assert AdjacentSorted(r);
    AdjacentSortedIsSorted(r);
    if |arr| < 2 {
      SortedPermutationUnique(r, arr);
    }
  }

  /** The state of the loop as written: a gap pass at gap 1 whose shifted
      elements are copies of the ones just below them in `a`. */
  predicate AsWrittenHole(a: seq<int>, b: seq<int>, i: nat, j: int, v: int) {
    && Hole(a, b, 1, i, j, v)
    && (j + 1 <= i ==> b[j + 1] == a[j])
    && (forall k :: 0 <= k < j ==> b[k] == a[k])
  }

  lemma AsWrittenShift(a: seq<int>, b: seq<int>, i: nat, j: int, v: int)
    requires AsWrittenHole(a, b, i, j, v) && j >= 1 && b[j - 1] > v
    ensures AsWrittenHole(a, b[j := b[j - 1]], i, j - 1, v)
  {
    HoleShift(a, b, 1, i, j, v);
  }

  /** The loop stops above position 0: the key is at least `a[j - 1]`, so at
      least `a[0]`, and putting it in the gap completes the step. */
  lemma AsWrittenPlace(a: seq<int>, b: seq<int>, i: nat, j: int, v: int)
    requires AsWrittenHole(a, b, i, j, v) && j >= 1 && b[j - 1] <= v
    requires forall k :: 0 <= k < i ==> a[0] <= a[k]
    ensures a[0] <= v
    ensures var c := b[j := v];
      && |c| == |a| && multiset(c) == multiset(a)
      && GapSorted(c, 1, i + 1) && c[i + 1..] == a[i + 1..] && c[0] == a[0]
  {
    assert b[j - 1] == a[j - 1];
    HolePlace(a, b, 1, i, j, v);
    if j > 1 {
      assert b[0] == a[0];
    }
  }

  /** The shift loop as written: it moves elements larger than the key up
      by one and stops at the first one that is not larger, or at position
      0, where the source's test goes on to read `arr[-1]`. */
  method ShiftAsWritten(a: seq<int>, i: nat) returns (b: seq<int>, j: int)
    requires 1 <= i < |a| && GapSorted(a, 1, i)
    ensures AsWrittenHole(a, b, i, j, a[i])
    ensures j >= 1 ==> b[j - 1] <= a[i]
  {
    var key := a[i];
    j := i;
    b := a;
    HoleStart(a, 1, i);
    // The source tests `arr[j - 1] > key` first, so the test that ends the
    // loop at `j == 0` reads `arr[-1]`.
    while j >= 1 && b[j - 1] > key
      invariant AsWrittenHole(a, b, i, j, key)
      decreases j
    {
      AsWrittenShift(a, b, i, j, key);
      b := b[j := b[j - 1]];
      j := j - 1;
    }
  }

  /** One step of the loop as written: `arr[j - 1]` is read before `j >= 1`
      is tested, so reaching `j == 0` throws. The key reaches position 0
      exactly when it is smaller than `a[0]`, the least of the sorted
      prefix. */
  method SiftDownAsWritten(a: seq<int>, i: nat) returns (res: Result<seq<int>>)
    requires 1 <= i < |a| && GapSorted(a, 1, i)
    requires forall k :: 0 <= k < i ==> a[0] <= a[k]
    ensures res.Err? <==> a[i] < a[0]
    ensures res.Err? ==> res.error == IndexOutOfBounds
    ensures res.Ok? ==> && |res.value| == |a| && multiset(res.value) == multiset(a)
                        && GapSorted(res.value, 1, i + 1)
                        && res.value[i + 1..] == a[i + 1..] && res.value[0] == a[0]
  {
    var key := a[i];
    var b, j := ShiftAsWritten(a, i);
    if j == 0 {
      assert key < b[1] == a[0];
      return Err(IndexOutOfBounds);
    }
    AsWrittenPlace(a, b, i, j, key);
    b := b[j := key];
    return Ok(b);
  }

  /** `insertionSort` as written: it throws `ArrayIndexOutOfBoundsException`
      exactly when some element is smaller than the first one, and otherwise
      sorts. */
  method SortAsWritten(arr: seq<int>) returns (r: Result<seq<int>>)
    ensures r.Err? <==> exists k :: 0 < k < |arr| && arr[k] < arr[0]
    ensures r.Err? ==> r.error == IndexOutOfBounds
    ensures r.Ok? ==> Sorted(r.value) && multiset(r.value) == multiset(arr)
    ensures |arr| < 2 ==> r == Ok(arr)
  {
    var b := arr;
    var i := 1;
    while i < |b|
      invariant 1 <= i && |b| == |arr| && multiset(b) == multiset(arr)
      invariant GapSorted(b, 1, if i < |b| then i else |b|)
      invariant i <= |b| ==> b[i..] == arr[i..]
      invariant |b| > 0 ==> b[0] == arr[0]
      invariant forall k :: 0 < k < i && k < |arr| ==> arr[0] <= arr[k]
    {
      assert AdjacentSorted(b[..i]);
      AdjacentSortedIsSorted(b[..i]);
      assert forall k :: 0 <= k < i ==> b[0] <= b[k] by {
        forall k | 0 <= k < i ensures b[0] <= b[k] {
          assert b[..i][0] == b[0] && b[..i][k] == b[k];
        }
      }
      assert b[i] == arr[i] && b[i + 1..] == arr[i + 1..];
      var res := SiftDownAsWritten(b, i);
      if res.Err? {
        return Err(res.error);
      }
      b := res.value;
      i := i + 1;
    }
    assert AdjacentSorted(b);
    AdjacentSortedIsSorted(b);
    if |arr| < 2 {
      SortedPermutationUnique(b, arr);
    }
    return Ok(b);
  }
}

=== FILE: is_array_sorted.dfy ===
/** `recursion.IsArraySorted`: whether the first `index` values of an array
    are in nondecreasing order, checked from the right by recursion. */
module IsArraySorted {
  import opened Common

  /** `isArraySorted(array, index)`. An array of length 1 and `index == 1`
      are sorted outright. Otherwise the last two values of the prefix are
      compared before recursing on a prefix one shorter; when `index` is
      not in `[2, length]` that read falls outside the array and throws. */
  function IsArraySorted(a: seq<int>, index: int): (r: Result<bool>)
    ensures r.Err? <==> |a| != 1 && index != 1 && !(2 <= index <= |a|)
    ensures r.Err? ==> r.error == IndexOutOfBounds
    ensures |a| == 1 ==> r == Ok(true)
    ensures r.Ok? && 1 <= index <= |a| ==> (r.value <==> Sorted(a[..index]))
    decreases index
  {
    if |a| == 1 || index == 1 then Ok(true)
    else if index - 1 < 0 || index - 1 >= |a| then Err(IndexOutOfBounds)
    else if a[index - 1] < a[index - 2] then Ok(false)
    else
      ExtendSorted(a, index);
      IsArraySorted(a, index - 1)
  }

  /** A prefix whose last step is in order is sorted exactly when the
      prefix one shorter is. */
  lemma ExtendSorted(a: seq<int>, index: int)
    requires 2 <= index <= |a| && a[index - 2] <= a[index - 1]
    ensures Sorted(a[..index]) <==> Sorted(a[..index - 1])
  {
    var p, q := a[..index], a[..index - 1];
    if Sorted(q) {
      forall i, j | 0 <= i < j < |p| ensures p[i] <= p[j] {
        if j < index - 1 {
          assert p[i] == q[i] && p[j] == q[j];
        } else if i < index - 2 {
          assert p[i] == q[i] && p[index - 2] == q[index - 2];
        }
      }
    }
    if Sorted(p) {
      forall i, j | 0 <= i < j < |q| ensures q[i] <= q[j] {
        assert p[i] == q[i] && p[j] == q[j];
      }
    }
  }

  /** Only the first `index` values are read: arrays that agree on them
      give the same answer. */
  lemma OnlyPrefixRead(a: seq<int>, b: seq<int>, index: int)
    requires 1 <= index <= |a| && index <= |b| && a[..index] == b[..index]
    ensures IsArraySorted(a, index) == IsArraySorted(b, index)
  {
  }

  /** Equal neighbours count as in order. */
  lemma ConstantIsSorted(a: seq<int>)
    requires |a| >= 1 && forall i :: 0 <= i < |a| ==> a[i] == a[0]
    ensures IsArraySorted(a, |a|) == Ok(true)
  {
  }
}

=== FILE: linked_list_stack.dfy ===
/** `stack.LinkedListStack`: a stack on a chain of nodes, the top first,
    with a stored length. Each method takes the stack and returns the stack
    it leaves behind, with its Java return value alongside. */
module LinkedListStack {
  import opened Common
  import opened LinkedNode

  datatype Stack = Stack(length: int, top: Node) {
    /** The stored length is the number of nodes below `top`. */
    predicate Valid() {
      length == |Elems(top)|
    }
  }

  /** The constructor: empty. */
  function New(): (s: Stack)
    ensures s.Valid() && Elems(s.top) == []
  {
    Stack(0, Nil)
  }

  /** `push(value)`: a new top node over the old chain. */
  function Push(s: Stack, value: int): (r: Stack)
    requires s.Valid()
    ensures r.Valid() && Elems(r.top) == [value] + Elems(s.top)
  {
    Stack(s.length + 1, Cons(value, s.top))
  }

  /** `pop()`: an empty stack throws; otherwise the top value, and the
      chain below it. */
  function Pop(s: Stack): (r: Result<(int, Stack)>)
    requires s.Valid()
    ensures r.Err? <==> s.length == 0
    ensures r.Err? ==> r.error == IllegalState
    ensures r.Ok? ==> && r.value.1.Valid()
                      && [r.value.0] + Elems(r.value.1.top) == Elems(s.top)
  {
    if IsEmpty(s) then Err(IllegalState)
    else Ok((s.top.data, Stack(s.length - 1, s.top.next)))
  }

  /** `isEmpty()`: exactly when no value is stored. */
  function IsEmpty(s: Stack): (b: bool)
    requires s.Valid()
    ensures b <==> Elems(s.top) == []
  {
    s.length == 0
  }

  /** `size()`: the number of values stored. */
  function Size(s: Stack): (n: int)
    requires s.Valid()
    ensures n == |Elems(s.top)|
  {
    s.length
  }

  /** `peek()`: an empty stack throws; otherwise the top value, and the
      stack is left alone. */
  function Peek(s: Stack): (r: Result<int>)
    requires s.Valid()
    ensures r.Err? <==> s.length == 0
    ensures r.Err? ==> r.error == IllegalState
    ensures r.Ok? ==> r.value == Elems(s.top)[0]
  {
    if IsEmpty(s) then Err(IllegalState) else Ok(s.top.data)
  }

  /** Last in, first out: `pop` right after `push(v)` returns `v` and gives
      back the stack as it was, and `peek` sees `v`. */
  lemma PushThenPop(s: Stack, v: int)
    requires s.Valid()
    ensures Pop(Push(s, v)) == Ok((v, s))
    ensures Peek(Push(s, v)) == Ok(v)
  {
  }

  /** Pushing back what `pop` returned restores the stack. */
  lemma PopThenPush(s: Stack)
    requires s.Valid() && s.length > 0
    ensures Pop(s).Ok? && Push(Pop(s).value.1, Pop(s).value.0) == s
  {
  }
}

=== FILE: linked_node.dfy ===
/** `linkedlist.simplylinked.LinkedListNode`, the node the list, the linked
    stack and the linked queue are built from: a value and the next node,
    or null at the end. A chain of nodes is a value here; what it holds is
    the sequence `Elems` reads off it. */
module LinkedNode {

  datatype Node = Nil | Cons(data: int, next: Node)

  /** The values along the chain, first node first. */
  function Elems(n: Node): seq<int> {
    match n
    case Nil => []
    case Cons(d, rest) => [d] + Elems(rest)
  }

  /** The chain with a node for `d` linked after its last node. */
  function AppendLast(n: Node, d: int): (r: Node)
    ensures Elems(r) == Elems(n) + [d]
  {
    match n
    case Nil => Cons(d, Nil)
    case Cons(x, rest) => Cons(x, AppendLast(rest, d))
  }

  /** The chain holding `s`, first value first. */
  function FromSeq(s: seq<int>): (n: Node)
    ensures Elems(n) == s
  {
    if |s| == 0 then Nil else Cons(s[0], FromSeq(s[1..]))
  }

  /** A chain is determined by the values it holds: reading it off and
      building it back gives the same chain. */
  lemma {:induction false} FromElems(n: Node)
    ensures FromSeq(Elems(n)) == n
  {
    match n
    case Nil =>
    case Cons(d, rest) =>
      assert Elems(n)[1..] == Elems(rest);
      FromElems(rest);
  }

  /** Two chains holding the same values are the same chain. */
  lemma ElemsInjective(a: Node, b: Node)
    requires Elems(a) == Elems(b)
    ensures a == b
  {
    FromElems(a);
    FromElems(b);
  }
}

=== FILE: merge_sort.dfy ===
/** `sorting.MergeSort`: top-down merge sort.

    The Java methods overwrite an array they are given; here each takes
    that array's contents and returns the contents it leaves behind. */
module MergeSort {
  import opened Common

  /** The reference merge: repeatedly take the smaller front element, the
      left one on a tie. */
  function MergeSpec(left: seq<int>, right: seq<int>): (r: seq<int>)
    decreases |left| + |right|
  {
    if |left| == 0 then right
    else if |right| == 0 then left
    else if left[0] <= right[0] then [left[0]] + MergeSpec(left[1..], right)
    else [right[0]] + MergeSpec(left, right[1..])
  }

  /** Merging keeps every element. */
  lemma {:induction false} MergeSpecPermutation(left: seq<int>, right: seq<int>)
    ensures multiset(MergeSpec(left, right)) == multiset(left) + multiset(right)
    ensures |MergeSpec(left, right)| == |left| + |right|
    decreases |left| + |right|
  {
    if |left| == 0 || |right| == 0 {
    } else if left[0] <= right[0] {
      assert left == [left[0]] + left[1..];
      MergeSpecPermutation(left[1..], right);
    } else {
      assert right == [right[0]] + right[1..];
      MergeSpecPermutation(left, right[1..]);
    }
  }

  /** A bound below both inputs is a bound below their merge. */
  lemma {:induction false} MergeSpecLowerBound(left: seq<int>, right: seq<int>, b: int)
    requires forall k :: 0 <= k < |left| ==> b <= left[k]
    requires forall k :: 0 <= k < |right| ==> b <= right[k]
    ensures forall k :: 0 <= k < |MergeSpec(left, right)| ==> b <= MergeSpec(left, right)[k]
    decreases |left| + |right|
  {
    if |left| == 0 || |right| == 0 {
    } else if left[0] <= right[0] {
      MergeSpecLowerBound(left[1..], right, b);
    } else {
      MergeSpecLowerBound(left, right[1..], b);
    }
  }

  /** Merging two sorted runs gives a sorted run. */
  lemma {:induction false} MergeSpecSorted(left: seq<int>, right: seq<int>)
    requires Sorted(left) && Sorted(right)
    ensures Sorted(MergeSpec(left, right))
    decreases |left| + |right|
  {
    var m := MergeSpec(left, right);
    if |left| == 0 || |right| == 0 {
    } else {
      var head: int, rest: seq<int>;
      if left[0] <= right[0] {
        MergeSpecSorted(left[1..], right);
        MergeSpecLowerBound(left[1..], right, left[0]);
        head, rest := left[0], MergeSpec(left[1..], right);
      } else {
        MergeSpecSorted(left, right[1..]);
        MergeSpecLowerBound(left, right[1..], right[0]);
        head, rest := right[0], MergeSpec(left, right[1..]);
      }
      assert m == [head] + rest;
      forall i, j | 0 <= i < j < |m| ensures m[i] <= m[j] {
        assert m[j] == rest[j - 1];
        if i > 0 {
          assert m[i] == rest[i - 1];
        }
      }
    }
  }

  /** One step of the merge loop, on the unconsumed parts of both runs. */
  lemma MergeStep(left: seq<int>, right: seq<int>, i: nat, j: nat)
    requires i < |left| && j < |right|
    ensures left[i] <= right[j] ==>
      MergeSpec(left[i..], right[j..]) == [left[i]] + MergeSpec(left[i + 1..], right[j..])
    ensures right[j] < left[i] ==>
      MergeSpec(left[i..], right[j..]) == [right[j]] + MergeSpec(left[i..], right[j + 1..])
  {
    assert left[i..][1..] == left[i + 1..];
    assert right[j..][1..] == right[j + 1..];
  }

  /** What is left of one run once the other is used up. */
  lemma RestStep(s: seq<int>, i: nat)
    requires i < |s|
    ensures MergeSpec(s[i..], []) == s[i..] == [s[i]] + s[i + 1..]
    ensures MergeSpec([], s[i..]) == s[i..]
  {
  }

  /** The state the merge loops keep: the first `i + j` slots of `out` hold
      the merge of what has been consumed, `left[..i]` and `right[..j]`, and
      every later slot still holds what `arr` had there. */
  ghost predicate Written(out: seq<int>, arr: seq<int>, left: seq<int>, right: seq<int>, i: nat, j: nat) {
    && |out| == |arr| && i <= |left| && j <= |right| && i + j <= |arr|
    && out[..i + j] + MergeSpec(left[i..], right[j..]) == MergeSpec(left, right)
    && out[i + j..] == arr[i + j..]
  }

  /** Writing the next left element, when the merge takes it. */
  lemma WriteLeft(out: seq<int>, arr: seq<int>, left: seq<int>, right: seq<int>, i: nat, j: nat)
    requires Written(out, arr, left, right, i, j) && i < |left| && i + j < |out|
    requires j == |right| || left[i] <= right[j]
    ensures Written(out[i + j := left[i]], arr, left, right, i + 1, j)
  {
    var k, out' := i + j, out[i + j := left[i]];
    if j < |right| {
      MergeStep(left, right, i, j);
    } else {
      RestStep(left, i);
      assert right[j..] == [] && MergeSpec(left[i + 1..], right[j..]) == left[i + 1..];
    }
    assert out'[..k + 1] == out[..k] + [left[i]];
    ConcatAssoc(out[..k], [left[i]], MergeSpec(left[i + 1..], right[j..]));
    assert out[k + 1..] == out[k..][1..];
  }

  /** Writing the next right element, when the merge takes it. */
  lemma WriteRight(out: seq<int>, arr: seq<int>, left: seq<int>, right: seq<int>, i: nat, j: nat)
    requires Written(out, arr, left, right, i, j) && j < |right| && i + j < |out|
    requires i == |left| || right[j] < left[i]
    ensures Written(out[i + j := right[j]], arr, left, right, i, j + 1)
  {
    var k, out' := i + j, out[i + j := right[j]];
    if i < |left| {
      MergeStep(left, right, i, j);
    } else {
      RestStep(right, j);
      assert left[i..] == [] && MergeSpec(left[i..], right[j + 1..]) == right[j + 1..];
    }
    assert out'[..k + 1] == out[..k] + [right[j]];
    ConcatAssoc(out[..k], [right[j]], MergeSpec(left[i..], right[j + 1..]));
    assert out[k + 1..] == out[k..][1..];
  }

  /** Once both runs are consumed, the front of `out` is the whole merge. */
  lemma WrittenAll(out: seq<int>, arr: seq<int>, left: seq<int>, right: seq<int>)
    requires Written(out, arr, left, right, |left|, |right|)
    ensures out[..|left| + |right|] == MergeSpec(left, right)
    ensures out[|left| + |right|..] == arr[|left| + |right|..]
  {
    assert left[|left|..] == [] && right[|right|..] == [];
  }

  /** The first loop of `merge`: while both runs have elements left, write
      the smaller front element, the left one on a tie. Writing past the end
      of `arr` throws. */
  method MergeFronts(arr: seq<int>, left: seq<int>, right: seq<int>) returns (r: Result<(seq<int>, nat, nat)>)
    ensures r.Err? ==> r.error == IndexOutOfBounds && |arr| < |left| + |right|
    ensures r.Ok? ==> && Written(r.value.0, arr, left, right, r.value.1, r.value.2)
                      && (r.value.1 == |left| || r.value.2 == |right|)
  {
    var out := arr;
    var i, j, k := 0, 0, 0;
    assert Written(out, arr, left, right, i, j);
    while i < |left| && j < |right|
      invariant k == i + j && Written(out, arr, left, right, i, j)
      decreases |left| - i + |right| - j
    {
      if k >= |out| {
        return Err(IndexOutOfBounds);
      }
      if left[i] <= right[j] {
        WriteLeft(out, arr, left, right, i, j);
        out := out[k := left[i]];
        i := i + 1;
      } else {
        WriteRight(out, arr, left, right, i, j);
        out := out[k := right[j]];
        j := j + 1;
      }
      k := k + 1;
    }
    return Ok((out, i, j));
  }

  /** The second and third loops of `merge`: copy what is left of the left
      run, then of the right run; at most one of them is non-empty. */
  method CopyRest(arr: seq<int>, left: seq<int>, right: seq<int>, out0: seq<int>, i0: nat, j0: nat) returns (r: Result<seq<int>>)
    requires Written(out0, arr, left, right, i0, j0) && (i0 == |left| || j0 == |right|)
    ensures r.Err? ==> r.error == IndexOutOfBounds && |arr| < |left| + |right|
    ensures r.Ok? ==> Written(r.value, arr, left, right, |left|, |right|)
  {
    var out, i, j, k := out0, i0, j0, i0 + j0;
    while i < |left|
      invariant j == |right| || i == |left|
      invariant k == i + j && Written(out, arr, left, right, i, j)
    {
      if k >= |out| {
        return Err(IndexOutOfBounds);
      }
      WriteLeft(out, arr, left, right, i, j);
      out := out[k := left[i]];
      i := i + 1;
      k := k + 1;
    }
    while j < |right|
      invariant i == |left|
      invariant k == i + j && Written(out, arr, left, right, i, j)
    {
      if k >= |out| {
        return Err(IndexOutOfBounds);
      }
      WriteRight(out, arr, left, right, i, j);
      out := out[k := right[j]];
      j := j + 1;
      k := k + 1;
    }
    return Ok(out);
  }

  /** `merge(arr, left, right)`: the three loops of the source write the
      reference merge into the front of `arr`, one element per step. A
      destination shorter than both runs together throws once the write
      position reaches its end; a longer one keeps its tail. */
  method Merge(arr: seq<int>, left: seq<int>, right: seq<int>) returns (r: Result<seq<int>>)
    ensures r.Err? <==> |arr| < |left| + |right|
    ensures r.Err? ==> r.error == IndexOutOfBounds
    ensures r.Ok? ==> |r.value| == |arr|
    ensures r.Ok? ==> r.value[..|left| + |right|] == MergeSpec(left, right)
    ensures r.Ok? ==> r.value[|left| + |right|..] == arr[|left| + |right|..]
    ensures r.Ok? ==> multiset(r.value[..|left| + |right|]) == multiset(left) + multiset(right)
    ensures r.Ok? && Sorted(left) && Sorted(right) ==> Sorted(r.value[..|left| + |right|])
  {
    var fronts := MergeFronts(arr, left, right);
    if fronts.Err? {
      return Err(fronts.error);
    }
    var out := CopyRest(arr, left, right, fronts.value.0, fronts.value.1, fronts.value.2);
    if out.Err? {
      return Err(out.error);
    }
    WrittenAll(out.value, arr, left, right);
    MergeSpecPermutation(left, right);
    if Sorted(left) && Sorted(right) {
      MergeSpecSorted(left, right);
    }
    return out;
  }

  /** `sort`: fewer than two elements are left alone; otherwise the halves
      `[0, n/2)` and `[n/2, n)` are sorted and merged. The result is sorted
      and holds the same elements. */
  method Sort(arr: seq<int>) returns (r: seq<int>)
    ensures Sorted(r) && multiset(r) == multiset(arr)
    ensures |arr| < 2 ==> r == arr
    decreases |arr|
  {
    if |arr| < 2 {
      return arr;
    }
    var mid := |arr| / 2;
    assert arr == arr[..mid] + arr[mid..];
    var left := Sort(arr[..mid]);
    var right := Sort(arr[mid..]);
    assert multiset(left) + multiset(right) == multiset(arr);
    assert |left| + |right| == |arr| by {
      assert |multiset(left)| == |left| && |multiset(right)| == |right|;
    }
    var merged := Merge(arr, left, right);
    r := merged.value;
    assert r == r[..|left| + |right|];
  }
}

=== FILE: ordered_linear_search.dfy ===
/** `searching.OrderedLinearSearch`: a linear scan that gives up at the first
    element greater than the target. */
module OrderedLinearSearch {
  import opened Common
  import UnorderedLinearSearch

  /** Every element before `p` is below the target, and `p` is either the
      end or an element above it: the scan stops at `p` without a hit. */
  predicate GivesUpAt(input: seq<int>, target: int, p: int) {
    && 0 <= p <= |input| && (forall k :: 0 <= k < p ==> input[k] < target)
    && (p == |input| || input[p] > target)
  }

  /** `search`: return the first index holding the target, unless an element
      greater than the target comes first, or the array ends, in which case
      -1. On a sorted array this is the first occurrence, and -1 exactly when
      the target does not occur. */
  method Search(input: seq<int>, target: int) returns (r: int)
    ensures -1 <= r < |input|
    ensures r >= 0 ==> input[r] == target && forall k :: 0 <= k < r ==> input[k] < target
    ensures r == -1 ==> exists p :: GivesUpAt(input, target, p)
    ensures Sorted(input) ==> r == UnorderedLinearSearch.FirstIndex(input, target)
  {
    var i := 0;
    while i < |input|
      invariant 0 <= i <= |input|
      invariant forall k :: 0 <= k < i ==> input[k] < target
    {
      if input[i] == target {
        assert target !in input[..i];
        UnorderedLinearSearch.FirstIndexIsFirstHit(input, target, i);
        return i;
      }
      if input[i] > target {
        if Sorted(input) {
          assert target !in input by {
            forall k | 0 <= k < |input| ensures input[k] != target {
              if k > i {
                assert input[i] <= input[k];
              }
            }
          }
        }
        assert GivesUpAt(input, target, i);
        return -1;
      }
      i := i + 1;
    }
    assert GivesUpAt(input, target, |input|);
    return -1;
  }
}

=== FILE: queue.dfy ===
/** `queue.Queue`: a bounded queue in a circular array. `front` indexes the
    oldest value, `rear` the newest (-1 before the first enqueue), and
    `size` counts the values. Each method takes the queue and returns the
    queue it leaves behind, with its Java return value alongside. */
module Queue {
  import opened Common

  const DefaultCapacity: int := 16

  /** The slot `k` places after `f` in an array of `n` slots, wrapping
      around once. */
  function Slot(f: int, k: int, n: int): int {
    if f + k < n then f + k else f + k - n
  }

  /** Java's `x % n` for `0 <= x <= n`: wrap-around of an index that ran one
      past the end. */
  lemma ModOnce(x: int, n: int)
    requires 0 < n && 0 <= x <= n
    ensures x % n == Slot(x, 0, n)
  {
    if x == n {
      assert x % n == 0;
    }
  }

  datatype Queue = Queue(arr: seq<int>, size: int, front: int, rear: int) {
    function Capacity(): int {
      |arr|
    }

    /** The fields agree: the values occupy `size` slots from `front` on,
        wrapping around, and `rear` is the slot just before `front + size`
        (-1 while nothing has been enqueued into an empty array). */
    predicate Valid() {
      && 0 <= size <= |arr|
      && (|arr| == 0 ==> front == 0 && rear == -1)
      && (|arr| > 0 ==> 0 <= front < |arr| && -1 <= rear < |arr| && Slot(rear, 1, |arr|) == Slot(front, size, |arr|))
    }

    /** The stored values, oldest first. */
    function Contents(): (c: seq<int>)
      requires Valid()
      ensures |c| == size
    {
      seq(size, i requires 0 <= i < size => arr[Slot(front, i, |arr|)])
    }
  }

  /** `Queue(capacity)`: a negative capacity makes the allocation throw;
      otherwise an empty queue over a zeroed array. */
  function New(capacity: int): (r: Result<Queue>)
    ensures r.Err? <==> capacity < 0
    ensures r.Err? ==> r.error == NegativeArraySize
    ensures r.Ok? ==> r.value.Valid() && r.value.Contents() == [] && r.value.Capacity() == capacity
  {
    if capacity < 0 then Err(NegativeArraySize)
    else Ok(Queue(seq(capacity, _ => 0), 0, 0, -1))
  }

  /** `Queue()`: the default capacity of 16. */
  function NewDefault(): (q: Queue)
    ensures q.Valid() && q.Contents() == [] && q.Capacity() == DefaultCapacity
  {
    New(DefaultCapacity).value
  }

  /** `enqueue(value)`: a full queue throws and is left alone; otherwise
      the value goes in the slot after `rear`, wrapping around. */
  function Enqueue(q: Queue, value: int): (r: Result<Queue>)
    requires q.Valid()
    ensures r.Err? <==> |q.Contents()| == q.Capacity()
    ensures r.Err? ==> r.error == IllegalState
    ensures r.Ok? ==> && r.value.Valid() && r.value.Capacity() == q.Capacity()
                      && r.value.Contents() == q.Contents() + [value]
  {
    if q.size == |q.arr| then Err(IllegalState)
    else
      var rear := (q.rear + 1) % |q.arr|;
      var r := q.(arr := q.arr[rear := value], rear := rear, size := q.size + 1);
      EnqueueContents(q, r, value);
      Ok(r)
  }

  lemma EnqueueContents(q: Queue, r: Queue, value: int)
    requires q.Valid() && q.size < |q.arr|
    requires r == q.(arr := q.arr[(q.rear + 1) % |q.arr| := value], rear := (q.rear + 1) % |q.arr|, size := q.size + 1)
    ensures r.Valid() && r.Contents() == q.Contents() + [value]
  {
    var n := |q.arr|;
    ModOnce(q.rear + 1, n);
    var slot := Slot(q.front, q.size, n);
    forall i | 0 <= i < q.size ensures r.Contents()[i] == q.Contents()[i] {
      assert Slot(q.front, i, n) != slot;
    }
  }

  /** `dequeue()`: an empty queue throws. Otherwise the oldest value is
      returned, its slot overwritten with `Integer.MIN_VALUE`, and `front`
      moves on, wrapping around. */
  function Dequeue(q: Queue): (r: Result<(int, Queue)>)
    requires q.Valid()
    ensures r.Err? <==> q.Contents() == []
    ensures r.Err? ==> r.error == IllegalState
    ensures r.Ok? ==> && r.value.1.Valid() && r.value.1.Capacity() == q.Capacity()
                      && q.Contents() == [r.value.0] + r.value.1.Contents()
                      && r.value.1.arr == q.arr[q.front := IntMin]
  {
    if q.size == 0 then Err(IllegalState)
    else
      var value := q.arr[q.front];
      var r := q.(arr := q.arr[q.front := IntMin], front := (q.front + 1) % |q.arr|, size := q.size - 1);
      DequeueContents(q, r);
      Ok((value, r))
  }

  lemma DequeueContents(q: Queue, r: Queue)
    requires q.Valid() && q.size > 0
    requires r == q.(arr := q.arr[q.front := IntMin], front := (q.front + 1) % |q.arr|, size := q.size - 1)
    ensures r.Valid() && q.Contents() == [q.arr[q.front]] + r.Contents()
  {
    var n := |q.arr|;
    ModOnce(q.front + 1, n);
    forall i | 0 <= i < r.size ensures r.Contents()[i] == q.Contents()[i + 1] {
      assert Slot(r.front, i, n) == Slot(q.front, i + 1, n) != q.front;
    }
  }

  /** `peek()`: an empty queue throws; otherwise the oldest value, and the
      queue is left alone. */
  function Peek(q: Queue): (r: Result<int>)
    requires q.Valid()
    ensures r.Err? <==> q.Contents() == []
    ensures r.Err? ==> r.error == IllegalState
    ensures r.Ok? ==> r.value == q.Contents()[0]
  {
    if q.size == 0 then Err(IllegalState) else Ok(q.arr[q.front])
  }

  /** `isEmpty()`: exactly when no value is stored. */
  function IsEmpty(q: Queue): (b: bool)
    requires q.Valid()
    ensures b <==> q.Contents() == []
  {
    q.size == 0
  }

  /** `isFull()`: exactly when every slot holds a value. */
  function IsFull(q: Queue): (b: bool)
    requires q.Valid()
    ensures b <==> |q.Contents()| == q.Capacity()
  {
    q.size == |q.arr|
  }

  /** `size()`: the number of values stored. */
  function Size(q: Queue): (n: int)
    requires q.Valid()
    ensures n == |q.Contents()|
  {
    q.size
  }

  /** First in, first out: enqueuing onto a queue and then dequeuing gives
      the oldest value (the new one if the queue was empty) and leaves the
      rest followed by the new value, across wrap-around. */
  lemma EnqueueThenDequeue(q: Queue, v: int)
    requires q.Valid() && q.size < q.Capacity()
    ensures Enqueue(q, v).Ok? && Dequeue(Enqueue(q, v).value).Ok?
    ensures var (x, r) := Dequeue(Enqueue(q, v).value).value;
      && x == (q.Contents() + [v])[0]
      && r.Contents() == (q.Contents() + [v])[1..]
  {
    var (x, r) := Dequeue(Enqueue(q, v).value).value;
    assert [x] + r.Contents() == q.Contents() + [v];
  }
}

=== FILE: queue_linked_list.dfy ===
/** `queue.QueueLinkedList`: an unbounded queue on a chain of nodes, with
    `front` at the oldest value, `rear` at the newest, and a stored length.

    The chain from `front` is a value here, and `rear` is the last node of
    that chain; linking a new node after `rear` therefore extends the chain
    from `front` as well. Each method takes the queue and returns the queue
    it leaves behind, with its Java return value alongside. */
module QueueLinkedList {
  import opened Common
  import opened LinkedNode

  /** The last node of a non-empty chain. */
  function LastNode(n: Node): (r: Node)
    requires n.Cons?
    ensures r == Cons(Elems(n)[|Elems(n)| - 1], Nil)
  {
    if n.next.Nil? then n else LastNode(n.next)
  }

  datatype Queue = Queue(length: int, front: Node, rear: Node) {
    /** The fields agree: `front` is null exactly when `rear` is, exactly
        when the length is 0; the length counts the chain, and `rear` is its
        last node. */
    predicate Valid() {
      && length == |Elems(front)|
      && (front.Nil? <==> rear.Nil?)
      && (front.Cons? ==> rear == LastNode(front))
    }

    /** The stored values, oldest first. */
    function Contents(): seq<int> {
      Elems(front)
    }
  }

  /** The constructor: empty. */
  function New(): (q: Queue)
    ensures q.Valid() && q.Contents() == []
  {
    Queue(0, Nil, Nil)
  }

  /** `enqueue(value)`: into an empty queue, one node that is both ends;
      otherwise a node linked after `rear`, which becomes the new rear. */
  function Enqueue(q: Queue, value: int): (r: Queue)
    requires q.Valid()
    ensures r.Valid() && r.Contents() == q.Contents() + [value] && r.rear == Cons(value, Nil)
  {
    var newNode := Cons(value, Nil);
    if q.rear.Nil? then Queue(q.length + 1, newNode, newNode)
    else Queue(q.length + 1, AppendLast(q.front, value), newNode)
  }

  /** `dequeue()`: an empty queue throws. Otherwise the oldest value is
      returned and `front` moves on; when that empties the queue, `rear` is
      reset to null so that a later `enqueue` starts afresh. */
  function Dequeue(q: Queue): (r: Result<(int, Queue)>)
    requires q.Valid()
    ensures r.Err? <==> q.Contents() == []
    ensures r.Err? ==> r.error == IllegalState
    ensures r.Ok? ==> && r.value.1.Valid()
                      && q.Contents() == [r.value.0] + r.value.1.Contents()
                      && (r.value.1.Contents() == [] ==> r.value.1.rear.Nil?)
  {
    if q.front.Nil? then Err(IllegalState)
    else
      var front := q.front.next;
      var rear := if front.Nil? then Nil else q.rear;
      Ok((q.front.data, Queue(q.length - 1, front, rear)))
  }

  /** `first()`: an empty queue throws; otherwise the oldest value, and the
      queue is left alone. */
  function First(q: Queue): (r: Result<int>)
    requires q.Valid()
    ensures r.Err? <==> q.Contents() == []
    ensures r.Err? ==> r.error == IllegalState
    ensures r.Ok? ==> r.value == q.Contents()[0]
  {
    if q.front.Nil? then Err(IllegalState) else Ok(q.front.data)
  }

  /** `peek()`: delegates to `first()`, so it throws on an empty queue and
      otherwise returns the oldest value. */
  function Peek(q: Queue): (r: Result<int>)
    requires q.Valid()
    ensures r.Err? <==> q.Contents() == []
    ensures r.Err? ==> r.error == IllegalState
    ensures r.Ok? ==> r.value == q.Contents()[0]
  {
    First(q)
  }

  /** `isEmpty()`: exactly when no value is stored. */
  function IsEmpty(q: Queue): (b: bool)
    requires q.Valid()
    ensures b <==> q.Contents() == []
  {
    q.length == 0
  }

  /** `size()`: the number of values stored. */
  function Size(q: Queue): (n: int)
    requires q.Valid()
    ensures n == |q.Contents()|
  {
    q.length
  }

  /** First in, first out: after enqueuing `v`, dequeuing returns the
      oldest value (`v` itself on an empty queue) and leaves the others
      followed by `v`. */
  lemma EnqueueThenDequeue(q: Queue, v: int)
    requires q.Valid()
    ensures Dequeue(Enqueue(q, v)).Ok?
    ensures var (x, r) := Dequeue(Enqueue(q, v)).value;
      x == (q.Contents() + [v])[0] && r.Contents() == (q.Contents() + [v])[1..]
  {
    var (x, r) := Dequeue(Enqueue(q, v)).value;
    assert [x] + r.Contents() == q.Contents() + [v];
  }

  /** Emptying a queue and enqueuing again gives the same queue as
      enqueuing into a new one: no stale `rear` survives. */
  lemma DrainThenEnqueue(q: Queue, v: int)
    requires q.Valid() && |q.Contents()| == 1
    ensures Dequeue(q).Ok? && Enqueue(Dequeue(q).value.1, v) == Enqueue(New(), v)
  {
  }
}

=== FILE: search_tree.dfy ===
/** The unbalanced binary search tree of `tree.bst.BinarySearchTreeNode`.

    The Java methods take the subtree root as an argument, rewire children
    in place and hand back the root of the updated subtree; here they take
    a tree value and return the updated tree value. A Java method that
    returns a node (`find`, `findMin`, `findMax`) returns the subtree rooted
    at that node, `Nil` standing for `null`. */
module SearchTree {
  import opened Common
  import opened BinaryTree

  /** Strict search order: smaller values left, larger values right. */
  predicate Bst(t: Tree) {
    match t
    case Nil => true
    case Node(l, v, r) =>
      && Bst(l) && Bst(r)
      && (forall a :: a in Keys(l) ==> a < v)
      && (forall b :: b in Keys(r) ==> v < b)
  }

  /** `s` occurs in `t` as the subtree rooted at some node. */
  predicate IsSubtree(s: Tree, t: Tree) {
    s == t || (t.Node? && (IsSubtree(s, t.left) || IsSubtree(s, t.right)))
  }

  lemma {:induction false} SubtreeKeys(s: Tree, t: Tree)
    requires IsSubtree(s, t)
    ensures Keys(s) <= Keys(t)
  {
    if s != t {
      if IsSubtree(s, t.left) {
        SubtreeKeys(s, t.left);
      } else {
        SubtreeKeys(s, t.right);
      }
    }
  }

  // ----------------------------------------------------------------- lookup

  /** `find`: the node holding `x`, or `Nil`. The search follows the order,
      so on a search tree it finds `x` exactly when `x` is a key. */
  function Find(t: Tree, x: int): (r: Tree)
    ensures r.Node? ==> r.val == x && IsSubtree(r, t)
    ensures Bst(t) ==> (r.Node? <==> x in Keys(t))
  {
    if t.Nil? || t.val == x then t
    else if x < t.val then Find(t.left, x)
    else Find(t.right, x)
  }

  /** `findNonRecur`: the loop version of `find`, which returns the same
      node. */
  method FindNonRecur(t: Tree, x: int) returns (r: Tree)
    ensures r == Find(t, x)
    ensures Bst(t) ==> (r.Node? <==> x in Keys(t))
  {
    var cur := t;
    while cur.Node?
      invariant Find(cur, x) == Find(t, x)
      decreases cur
    {
      if x < cur.val {
        cur := cur.left;
      } else if x > cur.val {
        cur := cur.right;
      } else {
        return cur;
      }
    }
    return Nil;
  }

  /** The node reached by following left links from the root. */
  function Leftmost(t: Tree): (r: Tree)
    requires t.Node?
    ensures r.Node? && r.left.Nil? && IsSubtree(r, t)
    ensures Bst(t) ==> forall k :: k in Keys(t) ==> r.val <= k
  {
    if t.left.Nil? then t else Leftmost(t.left)
  }

  /** The node reached by following right links from the root. */
  function Rightmost(t: Tree): (r: Tree)
    requires t.Node?
    ensures r.Node? && r.right.Nil? && IsSubtree(r, t)
    ensures Bst(t) ==> forall k :: k in Keys(t) ==> k <= r.val
  {
    if t.right.Nil? then t else Rightmost(t.right)
  }

  /** `findMin`: `Nil` for an empty tree, otherwise the leftmost node, whose
      value is the least key of a search tree. */
  method FindMin(t: Tree) returns (r: Tree)
    ensures t.Nil? ==> r.Nil?
    ensures t.Node? ==> r == Leftmost(t)
    ensures t.Node? && Bst(t) ==> r.val in Keys(t) && forall k :: k in Keys(t) ==> r.val <= k
  {
    if t.Nil? {
      return Nil;
    }
    r := t;
    while r.left.Node?
      invariant r.Node? && Leftmost(r) == Leftmost(t)
      decreases r
    {
      r := r.left;
    }
    SubtreeKeys(r, t);
  }

  /** `findMax`: the mirror image of `findMin`. */
  method FindMax(t: Tree) returns (r: Tree)
    ensures t.Nil? ==> r.Nil?
    ensures t.Node? ==> r == Rightmost(t)
    ensures t.Node? && Bst(t) ==> r.val in Keys(t) && forall k :: k in Keys(t) ==> k <= r.val
  {
    if t.Nil? {
      return Nil;
    }
    r := t;
    while r.right.Node?
      invariant r.Node? && Rightmost(r) == Rightmost(t)
      decreases r
    {
      r := r.right;
    }
    SubtreeKeys(r, t);
  }

  // ----------------------------------------------------------------- update

  /** `insert`: descend by comparison and attach a new leaf where the search
      falls off the tree; an equal value stops the descent and changes
      nothing. The root of a non-empty tree stays the root. */
  function Insert(t: Tree, x: int): (r: Tree)
    ensures Keys(r) == Keys(t) + {x}
    ensures Bst(t) ==> Bst(r)
    ensures t.Node? ==> r.Node? && r.val == t.val
    ensures Size(r) <= Size(t) + 1
  {
    match t
    case Nil => Node(Nil, x, Nil)
    case Node(l, v, rt) =>
      if x < v then Node(Insert(l, x), v, rt)
      else if x > v then Node(l, v, Insert(rt, x))
      else t
  }

  /** On a search tree, inserting a value already present gives back the
      same tree. */
  lemma {:induction false} InsertPresentUnchanged(t: Tree, x: int)
    requires Bst(t) && x in Keys(t)
    ensures Insert(t, x) == t
  {
    if x < t.val {
      assert x in Keys(t.left);
      InsertPresentUnchanged(t.left, x);
    } else if x > t.val {
      assert x in Keys(t.right);
      InsertPresentUnchanged(t.right, x);
    }
  }

  /** Inserting a value not yet present adds exactly one node holding it. */
  lemma {:induction false} InsertNewAddsOne(t: Tree, x: int)
    requires x !in Keys(t)
    ensures Values(Insert(t, x)) == Values(t) + multiset{x}
    ensures Size(Insert(t, x)) == Size(t) + 1
  {
    if t.Node? {
      if x < t.val {
        InsertNewAddsOne(t.left, x);
        GrownChild(t.left, t.val, t.right, Insert(t.left, x), x);
      } else {
        InsertNewAddsOne(t.right, x);
        GrownChild(t.right, t.val, t.left, Insert(t.right, x), x);
        assert Values(Node(t.left, t.val, Insert(t.right, x))) == Values(Node(Insert(t.right, x), t.val, t.left));
        assert Values(t) == Values(Node(t.right, t.val, t.left));
      }
    }
  }

  /** A child that gained one node holding `x`, under a node with value
      `v` and the other child `o`. */
  lemma GrownChild(c: Tree, v: int, o: Tree, c': Tree, x: int)
    requires Values(c') == Values(c) + multiset{x} && Size(c') == Size(c) + 1
    ensures Values(Node(c', v, o)) == Values(Node(c, v, o)) + multiset{x}
    ensures Size(Node(c', v, o)) == Size(Node(c, v, o)) + 1
  {
  }

  /** `delete`: remove the node holding `x`. A node with at most one child
      is replaced by that child; a node with two children takes the value
      of the leftmost node of its right subtree (its in-order successor),
      which is then deleted from the right subtree. An absent value leaves
      the tree as it was. */
  function Delete(t: Tree, x: int): (r: Tree)
    ensures Bst(t) ==> Bst(r) && Keys(r) == Keys(t) - {x}
    ensures x !in Keys(t) ==> r == t
    ensures Size(r) <= Size(t)
    decreases t
  {
    match t
    case Nil => Nil
    case Node(l, v, rt) =>
      if x < v then Node(Delete(l, x), v, rt)
      else if x > v then Node(l, v, Delete(rt, x))
      else if l.Nil? then rt
      else if rt.Nil? then l
      else
        var m := Leftmost(rt).val;
        DeleteSuccessorKeepsOrder(l, v, rt);
        Node(l, m, Delete(rt, m))
  }

  /** The successor step of `delete` keeps search order: the least key of
      the right subtree is above everything on the left and below everything
      that stays on the right. */
  lemma DeleteSuccessorKeepsOrder(l: Tree, v: int, rt: Tree)
    requires rt.Node?
    ensures Bst(Node(l, v, rt)) ==>
      var m := Leftmost(rt).val;
      && m in Keys(rt)
      && (forall a :: a in Keys(l) ==> a < m)
      && (forall b :: b in Keys(rt) - {m} ==> m < b)
  {
    SubtreeKeys(Leftmost(rt), rt);
  }

  /** Deleting a key held by a node with two children leaves that node in
      place holding the least key of its right subtree. */
  lemma SuccessorPromoted(l: Tree, v: int, rt: Tree)
    requires Bst(Node(l, v, rt)) && l.Node? && rt.Node?
    ensures var r := Delete(Node(l, v, rt), v);
      && r.Node? && r.left == l
      && r.val in Keys(rt) && (forall b :: b in Keys(rt) ==> r.val <= b)
      && Keys(r.right) == Keys(rt) - {r.val}
  {
    SubtreeKeys(Leftmost(rt), rt);
  }

  /** Deleting the values of `s` one after another. */
  function DeleteAll(t: Tree, s: seq<int>): (r: Tree)
    ensures Bst(t) ==> Bst(r) && Keys(r) == Keys(t) - set x | x in s
    decreases |s|
  {
    if |s| == 0 then t
    else
      assert (set x | x in s) == {s[0]} + set x | x in s[1..];
      DeleteAll(Delete(t, s[0]), s[1..])
  }

  /** A tree without keys is the empty tree. */
  lemma NoKeysIsNil(t: Tree)
    requires Keys(t) == {}
    ensures t.Nil?
  {
  }

  /** Deleting every key of a search tree leaves the empty tree. */
  lemma DeleteEveryKeyEmpties(t: Tree, s: seq<int>)
    requires Bst(t) && forall k :: k in Keys(t) ==> k in s
    ensures DeleteAll(t, s).Nil?
  {
    NoKeysIsNil(DeleteAll(t, s));
  }

  /** A search tree lists its keys in strictly increasing order. */
  lemma {:induction false} BstInOrderIncreasing(t: Tree)
    requires Bst(t)
    ensures StrictlyIncreasing(InOrder(t))
    ensures forall v :: v in InOrder(t) <==> v in Keys(t)
  {
    if t.Node? {
      BstInOrderIncreasing(t.left);
      BstInOrderIncreasing(t.right);
      var a, b := InOrder(t.left), InOrder(t.right);
      assert InOrder(t) == a + [t.val] + b;
      forall i, j | 0 <= i < j < |InOrder(t)| ensures InOrder(t)[i] < InOrder(t)[j] {
        var s := InOrder(t);
        if j < |a| {
          assert s[i] == a[i] && s[j] == a[j];
        } else if i > |a| {
          assert s[i] == b[i - |a| - 1] && s[j] == b[j - |a| - 1];
        } else if i == |a| {
          assert s[j] == b[j - |a| - 1] && s[j] in Keys(t.right);
        } else if j == |a| {
          assert s[i] == a[i] && s[i] in Keys(t.left);
        } else {
          assert s[i] == a[i] && s[i] in Keys(t.left);
          assert s[j] == b[j - |a| - 1] && s[j] in Keys(t.right);
        }
      }
    }
  }
}

=== FILE: selection_sort.dfy ===
/** `sorting.SelectionSort`: for each position in turn, swap in the least
    element of the unsorted rest. */
module SelectionSort {
  import opened Common

  /** The inner loop: the index of the first occurrence of the least
      element of `a[i..]` (the comparison is strict, so a later equal
      element does not replace it). */
  method MinIndex(a: seq<int>, i: int) returns (min: int)
    requires 0 <= i < |a|
    ensures i <= min < |a|
    ensures forall k :: i <= k < |a| ==> a[min] <= a[k]
    ensures forall k :: i <= k < min ==> a[min] < a[k]
  {
    min := i;
    var j := i + 1;
    while j < |a|
      invariant i <= min < j <= |a|
      invariant forall k :: i <= k < j ==> a[min] <= a[k]
      invariant forall k :: i <= k < min ==> a[min] < a[k]
    {
      if a[j] < a[min] {
        min := j;
      }
      j := j + 1;
    }
  }

  /** `selectionSort`: the array ends sorted, holding the same elements. */
  method Sort(arr: seq<int>) returns (r: seq<int>)
    ensures Sorted(r) && multiset(r) == multiset(arr)
    ensures |arr| < 2 ==> r == arr
  {
    r := arr;
    var i := 0;
    while i < |r| - 1
      invariant 0 <= i && (i <= |r| || |r| == 0)
      invariant |r| == |arr| && multiset(r) == multiset(arr)
      invariant |arr| < 2 ==> r == arr
      invariant forall x, y :: 0 <= x < y < |r| && x < i ==> r[x] <= r[y]
    {
      var min := MinIndex(r, i);
      SwapKeepsMultiset(r, min, i);
      r := r[min := r[i]][i := r[min]];
      i := i + 1;
    }
  }
}

=== FILE: shell_sort.dfy ===
/** `sorting.ShellSort`: gap-`h` insertion passes for the gaps
    `..., 40, 13, 4, 1` of the sequence `h' = 3h + 1`. */
module ShellSort {
  import opened Common
  import InsertionSort

  /** `h` belongs to the sequence `1, 4, 13, 40, ...` (`h' = 3h + 1`). */
  predicate IsGap(h: int)
    decreases if h < 0 then 0 else h
  {
    h == 1 || (h > 1 && h % 3 == 1 && IsGap(h / 3))
  }

  /** The first loop of `shellSort`: the first gap of the sequence above
      `n / 9`, so that the previous gap, if any, is at most `n / 9`. */
  method InitialGap(n: nat) returns (h: int)
    ensures IsGap(h) && n / 9 < h
    ensures h == 1 || (h - 1) / 3 <= n / 9
  {
    h := 1;
    while h <= n / 9
      invariant IsGap(h) && (h == 1 || (h - 1) / 3 <= n / 9)
      decreases n / 9 - h
    {
      assert (3 * h + 1) / 3 == h;
      h := 3 * h + 1;
    }
  }

  /** `shellSort`: one gap pass per gap, dividing the gap by 3 down to 1;
      the final pass at gap 1 is a full insertion sort, so the array ends
      sorted, holding the same elements. */
  method Sort(arr: seq<int>) returns (r: seq<int>)
    ensures Sorted(r) && multiset(r) == multiset(arr)
    ensures |arr| < 2 ==> r == arr
  {
    var h := InitialGap(|arr|);
    r := arr;
    while h > 0
      invariant |r| == |arr| && multiset(r) == multiset(arr)
      invariant h >= 0 && (h > 0 ==> IsGap(h))
      invariant h == 0 ==> InsertionSort.GapSorted(r, 1, |r|)
      decreases h
    {
      r := InsertionSort.GapInsertionPass(r, h);
      h := h / 3;
    }
    assert AdjacentSorted(r);
    AdjacentSortedIsSorted(r);
    if |arr| < 2 {
      SortedPermutationUnique(r, arr);
    }
  }
}

=== FILE: simply_linked_list.dfy ===
/** `linkedlist.simplylinked.SimplyLinkedList`: a singly linked list with a
    head node and a stored length.

    Each method takes the list and returns the list it leaves behind (with
    the removed node alongside where the method returns one). The loops
    that walk to a position become recursion along the chain. */
module SimplyLinkedList {
  import opened Common
  import opened LinkedNode

  datatype List = List(head: Node, length: int) {
    /** The stored length is the number of nodes reachable from `head`. */
    predicate Valid() {
      length == |Elems(head)|
    }
  }

  /** The constructor: no nodes, length 0. */
  function New(): (l: List)
    ensures l.Valid() && Elems(l.head) == []
  {
    List(Nil, 0)
  }

  // ------------------------------------------------------ chain surgery

  /** The chain with `d` spliced in before index `p`: walk `p - 1` nodes,
      then link the new node between that node and its successor. */
  function InsertAt(n: Node, d: int, p: int): (r: Node)
    requires 0 <= p <= |Elems(n)|
    ensures Elems(r) == Elems(n)[..p] + [d] + Elems(n)[p..]
    decreases p
  {
    if p == 0 then Cons(d, n)
    else Cons(n.data, InsertAt(n.next, d, p - 1))
  }

  /** A non-empty chain cut before its last node: the last node (which
      links to nothing) and the chain of the nodes before it. */
  function CutLast(n: Node): (r: (Node, Node))
    requires n.Cons?
    ensures r.0 == Cons(Elems(n)[|Elems(n)| - 1], Nil)
    ensures Elems(r.1) == Elems(n)[..|Elems(n)| - 1]
  {
    if n.next.Nil? then (n, Nil)
    else
      var (last, front) := CutLast(n.next);
      (last, Cons(n.data, front))
  }

  /** The chain with the node at index `p` unlinked: walk `p - 1` nodes and
      link that node to the successor of the next one. */
  function RemoveAt(n: Node, p: int): (r: Node)
    requires 0 <= p < |Elems(n)|
    ensures Elems(r) == Elems(n)[..p] + Elems(n)[p + 1..]
    decreases p
  {
    if p == 0 then n.next
    else Cons(n.data, RemoveAt(n.next, p - 1))
  }

  // --------------------------------------------------------- insertion

  /** `insertAtBeginning(data)`: one node in front of the old head. */
  function InsertAtBeginning(l: List, data: int): (r: List)
    requires l.Valid()
    ensures r.Valid() && Elems(r.head) == [data] + Elems(l.head)
  {
    List(Cons(data, l.head), l.length + 1)
  }

  /** `insertData(data, position)`: a position outside `[0, length]`
      throws; otherwise `data` ends at index `position` and the other
      values keep their order. */
  function InsertData(l: List, data: int, position: int): (r: Result<List>)
    requires l.Valid()
    ensures r.Err? <==> position < 0 || position > l.length
    ensures r.Err? ==> r.error == IndexOutOfBounds
    ensures r.Ok? ==> && r.value.Valid()
                      && Elems(r.value.head) == Elems(l.head)[..position] + [data] + Elems(l.head)[position..]
  {
    if position < 0 || position > l.length then Err(IndexOutOfBounds)
    else Ok(List(InsertAt(l.head, data, position), l.length + 1))
  }

  /** `insertAtEnd(data)`: one node after the old last node. */
  function InsertAtEnd(l: List, data: int): (r: List)
    requires l.Valid()
    ensures r.Valid() && Elems(r.head) == Elems(l.head) + [data]
  {
    List(AppendLast(l.head, data), l.length + 1)
  }

  // ----------------------------------------------------------- removal

  /** `removeFromBeginning()`: null on an empty list; otherwise the old
      head node is returned and the list becomes its tail. */
  function RemoveFromBeginning(l: List): (r: (Option<Node>, List))
    requires l.Valid()
    ensures r.1.Valid()
    ensures l.head.Nil? ==> r == (None, l)
    ensures l.head.Cons? ==> r.0 == Some(l.head) && Elems(r.1.head) == Elems(l.head)[1..]
  {
    if l.head.Nil? then (None, l)
    else (Some(l.head), List(l.head.next, l.length - 1))
  }

  /** `removeFromEnd()`: null on an empty list; otherwise the last node is
      returned and the nodes before it stay as they were. */
  function RemoveFromEnd(l: List): (r: (Option<Node>, List))
    requires l.Valid()
    ensures r.1.Valid()
    ensures l.head.Nil? ==> r == (None, l)
    ensures l.head.Cons? ==> && r.0 == Some(Cons(Elems(l.head)[l.length - 1], Nil))
                             && Elems(r.1.head) == Elems(l.head)[..l.length - 1]
  {
    if l.head.Nil? then (None, l)
    else
      var (last, front) := CutLast(l.head);
      (Some(last), List(front, l.length - 1))
  }

  /** `remove(position)`: a position outside `[0, length)` throws, on an
      empty list always; otherwise exactly the value at `position` goes. */
  function Remove(l: List, position: int): (r: Result<List>)
    requires l.Valid()
    ensures r.Err? <==> position < 0 || position >= l.length
    ensures r.Err? ==> r.error == IndexOutOfBounds
    ensures r.Ok? ==> && r.value.Valid()
                      && Elems(r.value.head) == Elems(l.head)[..position] + Elems(l.head)[position + 1..]
  {
    if position < 0 || position >= l.length then Err(IndexOutOfBounds)
    else if position == 0 then Ok(RemoveFromBeginning(l).1)
    else Ok(List(RemoveAt(l.head, position), l.length - 1))
  }

  // --------------------------------------------------------- round trips

  /** Removing at the position just inserted at gives back the list. */
  lemma InsertThenRemove(l: List, data: int, position: int)
    requires l.Valid() && 0 <= position <= l.length
    ensures InsertData(l, data, position).Ok?
    ensures Remove(InsertData(l, data, position).value, position) == Ok(l)
  {
    var e := Elems(l.head);
    var m := InsertData(l, data, position).value;
    var r := Remove(m, position).value;
    assert Elems(r.head) == e[..position] + e[position..];
    assert e[..position] + e[position..] == e;
    ElemsInjective(r.head, l.head);
  }

  /** Inserting at position 0 is `insertAtBeginning`, and at position
      `length` is `insertAtEnd`. */
  lemma InsertDataAtEnds(l: List, data: int)
    requires l.Valid()
    ensures InsertData(l, data, 0) == Ok(InsertAtBeginning(l, data))
    ensures InsertData(l, data, l.length) == Ok(InsertAtEnd(l, data))
  {
    var e := Elems(l.head);
    assert e[..0] == [] && e[0..] == e;
    assert e[..|e|] == e && e[|e|..] == [];
    ElemsInjective(InsertData(l, data, l.length).value.head, InsertAtEnd(l, data).head);
  }

  /** Removing from the end right after inserting at the end returns the
      new node and gives back the list. */
  lemma InsertAtEndThenRemoveFromEnd(l: List, data: int)
    requires l.Valid()
    ensures RemoveFromEnd(InsertAtEnd(l, data)) == (Some(Cons(data, Nil)), l)
  {
    var r := RemoveFromEnd(InsertAtEnd(l, data));
    assert (Elems(l.head) + [data])[..l.length] == Elems(l.head);
    ElemsInjective(r.1.head, l.head);
  }
}

=== FILE: tower_of_hanoi.dfy ===
/** `recursion.TowerOfHanoi`: the recursive solution of the puzzle. The
    printed lines "Move disk k from X to Y" become a returned sequence of
    moves; a small simulation of the three pegs states what makes a move
    legal. */
module TowerOfHanoi {
  import opened Common

  /** Moving the top disk `disk` from peg `from` to peg `to`. */
  datatype Move = Move(disk: int, from: char, to: char)

  /** `solveTowerOfHanoi(n, source, destination, auxiliary)`: the `n - 1`
      smaller disks go to the auxiliary peg, disk `n` to the destination,
      and the smaller disks on top of it. Only `n == 1` stops the
      recursion, so the method needs `n >= 1`. */
  function Solve(n: int, source: char, destination: char, auxiliary: char): (r: seq<Move>)
    requires n >= 1
    ensures |r| == Pow2(n) - 1
    ensures r[Pow2(n - 1) - 1] == Move(n, source, destination)
    ensures n == 1 ==> r == [Move(1, source, destination)]
    decreases n
  {
    if n == 1 then [Move(1, source, destination)]
    else
      Solve(n - 1, source, auxiliary, destination)
      + [Move(n, source, destination)]
      + Solve(n - 1, auxiliary, destination, source)
  }

  // ------------------------------------------------------------ the pegs

  /** Each peg's disks, bottom first; a disk is named by its size. */
  type Pegs = map<char, seq<int>>

  /** The tower of disks `n` down to 1, bottom first. */
  function Tower(n: nat): (t: seq<int>)
    ensures |t| == n
  {
    if n == 0 then [] else [n] + Tower(n - 1)
  }

  /** A disk smaller than `n + 1` may be put on this peg: it is empty or
      its top disk is larger than `n`. */
  predicate Above(p: seq<int>, n: int) {
    |p| == 0 || p[|p| - 1] > n
  }

  /** A move is legal when both pegs exist and differ, the disk moved is
      the top of its peg, and it lands on an empty peg or a larger disk. */
  predicate Legal(st: Pegs, m: Move) {
    && m.from in st && m.to in st && m.from != m.to
    && |st[m.from]| > 0 && st[m.from][|st[m.from]| - 1] == m.disk
    && Above(st[m.to], m.disk)
  }

  /** The pegs after a legal move. */
  function Step(st: Pegs, m: Move): Pegs
    requires Legal(st, m)
  {
    st[m.from := st[m.from][..|st[m.from]| - 1]][m.to := st[m.to] + [m.disk]]
  }

  /** The pegs after playing the moves in order, or `None` at the first
      illegal one. */
  function Play(st: Pegs, moves: seq<Move>): Option<Pegs>
    decreases |moves|
  {
    if |moves| == 0 then Some(st)
    else if !Legal(st, moves[0]) then None
    else Play(Step(st, moves[0]), moves[1..])
  }

  /** Playing two runs of moves is playing the first, then the second from
      where it left the pegs. */
  lemma {:induction false} PlayConcat(st: Pegs, a: seq<Move>, b: seq<Move>)
    ensures Play(st, a + b) == if Play(st, a).None? then None else Play(Play(st, a).value, b)
    decreases |a|
  {
    if |a| == 0 {
      assert a + b == b;
    } else {
      assert (a + b)[0] == a[0] && (a + b)[1..] == a[1..] + b;
      if Legal(st, a[0]) {
        PlayConcat(Step(st, a[0]), a[1..], b);
      }
    }
  }

  /** The solution is legal from any position where the `n` smallest
      disks sit on top of `source` and every other top is larger, and it
      carries exactly those disks, in order, onto `destination`. */
  lemma {:induction false} SolveMovesTower(n: int, s: char, d: char, a: char, st: Pegs, base: seq<int>)
    requires n >= 1 && s != d && d != a && s != a && s in st && d in st && a in st
    requires st[s] == base + Tower(n)
    requires Above(base, n) && Above(st[d], n) && Above(st[a], n)
    ensures Play(st, Solve(n, s, d, a)) == Some(st[s := base][d := st[d] + Tower(n)])
    decreases n
  {
    if n == 1 {
      OneDisk(st, s, d, base);
    } else {
      assert base + Tower(n) == (base + [n]) + Tower(n - 1);
      SolveMovesTower(n - 1, s, a, d, st, base + [n]);
      var st2 := st[s := base][a := st[a] + Tower(n - 1)][d := st[d] + [n]];
      SolveMovesTower(n - 1, a, d, s, st2, st[a]);
      AfterSecond(st, s, d, a, base, n);
      Compose(st, s, d, a, base, n);
    }
  }

  /** One disk: a single legal move. */
  lemma OneDisk(st: Pegs, s: char, d: char, base: seq<int>)
    requires s != d && s in st && d in st && st[s] == base + Tower(1) && Above(st[d], 1)
    ensures Play(st, [Move(1, s, d)]) == Some(st[s := base][d := st[d] + Tower(1)])
  {
    var m := Move(1, s, d);
    assert Tower(1) == [1];
    assert Legal(st, m);
    assert Step(st, m) == st[s := base][d := st[d] + [1]];
    assert Play(Step(st, m), []) == Some(Step(st, m));
  }

  /** The first half, disk `n`, and the second half together. */
  lemma Compose(st: Pegs, s: char, d: char, a: char, base: seq<int>, n: int)
    requires n >= 2 && s != d && d != a && s != a && s in st && d in st && a in st
    requires Above(st[d], n)
    requires Play(st, Solve(n - 1, s, a, d)) == Some(st[s := base + [n]][a := st[a] + Tower(n - 1)])
    requires Play(st[s := base][a := st[a] + Tower(n - 1)][d := st[d] + [n]], Solve(n - 1, a, d, s))
          == Some(st[s := base][d := st[d] + Tower(n)])
    ensures Play(st, Solve(n, s, d, a)) == Some(st[s := base][d := st[d] + Tower(n)])
  {
    var st1 := st[s := base + [n]][a := st[a] + Tower(n - 1)];
    MiddleMove(st, s, d, a, base, n);
    PlayThrough(st, Solve(n - 1, s, a, d), Move(n, s, d), Solve(n - 1, a, d, s), st1);
  }

  /** Playing a run, one legal move, and a second run in a row. */
  lemma PlayThrough(st: Pegs, first: seq<Move>, m: Move, second: seq<Move>, st1: Pegs)
    requires Play(st, first) == Some(st1) && Legal(st1, m)
    ensures Play(st, first + [m] + second) == Play(Step(st1, m), second)
  {
    PlayConcat(st, first, [m]);
    assert Play(st1, [m]) == Play(Step(st1, m), []);
    PlayConcat(st, first + [m], second);
  }

  /** After the smaller disks left `source`, disk `n` may move to
      `destination`. */
  lemma MiddleMove(st: Pegs, s: char, d: char, a: char, base: seq<int>, n: int)
    requires n >= 2 && s != d && d != a && s != a && s in st && d in st && a in st
    requires Above(st[d], n)
    ensures var st1 := st[s := base + [n]][a := st[a] + Tower(n - 1)];
      && Legal(st1, Move(n, s, d))
      && Step(st1, Move(n, s, d)) == st[s := base][a := st[a] + Tower(n - 1)][d := st[d] + [n]]
  {
    var st1 := st[s := base + [n]][a := st[a] + Tower(n - 1)];
    assert (base + [n])[..|base + [n]| - 1] == base;
  }

  /** Where the second half of the solution leaves the pegs. */
  lemma AfterSecond(st: Pegs, s: char, d: char, a: char, base: seq<int>, n: int)
    requires n >= 2 && s != d && d != a && s != a && s in st && d in st && a in st
    ensures var st2 := st[s := base][a := st[a] + Tower(n - 1)][d := st[d] + [n]];
      st2[a := st[a]][d := st2[d] + Tower(n - 1)] == st[s := base][d := st[d] + Tower(n)]
  {
    assert st[d] + [n] + Tower(n - 1) == st[d] + Tower(n);
  }

  /** The whole puzzle: from all `n` disks on `source`, every move of the
      solution is legal and it ends with all of them on `destination`, in
      order, and the other two pegs empty. */
  lemma SolveSolves(n: int, s: char, d: char, a: char)
    requires n >= 1 && s != d && d != a && s != a
    ensures Play(map[s := Tower(n), d := [], a := []], Solve(n, s, d, a))
         == Some(map[s := [], d := Tower(n), a := []])
  {
    var st := map[s := Tower(n), d := [], a := []];
    assert st[s] == [] + Tower(n);
    SolveMovesTower(n, s, d, a, st, []);
    assert [] + Tower(n) == Tower(n);
    assert st[s := []][d := [] + Tower(n)] == map[s := [], d := Tower(n), a := []];
  }
}

=== FILE: traversals.dfy ===
/** The four loop-driven traversals of `tree.BinaryTreeNode`, each proved
    to produce its recursive reference order from `BinaryTree`. This is the
    second of the class's two modules; the first is `BinaryTree`.

    Java's `Stack` is a sequence whose last element is the top; its
    `ArrayList` queue is a sequence whose first element is the front. */
module Traversals {
  import opened Common
  import opened BinaryTree

  // --------------------------------------------------------------- pre-order

  /** What a pre-order stack still has to emit: the pre-order of the top
      tree first, then the rest. */
  function StackPre(st: seq<Tree>): seq<int> {
    if |st| == 0 then [] else PreOrder(st[|st| - 1]) + StackPre(st[..|st| - 1])
  }

  function StackSize(st: seq<Tree>): nat {
    if |st| == 0 then 0 else Size(st[|st| - 1]) + StackSize(st[..|st| - 1])
  }

  /** Push `t` unless it is the null reference. */
  function PushIf(st: seq<Tree>, t: Tree): seq<Tree> {
    if t.Nil? then st else st + [t]
  }

  lemma StackPush(st: seq<Tree>, t: Tree)
    ensures StackPre(PushIf(st, t)) == PreOrder(t) + StackPre(st)
    ensures StackSize(PushIf(st, t)) == Size(t) + StackSize(st)
    ensures (forall i :: 0 <= i < |st| ==> st[i].Node?) ==>
      forall i :: 0 <= i < |PushIf(st, t)| ==> PushIf(st, t)[i].Node?
  {
    if t.Node? {
      assert (st + [t])[..|st|] == st;
    }
  }

  /** One round of the pre-order loop keeps what is emitted plus what the
      stack still owes equal to the whole pre-order. */
  lemma PreStep(root: Tree, result: seq<int>, stack: seq<Tree>)
    requires |stack| > 0 && forall i :: 0 <= i < |stack| ==> stack[i].Node?
    requires result + StackPre(stack) == PreOrder(root)
    ensures var cur, rest := stack[|stack| - 1], stack[..|stack| - 1];
      var stack' := PushIf(PushIf(rest, cur.right), cur.left);
      && (forall i :: 0 <= i < |stack'| ==> stack'[i].Node?)
      && (result + [cur.val]) + StackPre(stack') == PreOrder(root)
      && StackSize(stack') < StackSize(stack)
  {
    var cur, rest := stack[|stack| - 1], stack[..|stack| - 1];
    var pushed := PushIf(rest, cur.right);
    StackPush(rest, cur.right);
    StackPush(pushed, cur.left);
    var stack' := PushIf(pushed, cur.left);
    var a, b, c := PreOrder(cur.left), PreOrder(cur.right), StackPre(rest);
    assert StackPre(stack) == ([cur.val] + a + b) + c;
    assert StackPre(stack') == a + (b + c);
    ConcatShift(result, [cur.val], a, b, c);
  }

  /** `preOrderTraversal`: pop a node, emit it, push its right and then its
      left child. Empty for an empty tree; otherwise the pre-order. */
  method PreOrderTraversal(root: Tree) returns (result: seq<int>)
    ensures result == PreOrder(root)
  {
    result := [];
    if root.Nil? {
      return;
    }
    var stack := PushIf([], root);
    StackPush([], root);
    while |stack| > 0
      invariant forall i :: 0 <= i < |stack| ==> stack[i].Node?
      invariant result + StackPre(stack) == PreOrder(root)
      decreases StackSize(stack)
    {
      PreStep(root, result, stack);
      var cur := stack[|stack| - 1];
      stack := stack[..|stack| - 1];
      result := result + [cur.val];
      stack := PushIf(stack, cur.right);
      stack := PushIf(stack, cur.left);
    }
  }

  // ---------------------------------------------------------------- in-order

  /** What an in-order stack still has to emit: each stacked node, once its
      left subtree is done, emits itself and then its right subtree. */
  function StackIn(st: seq<Tree>): seq<int>
    requires forall i :: 0 <= i < |st| ==> st[i].Node?
  {
    if |st| == 0 then []
    else [st[|st| - 1].val] + InOrder(st[|st| - 1].right) + StackIn(st[..|st| - 1])
  }

  function StackInWeight(st: seq<Tree>): nat
    requires forall i :: 0 <= i < |st| ==> st[i].Node?
  {
    if |st| == 0 then 0 else 1 + Size(st[|st| - 1].right) + StackInWeight(st[..|st| - 1])
  }

  /** The inner loop of the in-order walk: pushing `current` and moving to
      its left child keeps the debt and the weight. */
  lemma InPush(root: Tree, result: seq<int>, current: Tree, stack: seq<Tree>)
    requires current.Node? && forall i :: 0 <= i < |stack| ==> stack[i].Node?
    requires result + InOrder(current) + StackIn(stack) == InOrder(root)
    ensures var st' := stack + [current];
      && (forall i :: 0 <= i < |st'| ==> st'[i].Node?)
      && result + InOrder(current.left) + StackIn(st') == InOrder(root)
      && Size(current.left) + StackInWeight(st') == Size(current) + StackInWeight(stack)
  {
    var st' := stack + [current];
    assert st'[..|st'| - 1] == stack;
    assert forall i :: 0 <= i < |st'| ==> st'[i].Node? by {
      forall i | 0 <= i < |st'| ensures st'[i].Node? {
        if i < |stack| {
          assert st'[i] == stack[i];
        }
      }
    }
    var a, b, c := InOrder(current.left), InOrder(current.right), StackIn(stack);
    assert InOrder(current) == a + [current.val] + b;
    assert StackIn(st') == [current.val] + b + c;
    assert StackInWeight(st') == 1 + Size(current.right) + StackInWeight(stack);
    ConcatRegroup(result, a, [current.val], b, c);
  }

  /** The pop of the in-order walk: emitting the top and moving to its
      right child keeps the debt and lowers the weight. */
  lemma InPop(root: Tree, result: seq<int>, stack: seq<Tree>)
    requires |stack| > 0 && forall i :: 0 <= i < |stack| ==> stack[i].Node?
    requires result + InOrder(Nil) + StackIn(stack) == InOrder(root)
    ensures var top, rest := stack[|stack| - 1], stack[..|stack| - 1];
      && (forall i :: 0 <= i < |rest| ==> rest[i].Node?)
      && (result + [top.val]) + InOrder(top.right) + StackIn(rest) == InOrder(root)
      && Size(top.right) + StackInWeight(rest) < StackInWeight(stack)
  {
    var top, rest := stack[|stack| - 1], stack[..|stack| - 1];
    var b, c := InOrder(top.right), StackIn(rest);
    assert StackIn(stack) == [top.val] + b + c;
    ConcatRegroup(result, [], [top.val], b, c);
    assert result + [] == result;
    assert result + ([] + [top.val] + b) + c == (result + [top.val]) + b + c;
  }

  /** `inOrderTraversal`: push the left spine, pop and emit a node, continue
      with its right child. Empty for an empty tree; otherwise the in-order. */
  method InOrderTraversal(root: Tree) returns (result: seq<int>)
    ensures result == InOrder(root)
  {
    result := [];
    if root.Nil? {
      return;
    }
    var stack: seq<Tree> := [];
    var current := root;
    while current.Node? || |stack| > 0
      invariant forall i :: 0 <= i < |stack| ==> stack[i].Node?
      invariant result + InOrder(current) + StackIn(stack) == InOrder(root)
      decreases Size(current) + StackInWeight(stack)
    {
      ghost var m0 := Size(current) + StackInWeight(stack);
      while current.Node?
        invariant forall i :: 0 <= i < |stack| ==> stack[i].Node?
        invariant result + InOrder(current) + StackIn(stack) == InOrder(root)
        invariant Size(current) + StackInWeight(stack) == m0
        invariant current.Node? || |stack| > 0
        decreases Size(current)
      {
        InPush(root, result, current, stack);
        stack := stack + [current];
        current := current.left;
      }
      InPop(root, result, stack);
      current := stack[|stack| - 1];
      stack := stack[..|stack| - 1];
      result := result + [current.val];
      current := current.right;
    }
  }

  // -------------------------------------------------------------- post-order

  /** Which child a step leads to. */
  datatype Dir = L | R

  /** A node named by the path from the root to it. The source's post-order
      loop compares node REFERENCES (`getRight() == lastVisited`); two
      distinct nodes may hold equal subtrees, so the model names nodes by
      position rather than by value. */
  type Path = seq<Dir>

  function Child(t: Tree, d: Dir): Tree {
    if t.Nil? then Nil else if d == L then t.left else t.right
  }

  /** The subtree at a path; `Nil` once the path leaves the tree. */
  function At(t: Tree, p: Path): Tree
    decreases |p|
  {
    if |p| == 0 then t else At(Child(t, p[0]), p[1..])
  }

  lemma {:induction false} AtChild(t: Tree, p: Path, d: Dir)
    ensures At(t, p + [d]) == Child(At(t, p), d)
    decreases |p|
  {
    if |p| > 0 {
      assert (p + [d])[1..] == p[1..] + [d];
      AtChild(Child(t, p[0]), p[1..], d);
    }
  }

  /** `q` names `p` or a node below it. */
  predicate Under(p: Path, q: Path) {
    |p| <= |q| && q[..|p|] == p
  }

  lemma UnderTrans(p: Path, q: Path, r: Path)
    requires Under(p, q) && Under(q, r)
    ensures Under(p, r)
  {
    assert r[..|p|] == r[..|q|][..|p|];
  }

  /** Each stacked node is a child of the one below it. */
  predicate Chain(st: seq<Path>) {
    forall i :: 0 < i < |st| ==> st[i] == st[i - 1] + [L] || st[i] == st[i - 1] + [R]
  }

  lemma {:induction false} ChainUnder(st: seq<Path>, i: int, j: int)
    requires Chain(st) && 0 <= i <= j < |st|
    ensures Under(st[i], st[j])
    decreases j - i
  {
    if i < j {
      ChainUnder(st, i + 1, j);
      UnderTrans(st[i], st[i + 1], st[j]);
    }
  }

  /** What a stacked node `p` still has to emit once the child `next` is
      finished: its right subtree (unless `next` is the right child) and
      then itself. */
  function EntryRem(root: Tree, p: Path, next: Path): seq<int> {
    var v := if At(root, p).Node? then At(root, p).val else 0;
    if next == p + [R] then [v] else PostOrder(At(root, p + [R])) + [v]
  }

  /** What the whole stack still has to emit, the top's finished child being
      `next`. */
  function ChainRem(root: Tree, st: seq<Path>, next: Path): seq<int> {
    if |st| == 0 then []
    else EntryRem(root, st[|st| - 1], next) + ChainRem(root, st[..|st| - 1], st[|st| - 1])
  }

  /** A termination weight: 1 for an entry whose right side is started,
      otherwise 2 plus three per node of its right subtree. */
  function ChainWeight(root: Tree, st: seq<Path>, next: Path): nat {
    if |st| == 0 then 0
    else
      var p := st[|st| - 1];
      (if next == p + [R] then 1 else 2 + 3 * Size(At(root, p + [R])))
      + ChainWeight(root, st[..|st| - 1], p)
  }

  /** `lastVisited` is not the node `p` and not below it. */
  predicate Outside(lv: Option<Path>, p: Path) {
    lv.None? || !Under(p, lv.value)
  }

  /** The facts that keep the `lastVisited` test honest: no node whose
      right subtree is still pending has been visited. `next` is the
      top's current child: `current` when there is one, otherwise the child
      just finished. */
  predicate WalkInv(root: Tree, st: seq<Path>, current: Option<Path>, next: Path, lv: Option<Path>) {
    && Chain(st)
    && (forall i :: 0 <= i < |st| ==> At(root, st[i]).Node?)
    && (|st| > 0 ==> next == st[|st| - 1] + [L] || next == st[|st| - 1] + [R])
    && (current.Some? ==> current.value == next && At(root, next).Node?)
    && (forall i :: 0 <= i < |st| - 1 && st[i + 1] == st[i] + [L] ==> Outside(lv, st[i] + [R]))
    && (|st| > 0 && next == st[|st| - 1] + [L] ==> Outside(lv, st[|st| - 1] + [R]))
    && (current.Some? ==> Outside(lv, current.value))
    && (current.None? && |st| > 0 && next == st[|st| - 1] + [R] ==> lv == Some(next))
  }

  function CurRem(root: Tree, current: Option<Path>): seq<int> {
    if current.None? then [] else PostOrder(At(root, current.value))
  }

  function Measure(root: Tree, st: seq<Path>, current: Option<Path>, next: Path): nat {
    (if current.None? then 0 else 3 * Size(At(root, current.value))) + ChainWeight(root, st, next)
  }

  /** A node below `p + [d]` is below `p`. */
  lemma UnderChild(p: Path, d: Dir, q: Path)
    requires Under(p + [d], q)
    ensures Under(p, q)
  {
    UnderTrans(p, p + [d], q);
  }

  /** A node below `p + [L]` is not below `p + [R]`. */
  lemma LeftNotUnderRight(p: Path, q: Path)
    requires Under(p + [L], q)
    ensures !Under(p + [R], q)
  {
    assert q[|p|] == (p + [L])[|p|];
  }

  /** Dropping the top of a chain keeps it a chain of tree nodes. */
  lemma ChainPrefix(root: Tree, st: seq<Path>)
    requires |st| > 0 && Chain(st) && forall i :: 0 <= i < |st| ==> At(root, st[i]).Node?
    ensures var st' := st[..|st| - 1];
      Chain(st') && forall i :: 0 <= i < |st'| ==> At(root, st'[i]).Node?
  {
  }

  /** The inner loop's step keeps the walk invariant: push `c` and move to
      its left child. */
  lemma PushKeepsInv(root: Tree, st: seq<Path>, c: Path, lv: Option<Path>)
    requires WalkInv(root, st, Some(c), c, lv)
    ensures var c' := c + [L];
      var cur' := if At(root, c').Node? then Some(c') else None;
      WalkInv(root, st + [c], cur', c', lv)
  {
    var c' := c + [L];
    var st' := st + [c];
    assert forall i :: 0 <= i < |st| ==> st'[i] == st[i];
    assert st'[|st|] == c;
    assert Chain(st');
    assert forall i :: 0 <= i < |st'| ==> At(root, st'[i]).Node?;
    forall i | 0 <= i < |st'| - 1 && st'[i + 1] == st'[i] + [L]
      ensures Outside(lv, st'[i] + [R])
    {
      if i < |st| - 1 {
        assert st'[i + 1] == st[i + 1];
      }
    }
    if lv.Some? && Under(c + [R], lv.value) {
      UnderChild(c, R, lv.value);
    }
    if lv.Some? && Under(c', lv.value) {
      UnderChild(c, L, lv.value);
    }
    assert c'[|c|] != (c + [R])[|c|];
  }

  /** The inner loop's step keeps what is emitted plus what is owed equal to
      the post-order, and lowers the weight. */
  lemma PushKeepsDebt(root: Tree, result: seq<int>, st: seq<Path>, c: Path)
    requires At(root, c).Node?
    requires result + CurRem(root, Some(c)) + ChainRem(root, st, c) == PostOrder(root)
    ensures var c' := c + [L];
      var cur' := if At(root, c').Node? then Some(c') else None;
      && result + CurRem(root, cur') + ChainRem(root, st + [c], c') == PostOrder(root)
      && Measure(root, st + [c], cur', c') < Measure(root, st, Some(c), c)
  {
    var c' := c + [L];
    var st' := st + [c];
    assert st'[..|st'| - 1] == st;
    AtChild(root, c, L);
    AtChild(root, c, R);
    var t := At(root, c);
    var a, b, rest := PostOrder(At(root, c')), PostOrder(At(root, c + [R])), ChainRem(root, st, c);
    assert PostOrder(t) == a + b + [t.val];
    assert c'[|c|] != (c + [R])[|c|];
    assert ChainRem(root, st', c') == (b + [t.val]) + rest;
    ConcatRegroup(result, a, b, [t.val], rest);
    assert Size(t) == Size(At(root, c')) + 1 + Size(At(root, c + [R]));
  }

  /** The peek step when the top's right subtree is absent or was the last
      node visited keeps the walk invariant: emit the top and pop it. */
  lemma PopKeepsInv(root: Tree, st: seq<Path>, next: Path, lv: Option<Path>)
    requires |st| > 0 && WalkInv(root, st, None, next, lv)
    ensures var t := st[|st| - 1];
      WalkInv(root, st[..|st| - 1], None, t, Some(t))
  {
    ChainPrefix(root, st);
    PoppedOutside(st);
    PoppedTopOutside(st);
  }

  /** Once the top is emitted, it lies outside the right subtree of every
      stacked node whose left child is stacked above it. */
  lemma PoppedOutside(st: seq<Path>)
    requires |st| > 0 && Chain(st)
    ensures var t, st' := st[|st| - 1], st[..|st| - 1];
      forall i :: 0 <= i < |st'| - 1 && st'[i + 1] == st'[i] + [L] ==> Outside(Some(t), st'[i] + [R])
  {
    var t, st' := st[|st| - 1], st[..|st| - 1];
    forall i | 0 <= i < |st'| - 1 && st'[i + 1] == st'[i] + [L]
      ensures Outside(Some(t), st'[i] + [R])
    {
      ChainUnder(st, i + 1, |st| - 1);
      assert st[i + 1] == st'[i] + [L];
      if Under(st'[i] + [R], t) {
        LeftNotUnderRight(st'[i], t);
      }
    }
  }

  /** The emitted top is the new top's child; if it is the left child, it
      lies outside the new top's right subtree. */
  lemma PoppedTopOutside(st: seq<Path>)
    requires |st| > 0 && Chain(st)
    ensures var t, st' := st[|st| - 1], st[..|st| - 1];
      |st'| > 0 ==> && (t == st'[|st'| - 1] + [L] || t == st'[|st'| - 1] + [R])
                    && (t == st'[|st'| - 1] + [L] ==> Outside(Some(t), st'[|st'| - 1] + [R]))
  {
    if |st| > 1 {
      var t, t' := st[|st| - 1], st[|st| - 2];
      assert st[..|st| - 1][|st| - 2] == t';
      if t == t' + [L] && Under(t' + [R], t) {
        assert Under(t' + [L], t);
        LeftNotUnderRight(t', t);
      }
    }
  }

  /** Emitting the top is what the stack owed first, when its right subtree
      is absent or was the last node visited. */
  lemma PopKeepsDebt(root: Tree, result: seq<int>, st: seq<Path>, next: Path, lv: Option<Path>)
    requires |st| > 0 && WalkInv(root, st, None, next, lv)
    requires result + ChainRem(root, st, next) == PostOrder(root)
    requires var t := st[|st| - 1]; At(root, t + [R]).Nil? || lv == Some(t + [R])
    ensures var t := st[|st| - 1];
      (result + [At(root, t).val]) + ChainRem(root, st[..|st| - 1], t) == PostOrder(root)
  {
    var t := st[|st| - 1];
    PopEntry(root, t, next, lv);
  }

  /** The entry of a top whose right subtree is absent or was the last
      node visited owes only the top itself, and weighs at least 1. */
  lemma PopEntry(root: Tree, t: Path, next: Path, lv: Option<Path>)
    requires next == t + [L] || next == t + [R]
    requires next == t + [L] ==> Outside(lv, t + [R])
    requires At(root, t + [R]).Nil? || lv == Some(t + [R])
    ensures EntryRem(root, t, next) == [if At(root, t).Node? then At(root, t).val else 0]
  {
    if next == t + [L] && At(root, t + [R]).Node? {
      assert Under(t + [R], t + [R]);
    }
  }

  /** Popping the top lowers the weight. */
  lemma PopLowersMeasure(root: Tree, st: seq<Path>, next: Path)
    requires |st| > 0
    ensures Measure(root, st[..|st| - 1], None, st[|st| - 1]) < Measure(root, st, None, next)
  {
  }

  /** The peek step when the top's right subtree is present and not yet
      visited: moving into it keeps the invariant and the debt and lowers
      the weight. */
  lemma RightStep(root: Tree, result: seq<int>, st: seq<Path>, next: Path, lv: Option<Path>)
    requires |st| > 0 && WalkInv(root, st, None, next, lv)
    requires result + ChainRem(root, st, next) == PostOrder(root)
    requires var t := st[|st| - 1]; At(root, t + [R]).Node? && lv != Some(t + [R])
    ensures var t := st[|st| - 1];
      && WalkInv(root, st, Some(t + [R]), t + [R], lv)
      && result + CurRem(root, Some(t + [R])) + ChainRem(root, st, t + [R]) == PostOrder(root)
      && Measure(root, st, Some(t + [R]), t + [R]) < Measure(root, st, None, next)
  {
    var t := st[|st| - 1];
    var st' := st[..|st| - 1];
    assert next == t + [L];
    var b, v, rest := PostOrder(At(root, t + [R])), At(root, t).val, ChainRem(root, st', t);
    assert ChainRem(root, st, next) == (b + [v]) + rest;
    assert ChainRem(root, st, t + [R]) == [v] + rest;
    assert (result + b) + ([v] + rest) == result + ((b + [v]) + rest);
  }

  /** The inner loop of `postOrderTraversal`: push `current` and walk down
      left links until they run out. The walk invariant and the debt are
      kept, the weight does not grow, and the stack ends non-empty. */
  method PushLeftSpine(root: Tree, result: seq<int>, stack: seq<Path>, current: Option<Path>,
                       next: Path, lastVisited: Option<Path>)
    returns (stack': seq<Path>, next': Path)
    requires WalkInv(root, stack, current, next, lastVisited)
    requires result + CurRem(root, current) + ChainRem(root, stack, next) == PostOrder(root)
    requires current.Some? || |stack| > 0
    ensures |stack'| > 0
    ensures WalkInv(root, stack', None, next', lastVisited)
    ensures result + ChainRem(root, stack', next') == PostOrder(root)
    ensures Measure(root, stack', None, next') <= Measure(root, stack, current, next)
  {
    stack', next' := stack, next;
    var cur := current;
    while cur.Some?
      invariant WalkInv(root, stack', cur, next', lastVisited)
      invariant result + CurRem(root, cur) + ChainRem(root, stack', next') == PostOrder(root)
      invariant Measure(root, stack', cur, next') <= Measure(root, stack, current, next)
      invariant cur.Some? || |stack'| > 0
      decreases Measure(root, stack', cur, next')
    {
      var c := cur.value;
      PushKeepsInv(root, stack', c, lastVisited);
      PushKeepsDebt(root, result, stack', c);
      stack' := stack' + [c];
      next' := c + [L];
      cur := if At(root, next').Node? then Some(next') else None;
    }
    assert result + CurRem(root, None) == result;
  }

  /** One round of the outer loop of `postOrderTraversal`: push the left
      spine; at the top of the stack, emit and pop the node when its right
      child is absent or is the node emitted last (`lastVisited`),
      otherwise descend into the right child. */
  method PostRound(root: Tree, result: seq<int>, stack: seq<Path>, current: Option<Path>,
                   next: Path, lastVisited: Option<Path>)
    returns (result': seq<int>, stack': seq<Path>, current': Option<Path>, next': Path, lastVisited': Option<Path>)
    requires WalkInv(root, stack, current, next, lastVisited)
    requires result + CurRem(root, current) + ChainRem(root, stack, next) == PostOrder(root)
    requires current.Some? || |stack| > 0
    ensures WalkInv(root, stack', current', next', lastVisited')
    ensures result' + CurRem(root, current') + ChainRem(root, stack', next') == PostOrder(root)
    ensures Measure(root, stack', current', next') < Measure(root, stack, current, next)
  {
    var st, nx := PushLeftSpine(root, result, stack, current, next, lastVisited);
    var top := st[|st| - 1];
    if At(root, top + [R]).Nil? || lastVisited == Some(top + [R]) {
      PopKeepsInv(root, st, nx, lastVisited);
      PopKeepsDebt(root, result, st, nx, lastVisited);
      PopLowersMeasure(root, st, nx);
      result' := result + [At(root, top).val];
      assert result' + CurRem(root, None) == result';
      lastVisited' := Some(top);
      stack' := st[..|st| - 1];
      next' := top;
      current' := None;
    } else {
      RightStep(root, result, st, nx, lastVisited);
      result', stack', lastVisited' := result, st, lastVisited;
      next' := top + [R];
      current' := Some(next');
    }
  }

  /** `postOrderTraversal`: rounds of `PostRound` until no current node
      and an empty stack remain. Empty for an empty tree; otherwise the
      post-order. */
  method PostOrderTraversal(root: Tree) returns (result: seq<int>)
    ensures result == PostOrder(root)
  {
    result := [];
    if root.Nil? {
      return;
    }
    var stack: seq<Path> := [];
    var current: Option<Path> := Some([]);
    var lastVisited: Option<Path> := None;
    var next: Path := [];
    while current.Some? || |stack| > 0
      invariant WalkInv(root, stack, current, next, lastVisited)
      invariant result + CurRem(root, current) + ChainRem(root, stack, next) == PostOrder(root)
      decreases Measure(root, stack, current, next)
    {
      result, stack, current, next, lastVisited := PostRound(root, result, stack, current, next, lastVisited);
    }
  }

  // ------------------------------------------------------------- level order

  /** What a queue still has to emit: run the loop on it. */
  function Bfs(q: seq<Tree>): seq<int>
    decreases ForestSize(q), |q|
  {
    if |q| == 0 then []
    else
      var rest := q[1..] + Kids(q[0]);
      ForestSizeAppend(q[1..], Kids(q[0]));
      if q[0].Nil? then
        assert Kids(q[0]) == [] && rest == q[1..];
        Bfs(q[1..])
      else
        KidsShrink(q[0]);
        [q[0].val] + Bfs(rest)
  }

  /** One round of the queue: a null front is dropped, a node front is
      emitted and its children go to the back. */
  lemma BfsUnfold(q: seq<Tree>)
    requires |q| > 0
    ensures q[0].Nil? ==> Bfs(q) == Bfs(q[1..])
    ensures q[0].Node? ==> Bfs(q) == [q[0].val] + Bfs(q[1..] + Kids(q[0]))
  {
  }

  /** Running the queue over `a + b` emits `a`'s roots and then whatever
      `b` followed by `a`'s children emits. */
  lemma {:induction false} BfsSplit(a: seq<Tree>, b: seq<Tree>)
    ensures Bfs(a + b) == Roots(a) + Bfs(b + Children(a))
    decreases |a|
  {
    if |a| == 0 {
      assert a + b == b && b + Children(a) == b;
    } else {
      var x, a' := a[0], a[1..];
      HeadTailConcat(a, b);
      BfsUnfold(a + b);
      assert Children(a) == Kids(x) + Children(a');
      if x.Nil? {
        BfsSplit(a', b);
        assert Kids(x) == [] && Children(a) == Children(a');
        assert Roots(a) == Roots(a');
      } else {
        BfsSplit(a', b + Kids(x));
        ConcatAssoc(a', b, Kids(x));
        ConcatAssoc(b, Kids(x), Children(a'));
        assert Roots(a) == [x.val] + Roots(a');
        ConcatAssoc([x.val], Roots(a'), Bfs(b + Children(a)));
      }
    }
  }

  /** The queue-driven order is the row-by-row order. */
  lemma {:induction false} BfsIsLevelOrder(f: seq<Tree>)
    ensures Bfs(f) == LevelOrderRows(f)
    decreases ForestSize(f)
  {
    BfsSplit(f, []);
    assert f + [] == f && [] + Children(f) == Children(f);
    ChildrenShrink(f);
    if |Roots(f)| == 0 {
      NoRootsEmptyForest(f);
    } else {
      BfsIsLevelOrder(Children(f));
    }
  }

  /** One round of the level-order loop: the front node is emitted and its
      present children join the back of the queue. */
  lemma LevelStep(queue: seq<Tree>)
    requires |queue| > 0 && forall i :: 0 <= i < |queue| ==> queue[i].Node?
    ensures var cur := queue[0];
      var q' := PushIf(PushIf(queue[1..], cur.left), cur.right);
      && (forall i :: 0 <= i < |q'| ==> q'[i].Node?)
      && Bfs(queue) == [cur.val] + Bfs(q')
      && ForestSize(q') < ForestSize(queue)
  {
    var cur := queue[0];
    var q' := PushIf(PushIf(queue[1..], cur.left), cur.right);
    assert q' == queue[1..] + Kids(cur);
    ForestSizeAppend(queue[1..], Kids(cur));
    KidsShrink(cur);
  }

  /** `levelOrderTraversal`: take the front of the queue, emit it, append
      its left and then its right child. Empty for an empty tree; otherwise
      the tree's rows from the root down, each left to right. */
  method LevelOrderTraversal(root: Tree) returns (result: seq<int>)
    ensures result == LevelOrder(root)
  {
    result := [];
    if root.Nil? {
      assert LevelOrder(root) == [];
      return;
    }
    var queue := [root];
    while |queue| > 0
      invariant forall i :: 0 <= i < |queue| ==> queue[i].Node?
      invariant result + Bfs(queue) == Bfs([root])
      decreases ForestSize(queue)
    {
      LevelStep(queue);
      var cur := queue[0];
      queue := queue[1..];
      result := result + [cur.val];
      queue := PushIf(queue, cur.left);
      queue := PushIf(queue, cur.right);
    }
    BfsIsLevelOrder([root]);
  }
}

=== FILE: tree_sort.dfy ===
/** `sorting.TreeSort`: sorting by building a search tree and reading it
    back in order.

    The `int[]` version keeps duplicates by giving each node a count; the
    generic version (taken at `Integer`) uses a plain search tree and drops
    an element equal to one already inserted. A null array or list is
    `None`; the sort works on a copy of the contents and returns the
    contents the array or list holds afterwards. */
module TreeSort {
  import opened Common
  import BinaryTree
  import SearchTree

  // ------------------------------------------------ the tree with counts

  /** `BSTWithDuplicates`: a node holds a value and how often it was
      inserted. */
  datatype CountTree = Empty | Counted(left: CountTree, data: int, count: nat, right: CountTree)

  function Keys(t: CountTree): set<int> {
    match t
    case Empty => {}
    case Counted(l, d, _, r) => Keys(l) + {d} + Keys(r)
  }

  /** The inserted values with multiplicity: each node stands for `count`
      copies of its value. */
  function Bag(t: CountTree): multiset<int> {
    match t
    case Empty => multiset{}
    case Counted(l, d, c, r) => Bag(l) + multiset{}[d := c] + Bag(r)
  }

  /** Search order on distinct values, and every node inserted at least
      once. */
  predicate Ordered(t: CountTree) {
    match t
    case Empty => true
    case Counted(l, d, c, r) =>
      && Ordered(l) && Ordered(r) && c >= 1
      && (forall a :: a in Keys(l) ==> a < d)
      && (forall b :: b in Keys(r) ==> d < b)
  }

  /** `insertWithDuplicates`: descend by comparison; an equal value bumps
      the node's count, a missing position gets a new node with count 1.
      The bag gains exactly `x` and the order is kept. */
  function InsertWithDuplicates(t: CountTree, x: int): (r: CountTree)
    ensures Bag(r) == Bag(t) + multiset{x}
    ensures Keys(r) == Keys(t) + {x}
    ensures Ordered(t) ==> Ordered(r)
  {
    match t
    case Empty => Counted(Empty, x, 1, Empty)
    case Counted(l, d, c, rt) =>
      if x < d then
        var l' := InsertWithDuplicates(l, x);
        NewLeft(l, d, c, rt, l', x);
        Counted(l', d, c, rt)
      else if x > d then
        var r' := InsertWithDuplicates(rt, x);
        NewRight(l, d, c, rt, r', x);
        Counted(l, d, c, r')
      else
        BumpBag(d, c);
        Counted(l, d, c + 1, rt)
  }

  /** A left subtree that gained `x`, below the node's value. */
  lemma NewLeft(l: CountTree, d: int, c: nat, rt: CountTree, l': CountTree, x: int)
    requires x < d && Bag(l') == Bag(l) + multiset{x} && Keys(l') == Keys(l) + {x}
    requires Ordered(l) ==> Ordered(l')
    ensures Bag(Counted(l', d, c, rt)) == Bag(Counted(l, d, c, rt)) + multiset{x}
    ensures Keys(Counted(l', d, c, rt)) == Keys(Counted(l, d, c, rt)) + {x}
    ensures Ordered(Counted(l, d, c, rt)) ==> Ordered(Counted(l', d, c, rt))
  {
  }

  /** A right subtree that gained `x`, above the node's value. */
  lemma NewRight(l: CountTree, d: int, c: nat, rt: CountTree, r': CountTree, x: int)
    requires x > d && Bag(r') == Bag(rt) + multiset{x} && Keys(r') == Keys(rt) + {x}
    requires Ordered(rt) ==> Ordered(r')
    ensures Bag(Counted(l, d, c, r')) == Bag(Counted(l, d, c, rt)) + multiset{x}
    ensures Keys(Counted(l, d, c, r')) == Keys(Counted(l, d, c, rt)) + {x}
    ensures Ordered(Counted(l, d, c, rt)) ==> Ordered(Counted(l, d, c, r'))
  {
  }

  lemma BumpBag(d: int, c: nat)
    ensures multiset{}[d := c + 1] == multiset{}[d := c] + multiset{d}
  {
  }

  /** `inOrderTraversalWithDuplicates`: left subtree, then the node's value
      `count` times, then the right subtree. */
  function InOrderWithDuplicates(t: CountTree): seq<int> {
    match t
    case Empty => []
    case Counted(l, d, c, r) => InOrderWithDuplicates(l) + Repeat(d, c) + InOrderWithDuplicates(r)
  }

  /** Reading an ordered tree emits its bag in nondecreasing order. */
  lemma {:induction false} InOrderWithDuplicatesSorted(t: CountTree)
    requires Ordered(t)
    ensures Sorted(InOrderWithDuplicates(t))
    ensures multiset(InOrderWithDuplicates(t)) == Bag(t)
    ensures forall v :: v in InOrderWithDuplicates(t) ==> v in Keys(t)
  {
    match t
    case Empty =>
    case Counted(l, d, c, r) =>
      InOrderWithDuplicatesSorted(l);
      InOrderWithDuplicatesSorted(r);
      RepeatBag(d, c);
      var a, m, b := InOrderWithDuplicates(l), Repeat(d, c), InOrderWithDuplicates(r);
      var s := InOrderWithDuplicates(t);
      assert s == a + m + b;
      forall i, j | 0 <= i < j < |s| ensures s[i] <= s[j] {
        if j < |a| {
          assert s[i] == a[i] && s[j] == a[j];
        } else if i >= |a| + |m| {
          assert s[i] == b[i - |a| - |m|] && s[j] == b[j - |a| - |m|];
        } else if i >= |a| {
          assert s[i] == d;
          if j >= |a| + |m| {
            assert s[j] == b[j - |a| - |m|] && s[j] in Keys(r);
          } else {
            assert s[j] == d;
          }
        } else {
          assert s[i] == a[i] && s[i] in Keys(l);
          if j >= |a| + |m| {
            assert s[j] == b[j - |a| - |m|] && s[j] in Keys(r);
          } else {
            assert s[j] == d;
          }
        }
      }
      forall v | v in s ensures v in Keys(t) {
        if v in m {
          assert v == d;
        }
      }
  }

  /** The insertion loop of `treeSort(int[])`: every element inserted with
      its count, into an ordered tree whose bag is the array's. */
  method BuildCountTree(a: seq<int>) returns (root: CountTree)
    ensures Ordered(root) && Bag(root) == multiset(a)
  {
    root := Empty;
    var i := 0;
    while i < |a|
      invariant 0 <= i <= |a|
      invariant Ordered(root) && Bag(root) == multiset(a[..i])
    {
      PrefixBag(a, i);
      root := InsertWithDuplicates(root, a[i]);
      i := i + 1;
    }
    assert a[..i] == a;
  }

  /** `treeSort(int[])`: a null array, or one with at most one element, is
      left alone. Otherwise every element is inserted with its count and the
      in-order reading is copied back: the array ends sorted, holding the
      same elements with the same multiplicities. */
  method TreeSortInts(arr: Option<seq<int>>) returns (r: Option<seq<int>>)
    ensures r.None? <==> arr.None?
    ensures arr.Some? ==> Sorted(r.value) && multiset(r.value) == multiset(arr.value)
    ensures arr.Some? && |arr.value| <= 1 ==> r == arr
  {
    if arr.None? || |arr.value| <= 1 {
      return arr;
    }
    var a := arr.value;
    var root := BuildCountTree(a);
    var sortedList := InOrderWithDuplicates(root);
    InOrderWithDuplicatesSorted(root);
    assert |sortedList| == |multiset(a)| == |a|;
    return Some(sortedList);
  }

  // -------------------------------------------- the generic, distinct version

  /** `insertGeneric` at `Integer` is the search-tree insert: an equal
      element is not inserted again. */
  function InsertGeneric(t: BinaryTree.Tree, x: int): BinaryTree.Tree {
    SearchTree.Insert(t, x)
  }

  /** Inserting the elements of `s` in order. */
  function InsertEach(t: BinaryTree.Tree, s: seq<int>): (r: BinaryTree.Tree)
    ensures SearchTree.Bst(t) ==> SearchTree.Bst(r)
    ensures BinaryTree.Keys(r) == BinaryTree.Keys(t) + set x | x in s
    decreases |s|
  {
    if |s| == 0 then t
    else
      assert (set x | x in s) == {s[0]} + set x | x in s[1..];
      InsertEach(InsertGeneric(t, s[0]), s[1..])
  }

  /** The generic `treeSort`: a null list, or one with at most one element,
      is left alone. Otherwise the list is replaced by the in-order reading
      of the search tree, which holds each distinct element once, in
      strictly increasing order. */
  method TreeSortGeneric(list: Option<seq<int>>) returns (r: Option<seq<int>>)
    ensures r.None? <==> list.None?
    ensures list.Some? && |list.value| <= 1 ==> r == list
    ensures list.Some? ==> StrictlyIncreasing(r.value)
    ensures list.Some? ==> forall v :: v in r.value <==> v in list.value
  {
    if list.None? || |list.value| <= 1 {
      return list;
    }
    var root := InsertEach(BinaryTree.Nil, list.value);
    var sortedList := BinaryTree.InOrder(root);
    SearchTree.BstInOrderIncreasing(root);
    return Some(sortedList);
  }
}

=== FILE: unordered_linear_search.dfy ===
/** `searching.UnorderedLinearSearch`, and the reference "first index"
    the linear searches are measured against. */
module UnorderedLinearSearch {

  /** The least index holding `x`, or -1 when `x` does not occur. */
  function FirstIndex(s: seq<int>, x: int): (r: int)
    ensures -1 <= r < |s|
    ensures r >= 0 ==> s[r] == x && forall k :: 0 <= k < r ==> s[k] != x
    ensures r == -1 <==> x !in s
  {
    if |s| == 0 then -1
    else if s[0] == x then 0
    else
      var r := FirstIndex(s[1..], x);
      assert x in s[1..] ==> x in s;
      if r == -1 then -1 else r + 1
  }

  /** `search`: scan from the front and return the first index holding the
      target; -1 when it does not occur, in particular on an empty array. */
  method Search(input: seq<int>, target: int) returns (r: int)
    ensures r == FirstIndex(input, target)
    ensures -1 <= r < |input|
    ensures r == -1 <==> target !in input
  {
    var i := 0;
    while i < |input|
      invariant 0 <= i <= |input|
      invariant target !in input[..i]
    {
      if input[i] == target {
        assert target !in input[..i];
        FirstIndexIsFirstHit(input, target, i);
        return i;
      }
      assert input[..i + 1] == input[..i] + [input[i]];
      i := i + 1;
    }
    assert input[..i] == input;
    return -1;
  }

  /** An index holding `x` with no earlier one is the first index. */
  lemma FirstIndexIsFirstHit(s: seq<int>, x: int, i: int)
    requires 0 <= i < |s| && s[i] == x && x !in s[..i]
    ensures FirstIndex(s, x) == i
  {
    assert x in s;
  }
}
